=== FILE: README.md ===
# vulkrap, modelled in Dafny

vulkrap is a small Vulkan game engine written in Rust. This project models its host-side logic and
proves properties of it. It does not model the driver calls.

- **User interface.** The glyph-atlas text and quad emitter, the text renderer, and the HUD with its
  console, render-statistics and top-bar widgets.
- **Console and log.** The in-game console's line editor, history browsing, scrolling and command
  parsing; the log with its scroll window; the table of console variables.
- **Renderer bookkeeping.**
  - The raw arrays and push-constant buffers that the HUD fills every frame.
  - The memory manager's buffer-to-memory records, buffer objects and their manager, uniforms and
    textures.
  - The frame-in-flight counter, render statistics, pipeline configurations, render targets and the
    render-pass handler.
- **Vulkan selection rules.** These are stated as first-match functions over the driver's answers,
  which are given as inputs:
  - memory-type and depth-format choice;
  - queue families and the physical device;
  - swapchain format, present mode, extent, image count and sharing;
  - image views and framebuffers.
- **Data layout.** The `repr(C)` offsets and sizes of the GPU structures, the vertex input
  descriptions that must agree with them, and the 68-byte model push constant.
- **Meshes and gameplay.**
  - The OBJ loader's line scan and vertex de-duplication.
  - The terrain chunk's triangle strips with primitive restart.
  - The frame timer's ring of samples.
  - The scene's render job.
  - The dungeon example's wall bookkeeping and its grid movement.

Code that mutates state is modelled with Dafny classes. Each such class has a `Valid()` invariant.
Its methods are proved against specification functions, and lemmas state the properties of those
functions. Pure code is modelled with datatypes and functions.

Three swapchain constructors pick the surface format, present mode, extent, image count and sharing
in the same way:

- `src/renderer/swapchain.rs`
- `src/renderer/swap_chain.rs`
- `src/vulkan/swap_chain.rs`

Each rule is modelled once, in `Swapchains`, and cited from `src/renderer/swapchain.rs`. The older
`src/vulkan/swap_chain.rs` differs only in its fixed sharing, which `FixedSharingValidForOneFamily`
covers.

## Model

| member | source | states |
|---|---|---|
| UiDraw.AtlasCell | src/engine/ui/draw.rs:110-113 | a character's atlas cell has a column below 16, and row·16 + column equals its code minus 32 |
| UiDraw.AtlasCellCharacterised | src/engine/ui/draw.rs:111-113 | the cell is the only (row, column) pair with column < 16 that indexes code − 32, so the division and remainder are exact |
| UiDraw.AtlasCellInsideTexture | src/engine/ui/draw.rs:106-117 | for the ASCII characters 32..127 the whole 1/16 × 1/6 glyph cell lies inside the unit texture square |
| UiDraw.GlyphVertices | src/engine/ui/draw.rs:119-162 | a glyph is six vertices, two triangles, all in the requested colour |
| UiDraw.GlyphGeometry | src/engine/ui/draw.rs:114-162 | each glyph vertex lies in the square of side char_size at its position, and its texture coordinate maps that square onto the character's cell, flipped vertically |
| UiDraw.GlyphSharedDiagonal | src/engine/ui/draw.rs:119-162 | the two triangles share their diagonal: vertex 3 repeats vertex 2 and vertex 4 repeats vertex 1, while the opposite corners 0 and 5 differ |
| UiDraw.QuadVertices | src/engine/ui/draw.rs:7-62 | a quad is six vertices |
| UiDraw.QuadCorners | src/engine/ui/draw.rs:7-62 | every quad vertex has the quad's colour and a zero texture coordinate, and sits at a corner of the rectangle position..position + extent |
| UiDraw.TextVerticesLength | src/engine/ui/draw.rs:64-76 | drawing a text appends exactly six vertices per character |
| UiDraw.TextVerticesAt | src/engine/ui/draw.rs:72-75 | character i occupies vertices 6i..6i+6, as the glyph drawn at x + i·char_size |
| UiDraw.DrawContext.constructor | src/renderer/buffer.rs:11-20 | the dynamic buffers start empty |
| UiDraw.DrawContext.PushToDynamicBuf | src/renderer/buffer.rs:40-43 | the vertices are appended to the named buffer and no other buffer changes |
| UiDraw.DrawQuad | src/engine/ui/draw.rs:7-62 | appends the quad's six vertices to the named buffer, nothing else |
| UiDraw.DrawCharacter | src/engine/ui/draw.rs:98-163 | appends the glyph's six vertices to the named buffer, nothing else |
| UiDraw.DrawText | src/engine/ui/draw.rs:64-76 | the loop appends the glyphs of every character, in text order, to the named buffer |
| UiDraw.DrawTextShadowed | src/engine/ui/draw.rs:78-96 | the shadow copy, 2 px right and 2 px lower, is appended first, then the text in its own colour |
| UiText.DrawCharacter | src/engine/ui/text.rs:25-46 | one push constant is appended and the returned draw command points at that new last push constant with the mesh's buffers and index count |
| UiText.DrawText | src/engine/ui/text.rs:7-23 | one push constant and one draw command per character are appended in order, earlier entries untouched, and command i's push constant carries character i at x + i·size |
| Logger.Last | src/log/logger.rs:36-40 | the tail taken has min(n, length) messages |
| Logger.HistoryWindow | src/log/logger.rs:30-41 | the slice bounds get_history computes satisfy start ≤ end ≤ history length, so the slice never panics |
| Logger.GetHistoryScrolled | src/log/logger.rs:30-41 | while the scroll stays within the history, the window is the newest line_count messages left after dropping the newest scroll messages, never more than line_count |
| Logger.GetHistoryNewest | src/log/logger.rs:30-41 | with no scroll the window is the newest line_count messages |
| Logger.GetHistoryOverscrolled | src/log/logger.rs:30-41 | a scroll past the oldest message yields the whole history |
| Logger.SplitLines | src/log/logger.rs:70-75 | splitting on '\n' yields at least one piece and no piece contains '\n' |
| Logger.SplitJoinRoundTrip | src/log/logger.rs:70-75 | joining the pieces with '\n' gives back the original line, so splitting loses nothing |
| Logger.SplitLinesCount | src/log/logger.rs:70-75 | there is one more piece than the line has '\n' characters |
| Logger.FmtLine | src/log/logger.rs:70-75 | one message per piece, in order, every one at the given level |
| Logger.AddOnceIdempotent | src/log/logger.rs:21-28 | add_once leaves the history ending in the message's text, appends at most that one message, and adding it again changes nothing |
| Logger.AddAllOnceNoRepeats | src/log/logger.rs:21-28 | adding lines through add_once never puts two messages with the same text next to each other |
| Logger.Logger.constructor | src/log/logger.rs:15-19 | a new logger has an empty history |
| Logger.Logger.Len | src/log/logger.rs:127-129 | the length is the number of stored messages |
| Logger.Logger.AddOnce | src/log/logger.rs:21-28 | the history becomes the add_once specification applied to the old history |
| Logger.Logger.AddLine | src/log/logger.rs:77-80 | every piece of the line is appended in order at the level |
| Logger.Logger.AddLineOnce | src/log/logger.rs:82-85 | every piece goes through add_once in order |
| Cvars.NewConfigVariable | src/engine/cvars.rs:54-61 | a new cvar's value and default both equal the given default, with the given name and description |
| Cvars.SaturatingU32 | src/engine/cvars.rs:76-78 | the f32 to u32 cast truncates toward zero within range and saturates at 0 below and u32::MAX above |
| Cvars.GetInt | src/engine/cvars.rs:76-92 | an integer cvar reads back its value; a float cvar reads back its saturating truncation |
| Cvars.SetValue | src/engine/cvars.rs:80-96 | a slot keeps its type and takes the new value converted to that type |
| Cvars.SetValueReadsBack | src/engine/cvars.rs:80-96 | a value of the slot's own type stored into the slot reads back unchanged |
| Cvars.IntegerThroughFloatSlot | src/engine/cvars.rs:72-82 | a u32 up to 2^24, which `as f32` represents exactly, stored in a float slot reads back unchanged through get_int |
| Cvars.NameToId | src/engine/cvars.rs:24-27 | the name map sends every registered cvar's name to its id and every mapped name back to a cvar with that name |
| Cvars.InitialNamesDistinct | src/engine/cvars.rs:14-33 | the three built-in cvars have distinct names |
| Cvars.InitialNameToId | src/engine/cvars.rs:4-33 | the built-in name map sends m_sensitivity, m_yaw and m_pitch to 1000, 1001 and 1002 |
| Cvars.ConfigVariables.constructor | src/engine/cvars.rs:14-33 | the id map holds the three built-ins and the name map is exactly its inverse |
| Cvars.ConfigVariables.Get | src/engine/cvars.rs:35-38 | a value is returned exactly for registered ids, and it is that cvar's current value |
| Cvars.StoreValueChangesOnlyOne | src/engine/cvars.rs:40-43 | storing changes only the value of cvar id, to the new value converted to its type; names, defaults, descriptions and every other cvar stay the same |
| Cvars.ConfigVariables.Set | src/engine/cvars.rs:40-43 | the registry becomes StoreValue of the old one and the name map stays the same; an unknown id, where the engine panics on `unwrap`, is reported and changes nothing |
| Console.HistoryUp | src/engine/console.rs:211-227 | stepping up stashes the draft when browsing starts and keeps the history browsable |
| Console.HistoryDown | src/engine/console.rs:229-243 | stepping down keeps the history browsable |
| Console.SubmitLine | src/engine/console.rs:194-200 | submitting keeps the history browsable |
| Console.HistoryUpKeepsEntries | src/engine/console.rs:211-227 | Up never alters the submitted entries or the draft; it shows the index-th newest entry, or the draft once it wraps around |
| Console.HistoryDownKeepsEntries | src/engine/console.rs:229-243 | Down never alters the submitted entries or the draft |
| Console.UpThenDownRestores | src/engine/console.rs:211-243 | from the draft, Up then Down gives back the same buffer and history |
| Console.UpOnEmptyHistory | src/engine/console.rs:211-227 | with nothing submitted, Up changes nothing |
| Console.UpTimesShowsEntry | src/engine/console.rs:211-227 | pressing Up k times from the draft, for 1 ≤ k ≤ the number of entries, shows the k-th newest entry with the draft stashed after the entries |
| Console.UpCycles | src/engine/console.rs:211-227 | pressing Up once more than there are entries cycles back to the draft, history untouched |
| Console.SubmitAppends | src/engine/console.rs:194-200 | submitting appends exactly the line to the entries, drops the stash and starts an empty draft |
| Console.ScrollUpTo | src/engine/console.rs:245-252 | page up moves up 15 lines but never past the log length |
| Console.ScrollDownFrom | src/engine/console.rs:254-260 | page down moves down 15 lines, saturating at 0 |
| Console.ScrollUpDownRoundTrip | src/engine/console.rs:245-260 | a page up that was not clamped is undone by a page down |
| Console.Lowercase | src/engine/console.rs:299 | ASCII lowercasing: the length is kept and each of A-Z becomes its lower-case letter |
| Console.InputCommand | src/engine/console.rs:298-308 | `_handle_input_command`: the command is Quit exactly for a four-letter word that spells "exit" or "quit" in any letter case, and Unknown otherwise |
| Console.InputCommandIgnoresCase | src/engine/console.rs:298-308 | words that differ only in letter case give the same command |
| Console.QuitSpellings | src/engine/console.rs:301-305 | "quit", "EXIT" and "QuIt" quit; "exits" and "" are unknown |
| Console.FirstWord | src/engine/console.rs:176-177 | the first word is a space-free prefix of the line, followed by a space when shorter than the line |
| Console.SecondWord | src/engine/console.rs:176-180 | the second piece of `split(' ')` exists exactly when the line has a space |
| Console.FirstWordOf | src/engine/console.rs:176-177 | a space-free word followed by a space or by nothing is the line's first word |
| Console.SecondWordOf | src/engine/console.rs:176-180 | in "name arg" with a space-free name, the first word is the name and the second is the first word of arg |
| Console.CvarAssignment | src/engine/console.rs:262-296 | "name arg" for a registered cvar never quits; an argument that parses as the cvar's type is read back from the cvar, every other cvar is unchanged, and only the line and the description are logged; an argument that does not parse changes nothing and logs the parse error between them |
| Console.CvarQuery | src/engine/console.rs:262-296 | a registered cvar name alone changes nothing and logs the line and the cvar's description |
| Console.TypedThenErased | src/engine/console.rs:59-70 | typing a character and pressing Back gives back the editor state |
| Console.Console.constructor | src/engine/console.rs:33-49 | a new console is inactive, off screen, with an empty line and history and no scroll |
| Console.Console.IsVisible | src/engine/console.rs:152-154 | the console is visible exactly while its draw offset is below 1 |
| Console.Console.ResetCaret | src/engine/console.rs:160-163 | the caret becomes visible with its blink timer at 0, nothing else changes |
| Console.Console.Toggle | src/engine/console.rs:143-146 | activity flips and the scroll resets, the line and history unchanged |
| Console.Console.HandleUp | src/engine/console.rs:211-227 | the editor state becomes HistoryUp of the old one |
| Console.Console.HandleDown | src/engine/console.rs:229-243 | the editor state becomes HistoryDown of the old one |
| Console.Console.ScrollUp | src/engine/console.rs:245-252 | the scroll becomes ScrollUpTo of the old scroll and the log length |
| Console.Console.ScrollDown | src/engine/console.rs:254-260 | the scroll becomes ScrollDownFrom of the old scroll |
| Console.Console.HandleInput | src/engine/console.rs:165-204 | the scroll always resets; an empty line changes nothing else; a non-empty line grows the log by SubmitLog, stores a parsed cvar argument, signals quit exactly for a non-cvar exit or quit word, and moves into the history |
| Console.Console.RunLine | src/engine/console.rs:173-192 | the log grows by the line, then the cvar's report (parse error, description) or the unknown-command error; the cvars change as CvarsAfterSubmit says; quit is signalled exactly for a non-cvar exit or quit word |
| Console.Console.HandleInputCvar | src/engine/console.rs:262-296 | a given argument that parses is stored into the cvar and one that does not is logged as an error; the cvar's description is logged last |
| Console.Console.CommitLine | src/engine/console.rs:194-201 | the editor state becomes SubmitLine of the old one and the caret resets |
| Console.Console.HandleKeyboardEvent | src/engine/console.rs:51-105 | the typed character is appended first; then Return and NumpadEnter submit as HandleInput does, Back erases, Up and Down give HistoryUp and HistoryDown, PageUp and PageDown give ScrollUpTo and ScrollDownFrom, F1 toggles, the shift keys set the shift flag; only Return and NumpadEnter touch the log and the cvars or signal quit |
| Widgets.InstancesAppend | src/engine/ui/widgets.rs:63-103 | the text and quad instance counts of two call lists add up over their concatenation, as the widgets' running `+=` totals do |
| Widgets.InstancesCountQuads | src/engine/ui/widgets.rs:63-103 | an instance is one six-vertex quad: the text and quad buffers receive six vertices per counted instance |
| Widgets.Shadowed | src/engine/ui/draw.rs:78-96 | a shadowed text is two calls drawing 2·length text instances and no quads |
| Widgets.PairInstances | src/engine/ui/widgets.rs:63-103 | two calls count the characters of their texts and one per quad |
| Widgets.PrefixTable | src/engine/ui/widgets.rs:131-138 | Output, Warning and Khronos messages, and only they, share the "---" prefix in the plain text colour; every other level has a prefix of its own; every prefix is drawable |
| Widgets.ConsoleHeight | src/engine/ui/widgets.rs:20-60 | the console is never taller than the window |
| Widgets.HistoryRequestsAt | src/engine/ui/widgets.rs:130-170 | history line i is drawn by calls 2i and 2i+1, its prefix then its message |
| Widgets.HistoryInstances | src/engine/ui/widgets.rs:130-171 | the history draws one text instance per prefix and message character and no quads |
| Widgets.Reverse | src/engine/ui/widgets.rs:130 | the lines are drawn back to front: element k is element length−1−k of the input |
| Widgets.HistoryFits | src/engine/ui/widgets.rs:114-150 | while the scroll stays within the log, no more lines are drawn than height/18 − 1 and every line starts at least 12 px below the console's upper edge |
| Widgets.NewestLineLowest | src/engine/ui/widgets.rs:124-130 | with no scroll the lowest history line is the newest log message |
| Widgets.CaretFollowsInput | src/engine/ui/widgets.rs:77-98 | with the caret at the end of the input, the caret sits exactly where the next prompt glyph would go and is one text line high |
| Widgets.ConsoleInstances | src/engine/ui/widgets.rs:53-104 | the console returns one quad for the background plus one for a shown caret, and a text instance per prompt, prefix and message character |
| Widgets.TextRenderer.constructor | src/engine/ui/widgets.rs:30-34 | the renderer stores its text |
| Widgets.TextRenderer.Draw | src/engine/ui/widgets.rs:35-37 | one text call at the origin, 128 px high, in the cvar colour, counting one instance per character |
| Widgets.ConsoleRenderer.constructor | src/engine/ui/widgets.rs:45-47 | the renderer stores the window extent |
| Widgets.ConsoleRenderer.HandleWindowResize | src/engine/ui/widgets.rs:49-51 | the extent becomes the new window size |
| Widgets.ConsoleRenderer.Draw | src/engine/ui/widgets.rs:53-104 | the calls are the background, the prompt, the caret exactly when it is visible and the console active, then the shown history; the returned counts are those calls' text and quad instances |
| Widgets.ConsoleRenderer.DrawConsoleHistory | src/engine/ui/widgets.rs:106-172 | the loop draws the shown history newest first, and returns its glyph count |
| Widgets.HistoryStep | src/engine/ui/widgets.rs:130-170 | drawing line i extends the calls and the glyph count of the lines before it |
| Widgets.StatsRowsApart | src/engine/ui/widgets.rs:204-255 | statistics rows never overlap: each is at least one 18 px line below the one before |
| Widgets.RenderStatsRenderer.constructor | src/engine/ui/widgets.rs:181-185 | anchored 8 px from the left and 24 px below the top, active |
| Widgets.RenderStatsRenderer.HandleWindowResize | src/engine/ui/widgets.rs:187-189 | the anchor follows the new window height |
| Widgets.RenderStatsRenderer.Draw | src/engine/ui/widgets.rs:195-262 | six shadowed lines, one per statistic with its label, each at its row offset below the anchor; the count is their text instances |
| Widgets.RenderStatsRenderer.AppendStatsLine | src/engine/ui/widgets.rs:200-259 | one shadowed statistics line extends the calls and count of the lines above it |
| Widgets.StatsRequestsAt | src/engine/ui/widgets.rs:200-259 | statistics line row is drawn by calls 2·row and 2·row+1, shadow first |
| Widgets.StatsInstances | src/engine/ui/widgets.rs:195-262 | the statistics block draws every character of every line twice |
| Widgets.EngineVersionText | src/lib.rs:64 | the top bar reads "VULKRAP 0.0.1", 13 characters, so 26 instances with the shadow |
| Widgets.TopBar.constructor | src/engine/ui/widgets.rs:271-276 | the bar stores the extent and is active |
| Widgets.TopBar.HandleWindowResize | src/engine/ui/widgets.rs:278-280 | the extent becomes the new window size |
| Widgets.TopBar.Draw | src/engine/ui/widgets.rs:286-299 | the version string, shadowed, 218 px from the right edge and 24 px below the top, counting two instances per character |
| Hud.ConsoleOverlay | src/engine/ui/hud.rs:179-219 | the console adds calls exactly when it is visible |
| Hud.HudNg.constructor | src/engine/ui/hud.rs:53-84 | the HUD keeps the uniform, pipeline and buffer handles it was given, and its projection matches the window |
| Hud.HudNg.HandleWindowResize | src/engine/ui/hud.rs:111-116 | the new size is stored and the orthographic projection rebuilt for it |
| Hud.HudNg.Draw | src/engine/ui/hud.rs:86-109 | the buffer gains, in order, the banner, the shadowed version bar, the six statistics lines and the console overlay, and exactly one draw command of the text pipeline over the text buffer is recorded; a window big enough for the bar and statistics also fits the console |
| Hud.HudNg.DrawRenderStats | src/engine/ui/hud.rs:118-177 | six shadowed statistics lines anchored 8 px from the left and 24 px below the top are appended |
| Hud.HudNg.DrawConsole | src/engine/ui/hud.rs:179-219 | nothing is appended while the console is hidden; otherwise the prompt and the history, without background or caret |
| Hud.HudNg.DrawConsoleHistory | src/engine/ui/hud.rs:221-273 | the loop appends each shown line, newest first, prefix then message |
| Hud.LegacyHud.constructor | src/engine/ui/hud.rs:288-325 | the HUD keeps its handles and its projection matches the window |
| Hud.LegacyHud.Draw | src/engine/ui/hud.rs:327-341 | the emptied draw records no command |
| Hud.LegacyHud.HandleWindowResize | src/engine/ui/hud.rs:343-348 | the new size is stored and the projection rebuilt for it |
| RawArrays.Slots | src/renderer/rawarray.rs:42-54 | the first count slots of data_size bytes each, in order |
| RawArrays.SlotWithin | src/renderer/rawarray.rs:47 | slot k of count ends within the first count slots |
| RawArrays.SlotsUnchanged | src/renderer/rawarray.rs:47-48 | writing past the first count slots leaves those slots as they were |
| RawArrays.RawArray.constructor | src/renderer/rawarray.rs:16-40 | capacity and data size as given, nothing written yet, and a buffer exists exactly when the capacity is positive |
| RawArrays.RawArray.Push | src/renderer/rawarray.rs:42-54 | the data lands in the next slot at offset write_index·data_size, every other byte unchanged, so the stored values are the old ones followed by the new one |
| RawArrays.RawArray.Start | src/renderer/rawarray.rs:56-59 | the start is the allocation itself, capacity·data_size bytes, which exists only for a positive capacity |
| RawArrays.RawArray.Len | src/renderer/rawarray.rs:65-67 | the length is the number of values pushed since the last reset, at most the capacity |
| RawArrays.RawArray.Reset | src/renderer/rawarray.rs:69-71 | after a reset nothing counts as written |
| RawArrays.RawArray.DropLayout | src/renderer/rawarray.rs:74-85 | the layout freed is the allocation's: its whole byte size, aligned to 1 |
| RawArrays.MulMonotone | src/renderer/rawarray.rs:47 | offsets grow with the slot index |
| PushConstants.AllocationLayout | src/renderer/pushconstants.rs:19-24 | the allocation layout has a valid (power-of-two) alignment |
| PushConstants.DropLayout | src/renderer/pushconstants.rs:64-75 | the corrected drop layout is the allocation layout, and valid |
| PushConstants.DropLayoutMismatch | src/renderer/pushconstants.rs:21-70 | for 5000 slots of 68 bytes the written drop layout differs from the allocation layout and has an alignment that is not a power of two |
| PushConstants.DropLayoutAsWrittenAgrees | src/renderer/pushconstants.rs:21-70 | the written drop layout matches the allocation exactly when the constants are one byte long |
| PushConstants.PushConstantBuffer.constructor | src/renderer/pushconstants.rs:16-40 | len is the capacity in slots, nothing written, and a buffer exists exactly when the capacity is positive |
| PushConstants.PushConstantBuffer.Push | src/renderer/pushconstants.rs:42-53 | the data lands in the next slot at offset write_index·data_size, every other byte unchanged |
| PushConstants.PushConstantBuffer.DataSize | src/renderer/pushconstants.rs:55-57 | the slot size given at construction |
| PushConstants.PushConstantBuffer.Reset | src/renderer/pushconstants.rs:59-61 | the next push writes the first slot again |
| Memory.FirstSuitableFromIsFirst | src/renderer/memory.rs:249-261 | the search from index `from` returns the first index at or after it whose filter bit is set and whose flags include the required ones, and None only when none qualifies |
| Memory.FirstMemoryTypeIsFirst | src/renderer/memory.rs:249-261 | a memory type is chosen exactly when some type qualifies, and it is the smallest qualifying index |
| Memory.FindMemoryType | src/renderer/memory.rs:249-261 | the search loop returns the first suitable type, as the specification function does |
| Memory.MemoryManager.constructor | src/renderer/memory.rs:19-24 | the manager keeps the device's memory types and records no buffers |
| Memory.MemoryManager.GetDeviceMemory | src/renderer/memory.rs:144-146 | memory is returned exactly for recorded buffers, and it is the recorded memory; None is the unknown-buffer panic |
| Memory.MemoryManager.CreateBuffer | src/renderer/memory.rs:196-247 | a fresh buffer is bound to a fresh allocation from the first suitable memory type, distinct from every recorded allocation, and nothing is recorded yet |
| Memory.MemoryManager.CreateStagingBuffer | src/renderer/memory.rs:91-103 | one fresh buffer is added and recorded, backed by host-visible, host-coherent memory; earlier records unchanged |
| Memory.MemoryManager.CreateDeviceBuffer | src/renderer/memory.rs:105-117 | one fresh buffer is added and recorded, backed by device-local memory; earlier records unchanged |
| Memory.MemoryManager.CreateUniformBuffers | src/renderer/memory.rs:68-89 | one distinct fresh host-visible buffer per swapchain image, all recorded; earlier records unchanged |
| Memory.MemoryManager.CreateDeviceLocalBufferSync | src/renderer/memory.rs:149-194 | only the device-local buffer is added and recorded; the staging buffer is gone by the time it returns |
| Memory.MemoryManager.CreateStaticVertexBufferSync | src/renderer/memory.rs:26-45 | a fresh device-local vertex buffer is added and recorded |
| Memory.MemoryManager.CreateIndexBuffer | src/renderer/memory.rs:47-66 | a fresh device-local index buffer is added and recorded |
| Memory.MemoryManager.DestroyBuffer | src/renderer/memory.rs:124-131 | a recorded buffer is destroyed and its record removed; an unknown buffer is left alone, so a second destroy changes nothing |
| Memory.MemoryManager.Destroy | src/renderer/memory.rs:133-138 | every recorded buffer is destroyed; the record map itself is kept |
| RenderStatistics.TotalTrianglesAppend | src/renderer/stats.rs:14-17 | recording one more draw adds exactly its triangles to the total |
| RenderStatistics.TotalTrianglesConcat | src/renderer/stats.rs:14-17 | totals add up over concatenation, so the count does not depend on how draws are batched |
| RenderStatistics.RenderStats.constructor | src/renderer/stats.rs:7-12 | both counters start at 0 |
| RenderStatistics.RenderStats.AddDrawCommand | src/renderer/stats.rs:14-17 | one more draw command, and its triangles added to the total |
| Textures.TextureManager.constructor | src/renderer/texture.rs:20-25 | no textures and no samplers |
| Textures.TextureManager.AddTexture | src/renderer/texture.rs:43-54 | the handle is the number of textures before and indexes the new texture; samplers untouched |
| Textures.TextureManager.AddSampler | src/renderer/texture.rs:56-63 | the handle is the number of samplers before and indexes the new sampler; textures untouched |
| Synchronization.NextFrame | src/renderer/synchronization.rs:13-88 | the next frame slot is below MAX_FRAMES_IN_FLIGHT |
| Synchronization.NextFrameTwice | src/renderer/synchronization.rs:13-88 | with two frames in flight, stepping twice returns to the same slot and stepping once always changes it |
| Synchronization.SynchronizationHandler.constructor | src/renderer/synchronization.rs:16-59 | every semaphore and fence created is distinct, and the counter starts at frame 0 |
| Synchronization.SynchronizationHandler.ImageAvailableSemaphore | src/renderer/synchronization.rs:70-72 | the semaphore is one of the image-available semaphores |
| Synchronization.SynchronizationHandler.TransferFinishedSemaphore | src/renderer/synchronization.rs:74-76 | the semaphore is one of the transfer-finished semaphores |
| Synchronization.SynchronizationHandler.RenderFinishedSemaphore | src/renderer/synchronization.rs:78-80 | the semaphore is one of the render-finished semaphores |
| Synchronization.SynchronizationHandler.InflightFence | src/renderer/synchronization.rs:82-84 | the fence is one of the in-flight fences |
| Synchronization.SynchronizationHandler.Step | src/renderer/synchronization.rs:86-88 | the counter moves to the next frame slot and the objects stay |
| RenderTypes.NewPipelineHandle | src/renderer/types.rs:21-31 | a handle gives back the render pass and pipeline index it was made from |
| RenderTypes.PipelineConfigurationBuilder.constructor | src/renderer/types.rs:67-79 | a fresh builder has nothing set, no textures and no alpha blending |
| RenderTypes.PipelineConfigurationBuilder.WithFragmentShader | src/renderer/types.rs:95-99 | only the fragment shader is set |
| RenderTypes.PipelineConfigurationBuilder.WithVertexShader | src/renderer/types.rs:101-105 | only the vertex shader is set |
| RenderTypes.PipelineConfigurationBuilder.WithPushConstant | src/renderer/types.rs:107-111 | only the push-constant size is set |
| RenderTypes.PipelineConfigurationBuilder.WithVertexTopology | src/renderer/types.rs:113-117 | only the topology is set |
| RenderTypes.PipelineConfigurationBuilder.WithVertexUniform | src/renderer/types.rs:119-123 | only the vertex uniform binding is set |
| RenderTypes.PipelineConfigurationBuilder.WithFragmentUniform | src/renderer/types.rs:125-129 | only the fragment uniform binding is set |
| RenderTypes.PipelineConfigurationBuilder.WithStorageBufferObject | src/renderer/types.rs:131-135 | only the storage buffer binding is set |
| RenderTypes.PipelineConfigurationBuilder.WithAlphaBlending | src/renderer/types.rs:137-141 | only alpha blending is switched on |
| RenderTypes.PipelineConfigurationBuilder.AddTexture | src/renderer/types.rs:143-148 | the texture binding is appended after the earlier ones, nothing else changes |
| RenderTypes.PipelineConfigurationBuilder.Build | src/renderer/types.rs:150-168 | the configuration carries both shaders, the topology or Triangle by default, and every setting; the push-constant size is taken out of the builder, which otherwise keeps its state |
| RenderTypes.ListTrianglesCount | src/renderer/types.rs:263-265 | a triangle list of n indices assembles n/3 triangles, each from indices below n |
| RenderTypes.StripTrianglesCount | src/renderer/types.rs:266-268 | a triangle strip of n ≥ 2 indices assembles n − 2 triangles, each from indices below n |
| RenderTypes.TriangleCount | src/renderer/types.rs:261-271 | a count exists exactly for a triangle list, or a triangle strip of at least two indices; None stands for the `unreachable!` panic and the strip's u32 underflow |
| RenderTypes.TriangleCountAssembled | src/renderer/types.rs:261-271 | triangle_count is the number of triangles the list or strip topology assembles from the indices, times the instance count |
| Uniforms.Resize | src/renderer/uniform.rs:93 | Vec::resize keeps the first n flags and pads with the value |
| Uniforms.Uniform.constructor | src/renderer/uniform.rs:27-37 | a new uniform has the given size and stage, no pipelines, buffers, memory or dirty flags, and is not built |
| Uniforms.Uniform.AssignPipeline | src/renderer/uniform.rs:39-41 | the pipeline is appended to the assigned list, nothing else changes |
| Uniforms.Uniform.SetData | src/renderer/uniform.rs:47-56 | the value overwrites the front of the data, and every image is marked dirty |
| Uniforms.Uniform.UpdateDeviceMemory | src/renderer/uniform.rs:58-74 | a dirty image receives the current data and is marked clean; a clean one is left alone; every clean image holds the current data afterwards if it did before |
| Uniforms.Uniform.Build | src/renderer/uniform.rs:76-97 | one recorded host-visible buffer and its memory per image; the dirty flags are resized to the image count with new ones set |
| Uniforms.Uniform.Destroy | src/renderer/uniform.rs:107-118 | the buffers are destroyed in the memory manager and the per-image lists emptied |
| Buffers.BufferObject.constructor | src/renderer/buffer.rs:106-126 | an empty raw array of capacity slots, capacity·size bytes, and no staging or device buffers yet |
| Buffers.BufferObject.Build | src/renderer/buffer.rs:128-140 | one new recorded staging buffer and one new recorded device buffer per image are appended, in order, after the existing ones; every earlier record is kept |
| Buffers.BufferObject.Destroy | src/renderer/buffer.rs:142-152 | every staging and device buffer is removed from the memory manager's records and both lists are emptied |
| Buffers.BufferObject.Staging | src/renderer/buffer.rs:154-158 | the buffer returned is one of the staging buffers |
| Buffers.BufferObject.Device | src/renderer/buffer.rs:160-164 | the buffer returned is one of the device buffers |
| Buffers.BufferObject.HandleBufferOverflow | src/renderer/buffer.rs:170-188 | the byte capacity doubles; of the buffers handed out before, exactly the object's old buffers lose their records and every other record is kept; one fresh staging and one fresh device buffer per image replace them |
| Buffers.BufferObjectManager.constructor | src/renderer/buffer.rs:15-20 | no buffer objects, and the image count as given |
| Buffers.BufferObjectManager.CreateBuffer | src/renderer/buffer.rs:22-38 | the handle is the number of buffer objects before; a fresh, empty, built object of capacity·size bytes is appended and the others are untouched |
| Buffers.BufferObjectManager.PushToBuf | src/renderer/buffer.rs:40-43 | the value lands in the next slot of buffer handle's raw array, or, exactly when that array is full, nothing changes and the error comes back; no other buffer changes |
| Buffers.BufferObjectManager.BorrowBuffer | src/renderer/buffer.rs:45-48 | the object returned is one of the managed buffer objects |
| Buffers.BufferObjectManager.Rebuild | src/renderer/buffer.rs:50-59 | the image count is stored; of the buffers handed out before, exactly the objects' old buffers lose their records and every other record keeps its value; when those old buffers were all handed out by this memory manager, every object's new buffers are fresh (at or above the old handle counter) and recorded with the right memory type; every object ends with exactly one staging and one device buffer per image, at its old capacity, with its pipelines and raw array unchanged |
| Buffers.BufferObject.DestroyAndBuild | src/renderer/buffer.rs:55-56 | one step of `rebuild`: of the buffers handed out before, exactly the object's old buffers lose their records, every other record keeps its value, and one fresh recorded staging and device buffer per image replace them |
| Buffers.BufferObjectManager.ResetBuffers | src/renderer/buffer.rs:61-65 | every raw array is emptied |
| Buffers.BufferObjectManager.HandleBufferOverflow | src/renderer/buffer.rs:67-77 | buffer handle's capacity doubles, its old buffers lose their records, and it gets one staging and one device buffer per image |
| Buffers.BufferObjectManager.Destroy | src/renderer/buffer.rs:79-85 | the memory manager's records become the old records minus every staging and device buffer of every object, with the handle counter unchanged; every object ends with no buffers, and keeps its capacity, pipelines and raw array |
| Buffers.HandedOutMembers | src/renderer/buffer.rs:79-85 | the buffers `destroy` forgets are exactly those some buffer object names as a staging or device buffer |
| Images.FindSupportedFormatIsFirst | src/renderer/image.rs:147-164 | the chosen format is the first candidate that supports the features under the tiling, and there is one exactly when some candidate does; None is the panic |
| Images.FindDepthFormat | src/renderer/image.rs:133-145 | the depth format is a candidate usable as an optimally tiled depth-stencil attachment, None exactly when no candidate is, and D32_SFLOAT whenever it qualifies |
| Images.DepthResources | src/renderer/image.rs:72-95 | a depth image exists exactly when a depth format does: single-sample, one mip level, the swapchain's size, in device-local memory, viewed through its depth aspect |
| Targets.SwapchainTarget.ImageCount | src/renderer/target.rs:118-121 | with one image view per framebuffer, the image count is the number of framebuffers |
| Targets.RenderTarget.SwapchainTargetOf | src/renderer/target.rs:17-22 | present exactly for a swapchain target, and then that target |
| Targets.RenderTarget.ImageCount | src/renderer/target.rs:24-29 | 1 for an offscreen image, the swapchain's image count otherwise |
| Targets.RenderTarget.Framebuffer | src/renderer/target.rs:31-36 | an offscreen image has its one framebuffer whatever the index; a swapchain target gives the framebuffer at the index |
| Targets.FramebufferForEveryImage | src/renderer/target.rs:24-36 | every index below the image count selects one of the target's framebuffers, and every framebuffer is selected by some such index |
| Queues.FirstSetFromIsFirst | src/renderer/queue.rs:40-52 | the search from a position returns the first set flag at or after it, or none when no later flag is set |
| Queues.FirstSet | src/renderer/queue.rs:40-52 | a position is returned exactly when some flag is set, and it is the least set position |
| Queues.GraphicsFlags | src/renderer/queue.rs:40-52 | one flag per family, set exactly when the family's queue flags contain GRAPHICS |
| Queues.PresentFlags | src/renderer/queue.rs:54-78 | one flag per family, set exactly when the surface-support query answered true; a failed query counts as unsupported |
| Queues.PickQueueFamilies | src/renderer/queue.rs:40-52 | the loop returns the index of the first family that supports graphics, or None when no family does |
| Queues.PickPresentQueueFamily | src/renderer/queue.rs:54-78 | the loop returns the index of the first family that can present to the surface, or None |
| Queues.AsI32 | src/renderer/queue.rs:30-37 | `g as i32` gives a value in the i32 range that is congruent to the u32 index modulo 2^32 |
| Queues.Decimal | src/renderer/queue.rs:30-37 | a printed number is a non-empty string of decimal digits |
| Queues.DecimalRoundTrip | src/renderer/queue.rs:30-37 | reading the printed digits back gives the number |
| Queues.ShowIntRoundTrip | src/renderer/queue.rs:30-37 | reading a printed signed number back gives the number |
| Queues.ShowIndexReadsBack | src/renderer/queue.rs:30-37 | the printed form of the indices shows -1 exactly for a missing family and the index itself for any index below 2^31; the index 2^32-1 prints like a missing family |
| Queues.NewIsComplete | src/renderer/queue.rs:13-26 | the indices are complete exactly when some family supports graphics and some family can present |
| Queues.IsPhysicalDeviceSuitable | src/vulkan/context.rs:198-206 | `_is_physical_device_suitable`: every device is accepted |
| Queues.SuitableFlags | src/vulkan/context.rs:179-206 | one flag per device, set exactly when the suitability test accepts it |
| Queues.PickPhysicalDeviceBy | src/vulkan/context.rs:179-196 | the loop returns the first device the suitability test accepts; none (a panic) for an empty list or when no device is suitable |
| Queues.PickPhysicalDevice | src/vulkan/context.rs:179-206 | as every device is suitable, the first device is chosen, and an empty list is the panic |
| Queues.Context.constructor | src/vulkan/context.rs:40-102 | a new context has counted no frames |
| Queues.Context.DrawFrame | src/vulkan/context.rs:104-110 | the frame counter grows by one, and the frame is announced exactly when the counter is a multiple of 1000 |
| Swapchains.FirstPreferredIsFirst | src/renderer/swapchain.rs:180-189 | the scan returns the first B8G8R8A8_SRGB / SRGB_NONLINEAR format, or none when no format is both |
| Swapchains.ChooseSwapchainFormat | src/renderer/swapchain.rs:180-189 | a format is chosen exactly when the list is non-empty; it is one of the offered formats, the preferred sRGB one whenever it is offered, and otherwise the first |
| Swapchains.ChooseSwapchainPresentMode | src/renderer/swapchain.rs:191-204 | IMMEDIATE is chosen exactly when vsync is off and IMMEDIATE is offered; in every other case FIFO |
| Swapchains.Clamp | src/renderer/swapchain.rs:206-223 | the result lies within the bounds, is the value itself when it already does, and is the nearer bound otherwise |
| Swapchains.ChooseSwapchainExtent | src/renderer/swapchain.rs:206-223 | the surface's current extent unless its width is 0xFFFFFFFF; then the window size clamped into the surface's minimum and maximum extents |
| Swapchains.ImageCountAcceptedAsWritten | src/renderer/swapchain.rs:36-41 | the image-count check as written: it accepts only surfaces that allow two images, agrees with that rule whenever the surface has an image maximum, and refuses every surface without one |
| Swapchains.ImageCountCheckRejectsUnbounded | src/renderer/swapchain.rs:36-41 | the written check rejects a surface whose maxImageCount is 0 (no upper limit), although that surface allows two images |
| Swapchains.ImageCountAcceptedIsAllowed | src/renderer/swapchain.rs:36-41 | the corrected check accepts exactly the surfaces that allow two images, and accepts every surface the written check accepts |
| Swapchains.SharingAsWritten | src/renderer/swapchain.rs:46-55 | the sharing choice as written: always the opposite sharing mode to the corrected choice, EXCLUSIVE naming both families or CONCURRENT naming none |
| Swapchains.SharingAsWrittenInvalid | src/renderer/swapchain.rs:46-55 | the written sharing choice breaks the sharing rules of VkSwapchainCreateInfoKHR whether the graphics and present families are the same or different |
| Swapchains.ChooseSharing | src/renderer/swapchain.rs:46-55 | the corrected choice obeys those rules and is concurrent exactly when the two families differ |
| Swapchains.FixedSharingValidForOneFamily | src/vulkan/swap_chain.rs:45-59 | the older container's fixed exclusive sharing with no families named is valid when one family does both jobs |
| Swapchains.SwapchainCreateInfoFor | src/renderer/swapchain.rs:21-76 | with the corrected image-count check and the corrected sharing of the first two Findings rows: a swapchain is requested exactly when a format is offered, the surface allows two images and both queue families exist; it then asks for two images, an offered format, valid sharing and FIFO under vsync |
| Swapchains.CreateImageViews | src/renderer/swapchain.rs:139-178 | one single-level colour view per swapchain image, in image order, all of the surface format |
| Swapchains.CreateFramebuffers | src/renderer/swapchain.rs:107-137 | one single-layer framebuffer per image view, in order, each of the extent and for the given render pass |
| Swapchains.SwapChainContainer.constructor | src/renderer/swap_chain.rs:22-104 | the container keeps the format, extent and images, with one colour view per image in order, and nothing destroyed yet |
| Swapchains.SwapChainContainer.Destroy | src/renderer/swap_chain.rs:106-112 | every image view the container made is destroyed, in order, and then the swapchain |
| Layouts.AlignUp | src/engine/datatypes.rs:92-97 | the padded offset is the least multiple of four at or above the unpadded one |
| Layouts.Offsets | src/engine/datatypes.rs:18-23 | a `repr(C)` struct has one offset per field |
| Layouts.LayoutSound | src/engine/datatypes.rs:18-23 | every `repr(C)` field is 4-byte aligned, no two fields overlap, every field ends within the struct, and the struct size is a multiple of four |
| Layouts.AppendField | src/engine/datatypes.rs:92-97 | a field added at the end is placed at the first aligned offset past the previous fields, and the struct grows by its size |
| Layouts.TwoFieldLayout | src/engine/datatypes.rs:18-23 | in a struct of two f32-based fields the second field starts right after the first, and the size is the sum of the two |
| Layouts.PushConstantSizeU8 | src/engine/datatypes.rs:89-90 | the `as u8` size is below 256 and equals the struct size whenever that size fits in a byte |
| Layouts.PushConstantSizes | src/engine/datatypes.rs:89-120 | the wobbly push constant has its matrix at byte 0 and its wobble at byte 64, and is 68 bytes; the colour push constant is 76 bytes; neither size is cut short by the `u8` cast |
| Layouts.MvpUniformLayout | src/renderer/datatypes.rs:4-11 | the model, view and projection matrices and the wobble lie at bytes 0, 64, 128 and 192, and the uniform is 196 bytes |
| Layouts.DescribedAttributesFit | src/engine/datatypes.rs:40-55 | attributes that describe a struct's fields each read within one vertex and never overlap one another |
| Layouts.ColoredVertexBindingDescriptions | src/engine/datatypes.rs:32-38 | one per-vertex binding 0 whose stride is the size of ColoredVertex |
| Layouts.ColoredVertexAttributeDescriptions | src/engine/datatypes.rs:40-55 | locations 0 and 1 read the position and colour fields of binding 0, at their `repr(C)` offsets and with their sizes |
| Layouts.SimpleVertexBindingDescriptions | src/engine/datatypes.rs:71-77 | one per-vertex binding 0 whose stride is the size of SimpleVertex |
| Layouts.SimpleVertexAttributeDescriptions | src/engine/datatypes.rs:79-86 | location 0 reads the position field of binding 0, at its offset and with its size |
| Layouts.VertexBindingDescriptions | src/renderer/datatypes.rs:25-31 | one per-vertex binding 0 whose stride is the size of the renderer's Vertex |
| Layouts.VertexAttributeDescriptions | src/renderer/datatypes.rs:33-48 | locations 0 and 1 read the position and colour of the renderer's Vertex, at their offsets and with their sizes |
| Layouts.DefaultModelWoblyPushConstant | src/engine/datatypes.rs:107-112 | the default transform leaves every point where it is, and the wobble is zero |
| Layouts.DefaultModelColorPushConstant | src/engine/datatypes.rs:127-132 | the default transform leaves every point where it is, and the colour is the zero vector |
| Scenes.ModelWoblyPushConstant.GetBytes | src/engine/scene.rs:84-88 | the bytes handed to the pipeline are the stored data, every byte in place |
| Scenes.NewPushConstant | src/engine/scene.rs:70-82 | the packed constant is as long as the wobbly push-constant struct (68 bytes), holds the 64 matrix bytes at the matrix field's offset and the 4 wobble bytes at the wobble field's offset |
| Scenes.PackRoundTrip | src/engine/scene.rs:70-88 | unpacking a packed constant gives back the transform and the wobble, and packing the halves of any 68 bytes gives those bytes back |
| Scenes.DrawCommands | src/engine/scene.rs:45-62 | one command per entity, in entity order, with the entity's mesh buffers and index count and a push constant that unpacks to the entity's transform and wobble |
| Scenes.DrawCommandsAppend | src/engine/scene.rs:48-59 | adding one entity adds exactly its command at the end and leaves the others unchanged |
| Scenes.Scene.constructor | src/engine/scene.rs:19-29 | a new scene has no entities and one empty job for the static-objects pipeline |
| Scenes.Scene.AddWobblyEntity | src/engine/scene.rs:31-34 | the entity is appended and the render jobs are untouched |
| Scenes.Scene.GetRenderJob | src/engine/scene.rs:45-62 | the static-objects job keeps its pipeline and now holds exactly one command per entity, in order; every other job and the entities are unchanged, and the jobs returned are the stored ones |
| Passes.SwapchainPass.constructor | src/renderer/pass.rs:60-108 | a new swapchain pass is active and holds the given colour image views, framebuffers and pipelines |
| Passes.SwapchainPass.ImageCount | src/renderer/pass.rs:161-164 | the image count is the number of colour image views, which must equal the number of framebuffers |
| Passes.SwapchainPass.AddPipeline | src/renderer/pass.rs:166-171 | the pipeline is appended, the handle returned is its position, and the framebuffers and activity are unchanged |
| Passes.SwapchainPass.BuildPipeline | src/renderer/pass.rs:173-178 | only the pipeline at the handle changes, and it is now built |
| Passes.SwapchainPass.DestroyPipeline | src/renderer/pass.rs:187-193 | only the pipeline at the handle changes: it keeps its identity but has no Vulkan pipeline any more |
| Passes.SwapchainPass.RebuildAllPipelines | src/renderer/pass.rs:180-185 | every registered pipeline keeps its identity and position and is built afterwards |
| Passes.SwapchainPass.Destroy | src/renderer/pass.rs:110-140 | an active pass becomes inactive with no framebuffers; every pipeline stays registered in place but is no longer built |
| Passes.InsertSortedKeepsOrder | src/renderer/pass.rs:290-291 | pushing a new order and sorting keeps the order list strictly increasing, one longer, and holding exactly the old orders and the new one |
| Passes.RenderPassHandler.constructor | src/renderer/pass.rs:212-218 | a new handler has no render passes, an empty order list and no swapchain pass |
| Passes.RenderPassHandler.Add | src/renderer/pass.rs:282-294 | a taken order is refused with the error message and nothing changes; a new order is registered as its own handle and added to the sorted order list |
| Passes.RenderPassHandler.CreateSwapchainPass | src/renderer/pass.rs:220-251 | with no live swapchain pass, a new active pass over the given views and framebuffers takes over the previous pass's pipelines, in order, and builds all of them; the offscreen passes are untouched |
| Passes.RenderPassHandler.DestroySwapchain | src/renderer/pass.rs:253-257 | the swapchain pass becomes inactive with no framebuffers, and keeps its pipelines |
| Passes.RenderPassHandler.RebuildPipeline | src/renderer/pass.rs:397-414 | supported exactly for the swapchain pass, where the pipeline at the handle ends up built and every other pipeline is unchanged; any other pass, where the engine reaches `unimplemented!`, changes nothing |
| Passes.RenderPassHandler.RebindFlags | src/renderer/pass.rs:453-466 | one bind decision per draw command |
| Passes.RenderPassHandler.RebindFlagsOnChange | src/renderer/pass.rs:453-466 | the first command always binds its pipeline, and each later command binds exactly when its pipeline differs from the previous command's |
| Passes.RenderPassHandler.RebindFlagsFrom | src/renderer/pass.rs:453-466 | each command binds exactly when its pipeline differs from the one bound before it |
| Passes.RenderPassHandler.BakeCommandBuffer | src/renderer/pass.rs:416-471 | the loop's bind decisions are the bind-on-change decisions, and the statistics gain one draw command per command and the triangles of all of them |
| Terrain.RawGrid | src/engine/terrain.rs:171-198 | the first rows of the grid hold `width + 1` vertices per row |
| Terrain.RawGridIsRowMajor | src/engine/terrain.rs:184-195 | the grid is row-major: the vertex of row i and column j sits at `i·(width + 1) + j` and lies at `x = j`, `z = −i` with the noise's height |
| Terrain.CreateRawVertices | src/engine/terrain.rs:171-198 | the loop produces the row-major grid of `(width + 1)·(height + 1)` vertices, each at its column, row and noise height |
| Terrain.Strip | src/engine/terrain.rs:131-137 | a strip has `(width + 1)·2` vertices |
| Terrain.StripVertices | src/engine/terrain.rs:125-139 | the chunk of `strips` strips has `strips·(width + 1)·2` vertices |
| Terrain.StripVerticesIndex | src/engine/terrain.rs:131-137 | every strip reads inside the raw grid, and vertex k of strip i sits at `i·verticesPerStrip + k` of the chunk |
| Terrain.StripsJoinAdjacentRows | src/engine/terrain.rs:131-137 | over the sampled grid, strip i alternates between the vertex of row i and that of row i + 1, column by column |
| Terrain.StripIndices | src/engine/terrain.rs:133-138 | a strip contributes one index per vertex and then the restart value |
| Terrain.ChunkIndices | src/engine/terrain.rs:131-139 | the chunk has `(verticesPerStrip + 1)` indices per strip |
| Terrain.StripIndicesEnumerate | src/engine/terrain.rs:133-138 | while no `as u32` cast wraps, strip i's indices are its vertices' positions in the chunk, followed by exactly one restart value |
| Terrain.ChunkIndicesEnumerateVertices | src/engine/terrain.rs:131-139 | while the vertex count fits in 32 bits, the non-restart indices are 0, 1, 2, … up to the vertex count in order, each names an existing vertex, and a non-empty chunk ends with a restart |
| Terrain.StripHasTwoMore | src/engine/terrain.rs:141-147 | a vertex that is not among the last two of its strip has two vertices after it, so `vertices[i + 2]` is in bounds |
| Terrain.NormalsStayInStrip | src/engine/terrain.rs:141-155 | the last two vertices of each strip get the zero normal; every other vertex's normal is taken from itself and the next two vertices of the same strip |
| Terrain.StripColumn | src/engine/terrain.rs:132-136 | one column adds the vertex from row i and then the one from row i + 1, and their two positions as indices |
| Terrain.AppendStrip | src/engine/terrain.rs:131-139 | one pass of the outer loop appends exactly one strip's vertices and its indices closed by the restart value |
| Terrain.BuildStrips | src/engine/terrain.rs:125-139 | the strip loop produces exactly the chunk's strip vertices and its indices |
| Terrain.ComputeNormals | src/engine/terrain.rs:141-155 | one normal per vertex: zero for the last two of each strip, otherwise the face normal of the vertex and the next two, in the winding its parity selects |
| Terrain.ChunkSizes | src/engine/terrain.rs:157-158 | the vertex count is `strips·verticesPerStrip` and the index count `strips·(verticesPerStrip + 1)`, the sizes the source asserts |
| Terrain.CreateFlatNormaledChunk | src/engine/terrain.rs:120-169 | the chunk's indices are the strip indices with restarts, it has `height·(width + 1)·2` vertices and `height·((width + 1)·2 + 1)` indices, and each vertex is paired with its own normal |
| ObjModels.ParseU32 | src/engine/model/obj.rs:132-140 | a number is read exactly when the text is a non-empty run of digits whose value fits in a `u32`, and it is that value; every other text is one of the panics |
| ObjModels.ParseU32RoundTrip | src/engine/model/obj.rs:132-140 | every `u32` written in decimal reads back as itself |
| ObjModels.ParseFaceLine | src/engine/model/obj.rs:129-155 | no face when the pattern does not match; otherwise a face exactly when every needed group parses, with corners v3, v2, v1, and normals n3, n2, n1 exactly when the first corner has a normal |
| ObjModels.Classify | src/engine/model/obj.rs:40-62 | a line is an object line exactly when it starts with "o", a vertex line with "v ", a normal line with "vn " and a face line with "f "; the four kinds are tried in that order |
| ObjModels.WordCount | src/engine/model/obj.rs:45-47 | a line yields no word exactly when it is all ASCII whitespace, and never more words than characters |
| ObjModels.ScanCounts | src/engine/model/obj.rs:37-65 | a successful line loop saw at most one object line and gathered one raw vertex per "v " line, one raw normal per "vn " line and one face per "f " line; a second object line always ends the load with an error |
| ObjModels.CornerKey | src/engine/model/obj.rs:76-89 | a corner's key is its 1-based indices made 0-based, with a normal index exactly when the face has normals; an index 0 is the `u32` subtraction overflow |
| ObjModels.DistinctProperties | src/engine/model/obj.rs:91-103 | the keys seen so far, listed once each, are pairwise different and are exactly the keys met |
| ObjModels.KnownKeyKeepsDeduplicated | src/engine/model/obj.rs:93-94 | a key already in the table reuses its slot and keeps the de-duplication invariant |
| ObjModels.NewKeyKeepsDeduplicated | src/engine/model/obj.rs:95-103 | a new key takes the next slot, whose vertex is the key's position and normal, and keeps the invariant |
| ObjModels.IndexCornerKeepsDeduplicated | src/engine/model/obj.rs:76-104 | one corner keeps the invariant and records its own key |
| ObjModels.IndexFaceKeepsDeduplicated | src/engine/model/obj.rs:75-105 | one face keeps the invariant and records its three corner keys in order |
| ObjModels.IndexFacesInvariant | src/engine/model/obj.rs:75-105 | a successful face loop ends in the invariant, with the corner keys of all faces in order |
| ObjModels.IndexFacesDeduplicates | src/engine/model/obj.rs:71-105 | after a successful face loop there are three indices per face, each index names the emitted vertex of its corner, two corners share an index exactly when they share a key, and the vertices are the distinct keys' vertices in order of first sight |
| ObjModels.ScanOneLine | src/engine/model/obj.rs:38-61 | one line of the file updates the collected contents exactly as the line-loop specification does: a second object line, an object line without a name, a short or unparsable "v "/"vn " line and a face line that does not match fail with their error; other lines change nothing |
| ObjModels.ScanLines | src/engine/model/obj.rs:36-64 | the line loop returns the contents collected from every line in order, or the error of the first failing line |
| ObjModels.LoadObjMesh | src/engine/model/obj.rs:26-126 | the loader fails with the first error of the line loop (among them a "v " or "vn " line with fewer than three numbers or a number that does not parse) or else of the face loop; otherwise it returns the de-duplicated vertices, the indices and their count as a `u32` |
| ObjModels.FaceStopsAtError | src/engine/model/obj.rs:76-104 | a failing corner makes its face fail with that same error |
| ObjModels.IndexFacesStopsAtError | src/engine/model/obj.rs:75-105 | a failing face makes the whole face loop fail with that same error |
| ObjModels.ScanStopsAtError | src/engine/model/obj.rs:38-64 | a failing line makes the whole line loop fail with that same error |
| FrameTimers.SubsecMicros | src/util/frametimer.rs:22-29 | the frame time is below a second, equals the elapsed time when that is under a second, and otherwise drops only whole seconds |
| FrameTimers.LatestInSlot | src/util/frametimer.rs:22-29 | a slot that has been written holds the delta of the latest tick that wrote it |
| FrameTimers.RingHoldsLastFive | src/util/frametimer.rs:22-29 | once five frames have been timed, the five slots hold the five latest deltas, a different one each |
| FrameTimers.UntouchedSlotsAreZero | src/util/frametimer.rs:13-29 | before five frames, the slots not yet reached still hold 0 |
| FrameTimers.FrameTimer.constructor | src/util/frametimer.rs:13-20 | five zero samples, the cursor at slot 0 and no frame time |
| FrameTimers.FrameTimer.TickFrame | src/util/frametimer.rs:22-29 | the frame time is the sub-second part of the elapsed time; it is written at the cursor and nowhere else, and the cursor moves on one slot, wrapping after the fifth; the ring invariant is kept |
| FrameTimers.FrameTimer.DeltaTimeSec | src/util/frametimer.rs:45-47 | the latest frame time in seconds, below one second, and exactly the microseconds divided by a million |
| Dungeon.ClearWall | examples/dungeon_crawler_example/scene.rs:87-111 | the cell loses its wall on that side and keeps its other walls, floor and roof |
| Dungeon.BuildCell | examples/dungeon_crawler_example/scene.rs:39-85 | the new cell has all four walls, in the wall mesh and the given colour; the floor sits at height 0 and the roof at height 1 over the cell, both in the floor mesh and 0.3 darker |
| Dungeon.Index | examples/dungeon_crawler_example/scene.rs:89-113 | every cell of the 16 by 16 block has a slot in the 256-slot grid |
| Dungeon.IndexInjective | examples/dungeon_crawler_example/scene.rs:89-113 | two different cells of the block never share a slot |
| Dungeon.GridAfterSet | examples/dungeon_crawler_example/scene.rs:87-113 | setting a cell leaves a grid of 256 slots |
| Dungeon.AtAfterSet | examples/dungeon_crawler_example/scene.rs:87-113 | after `set`, the cell at (x, y) is the new one without the walls toward occupied neighbours; each occupied neighbour loses only its wall facing (x, y); every other cell is unchanged |
| Dungeon.SetKeepsWallsFacingEmptiness | examples/dungeon_crawler_example/scene.rs:38-114 | if every wall in the block faces an empty or off-grid neighbour before `set`, the same holds after it |
| Dungeon.DrawnWallsFaceEmptiness | examples/dungeon_crawler_example/scene.rs:116-151 | an occupied cell draws its floor, then its roof, then one wall for each empty or off-grid side and no other, so two to six commands |
| Dungeon.Block.constructor | examples/dungeon_crawler_example/scene.rs:32-36 | a new block has all 256 cells empty |
| Dungeon.Block.Set | examples/dungeon_crawler_example/scene.rs:38-114 | the grid becomes the grid after `set` of the fully walled new cell, and walls keep facing emptiness |
| Dungeon.Block.ClearSharedWall | examples/dungeon_crawler_example/scene.rs:88-111 | one clearing step: if the neighbour on that side is occupied, the new cell and the neighbour both lose their shared wall, and nothing else changes |
| Dungeon.Block.Draw | examples/dungeon_crawler_example/scene.rs:116-151 | the commands are every occupied cell's commands, in grid order |
| Movements.OrientationCycle | examples/dungeon_crawler_example/movement.rs:69-75 | turning right four times faces the same way again, a right turn and a left turn cancel, a left turn is three right turns, and one or two turns always face a new way |
| Movements.TranslationCycle | examples/dungeon_crawler_example/movement.rs:54-60 | the four translation inputs cycle the same way: four steps return, and next and previous cancel |
| Movements.MovementVector | examples/dungeon_crawler_example/movement.rs:152-157 | every move is exactly one grid step along one axis |
| Movements.MovesFollowOrientation | examples/dungeon_crawler_example/movement.rs:145-157 | forward goes where the player faces, right where they would face after a right turn, backward after two, left after a left turn; turning first is the same as adjusting the input once more |
| Movements.NewMovement | examples/dungeon_crawler_example/movement.rs:104-117 | a new movement is idle on its cell, with the camera on the cell, the yaw of its orientation and nothing buffered |
| Movements.AddInputAsWritten | examples/dungeon_crawler_example/movement.rs:119-123 | `add_input` as written: the queue keeps its moves and gains the input at its end exactly when it held at most MAX_BUFFERED_MOVES (three) moves, so a fourth move is admitted |
| Movements.AddInput | examples/dungeon_crawler_example/movement.rs:119-123 | `add_input` corrected to the bound its constant names: the queue keeps its moves and gains the input at its end exactly when it held fewer than three |
| Movements.FinishAsWritten | examples/dungeon_crawler_example/movement.rs:129-132 | the end of a move as written: the move is dropped, progress is 1 and the yaw snaps to the orientation, while the camera position stays where the last frame left it |
| Movements.UpdateAsWritten | examples/dungeon_crawler_example/movement.rs:126-179 | `update` as written: it agrees with the corrected Update in every field except the camera position, and in that one too except on the frame that finishes a move, where the camera does not move |
| Movements.Update | examples/dungeon_crawler_example/movement.rs:126-179 | `update`, corrected to snap the camera: idle with nothing buffered changes nothing; idle with moves buffered starts the oldest one from progress 0; a move that reaches progress 1 ends with the camera on the reached cell and the yaw on the orientation; otherwise progress advances by MOVE_SPEED times the frame time, with the cell, orientation and queue kept |
| Movements.AddInputAsWrittenBuffersFour | examples/dungeon_crawler_example/movement.rs:119-123 | with the test as written, four presses buffer four moves, one over the three that MAX_BUFFERED_MOVES names, and no more than four ever |
| Movements.AddInputKeepsBound | examples/dungeon_crawler_example/movement.rs:11 | with the corrected test, no sequence of presses buffers more than three moves, and the moves already waiting stay in place |
| Movements.FinishAsWrittenLeavesCameraShort | examples/dungeon_crawler_example/movement.rs:129-132 | as written, one forward press and frames of 0.1 s, 0.2 s and 0.1 s end idle on cell (0, -1) with the camera at (0, -0.8), short of the cell |
| Movements.UpdateKeepsConsistent | examples/dungeon_crawler_example/movement.rs:126-179 | the corrected `update` of the last Findings row, which snaps the camera to the reached cell, keeps the movement invariant; a started move is the oldest buffered one, a step moves one grid step the way the player faces and a turn keeps the cell; moves are dequeued only when idle, a move that reaches the end leaves the player idle, and an idle player with nothing buffered is unchanged |
| Movements.Movement.constructor | examples/dungeon_crawler_example/movement.rs:104-117 | the fields start as the new movement state, which meets the invariant |
| Movements.Movement.AddInputToQueue | examples/dungeon_crawler_example/movement.rs:119-123 | the input is buffered by the corrected bound and nothing else changes |
| Movements.Movement.UpdateMovement | examples/dungeon_crawler_example/movement.rs:126-179 | the fields become the corrected update of the last Findings row applied to the old state, and the invariant is kept |

## Left out

### Outside the model

- Vulkan object creation and destruction, command recording, and surface and device queries are foreign calls. Handles are counters or parameters, and driver answers are inputs.
- Floating point is modelled as exact `real` arithmetic: positions, UVs, colours, matrices and times. `f32` rounding is not modelled.
- The matrices of the dungeon example are represented by a translation and an angle.
- Integer widths:
  - `u32`/`usize` overflow of sizes and counters is not modelled; Dafny's integers are unbounded.
  - Where the source computes a `u32` that would underflow (`c - 32`, `y - 2`, `height / 18 - 1`, `height - 24`, `width - 218`, and the render-statistics widget's `position - Vector2::new(0, 18 * k)` of `src/engine/ui/widgets.rs:213-255`), the model requires the operand to be large enough. For the statistics widget that is `y >= StatsRowOffset(5) + 2` on `Widgets.RenderStatsRenderer.Draw`. The exception is `index_count - 2` of a triangle strip: there RenderTypes.TriangleCount returns None.
- `debug_assert!` conditions become preconditions in the model:
  - the raw array's write index below its capacity;
  - handle bounds.
- The global `Mutex`/`lazy_static` singletons around the logger and the statistics are not modelled. The logger is a plain object.
- I/O is not modelled; its results are inputs:
  - the OBJ file's lines;
  - `f32::from_str` of the three numbers of a "v"/"vn" line: the vector, or None when a number does not parse;
  - the regular-expression match of a face line;
  - the clock of the frame timer.
- The number formatting of the statistics widget is an input string per value.
- The terrain's noise function is an input.

### Left out of specific modules

- Swapchains: `clamp` from the `num` crate panics when `min > max`. The model requires `min <= max` instead of modelling that panic.
- Memory, Buffers, Uniforms: `find_memory_type` panics when no memory type fits (`src/renderer/memory.rs:260`). The methods that create buffers require `FirstMemoryType(..).Some?` instead of modelling that panic. For the staging buffers the Vulkan specification guarantees, in its section "Resource Memory Association", that the `memoryTypeBits` of a buffer include a type with HOST_VISIBLE and HOST_COHERENT. For the device buffers it guarantees a device-local memory heap, which drivers make available to buffers. `Memory.FirstMemoryType` itself returns None in that case.
- RenderTypes.PipelineConfigurationBuilder.Build: `build` panics through `expect("error")` when a shader is missing (`src/renderer/types.rs:152-153`). The model requires both shaders to be set instead of modelling that panic. Every builder chain in the source tree sets both shaders before `build`, for example `src/engine/ui/hud.rs:64-74`.
- Buffers.BufferObjectManager.Rebuild: the new buffers are promised recorded only when every old buffer lies below the memory manager's handle counter. `rebuild` destroys and builds one object at a time, so a new buffer would lose its record if a later object still held the same handle. The buffers are handed out by the same memory manager, so this holds in the program, but the model's invariant does not tie buffer objects to the memory manager.
- Buffers.BufferObjectManager.Destroy and Rebuild walk the buffer objects by recursion on the index (`DestroyFrom`, `RebuildFrom`), in the same order as the source's loop.
- Buffers.BufferObjectManager.PushToBuf: `push_to_buf` expects `raw_array.push` to return a `Result`, but the `push` of `src/renderer/rawarray.rs` returns the slot address and only debug-asserts that there is room. The model returns None when the raw array is full and then leaves the array unchanged.
- Buffers.BufferObject.HandleBufferOverflow: `raw_array.resize` does not exist in `src/renderer/rawarray.rs`. The model doubles the byte capacity and rebuilds the buffers, but does not grow the raw array.
- Textures, Synchronization: the `destroy` functions only hand handles back to the driver and are not modelled.
- Uniforms:
  - `is_built` is never set to true in `src/renderer/uniform.rs`, so `build` never panics in the model either.
  - The source's `data` is `Vec::with_capacity(size)`, which has length 0 (`src/renderer/uniform.rs:31`). `set_data` then writes it through a raw pointer. The model keeps `size` zero-initialised bytes instead. `SetData`, `UpdateDeviceMemory` and `InSync` work on those bytes. The model does not capture that the source writes past the vector's length.
- Console:
  - `_handle_input_cvar` calls `get_cvar_id_from_str`, `get_type` and `get_desc`, which `src/engine/cvars.rs` does not define. The model reads them as the name map, the variant of the cvar's value and the cvar's description.
  - `src/engine/cvars.rs` has no string cvars, so the string branch of `_handle_input_cvar` (an argument holding two `"`) is not modelled.
  - Parsing the argument with `str::parse` as `f32` or `u32` is an input of the model: the parsed value, or None when it does not parse.
  - `Console::update` is a floating-point animation and is not modelled.
  - The trivial getters and `_clear_input_buffer` are not modelled.
- Console.Lowercase: lowercases ASCII letters only and keeps the length. Rust's `to_lowercase` is Unicode and can change the length (U+0130 becomes two characters). The command outcome is the same, because no non-ASCII character lowercases into the letters of "exit" or "quit" alone.
- Cvars.IntegerThroughFloatSlot: stated for integers up to 2^24 only. Above that, `as f32` rounds, and the exact arithmetic of the model would not show it.
- UiText.DrawCharacter: the source stores a raw pointer to the newest push constant, `&push_constant_buf[len - 1] as *const u8` (`src/engine/ui/text.rs:44`). The model stores its index instead. A later push can reallocate the vector and leave the earlier pointers dangling; the index hides this. `draw_text` of `src/engine/ui/text.rs` and its `draw_character` have no caller in the source tree.
- Widgets: the `is_active` getters of the render-statistics and top-bar widgets are plain field reads and are not modelled.
- Images:
  - `find_memory_type` in `src/renderer/image.rs` is the same function as in `src/renderer/memory.rs`. It is modelled once, in `Memory`.
  - `create_image` and `create_image_view` are driver calls and are not modelled.
- Layouts, Scenes: `Vertex::new`, `ColoredVertex::new`, `SimpleVertex::new` and the other plain constructors are Dafny datatype constructors, with nothing to state.
- Scenes: `Scene::update` changes orientation and wobble with floating-point rotations and is not modelled.
- Terrain:
  - Normals are represented by the three vertices they are computed from, not by the normalised cross product.
  - `Terrain::new` only wires the noise, the chunk and the GPU upload together and is not modelled.
- ObjModels:
  - The texture index groups of the face pattern are unused by the loader and are not modelled.
  - Truncation of each index by `as u32` is not modelled; the index count is taken modulo 2^32.
  - In a release build, an index of 0 wraps instead of panicking. The model keeps the debug-build panic as the error.
  - The GPU upload of the mesh is not modelled.
- FrameTimers: `_get_framerate` and `_get_frametime_ms` average floating-point samples and are not modelled.
- Dungeon:
  - `Block::set` requires the cell to be on the 16 by 16 grid. The source does not check this, and x = 16 would alias the first cell of the next row.
  - `Scene::new`, `reconfigure`, `update` and `get_target_texture` of the dungeon scene are wiring and floating-point code and are not modelled.
- Movements:
  - `update_camera` only copies the state into the camera and is not modelled.
  - The `unreachable!()` in `update` cannot be reached, because of the datatype.
  - Overflow of the `i32` grid position is not modelled.

## Findings

| source | as written | input that shows it | evidently intended | confidence | as-written member | corrected member |
|---|---|---|---|---|---|---|
| src/renderer/swapchain.rs:46-55 | different graphics and present families get EXCLUSIVE sharing naming both; one family for both gets CONCURRENT with no families (also src/renderer/swap_chain.rs:47-56) | graphics family 0 and present family 0: CONCURRENT with zero queue families, which the VkSwapchainCreateInfoKHR valid-usage rules forbid | CONCURRENT over both families when they differ, EXCLUSIVE otherwise | not executed | Swapchains.SharingAsWrittenInvalid | Swapchains.ChooseSharing |
| src/renderer/swapchain.rs:36-41 | panics when `max_image_count < 2` (also src/renderer/swap_chain.rs:38-42 and src/vulkan/swap_chain.rs:34-38) | a surface with minImageCount 2 and maxImageCount 0, which means "no maximum" in section "Surface Capabilities" of the Vulkan specification | accept whenever `min_image_count <= 2` and `max_image_count` is 0 or at least 2 | not executed | Swapchains.ImageCountCheckRejectsUnbounded | Swapchains.ImageCountAcceptedIsAllowed |
| src/renderer/pushconstants.rs:21 | the buffer is allocated with the layout of `capacity · size_of::<T>()` bytes aligned to 1, but freed at line 70 with size `capacity` and alignment `size_of::<T>()` | capacity 5000 and a 68-byte constant: allocated as 340000 bytes aligned to 1, freed as 5000 bytes aligned to 68, which is not a power of two | free with the same layout that was allocated | not executed | PushConstants.DropLayoutMismatch | PushConstants.DropLayout |
| examples/dungeon_crawler_example/movement.rs:119-123 | `add_input` buffers while `len <= MAX_BUFFERED_MOVES` | four presses of forward with no frame in between: four moves wait, while MAX_BUFFERED_MOVES is 3 | buffer while `len < MAX_BUFFERED_MOVES` | not executed | Movements.AddInputAsWrittenBuffersFour | Movements.AddInputKeepsBound |
| examples/dungeon_crawler_example/movement.rs:129-132 | when a move's progress reaches 1, the yaw is snapped to its target but the camera position keeps the previous frame's interpolated value | one forward press from (0, 0) facing north, then frames of 0.1 s, 0.2 s and 0.1 s: idle on cell (0, -1) with the camera at (0, -0.8) | snap the camera to the reached cell, as the yaw is snapped | not executed | Movements.FinishAsWrittenLeavesCameraShort | Movements.UpdateKeepsConsistent |

=== FILE: buffer.dfy ===
/**
 * Dynamic buffer objects: a host-side bump array the frame's data is pushed into, plus one staging
 * and one device buffer per swapchain image; and the manager that owns them, addressed by handle.
 */
module Buffers {
  import opened Wrappers
  import opened Memory
  import opened RawArrays
  import RenderTypes

  datatype BufferObjectType = UniformBuffer(stage: RenderTypes.UniformStage) | Storage | Vertex

  /** `records` keeps every record of `before` and adds only buffers handed out from `handleBound` on. */
  ghost predicate Extends(records: map<nat, DeviceMemory>, before: map<nat, DeviceMemory>, handleBound: nat)
  {
    && (forall b :: b in before ==> b in records && records[b] == before[b])
    && (forall b :: b in records && b !in before ==> handleBound <= b)
  }

  /** Every buffer named in the first `n` (staging, device) pairs of `lists`. */
  function HandedOut(lists: seq<(seq<nat>, seq<nat>)>, n: nat): set<nat>
    requires n <= |lists|
  {
    if n == 0 then {}
    else
      var (staging, device) := lists[n - 1];
      HandedOut(lists, n - 1) + (set b | b in staging) + (set b | b in device)
  }

  /** `records` after the buffers of the first `n` pairs of `lists` are forgotten, pair by pair. */
  function ForgetPairs(records: map<nat, DeviceMemory>, lists: seq<(seq<nat>, seq<nat>)>, n: nat)
    : map<nat, DeviceMemory>
    requires n <= |lists|
  {
    if n == 0 then records
    else
      var (staging, device) := lists[n - 1];
      ForgetPairs(records, lists, n - 1) - (set b | b in staging) - (set b | b in device)
  }

  /** Forgetting pair by pair forgets exactly the buffers the pairs name. */
  lemma {:induction false} ForgetPairsForgetsHandedOut(records: map<nat, DeviceMemory>, lists: seq<(seq<nat>, seq<nat>)>, n: nat)
    requires n <= |lists|
    ensures ForgetPairs(records, lists, n) == records - HandedOut(lists, n)
  {
    if n > 0 {
      ForgetPairsForgetsHandedOut(records, lists, n - 1);
    }
  }

  /**
   * The buffers of `buffers` from position `from` on were handed out at or after `handleBound`, and
   * `records` holds each with the first memory type `filter` allows that has the `required` properties.
   */
  ghost predicate RecordedAbove(records: map<nat, DeviceMemory>, memoryTypes: seq<MemoryType>, buffers: seq<nat>,
                                from: nat, handleBound: nat, filter: bv32, required: set<MemoryProperty>)
    requires |memoryTypes| <= VK_MAX_MEMORY_TYPES
  {
    forall k :: from <= k < |buffers| ==>
      && handleBound <= buffers[k]
      && buffers[k] in records
      && var r := FirstMemoryType(filter, required, memoryTypes);
         r.Some? && records[buffers[k]].typeIndex == r.value
  }

  /** Records kept for every handle from `handleBound` on keep every buffer handed out from there recorded. */
  lemma RecordedAboveKept(before: map<nat, DeviceMemory>, after: map<nat, DeviceMemory>, memoryTypes: seq<MemoryType>,
                          buffers: seq<nat>, from: nat, handleBound: nat, filter: bv32, required: set<MemoryProperty>)
    requires |memoryTypes| <= VK_MAX_MEMORY_TYPES
    requires RecordedAbove(before, memoryTypes, buffers, from, handleBound, filter, required)
    requires forall b :: b in before && handleBound <= b ==> b in after && after[b] == before[b]
    ensures RecordedAbove(after, memoryTypes, buffers, from, handleBound, filter, required)
  {
    forall k | from <= k < |buffers|
      ensures buffers[k] in after && after[buffers[k]] == before[buffers[k]]
    {
      assert buffers[k] in before && handleBound <= buffers[k];
    }
  }

  /** Buffers handed out at or after a handle were handed out at or after any lower handle. */
  lemma RecordedAboveLower(records: map<nat, DeviceMemory>, memoryTypes: seq<MemoryType>, buffers: seq<nat>,
                           handleBound: nat, lower: nat, filter: bv32, required: set<MemoryProperty>)
    requires |memoryTypes| <= VK_MAX_MEMORY_TYPES && lower <= handleBound
    requires RecordedAbove(records, memoryTypes, buffers, 0, handleBound, filter, required)
    ensures RecordedAbove(records, memoryTypes, buffers, 0, lower, filter, required)
  {
  }

  /** A buffer is handed out by the first `n` pairs exactly when one of those pairs names it. */
  lemma {:induction false} HandedOutMembers(lists: seq<(seq<nat>, seq<nat>)>, n: nat)
    requires n <= |lists|
    ensures forall b :: b in HandedOut(lists, n) <==> exists k :: 0 <= k < n && (b in lists[k].0 || b in lists[k].1)
  {
    if n > 0 {
      HandedOutMembers(lists, n - 1);
    }
  }

  /** The buffers of the first `i + 1` pairs are those of the first `i` and those of pair `i`. */
  lemma HandedOutStep(lists: seq<(seq<nat>, seq<nat>)>, i: nat, staging: seq<nat>, device: seq<nat>)
    requires i < |lists| && lists[i] == (staging, device)
    ensures HandedOut(lists, i + 1) == HandedOut(lists, i) + (set b | b in staging) + (set b | b in device)
    ensures forall b :: b in staging || b in device ==> b in HandedOut(lists, |lists|)
  {
    HandedOutMembers(lists, |lists|);
    forall b | b in staging || b in device
      ensures b in HandedOut(lists, |lists|)
    {
      assert 0 <= i < |lists| && (b in lists[i].0 || b in lists[i].1);
    }
  }

  class BufferObject {
    const kind: BufferObjectType
    var capacityBytes: nat
    var stagingBuffers: seq<nat>
    var deviceBuffers: seq<nat>
    const rawArray: RawArray
    var assignedPipelines: seq<RenderTypes.PipelineHandle>
    const isGrowable: bool

    ghost predicate Valid()
      reads this, rawArray
    {
      rawArray.Valid() && |stagingBuffers| == |deviceBuffers|
    }

    /**
     * `new::<T>(capacity, ..)` with `dataSize` the size of `T`: an empty raw array of `capacity`
     * slots and no buffers yet.
     */
    constructor (capacity: nat, dataSize: nat, kind: BufferObjectType, isGrowable: bool)
      ensures Valid() && fresh(rawArray) && fresh(rawArray.buf)
      ensures capacityBytes == capacity * dataSize
      ensures stagingBuffers == [] && deviceBuffers == [] && assignedPipelines == []
      ensures rawArray.capacity == capacity && rawArray.dataSize == dataSize && rawArray.Contents() == []
      ensures this.kind == kind && this.isGrowable == isGrowable
    {
      this.kind := kind;
      this.isGrowable := isGrowable;
      capacityBytes := capacity * dataSize;
      stagingBuffers := [];
      deviceBuffers := [];
      rawArray := new RawArray(capacity, dataSize);
      assignedPipelines := [];
    }

    /**
     * The buffers from position `from` on were handed out at or after `handleBound`, so they differ
     * from every buffer that existed before, and are recorded with the right kind of memory.
     */
    ghost predicate NewlyRecorded(memoryManager: MemoryManager, from: nat, handleBound: nat,
                                  stagingFilter: bv32, deviceFilter: bv32)
      reads this, memoryManager
      requires |memoryManager.memoryTypes| <= VK_MAX_MEMORY_TYPES
    {
      && from <= |stagingBuffers| == |deviceBuffers|
      && RecordedAbove(memoryManager.bufferToChunk, memoryManager.memoryTypes, stagingBuffers, from, handleBound,
                       stagingFilter, HOST_VISIBLE_COHERENT)
      && RecordedAbove(memoryManager.bufferToChunk, memoryManager.memoryTypes, deviceBuffers, from, handleBound,
                       deviceFilter, DEVICE_LOCAL)
    }

    /** `build`: one new staging buffer and one new device buffer per image, appended in order. */
    method Build(memoryManager: MemoryManager, imageCount: nat, stagingFilter: bv32, deviceFilter: bv32)
      requires Valid() && memoryManager.Valid()
      requires FirstMemoryType(stagingFilter, HOST_VISIBLE_COHERENT, memoryManager.memoryTypes).Some?
      requires FirstMemoryType(deviceFilter, DEVICE_LOCAL, memoryManager.memoryTypes).Some?
      modifies this, memoryManager
      ensures Valid() && memoryManager.Valid()
      ensures |stagingBuffers| == old(|stagingBuffers|) + imageCount
      ensures stagingBuffers[..old(|stagingBuffers|)] == old(stagingBuffers)
      ensures deviceBuffers[..old(|deviceBuffers|)] == old(deviceBuffers)
      ensures NewlyRecorded(memoryManager, old(|stagingBuffers|), old(memoryManager.nextHandle), stagingFilter, deviceFilter)
      ensures Extends(memoryManager.bufferToChunk, old(memoryManager.bufferToChunk), old(memoryManager.nextHandle))
      ensures old(memoryManager.nextHandle) <= memoryManager.nextHandle
      ensures capacityBytes == old(capacityBytes) && assignedPipelines == old(assignedPipelines)
    {
      ghost var start := |stagingBuffers|;
      var i := 0;
      while i < imageCount
        invariant i <= imageCount
        invariant Valid() && memoryManager.Valid()
        invariant |stagingBuffers| == start + i
        invariant stagingBuffers[..start] == old(stagingBuffers) && deviceBuffers[..start] == old(deviceBuffers)
        invariant NewlyRecorded(memoryManager, start, old(memoryManager.nextHandle), stagingFilter, deviceFilter)
        invariant old(memoryManager.nextHandle) <= memoryManager.nextHandle
        invariant Extends(memoryManager.bufferToChunk, old(memoryManager.bufferToChunk), old(memoryManager.nextHandle))
        invariant capacityBytes == old(capacityBytes) && assignedPipelines == old(assignedPipelines)
      {
        var staging := memoryManager.CreateStagingBuffer(stagingFilter);
        var device := memoryManager.CreateDeviceBuffer(deviceFilter);
        stagingBuffers := stagingBuffers + [staging];
        deviceBuffers := deviceBuffers + [device];
        i := i + 1;
      }
    }

    /**
     * `destroy`: every staging and device buffer is handed back to the memory manager, and both
     * lists are emptied.
     */
    method Destroy(memoryManager: MemoryManager)
      requires Valid() && memoryManager.Valid()
      modifies this, memoryManager
      ensures Valid() && memoryManager.Valid()
      ensures stagingBuffers == [] && deviceBuffers == [] && memoryManager.nextHandle == old(memoryManager.nextHandle)
      ensures memoryManager.bufferToChunk
              == old(memoryManager.bufferToChunk) - (set b | b in old(stagingBuffers)) - (set b | b in old(deviceBuffers))
      ensures capacityBytes == old(capacityBytes) && assignedPipelines == old(assignedPipelines)
    {
      var i := 0;
      while i < |stagingBuffers|
        invariant i <= |stagingBuffers|
        invariant memoryManager.Valid() && memoryManager.nextHandle == old(memoryManager.nextHandle)
        invariant stagingBuffers == old(stagingBuffers) && deviceBuffers == old(deviceBuffers)
        invariant capacityBytes == old(capacityBytes) && assignedPipelines == old(assignedPipelines)
        invariant memoryManager.bufferToChunk == old(memoryManager.bufferToChunk) - set b | b in stagingBuffers[..i]
      {
        memoryManager.DestroyBuffer(stagingBuffers[i]);
        assert stagingBuffers[..i + 1] == stagingBuffers[..i] + [stagingBuffers[i]];
        i := i + 1;
      }
      assert stagingBuffers[..i] == stagingBuffers;
      stagingBuffers := [];
      ghost var afterStaging := memoryManager.bufferToChunk;
      i := 0;
      while i < |deviceBuffers|
        invariant i <= |deviceBuffers|
        invariant memoryManager.Valid() && memoryManager.nextHandle == old(memoryManager.nextHandle)
        invariant deviceBuffers == old(deviceBuffers) && stagingBuffers == []
        invariant capacityBytes == old(capacityBytes) && assignedPipelines == old(assignedPipelines)
        invariant memoryManager.bufferToChunk == afterStaging - set b | b in deviceBuffers[..i]
      {
        memoryManager.DestroyBuffer(deviceBuffers[i]);
        assert deviceBuffers[..i + 1] == deviceBuffers[..i] + [deviceBuffers[i]];
        i := i + 1;
      }
      assert deviceBuffers[..i] == deviceBuffers;
      deviceBuffers := [];
    }

    /**
     * `destroy` followed by `build`, as `rebuild` does for each buffer object: the old buffers are
     * handed back and forgotten, every other record stays, and `imageCount` new pairs are recorded.
     */
    method DestroyAndBuild(memoryManager: MemoryManager, imageCount: nat, stagingFilter: bv32, deviceFilter: bv32)
      requires Valid() && memoryManager.Valid()
      requires FirstMemoryType(stagingFilter, HOST_VISIBLE_COHERENT, memoryManager.memoryTypes).Some?
      requires FirstMemoryType(deviceFilter, DEVICE_LOCAL, memoryManager.memoryTypes).Some?
      modifies this, memoryManager
      ensures Valid() && memoryManager.Valid() && old(memoryManager.nextHandle) <= memoryManager.nextHandle
      ensures |stagingBuffers| == |deviceBuffers| == imageCount
      ensures NewlyRecorded(memoryManager, 0, old(memoryManager.nextHandle), stagingFilter, deviceFilter)
      ensures forall b :: b < old(memoryManager.nextHandle) ==>
                (b in memoryManager.bufferToChunk
                 <==> b in old(memoryManager.bufferToChunk) && b !in old(stagingBuffers) && b !in old(deviceBuffers))
      ensures forall b :: b in old(memoryManager.bufferToChunk) && b !in old(stagingBuffers) && b !in old(deviceBuffers) ==>
                b in memoryManager.bufferToChunk && memoryManager.bufferToChunk[b] == old(memoryManager.bufferToChunk)[b]
      ensures capacityBytes == old(capacityBytes) && assignedPipelines == old(assignedPipelines)
    {
      Destroy(memoryManager);
      Build(memoryManager, imageCount, stagingFilter, deviceFilter);
    }

    /** `staging`: the staging buffer of a built image. */
    function Staging(imageIndex: nat): (buffer: nat)
      requires imageIndex < |stagingBuffers|
      reads this
      ensures buffer in stagingBuffers
    {
      stagingBuffers[imageIndex]
    }

    /** `device`: the device buffer of a built image. */
    function Device(imageIndex: nat): (buffer: nat)
      requires imageIndex < |deviceBuffers|
      reads this
      ensures buffer in deviceBuffers
    {
      deviceBuffers[imageIndex]
    }

    /**
     * `handle_buffer_overflow`: the byte capacity doubles, every old buffer is handed back, and
     * exactly one new staging and one new device buffer per image are built.
     */
    method HandleBufferOverflow(memoryManager: MemoryManager, imageCount: nat, stagingFilter: bv32, deviceFilter: bv32)
      requires Valid() && memoryManager.Valid()
      requires FirstMemoryType(stagingFilter, HOST_VISIBLE_COHERENT, memoryManager.memoryTypes).Some?
      requires FirstMemoryType(deviceFilter, DEVICE_LOCAL, memoryManager.memoryTypes).Some?
      modifies this, memoryManager
      ensures Valid() && memoryManager.Valid()
      ensures capacityBytes == 2 * old(capacityBytes) && assignedPipelines == old(assignedPipelines)
      ensures |stagingBuffers| == |deviceBuffers| == imageCount
      ensures NewlyRecorded(memoryManager, 0, old(memoryManager.nextHandle), stagingFilter, deviceFilter)
      ensures forall b :: b < old(memoryManager.nextHandle) ==>
                (b in memoryManager.bufferToChunk
                 <==> b in old(memoryManager.bufferToChunk) && b !in old(stagingBuffers) && b !in old(deviceBuffers))
      ensures forall b :: b in memoryManager.bufferToChunk && b < old(memoryManager.nextHandle) ==>
                memoryManager.bufferToChunk[b] == old(memoryManager.bufferToChunk)[b]
    {
      capacityBytes := capacityBytes * 2;
      Destroy(memoryManager);
      Build(memoryManager, imageCount, stagingFilter, deviceFilter);
    }
  }

  /** The (staging, device) buffer lists of `objects`, in order. */
  ghost function ListsOf(objects: seq<BufferObject>): (lists: seq<(seq<nat>, seq<nat>)>)
    reads set o | o in objects
    ensures |lists| == |objects|
    ensures forall i :: 0 <= i < |objects| ==> lists[i] == (objects[i].stagingBuffers, objects[i].deviceBuffers)
  {
    if objects == [] then []
    else
      var last := objects[|objects| - 1];
      ListsOf(objects[..|objects| - 1]) + [(last.stagingBuffers, last.deviceBuffers)]
  }

  class BufferObjectManager {
    var imageCount: nat
    var dynamicBuffers: seq<BufferObject>

    ghost function Objects(): set<BufferObject>
      reads this
    {
      set i | 0 <= i < |dynamicBuffers| :: dynamicBuffers[i]
    }

    ghost function RawArrayObjects(): set<RawArray>
      reads this
    {
      set i | 0 <= i < |dynamicBuffers| :: dynamicBuffers[i].rawArray
    }

    /** Each buffer object's staging and device buffers, by handle. */
    ghost function BufferLists(): (lists: seq<(seq<nat>, seq<nat>)>)
      reads this, Objects()
      ensures |lists| == |dynamicBuffers|
      ensures forall i :: 0 <= i < |dynamicBuffers| ==>
                lists[i] == (dynamicBuffers[i].stagingBuffers, dynamicBuffers[i].deviceBuffers)
    {
      ListsOf(dynamicBuffers)
    }

    /** Every staging and device buffer of every buffer object. */
    ghost function OwnedBuffers(): set<nat>
      reads this, Objects()
    {
      HandedOut(BufferLists(), |dynamicBuffers|)
    }

    /** Every buffer the objects hold was handed out by the memory manager, below its next handle. */
    ghost predicate Issued(memoryManager: MemoryManager)
      reads this, Objects(), memoryManager
    {
      forall b :: b in OwnedBuffers() ==> b < memoryManager.nextHandle
    }

    /** The buffer objects are distinct, own distinct raw arrays, and are each well formed. */
    ghost predicate Valid()
      reads this, Objects(), RawArrayObjects()
    {
      && (forall i, j :: 0 <= i < j < |dynamicBuffers| ==> dynamicBuffers[i] != dynamicBuffers[j])
      && (forall i, j :: 0 <= i < j < |dynamicBuffers| ==>
            dynamicBuffers[i].rawArray != dynamicBuffers[j].rawArray
            && dynamicBuffers[i].rawArray.buf != dynamicBuffers[j].rawArray.buf)
      && (forall i :: 0 <= i < |dynamicBuffers| ==> dynamicBuffers[i].Valid())
    }

    constructor (imageCount: nat)
      ensures Valid() && this.imageCount == imageCount && dynamicBuffers == []
    {
      this.imageCount := imageCount;
      dynamicBuffers := [];
    }

    /**
     * `create_buffer::<T>`: the handle is the number of buffers before; a new buffer object of
     * `capacity` slots is built for every image and appended. The others are untouched.
     */
    method CreateBuffer(memoryManager: MemoryManager, capacity: nat, dataSize: nat, kind: BufferObjectType,
                        isGrowable: bool, stagingFilter: bv32, deviceFilter: bv32)
      returns (handle: nat)
      requires Valid() && memoryManager.Valid()
      requires FirstMemoryType(stagingFilter, HOST_VISIBLE_COHERENT, memoryManager.memoryTypes).Some?
      requires FirstMemoryType(deviceFilter, DEVICE_LOCAL, memoryManager.memoryTypes).Some?
      modifies this, memoryManager
      ensures Valid() && memoryManager.Valid()
      ensures handle == old(|dynamicBuffers|) && |dynamicBuffers| == handle + 1
      ensures dynamicBuffers[..handle] == old(dynamicBuffers)
      ensures fresh(dynamicBuffers[handle]) && fresh(dynamicBuffers[handle].rawArray)
      ensures dynamicBuffers[handle].capacityBytes == capacity * dataSize
      ensures |dynamicBuffers[handle].stagingBuffers| == imageCount
      ensures dynamicBuffers[handle].rawArray.Contents() == []
      ensures imageCount == old(imageCount)
    {
      handle := |dynamicBuffers|;
      var buffer := new BufferObject(capacity, dataSize, kind, isGrowable);
      buffer.Build(memoryManager, imageCount, stagingFilter, deviceFilter);
      dynamicBuffers := dynamicBuffers + [buffer];
      assert dynamicBuffers[..handle] == old(dynamicBuffers);
    }

    /**
     * `push_to_buf`: the value goes into the raw array of buffer `handle`, or, when that array is
     * full, nothing happens and the push error comes back (None).
     */
    method PushToBuf(handle: nat, data: seq<byte>) returns (offset: Option<nat>)
      requires Valid()
      requires handle < |dynamicBuffers|
      requires |data| == dynamicBuffers[handle].rawArray.dataSize
      modifies dynamicBuffers[handle].rawArray, dynamicBuffers[handle].rawArray.buf
      ensures Valid()
      ensures var r := dynamicBuffers[handle].rawArray;
              && (offset.None? <==> old(r.writeIndex) == r.capacity)
              && (offset.None? ==> r.Contents() == old(r.Contents()))
              && (offset.Some? ==> offset.value == old(r.writeIndex) * r.dataSize
                                   && r.Contents() == old(r.Contents()) + [data])
      ensures forall j :: 0 <= j < |dynamicBuffers| && j != handle ==>
                dynamicBuffers[j].rawArray.Contents() == old(dynamicBuffers[j].rawArray.Contents())
    {
      var r := dynamicBuffers[handle].rawArray;
      if r.writeIndex == r.capacity {
        return None;
      }
      var o := r.Push(data);
      offset := Some(o);
    }

    /** `borrow_buffer`: the buffer object behind a handle. */
    function BorrowBuffer(handle: nat): (buffer: BufferObject)
      requires handle < |dynamicBuffers|
      reads this
      ensures buffer in Objects()
    {
      dynamicBuffers[handle]
    }

    /**
     * `rebuild`: the new image count is stored and every buffer object is destroyed and rebuilt
     * for it, ending with exactly one staging and one device buffer per image. Below the old handle
     * counter exactly the old buffers are forgotten; when the objects' buffers were all handed out
     * below that counter, every new buffer is fresh and recorded.
     */
    method Rebuild(memoryManager: MemoryManager, imageCount: nat, stagingFilter: bv32, deviceFilter: bv32)
      requires Valid() && memoryManager.Valid()
      requires FirstMemoryType(stagingFilter, HOST_VISIBLE_COHERENT, memoryManager.memoryTypes).Some?
      requires FirstMemoryType(deviceFilter, DEVICE_LOCAL, memoryManager.memoryTypes).Some?
      modifies this, Objects(), memoryManager
      ensures Valid() && memoryManager.Valid()
      ensures this.imageCount == imageCount && dynamicBuffers == old(dynamicBuffers)
      ensures old(memoryManager.nextHandle) <= memoryManager.nextHandle
      ensures forall b :: b < old(memoryManager.nextHandle) ==>
                (b in memoryManager.bufferToChunk <==> b in old(memoryManager.bufferToChunk) && b !in old(OwnedBuffers()))
      ensures forall b :: b in memoryManager.bufferToChunk && b < old(memoryManager.nextHandle) ==>
                memoryManager.bufferToChunk[b] == old(memoryManager.bufferToChunk)[b]
      ensures old(Issued(memoryManager)) ==> forall i :: 0 <= i < |dynamicBuffers| ==>
                dynamicBuffers[i].NewlyRecorded(memoryManager, 0, old(memoryManager.nextHandle), stagingFilter, deviceFilter)
      ensures forall i :: 0 <= i < |dynamicBuffers| ==>
                && |dynamicBuffers[i].stagingBuffers| == |dynamicBuffers[i].deviceBuffers| == imageCount
                && dynamicBuffers[i].capacityBytes == old(dynamicBuffers[i].capacityBytes)
                && dynamicBuffers[i].assignedPipelines == old(dynamicBuffers[i].assignedPipelines)
                && dynamicBuffers[i].rawArray.Contents() == old(dynamicBuffers[i].rawArray.Contents())
    {
      ghost var lists, issued := BufferLists(), Issued(memoryManager);
      assert OwnedBuffers() == HandedOut(lists, |lists|);
      this.imageCount := imageCount;
      RebuildFrom(memoryManager, 0, imageCount, stagingFilter, deviceFilter,
                  memoryManager.bufferToChunk, lists, memoryManager.nextHandle, issued);
    }

    /**
     * The objects from `i` on are rebuilt in order, each destroyed and built again before the next;
     * `records`, `lists` and `start` are the memory manager's records, the objects' buffers and the
     * next handle when the rebuild began, and `issued` says all those buffers lay below `start`.
     */
    method RebuildFrom(memoryManager: MemoryManager, i: nat, imageCount: nat, stagingFilter: bv32, deviceFilter: bv32,
                       ghost records: map<nat, DeviceMemory>, ghost lists: seq<(seq<nat>, seq<nat>)>,
                       ghost start: nat, ghost issued: bool)
      requires Valid() && memoryManager.Valid() && i <= |dynamicBuffers| == |lists|
      requires FirstMemoryType(stagingFilter, HOST_VISIBLE_COHERENT, memoryManager.memoryTypes).Some?
      requires FirstMemoryType(deviceFilter, DEVICE_LOCAL, memoryManager.memoryTypes).Some?
      requires start <= memoryManager.nextHandle
      requires issued ==> forall b :: b in HandedOut(lists, |lists|) ==> b < start
      requires forall k :: i <= k < |dynamicBuffers| ==>
                 lists[k] == (dynamicBuffers[k].stagingBuffers, dynamicBuffers[k].deviceBuffers)
      requires forall b :: b < start ==>
                 (b in memoryManager.bufferToChunk <==> b in records && b !in HandedOut(lists, i))
      requires forall b :: b in memoryManager.bufferToChunk && b < start ==> memoryManager.bufferToChunk[b] == records[b]
      modifies Objects(), memoryManager
      decreases |dynamicBuffers| - i
      ensures Valid() && memoryManager.Valid() && start <= memoryManager.nextHandle
      ensures forall b :: b < start ==>
                (b in memoryManager.bufferToChunk <==> b in records && b !in HandedOut(lists, |lists|))
      ensures forall b :: b in memoryManager.bufferToChunk && b < start ==> memoryManager.bufferToChunk[b] == records[b]
      ensures issued ==> forall b :: b in old(memoryManager.bufferToChunk) && start <= b ==>
                b in memoryManager.bufferToChunk && memoryManager.bufferToChunk[b] == old(memoryManager.bufferToChunk)[b]
      ensures issued ==> forall k :: i <= k < |dynamicBuffers| ==>
                dynamicBuffers[k].NewlyRecorded(memoryManager, 0, start, stagingFilter, deviceFilter)
      ensures forall k :: i <= k < |dynamicBuffers| ==>
                |dynamicBuffers[k].stagingBuffers| == |dynamicBuffers[k].deviceBuffers| == imageCount
      ensures forall k :: 0 <= k < i ==>
                && dynamicBuffers[k].stagingBuffers == old(dynamicBuffers[k].stagingBuffers)
                && dynamicBuffers[k].deviceBuffers == old(dynamicBuffers[k].deviceBuffers)
      ensures forall k :: 0 <= k < |dynamicBuffers| ==>
                && dynamicBuffers[k].capacityBytes == old(dynamicBuffers[k].capacityBytes)
                && dynamicBuffers[k].assignedPipelines == old(dynamicBuffers[k].assignedPipelines)
    {
      if i < |dynamicBuffers| {
        RebuildOne(memoryManager, i, imageCount, stagingFilter, deviceFilter, records, lists, start, issued);
        ghost var middle := memoryManager.bufferToChunk;
        RebuildFrom(memoryManager, i + 1, imageCount, stagingFilter, deviceFilter, records, lists, start, issued);
        if issued {
          var buffer := dynamicBuffers[i];
          RecordedAboveKept(middle, memoryManager.bufferToChunk, memoryManager.memoryTypes, buffer.stagingBuffers,
                            0, start, stagingFilter, HOST_VISIBLE_COHERENT);
          RecordedAboveKept(middle, memoryManager.bufferToChunk, memoryManager.memoryTypes, buffer.deviceBuffers,
                            0, start, deviceFilter, DEVICE_LOCAL);
        }
      }
    }

    /**
     * One step of `rebuild`: buffer object `i` is destroyed and built again for `imageCount` images.
     * Below `start` the memory manager forgets the buffers of objects up to `i`; its new buffers are
     * recorded; and when the old buffers lay below `start`, every record from `start` on stays.
     */
    method RebuildOne(memoryManager: MemoryManager, i: nat, imageCount: nat, stagingFilter: bv32, deviceFilter: bv32,
                      ghost records: map<nat, DeviceMemory>, ghost lists: seq<(seq<nat>, seq<nat>)>,
                      ghost start: nat, ghost issued: bool)
      requires Valid() && memoryManager.Valid() && i < |dynamicBuffers| == |lists|
      requires FirstMemoryType(stagingFilter, HOST_VISIBLE_COHERENT, memoryManager.memoryTypes).Some?
      requires FirstMemoryType(deviceFilter, DEVICE_LOCAL, memoryManager.memoryTypes).Some?
      requires start <= memoryManager.nextHandle
      requires issued ==> forall b :: b in HandedOut(lists, |lists|) ==> b < start
      requires lists[i] == (dynamicBuffers[i].stagingBuffers, dynamicBuffers[i].deviceBuffers)
      requires forall b :: b < start ==>
                 (b in memoryManager.bufferToChunk <==> b in records && b !in HandedOut(lists, i))
      requires forall b :: b in memoryManager.bufferToChunk && b < start ==> memoryManager.bufferToChunk[b] == records[b]
      modifies dynamicBuffers[i], memoryManager
      ensures Valid() && memoryManager.Valid() && start <= memoryManager.nextHandle
      ensures forall b :: b < start ==>
                (b in memoryManager.bufferToChunk <==> b in records && b !in HandedOut(lists, i + 1))
      ensures forall b :: b in memoryManager.bufferToChunk && b < start ==> memoryManager.bufferToChunk[b] == records[b]
      ensures issued ==> forall b :: b in old(memoryManager.bufferToChunk) && start <= b ==>
                b in memoryManager.bufferToChunk && memoryManager.bufferToChunk[b] == old(memoryManager.bufferToChunk)[b]
      ensures dynamicBuffers[i].NewlyRecorded(memoryManager, 0, start, stagingFilter, deviceFilter)
      ensures |dynamicBuffers[i].stagingBuffers| == |dynamicBuffers[i].deviceBuffers| == imageCount
      ensures forall k :: 0 <= k < |dynamicBuffers| && k != i ==>
                && dynamicBuffers[k].stagingBuffers == old(dynamicBuffers[k].stagingBuffers)
                && dynamicBuffers[k].deviceBuffers == old(dynamicBuffers[k].deviceBuffers)
      ensures forall k :: 0 <= k < |dynamicBuffers| ==>
                && dynamicBuffers[k].capacityBytes == old(dynamicBuffers[k].capacityBytes)
                && dynamicBuffers[k].assignedPipelines == old(dynamicBuffers[k].assignedPipelines)
    {
      var buffer := dynamicBuffers[i];
      ghost var handle := memoryManager.nextHandle;
      HandedOutStep(lists, i, buffer.stagingBuffers, buffer.deviceBuffers);
      buffer.DestroyAndBuild(memoryManager, imageCount, stagingFilter, deviceFilter);
      RecordedAboveLower(memoryManager.bufferToChunk, memoryManager.memoryTypes, buffer.stagingBuffers,
                         handle, start, stagingFilter, HOST_VISIBLE_COHERENT);
      RecordedAboveLower(memoryManager.bufferToChunk, memoryManager.memoryTypes, buffer.deviceBuffers,
                         handle, start, deviceFilter, DEVICE_LOCAL);
    }

    /** `reset_buffers`: every raw array starts over from its first slot; nothing else changes. */
    method ResetBuffers()
      requires Valid()
      modifies RawArrayObjects()
      ensures Valid()
      ensures forall i :: 0 <= i < |dynamicBuffers| ==> dynamicBuffers[i].rawArray.Contents() == []
    {
      var i := 0;
      while i < |dynamicBuffers|
        invariant i <= |dynamicBuffers|
        invariant Valid()
        invariant forall k :: 0 <= k < i ==> dynamicBuffers[k].rawArray.writeIndex == 0
      {
        dynamicBuffers[i].rawArray.Reset();
        i := i + 1;
      }
    }

    /** `handle_buffer_overflow`: the overflow handling of buffer `handle`; the others are untouched. */
    method HandleBufferOverflow(memoryManager: MemoryManager, handle: nat, imageCount: nat,
                                stagingFilter: bv32, deviceFilter: bv32)
      requires Valid() && memoryManager.Valid()
      requires handle < |dynamicBuffers|
      requires FirstMemoryType(stagingFilter, HOST_VISIBLE_COHERENT, memoryManager.memoryTypes).Some?
      requires FirstMemoryType(deviceFilter, DEVICE_LOCAL, memoryManager.memoryTypes).Some?
      modifies dynamicBuffers[handle], memoryManager
      ensures Valid() && memoryManager.Valid()
      ensures dynamicBuffers[handle].capacityBytes == 2 * old(dynamicBuffers[handle].capacityBytes)
      ensures |dynamicBuffers[handle].stagingBuffers| == |dynamicBuffers[handle].deviceBuffers| == imageCount
      ensures forall b :: b < old(memoryManager.nextHandle) ==>
                (b in memoryManager.bufferToChunk
                 <==> && b in old(memoryManager.bufferToChunk)
                      && b !in old(dynamicBuffers[handle].stagingBuffers) && b !in old(dynamicBuffers[handle].deviceBuffers))
    {
      dynamicBuffers[handle].HandleBufferOverflow(memoryManager, imageCount, stagingFilter, deviceFilter);
    }

    /**
     * `destroy`: every buffer object hands its buffers back to the memory manager, which forgets
     * exactly those; capacities, pipelines and raw arrays stay.
     */
    method Destroy(memoryManager: MemoryManager)
      requires Valid() && memoryManager.Valid()
      modifies Objects(), memoryManager
      ensures Valid() && memoryManager.Valid()
      ensures memoryManager.bufferToChunk == old(memoryManager.bufferToChunk) - old(OwnedBuffers())
      ensures memoryManager.nextHandle == old(memoryManager.nextHandle)
      ensures forall i :: 0 <= i < |dynamicBuffers| ==>
                && dynamicBuffers[i].stagingBuffers == [] && dynamicBuffers[i].deviceBuffers == []
                && dynamicBuffers[i].capacityBytes == old(dynamicBuffers[i].capacityBytes)
                && dynamicBuffers[i].assignedPipelines == old(dynamicBuffers[i].assignedPipelines)
                && dynamicBuffers[i].rawArray.Contents() == old(dynamicBuffers[i].rawArray.Contents())
    {
      ghost var lists := BufferLists();
      DestroyFrom(memoryManager, 0, memoryManager.bufferToChunk, lists);
      ForgetPairsForgetsHandedOut(old(memoryManager.bufferToChunk), lists, |dynamicBuffers|);
    }

    /** The objects from `i` on hand their buffers back, in order; the objects before `i` are left as they are. */
    method DestroyFrom(memoryManager: MemoryManager, i: nat,
                       ghost records: map<nat, DeviceMemory>, ghost lists: seq<(seq<nat>, seq<nat>)>)
      requires Valid() && memoryManager.Valid() && i <= |dynamicBuffers| == |lists|
      requires memoryManager.bufferToChunk == ForgetPairs(records, lists, i)
      requires forall k :: i <= k < |dynamicBuffers| ==>
                 lists[k] == (dynamicBuffers[k].stagingBuffers, dynamicBuffers[k].deviceBuffers)
      modifies Objects(), memoryManager
      decreases |dynamicBuffers| - i
      ensures Valid() && memoryManager.Valid() && memoryManager.nextHandle == old(memoryManager.nextHandle)
      ensures memoryManager.bufferToChunk == ForgetPairs(records, lists, |dynamicBuffers|)
      ensures forall k :: i <= k < |dynamicBuffers| ==>
                dynamicBuffers[k].stagingBuffers == [] && dynamicBuffers[k].deviceBuffers == []
      ensures forall k :: 0 <= k < i ==>
                && dynamicBuffers[k].stagingBuffers == old(dynamicBuffers[k].stagingBuffers)
                && dynamicBuffers[k].deviceBuffers == old(dynamicBuffers[k].deviceBuffers)
      ensures forall k :: 0 <= k < |dynamicBuffers| ==>
                && dynamicBuffers[k].capacityBytes == old(dynamicBuffers[k].capacityBytes)
                && dynamicBuffers[k].assignedPipelines == old(dynamicBuffers[k].assignedPipelines)
    {
      if i < |dynamicBuffers| {
        DestroyOne(memoryManager, i, records, lists);
        DestroyFrom(memoryManager, i + 1, records, lists);
      }
    }

    /**
     * One step of `destroy`: buffer object `i` hands its buffers back. When the memory manager has
     * forgotten the buffers of the objects before `i`, it has forgotten those up to `i` after.
     */
    method DestroyOne(memoryManager: MemoryManager, i: nat,
                      ghost records: map<nat, DeviceMemory>, ghost lists: seq<(seq<nat>, seq<nat>)>)
      requires Valid() && memoryManager.Valid() && i < |dynamicBuffers| == |lists|
      requires lists[i] == (dynamicBuffers[i].stagingBuffers, dynamicBuffers[i].deviceBuffers)
      requires memoryManager.bufferToChunk == ForgetPairs(records, lists, i)
      requires forall k :: i < k < |dynamicBuffers| ==>
                 lists[k] == (dynamicBuffers[k].stagingBuffers, dynamicBuffers[k].deviceBuffers)
      modifies dynamicBuffers[i], memoryManager
      ensures Valid() && memoryManager.Valid() && memoryManager.nextHandle == old(memoryManager.nextHandle)
      ensures memoryManager.bufferToChunk == ForgetPairs(records, lists, i + 1)
      ensures dynamicBuffers[i].stagingBuffers == [] && dynamicBuffers[i].deviceBuffers == []
      ensures forall k :: i + 1 <= k < |dynamicBuffers| ==>
                lists[k] == (dynamicBuffers[k].stagingBuffers, dynamicBuffers[k].deviceBuffers)
      ensures forall k :: 0 <= k < |dynamicBuffers| && k != i ==>
                && dynamicBuffers[k].stagingBuffers == old(dynamicBuffers[k].stagingBuffers)
                && dynamicBuffers[k].deviceBuffers == old(dynamicBuffers[k].deviceBuffers)
      ensures forall k :: 0 <= k < |dynamicBuffers| ==>
                && dynamicBuffers[k].capacityBytes == old(dynamicBuffers[k].capacityBytes)
                && dynamicBuffers[k].assignedPipelines == old(dynamicBuffers[k].assignedPipelines)
    {
      ghost var staging, device := dynamicBuffers[i].stagingBuffers, dynamicBuffers[i].deviceBuffers;
      dynamicBuffers[i].Destroy(memoryManager);
    }
  }
}

=== FILE: console.dfy ===
/**
 * The in-game console: a one-line editor with a recallable input history, a scroll position over
 * the message log, and submission of the line as a command or a cvar assignment.
 */
module Console {
  import opened Wrappers
  import Logger
  import Cvars

  const SCROLL_LINES: nat := 15

  datatype Key = Back | Return | NumpadEnter | LShift | RShift | Up | Down | PageUp | PageDown | F1 | OtherKey
  datatype ElementState = Pressed | Released
  datatype Command = Unknown | Quit

  /** The engine's control-signal bit set; QUIT is its only flag. */
  datatype ControlSignal = ControlSignal(quit: bool)

  /**
   * The editing state that history recall works on. While browsing (`index > 0`) the history
   * ends with the stashed draft, the line that was being typed when browsing started.
   */
  datatype LineEditor = LineEditor(history: seq<string>, index: nat, buffer: string)

  predicate Browsable(s: LineEditor)
  {
    s.index == 0 || s.index < |s.history|
  }

  /** The submitted lines, without the stashed draft. */
  function Entries(s: LineEditor): seq<string>
    requires Browsable(s)
  {
    if s.index == 0 then s.history else s.history[..|s.history| - 1]
  }

  /** The line being composed before browsing started. */
  function Draft(s: LineEditor): string
    requires Browsable(s)
  {
    if s.index == 0 then s.buffer else s.history[|s.history| - 1]
  }

  /** `_handle_up`: stash the draft when browsing starts, then step to the next older entry, wrapping to the draft. */
  function HistoryUp(s: LineEditor): (r: LineEditor)
    requires Browsable(s)
    ensures Browsable(r)
  {
    var h := if s.index == 0 then s.history + [s.buffer] else s.history;
    var i := s.index + 1;
    if |h| > i then LineEditor(h, i, h[|h| - i - 1])
    else LineEditor(h[..|h| - 1], 0, h[|h| - 1])
  }

  /** `_handle_down`: step to the next newer entry; stepping past the newest restores the draft. */
  function HistoryDown(s: LineEditor): (r: LineEditor)
    requires Browsable(s)
    ensures Browsable(r)
  {
    if s.index == 0 then s
    else if s.index - 1 == 0 then LineEditor(s.history[..|s.history| - 1], 0, s.history[|s.history| - 1])
    else LineEditor(s.history, s.index - 1, s.history[|s.history| - (s.index - 1) - 1])
  }

  /** The history side of submitting a non-empty line: drop the stash, append the line, clear the buffer. */
  function SubmitLine(s: LineEditor): (r: LineEditor)
    requires Browsable(s)
    ensures Browsable(r)
  {
    var h := if s.index > 0 then s.history[..|s.history| - 1] else s.history;
    LineEditor(h + [s.buffer], 0, [])
  }

  /**
   * Browsing up never alters the submitted entries or the draft; it shows entry `index` counted
   * from the newest, or the draft once it wraps around to index 0.
   */
  lemma HistoryUpKeepsEntries(s: LineEditor)
    requires Browsable(s)
    ensures var r := HistoryUp(s);
            && Entries(r) == Entries(s) && Draft(r) == Draft(s)
            && (r.index == 0 ==> r.buffer == Draft(s))
            && (r.index > 0 ==> r.index <= |Entries(s)| && r.buffer == Entries(s)[|Entries(s)| - r.index])
  {
    var h := if s.index == 0 then s.history + [s.buffer] else s.history;
    assert h[..|h| - 1] == Entries(s);
  }

  /** Browsing down never alters the submitted entries or the draft. */
  lemma HistoryDownKeepsEntries(s: LineEditor)
    requires Browsable(s)
    ensures var r := HistoryDown(s);
            && Entries(r) == Entries(s) && Draft(r) == Draft(s)
            && (r.index > 0 ==> r.index <= |Entries(s)| && r.buffer == Entries(s)[|Entries(s)| - r.index])
            && (s.index > 0 && r.index == 0 ==> r.buffer == Draft(s))
  {
  }

  /** From the draft, Up then Down gives back the same buffer and history. */
  lemma UpThenDownRestores(s: LineEditor)
    requires s.index == 0
    ensures HistoryDown(HistoryUp(s)) == s
  {
    var h := s.history + [s.buffer];
    if |s.history| > 0 {
      assert h[..|h| - 1] == s.history;
    } else {
      assert HistoryUp(s) == LineEditor(s.history, 0, s.buffer);
    }
  }

  /** With nothing submitted yet, Up changes nothing. */
  lemma UpOnEmptyHistory(s: LineEditor)
    requires s.index == 0 && |s.history| == 0
    ensures HistoryUp(s) == s
  {
  }

  function UpTimes(s: LineEditor, k: nat): (r: LineEditor)
    requires Browsable(s)
    ensures Browsable(r)
  {
    if k == 0 then s else HistoryUp(UpTimes(s, k - 1))
  }

  /** Pressing Up k times from the draft (1 <= k <= entries) shows the k-th newest entry over the stashed draft. */
  lemma {:induction false} UpTimesShowsEntry(s: LineEditor, k: nat)
    requires s.index == 0 && 1 <= k <= |s.history|
    ensures UpTimes(s, k) == LineEditor(s.history + [s.buffer], k, s.history[|s.history| - k])
  {
    if k > 1 {
      UpTimesShowsEntry(s, k - 1);
    }
  }

  /** Pressing Up once more than there are entries cycles back to the draft, with the history untouched. */
  lemma UpCycles(s: LineEditor)
    requires s.index == 0
    ensures UpTimes(s, |s.history| + 1) == s
  {
    if |s.history| == 0 {
      UpOnEmptyHistory(s);
    } else {
      UpTimesShowsEntry(s, |s.history|);
      var h := s.history + [s.buffer];
      assert h[..|h| - 1] == s.history;
    }
  }

  /** Submitting appends exactly the submitted line to the entries and starts a fresh, empty draft. */
  lemma SubmitAppends(s: LineEditor)
    requires Browsable(s)
    ensures Entries(SubmitLine(s)) == Entries(s) + [s.buffer]
    ensures Draft(SubmitLine(s)) == [] && SubmitLine(s).index == 0
  {
  }

  /** `_scroll_up`: up by 15 lines, clamped to the log length. */
  function ScrollUpTo(scroll: nat, logLength: nat): (r: nat)
    ensures r <= logLength
    ensures r == logLength || r == scroll + SCROLL_LINES
    ensures r <= scroll + SCROLL_LINES
  {
    if scroll + SCROLL_LINES > logLength then logLength else scroll + SCROLL_LINES
  }

  /** `_scroll_down`: down by 15 lines, saturating at 0. */
  function ScrollDownFrom(scroll: nat): (r: nat)
    ensures r <= scroll
    ensures r == 0 || r + SCROLL_LINES == scroll
  {
    if scroll >= SCROLL_LINES then scroll - SCROLL_LINES else 0
  }

  /** A page up that was not clamped is undone by a page down. */
  lemma ScrollUpDownRoundTrip(scroll: nat, logLength: nat)
    requires scroll + SCROLL_LINES <= logLength
    ensures ScrollDownFrom(ScrollUpTo(scroll, logLength)) == scroll
  {
  }

  function AsciiLower(c: char): char
  {
    if 'A' <= c <= 'Z' then (c as int + 32) as char else c
  }

  function Lowercase(s: string): (r: string)
    ensures |r| == |s|
    ensures forall k :: 0 <= k < |s| ==> r[k] == AsciiLower(s[k])
  {
    seq(|s|, k requires 0 <= k < |s| => AsciiLower(s[k]))
  }

  /** `_handle_input_command`: "exit" and "quit", in any letter case, quit; anything else is unknown. */
  function InputCommand(word: string): (command: Command)
    ensures command == Quit <==>
              |word| == 4 && ((forall k :: 0 <= k < 4 ==> AsciiLower(word[k]) == "exit"[k])
                              || (forall k :: 0 <= k < 4 ==> AsciiLower(word[k]) == "quit"[k]))
  {
    var lower := Lowercase(word);
    if lower == "exit" || lower == "quit" then Quit else Unknown
  }

  /** Recognition ignores letter case: words that differ only in case give the same command. */
  lemma InputCommandIgnoresCase(a: string, b: string)
    requires |a| == |b|
    requires forall k :: 0 <= k < |a| ==> AsciiLower(a[k]) == AsciiLower(b[k])
    ensures InputCommand(a) == InputCommand(b)
  {
    assert Lowercase(a) == Lowercase(b);
  }

  lemma QuitSpellings()
    ensures InputCommand("quit") == Quit && InputCommand("EXIT") == Quit && InputCommand("QuIt") == Quit
    ensures InputCommand("exits") == Unknown && InputCommand("") == Unknown
  {
    assert Lowercase("EXIT") == "exit";
    assert Lowercase("QuIt") == "quit";
    assert |Lowercase("exits")| == 5;
  }

  /** `split(' ')[0]`: the text before the first space. */
  function FirstWord(s: string): (w: string)
    ensures w <= s && ' ' !in w
    ensures |w| < |s| ==> s[|w|] == ' '
  {
    if |s| == 0 || s[0] == ' ' then [] else [s[0]] + FirstWord(s[1..])
  }

  const UNKNOWN_COMMAND_PREFIX: string := "unknown command or cvar: "
  const CVAR_PARSE_ERROR_PREFIX: string := "failed to parse cvar argument: "

  /** The second piece of `split(' ')`: present exactly when the line has a space. */
  function SecondWord(s: string): (w: Option<string>)
    ensures w.Some? <==> ' ' in s
  {
    var first := FirstWord(s);
    if |first| < |s| then Some(FirstWord(s[|first| + 1..])) else None
  }

  /** A word without spaces, followed by a space or by nothing, is the line's first word. */
  lemma {:induction false} FirstWordOf(word: string, rest: string)
    requires ' ' !in word && (rest == [] || rest[0] == ' ')
    ensures FirstWord(word + rest) == word
  {
    if |word| > 0 {
      assert (word + rest)[1..] == word[1..] + rest;
      FirstWordOf(word[1..], rest);
    }
  }

  /** In "name arg", the first word is the name and the second is the first word of `arg`. */
  lemma SecondWordOf(name: string, arg: string)
    requires ' ' !in name
    ensures FirstWord(name + " " + arg) == name
    ensures SecondWord(name + " " + arg) == Some(FirstWord(arg))
  {
    assert name + " " + arg == name + (" " + arg);
    FirstWordOf(name, " " + arg);
    assert (name + " " + arg)[|name| + 1..] == arg;
  }

  /**
   * What `_handle_input_cvar` logs for a cvar with the given description: an error when an
   * argument is given that does not parse as the cvar's type, then the description.
   */
  function CvarLog(arg: Option<string>, parsed: Option<Cvars.CvarValue>, description: string): seq<Logger.LogMessage>
  {
    (if arg.Some? && parsed.None? then Logger.FmtLine(CVAR_PARSE_ERROR_PREFIX + arg.value, Logger.Error) else [])
    + Logger.FmtLine(description, Logger.Cvar)
  }

  /** The two lines a cvar line logs, appended one after the other, are its `CvarLog`. */
  lemma CvarLogAppended(before: seq<Logger.LogMessage>, after: seq<Logger.LogMessage>, arg: Option<string>,
                        parsed: Option<Cvars.CvarValue>, description: string)
    requires after == (if arg.Some? && parsed.None? then before + Logger.FmtLine(CVAR_PARSE_ERROR_PREFIX + arg.value, Logger.Error)
                       else before) + Logger.FmtLine(description, Logger.Cvar)
    ensures after == before + CvarLog(arg, parsed, description)
  {
    if arg.Some? && parsed.None? {
      var error := Logger.FmtLine(CVAR_PARSE_ERROR_PREFIX + arg.value, Logger.Error);
      assert before + error + Logger.FmtLine(description, Logger.Cvar) == before + (error + Logger.FmtLine(description, Logger.Cvar));
    }
  }

  /** `get_cvar_id_from_str` of the line's first word: the registered cvar it names, if any. */
  function CvarOf(cvars: map<nat, Cvars.ConfigVariable>, names: map<string, nat>, input: string): (id: Option<nat>)
    ensures id.Some? ==> id.value in cvars
  {
    var word := FirstWord(input);
    if word in names && names[word] in cvars then Some(names[word]) else None
  }

  /**
   * What submitting a non-empty line logs: the line itself, then the cvar's report for a cvar
   * word, or the error for a word that is neither a cvar nor a command.
   */
  function SubmitLog(input: string, cvars: map<nat, Cvars.ConfigVariable>, names: map<string, nat>,
                     parsed: Option<Cvars.CvarValue>): seq<Logger.LogMessage>
  {
    Logger.FmtLine(input, Logger.Input)
    + match CvarOf(cvars, names, input)
      case Some(id) => CvarLog(SecondWord(input), parsed, cvars[id].description)
      case None =>
        if InputCommand(FirstWord(input)) == Unknown
        then Logger.FmtLine(UNKNOWN_COMMAND_PREFIX + input, Logger.Error)
        else []
  }

  /** The cvars after submitting a line: a cvar word with a parsed argument stores it. */
  function CvarsAfterSubmit(cvars: map<nat, Cvars.ConfigVariable>, names: map<string, nat>, input: string,
                            parsed: Option<Cvars.CvarValue>): map<nat, Cvars.ConfigVariable>
  {
    match CvarOf(cvars, names, input)
    case Some(id) => if SecondWord(input).Some? && parsed.Some? then Cvars.StoreValue(cvars, id, parsed.value) else cvars
    case None => cvars
  }

  /** A line quits when its first word names no cvar and is "exit" or "quit" in any letter case. */
  function QuitRequested(cvars: map<nat, Cvars.ConfigVariable>, names: map<string, nat>, input: string): bool
  {
    CvarOf(cvars, names, input).None? && InputCommand(FirstWord(input)) == Quit
  }

  /**
   * "name arg" for a registered cvar: when `arg` parses as a value of the cvar's own type, the cvar
   * reads it back and only the line and the description are logged; when it does not parse, nothing
   * changes and the parse error comes between them. A cvar line never quits.
   */
  lemma CvarAssignment(cvars: map<nat, Cvars.ConfigVariable>, names: map<string, nat>, name: string, arg: string,
                       parsed: Option<Cvars.CvarValue>)
    requires ' ' !in name && name in names && names[name] in cvars
    requires parsed.Some? ==> parsed.value.Float? == cvars[names[name]].value.Float?
    requires parsed.Some? && parsed.value.Integer? ==> parsed.value.n <= U32_MAX
    ensures var id, line := names[name], name + " " + arg;
            && !QuitRequested(cvars, names, line)
            && (parsed.Some? ==>
                  && CvarsAfterSubmit(cvars, names, line, parsed)[id].value == parsed.value
                  && (forall other :: other in cvars && other != id ==> CvarsAfterSubmit(cvars, names, line, parsed)[other] == cvars[other])
                  && SubmitLog(line, cvars, names, parsed)
                     == Logger.FmtLine(line, Logger.Input) + Logger.FmtLine(cvars[id].description, Logger.Cvar))
            && (parsed.None? ==>
                  && CvarsAfterSubmit(cvars, names, line, parsed) == cvars
                  && SubmitLog(line, cvars, names, parsed)
                     == Logger.FmtLine(line, Logger.Input)
                        + Logger.FmtLine(CVAR_PARSE_ERROR_PREFIX + FirstWord(arg), Logger.Error)
                        + Logger.FmtLine(cvars[id].description, Logger.Cvar))
  {
    var id, line := names[name], name + " " + arg;
    SecondWordOf(name, arg);
    assert CvarOf(cvars, names, line) == Some(id);
    CvarLineSubmitted(cvars, names, line, id, parsed);
    var input, description := Logger.FmtLine(line, Logger.Input), Logger.FmtLine(cvars[id].description, Logger.Cvar);
    if parsed.Some? {
      assert CvarLog(Some(FirstWord(arg)), parsed, cvars[id].description) == description;
      Cvars.StoreValueChangesOnlyOne(cvars, id, parsed.value);
      Cvars.SetValueReadsBack(cvars[id].value, parsed.value);
    } else {
      var error := Logger.FmtLine(CVAR_PARSE_ERROR_PREFIX + FirstWord(arg), Logger.Error);
      assert CvarLog(Some(FirstWord(arg)), parsed, cvars[id].description) == error + description;
      assert input + (error + description) == input + error + description;
    }
  }

  /** A line whose first word names a registered cvar is submitted as that cvar's line. */
  lemma CvarLineSubmitted(cvars: map<nat, Cvars.ConfigVariable>, names: map<string, nat>, line: string, id: nat,
                          parsed: Option<Cvars.CvarValue>)
    requires CvarOf(cvars, names, line) == Some(id)
    ensures !QuitRequested(cvars, names, line)
    ensures SubmitLog(line, cvars, names, parsed)
            == Logger.FmtLine(line, Logger.Input) + CvarLog(SecondWord(line), parsed, cvars[id].description)
    ensures CvarsAfterSubmit(cvars, names, line, parsed)
            == if SecondWord(line).Some? && parsed.Some? then Cvars.StoreValue(cvars, id, parsed.value) else cvars
  {
  }

  /** A cvar name alone changes nothing and logs the line and the cvar's description. */
  lemma CvarQuery(cvars: map<nat, Cvars.ConfigVariable>, names: map<string, nat>, name: string,
                  parsed: Option<Cvars.CvarValue>)
    requires ' ' !in name && name in names && names[name] in cvars
    ensures CvarsAfterSubmit(cvars, names, name, parsed) == cvars
    ensures SubmitLog(name, cvars, names, parsed)
            == Logger.FmtLine(name, Logger.Input) + Logger.FmtLine(cvars[names[name]].description, Logger.Cvar)
  {
    FirstWordOf(name, []);
    assert name + [] == name;
    assert SecondWord(name).None?;
    CvarLineSubmitted(cvars, names, name, names[name], parsed);
  }

  /** The editor after the typed character, if any, is appended to the line. */
  function Typed(s: LineEditor, typed: Option<char>): (r: LineEditor)
    ensures Browsable(s) ==> Browsable(r)
  {
    if typed.Some? then s.(buffer := s.buffer + [typed.value]) else s
  }

  /** Backspace: the line loses its last character, if it has one. */
  function Erased(s: LineEditor): (r: LineEditor)
    ensures Browsable(s) ==> Browsable(r)
  {
    if |s.buffer| > 0 then s.(buffer := s.buffer[..|s.buffer| - 1]) else s
  }

  /** Typing a character and erasing it again gives back the editor. */
  lemma TypedThenErased(s: LineEditor, c: char)
    ensures Erased(Typed(s, Some(c))) == s
  {
    assert (s.buffer + [c])[..|s.buffer|] == s.buffer;
  }

  class Console {
    var inputHistory: seq<string>
    var inputHistoryIndex: nat
    var scroll: nat
    var active: bool
    var inputBuffer: seq<char>
    var inputIndex: nat
    var currentDrawOffset: real
    var shiftActive: bool
    var caretVisible: bool
    var caretDelta: real

    function Editor(): LineEditor
      reads this
    {
      LineEditor(inputHistory, inputHistoryIndex, inputBuffer)
    }

    /** The caret index is the buffer length, and the history stash is consistent. */
    ghost predicate Valid()
      reads this
    {
      inputIndex == |inputBuffer| && Browsable(Editor())
    }

    constructor ()
      ensures Valid()
      ensures inputHistory == [] && inputHistoryIndex == 0 && scroll == 0 && !active
      ensures inputBuffer == [] && inputIndex == 0 && currentDrawOffset == 1.0
      ensures !caretVisible && caretDelta == 0.0 && !shiftActive
    {
      inputHistory := [];
      inputHistoryIndex := 0;
      scroll := 0;
      active := false;
      inputBuffer := [];
      inputIndex := 0;
      currentDrawOffset := 1.0;
      caretVisible := false;
      caretDelta := 0.0;
      shiftActive := false;
    }

    /** The console is on screen while it has not slid fully out. */
    function IsVisible(): (visible: bool)
      reads this
      ensures visible <==> currentDrawOffset < 1.0
    {
      currentDrawOffset < 1.0
    }

    method ResetCaret()
      modifies this
      ensures caretVisible && caretDelta == 0.0
      ensures inputHistory == old(inputHistory) && inputHistoryIndex == old(inputHistoryIndex)
      ensures inputBuffer == old(inputBuffer) && inputIndex == old(inputIndex) && scroll == old(scroll)
      ensures active == old(active) && shiftActive == old(shiftActive) && currentDrawOffset == old(currentDrawOffset)
    {
      caretVisible := true;
      caretDelta := 0.0;
    }

    method Toggle()
      modifies this
      ensures active == !old(active) && scroll == 0
      ensures Editor() == old(Editor()) && inputIndex == old(inputIndex)
      ensures caretVisible == old(caretVisible) && shiftActive == old(shiftActive)
    {
      active := !active;
      scroll := 0;
    }

    method HandleUp()
      requires Valid()
      modifies this
      ensures Valid()
      ensures Editor() == HistoryUp(old(Editor()))
      ensures scroll == old(scroll) && active == old(active) && caretVisible == old(caretVisible)
    {
      if inputHistoryIndex == 0 {
        inputHistory := inputHistory + [inputBuffer];
      }
      inputHistoryIndex := inputHistoryIndex + 1;
      if |inputHistory| > inputHistoryIndex {
        inputBuffer := inputHistory[|inputHistory| - inputHistoryIndex - 1];
      } else {
        inputHistoryIndex := 0;
        inputBuffer := inputHistory[|inputHistory| - 1];
        inputHistory := inputHistory[..|inputHistory| - 1];
      }
      inputIndex := |inputBuffer|;
    }

    method HandleDown()
      requires Valid()
      modifies this
      ensures Valid()
      ensures Editor() == HistoryDown(old(Editor()))
      ensures scroll == old(scroll) && active == old(active) && caretVisible == old(caretVisible)
    {
      if inputHistoryIndex == 0 {
        return;
      }
      inputHistoryIndex := inputHistoryIndex - 1;
      if inputHistoryIndex == 0 {
        inputBuffer := inputHistory[|inputHistory| - 1];
        inputHistory := inputHistory[..|inputHistory| - 1];
      } else {
        inputBuffer := inputHistory[|inputHistory| - inputHistoryIndex - 1];
      }
      inputIndex := |inputBuffer|;
    }

    method ScrollUp(logLength: nat)
      modifies this
      ensures scroll == ScrollUpTo(old(scroll), logLength)
      ensures Editor() == old(Editor()) && inputIndex == old(inputIndex) && active == old(active)
      ensures caretVisible == old(caretVisible) && shiftActive == old(shiftActive)
    {
      scroll := scroll + SCROLL_LINES;
      if scroll > logLength {
        scroll := logLength;
      }
    }

    method ScrollDown()
      modifies this
      ensures scroll == ScrollDownFrom(old(scroll))
      ensures Editor() == old(Editor()) && inputIndex == old(inputIndex) && active == old(active)
      ensures caretVisible == old(caretVisible) && shiftActive == old(shiftActive)
    {
      if scroll >= SCROLL_LINES {
        scroll := scroll - SCROLL_LINES;
      } else {
        scroll := 0;
      }
    }

    /**
     * `_handle_input`: the scroll always resets; an empty line does nothing else. A non-empty line is
     * logged, run as a cvar assignment or a command, and moved into the history. `parsed` is the
     * line's second word as `str::parse` reads it for the cvar's type, None when it does not parse.
     */
    method HandleInput(cfg: Cvars.ConfigVariables, log: Logger.Logger, parsed: Option<Cvars.CvarValue>)
      returns (signal: ControlSignal)
      requires Valid() && cfg.Valid()
      modifies this, log, cfg
      ensures Valid() && cfg.Valid() && cfg.cvarStrToId == old(cfg.cvarStrToId)
      ensures scroll == 0 && active == old(active)
      ensures old(inputBuffer) == [] ==>
                Editor() == old(Editor()) && log.history == old(log.history) && cfg.idToCvar == old(cfg.idToCvar) && !signal.quit
      ensures old(inputBuffer) != [] ==>
                && Editor() == SubmitLine(old(Editor()))
                && caretVisible
                && log.history == old(log.history) + SubmitLog(old(inputBuffer), old(cfg.idToCvar), old(cfg.cvarStrToId), parsed)
                && cfg.idToCvar == CvarsAfterSubmit(old(cfg.idToCvar), old(cfg.cvarStrToId), old(inputBuffer), parsed)
                && signal.quit == QuitRequested(old(cfg.idToCvar), old(cfg.cvarStrToId), old(inputBuffer))
    {
      scroll := 0;
      signal := ControlSignal(false);
      if |inputBuffer| == 0 {
        return;
      }
      signal := RunLine(cfg, log, inputBuffer, parsed);
      CommitLine();
    }

    /** Logs a non-empty line and runs it as a cvar assignment or a command. */
    static method RunLine(cfg: Cvars.ConfigVariables, log: Logger.Logger, input: string, parsed: Option<Cvars.CvarValue>)
      returns (signal: ControlSignal)
      requires cfg.Valid()
      modifies cfg, log
      ensures cfg.Valid() && cfg.cvarStrToId == old(cfg.cvarStrToId)
      ensures cfg.idToCvar == CvarsAfterSubmit(old(cfg.idToCvar), old(cfg.cvarStrToId), input, parsed)
      ensures log.history == old(log.history) + SubmitLog(input, old(cfg.idToCvar), old(cfg.cvarStrToId), parsed)
      ensures signal.quit == QuitRequested(old(cfg.idToCvar), old(cfg.cvarStrToId), input)
    {
      signal := ControlSignal(false);
      log.AddLine(input, Logger.Input);
      var word := FirstWord(input);
      if word in cfg.cvarStrToId {
        HandleInputCvar(cfg, log, cfg.cvarStrToId[word], SecondWord(input), parsed);
      } else {
        var command := InputCommand(word);
        match command {
          case Unknown =>
            log.AddLine(UNKNOWN_COMMAND_PREFIX + input, Logger.Error);
          case Quit =>
            signal := ControlSignal(true);
        }
      }
    }

    /**
     * `_handle_input_cvar`: an argument that parses is stored into the cvar and one that does not is
     * reported; either way the cvar's description is logged last.
     */
    static method HandleInputCvar(cfg: Cvars.ConfigVariables, log: Logger.Logger, id: nat, arg: Option<string>,
                                  parsed: Option<Cvars.CvarValue>)
      requires cfg.Valid() && id in cfg.idToCvar
      modifies cfg, log
      ensures cfg.Valid() && cfg.cvarStrToId == old(cfg.cvarStrToId)
      ensures cfg.idToCvar == if arg.Some? && parsed.Some? then Cvars.StoreValue(old(cfg.idToCvar), id, parsed.value)
                              else old(cfg.idToCvar)
      ensures log.history == old(log.history) + CvarLog(arg, parsed, old(cfg.idToCvar[id].description))
    {
      ghost var description := cfg.idToCvar[id].description;
      if arg.Some? {
        if parsed.Some? {
          var found := cfg.Set(id, parsed.value);
          Cvars.StoreValueChangesOnlyOne(old(cfg.idToCvar), id, parsed.value);
        } else {
          log.AddLine(CVAR_PARSE_ERROR_PREFIX + arg.value, Logger.Error);
        }
      }
      assert cfg.idToCvar[id].description == description;
      log.AddLine(cfg.idToCvar[id].description, Logger.Cvar);
      CvarLogAppended(old(log.history), log.history, arg, parsed, description);
    }

    /** Moves the submitted line into the history, dropping the stashed draft, and clears the line. */
    method CommitLine()
      requires Valid()
      modifies this
      ensures Valid()
      ensures Editor() == SubmitLine(old(Editor()))
      ensures caretVisible && scroll == old(scroll) && active == old(active)
    {
      if inputHistoryIndex > 0 {
        inputHistory := inputHistory[..|inputHistory| - 1];
        inputHistoryIndex := 0;
      }
      inputHistory := inputHistory + [inputBuffer];
      inputIndex := 0;
      inputBuffer := [];
      ResetCaret();
    }

    /**
     * `handle_keyboard_event`. `typed` is the character the window layer maps the key to, if any;
     * it is appended before the key's own action runs, and the action works on the extended line.
     */
    method HandleKeyboardEvent(cfg: Cvars.ConfigVariables, log: Logger.Logger, key: Key, state: ElementState,
                               typed: Option<char>, parsed: Option<Cvars.CvarValue>)
      returns (signal: ControlSignal)
      requires Valid() && cfg.Valid()
      modifies this, log, cfg
      ensures Valid() && cfg.Valid() && cfg.cvarStrToId == old(cfg.cvarStrToId)
      ensures typed.Some? ==> caretVisible
      ensures state == Pressed && (key == Return || key == NumpadEnter) ==>
                var line := Typed(old(Editor()), typed);
                && scroll == 0 && active == old(active)
                && (line.buffer == [] ==> Editor() == line && log.history == old(log.history) && cfg.idToCvar == old(cfg.idToCvar) && !signal.quit)
                && (line.buffer != [] ==>
                      && Editor() == SubmitLine(line)
                      && log.history == old(log.history) + SubmitLog(line.buffer, old(cfg.idToCvar), old(cfg.cvarStrToId), parsed)
                      && cfg.idToCvar == CvarsAfterSubmit(old(cfg.idToCvar), old(cfg.cvarStrToId), line.buffer, parsed)
                      && signal.quit == QuitRequested(old(cfg.idToCvar), old(cfg.cvarStrToId), line.buffer))
      ensures !(state == Pressed && (key == Return || key == NumpadEnter)) ==>
                log.history == old(log.history) && cfg.idToCvar == old(cfg.idToCvar) && !signal.quit
      ensures state == Pressed && key == Back ==> Editor() == Erased(Typed(old(Editor()), typed))
      ensures state == Pressed && key == Up ==> Editor() == HistoryUp(Typed(old(Editor()), typed))
      ensures state == Pressed && key == Down ==> Editor() == HistoryDown(Typed(old(Editor()), typed))
      ensures state == Pressed && key == PageUp ==>
                scroll == ScrollUpTo(old(scroll), |old(log.history)|) && Editor() == Typed(old(Editor()), typed)
      ensures state == Pressed && key == PageDown ==>
                scroll == ScrollDownFrom(old(scroll)) && Editor() == Typed(old(Editor()), typed)
      ensures state == Pressed && key == F1 ==>
                active == !old(active) && scroll == 0 && Editor() == Typed(old(Editor()), typed)
      ensures key == LShift || key == RShift ==>
                shiftActive == (state == Pressed) && Editor() == Typed(old(Editor()), typed) && scroll == old(scroll)
      ensures state == Released || key == OtherKey ==>
                Editor() == Typed(old(Editor()), typed) && scroll == old(scroll) && active == old(active)
    {
      signal := ControlSignal(false);
      if typed.Some? {
        inputBuffer := inputBuffer + [typed.value];
        inputIndex := inputIndex + 1;
        ResetCaret();
      }
      match (key, state) {
        case (Back, Pressed) =>
          if inputIndex > 0 {
            inputBuffer := inputBuffer[..|inputBuffer| - 1];
            inputIndex := inputIndex - 1;
            ResetCaret();
          }
        case (Return, Pressed) =>
          signal := HandleInput(cfg, log, parsed);
        case (NumpadEnter, Pressed) =>
          signal := HandleInput(cfg, log, parsed);
        case (LShift, Pressed) =>
          shiftActive := true;
        case (RShift, Pressed) =>
          shiftActive := true;
        case (LShift, Released) =>
          shiftActive := false;
        case (RShift, Released) =>
          shiftActive := false;
        case (Up, Pressed) =>
          HandleUp();
        case (Down, Pressed) =>
          HandleDown();
        case (PageUp, Pressed) =>
          ScrollUp(log.Len());
        case (PageDown, Pressed) =>
          ScrollDown();
        case (F1, Pressed) =>
          Toggle();
        case _ =>
      }
    }
  }
}

=== FILE: cvars.dfy ===
/**
 * Config variables ("cvars"): a registry of named, typed settings addressed by numeric id, with a
 * reverse map from name to id.
 */
module Cvars {
  import opened Wrappers

  const M_SENSITIVITY: nat := 1000
  const M_YAW: nat := 1001
  const M_PITCH: nat := 1002

  /** A boxed cvar value; its variant is the slot's type, fixed when the cvar is registered. */
  datatype CvarValue = Float(f: real) | Integer(n: nat)

  datatype ConfigVariable = ConfigVariable(name: string, value: CvarValue, default: CvarValue, description: string)

  /** `ConfigVariable::new`: value and default both start at the given default. */
  function NewConfigVariable(name: string, default: CvarValue, description: string): (cvar: ConfigVariable)
    ensures cvar.value == cvar.default == default
    ensures cvar.name == name && cvar.description == description
  {
    ConfigVariable(name, default, default, description)
  }

  /** Rust's `f as u32`: truncation toward zero, saturating at 0 and at `u32::MAX`. */
  function SaturatingU32(f: real): (n: nat)
    ensures n <= U32_MAX
    ensures 0.0 <= f <= U32_MAX as real ==> n as real <= f < n as real + 1.0
    ensures f < 0.0 ==> n == 0
    ensures f > U32_MAX as real ==> n == U32_MAX
  {
    if f < 0.0 then 0 else if f > U32_MAX as real then U32_MAX else f.Floor
  }

  function GetFloat(v: CvarValue): real
  {
    match v
    case Float(f) => f
    case Integer(n) => n as real
  }

  function GetInt(v: CvarValue): (n: nat)
    ensures v.Integer? ==> n == v.n
    ensures v.Float? ==> n == SaturatingU32(v.f)
  {
    match v
    case Float(f) => SaturatingU32(f)
    case Integer(n) => n
  }

  /** `CvarValue::set`: the slot keeps its type and takes the new value converted to that type. */
  function SetValue(slot: CvarValue, val: CvarValue): (r: CvarValue)
    ensures r.Float? == slot.Float?
    ensures r.Float? ==> r.f == GetFloat(val)
    ensures r.Integer? ==> r.n == GetInt(val)
  {
    match slot
    case Float(_) => Float(GetFloat(val))
    case Integer(_) => Integer(GetInt(val))
  }

  /** A u32 stored into an integer slot, or a value of the slot's own type, reads back unchanged. */
  lemma SetValueReadsBack(slot: CvarValue, val: CvarValue)
    requires slot.Float? == val.Float?
    requires val.Integer? ==> val.n <= U32_MAX
    ensures SetValue(slot, val) == val
  {
  }

  /** 2^24: every u32 up to it is exactly an f32, so `as f32` does not round it. */
  const F32_EXACT_INTEGER_LIMIT: nat := 0x100_0000

  /**
   * An integer up to 2^24 stored into a float slot reads back unchanged through `get_int`. Above
   * 2^24, `as f32` rounds, which the exact arithmetic of this model does not show.
   */
  lemma IntegerThroughFloatSlot(f: real, n: nat)
    requires n <= F32_EXACT_INTEGER_LIMIT
    ensures GetInt(SetValue(Float(f), Integer(n))) == n
  {
    assert (n as real).Floor == n;
  }

  /** The names of distinct registered cvars differ. */
  ghost predicate NamesDistinct(idToCvar: map<nat, ConfigVariable>)
  {
    forall a, b :: a in idToCvar && b in idToCvar && a != b ==> idToCvar[a].name != idToCvar[b].name
  }

  /** The reverse map `cvar_str_to_id`: each registered name to its id. */
  function NameToId(idToCvar: map<nat, ConfigVariable>): (m: map<string, nat>)
    requires NamesDistinct(idToCvar)
    ensures forall id :: id in idToCvar ==> idToCvar[id].name in m && m[idToCvar[id].name] == id
    ensures forall name :: name in m ==> m[name] in idToCvar && idToCvar[m[name]].name == name
  {
    map id | id in idToCvar :: idToCvar[id].name := id
  }

  function InitialCvars(): map<nat, ConfigVariable>
  {
    map[M_SENSITIVITY := NewConfigVariable("m_sensitivity", Float(0.08), "Mouse sensitivity"),
        M_YAW := NewConfigVariable("m_yaw", Float(0.01), "Mouse yaw"),
        M_PITCH := NewConfigVariable("m_pitch", Float(0.01), "Mouse pitch")]
  }

  /** The three built-in cvars have distinct names, so the name map is well defined. */
  lemma InitialNamesDistinct()
    ensures NamesDistinct(InitialCvars())
  {
    var m := InitialCvars();
    assert m.Keys == {M_SENSITIVITY, M_YAW, M_PITCH};
    assert m[M_SENSITIVITY].name[2] == 's' && m[M_YAW].name[2] == 'y' && m[M_PITCH].name[2] == 'p';
  }

  /** `new` maps the names m_sensitivity, m_yaw and m_pitch back to ids 1000, 1001 and 1002. */
  lemma InitialNameToId()
    ensures NamesDistinct(InitialCvars())
    ensures NameToId(InitialCvars()) == map["m_sensitivity" := M_SENSITIVITY, "m_yaw" := M_YAW, "m_pitch" := M_PITCH]
  {
    InitialNamesDistinct();
    var m := InitialCvars();
    var inverse := NameToId(m);
    assert m.Keys == {M_SENSITIVITY, M_YAW, M_PITCH};
    assert inverse.Keys == {"m_sensitivity", "m_yaw", "m_pitch"} by {
      forall name | name in inverse ensures name in {"m_sensitivity", "m_yaw", "m_pitch"} {
        assert inverse[name] in m.Keys;
      }
      assert m[M_SENSITIVITY].name == "m_sensitivity" && m[M_YAW].name == "m_yaw" && m[M_PITCH].name == "m_pitch";
    }
  }

  /** The registry after storing `val` into cvar `id`; an unknown id leaves it as it was. */
  function StoreValue(cvars: map<nat, ConfigVariable>, id: nat, val: CvarValue): map<nat, ConfigVariable>
  {
    if id in cvars then cvars[id := cvars[id].(value := SetValue(cvars[id].value, val))] else cvars
  }

  /**
   * Storing changes only the value of cvar `id`, to the new value converted to its type; names,
   * defaults, descriptions and every other cvar stay the same.
   */
  lemma StoreValueChangesOnlyOne(cvars: map<nat, ConfigVariable>, id: nat, val: CvarValue)
    ensures StoreValue(cvars, id, val).Keys == cvars.Keys
    ensures id in cvars ==> StoreValue(cvars, id, val)[id].value == SetValue(cvars[id].value, val)
    ensures forall other :: other in cvars ==>
              && StoreValue(cvars, id, val)[other].name == cvars[other].name
              && StoreValue(cvars, id, val)[other].default == cvars[other].default
              && StoreValue(cvars, id, val)[other].description == cvars[other].description
              && (other != id ==> StoreValue(cvars, id, val)[other] == cvars[other])
  {
  }

  class ConfigVariables {
    var idToCvar: map<nat, ConfigVariable>
    var cvarStrToId: map<string, nat>

    /** The name map is the exact inverse of the id map. */
    ghost predicate Valid()
      reads this
    {
      && NamesDistinct(idToCvar)
      && (forall id :: id in idToCvar ==> idToCvar[id].name in cvarStrToId && cvarStrToId[idToCvar[id].name] == id)
      && (forall name :: name in cvarStrToId ==> cvarStrToId[name] in idToCvar && idToCvar[cvarStrToId[name]].name == name)
    }

    constructor ()
      ensures Valid()
      ensures idToCvar == InitialCvars()
      ensures cvarStrToId == map["m_sensitivity" := M_SENSITIVITY, "m_yaw" := M_YAW, "m_pitch" := M_PITCH]
    {
      InitialNameToId();
      idToCvar := InitialCvars();
      cvarStrToId := NameToId(InitialCvars());
    }

    /** `get`: the current value of a registered cvar; None where the engine panics on an unknown id. */
    function Get(id: nat): (r: Option<CvarValue>)
      reads this
      ensures r.Some? <==> id in idToCvar
      ensures r.Some? ==> r.value == idToCvar[id].value
    {
      if id in idToCvar then Some(idToCvar[id].value) else None
    }

    /**
     * `set`: only the value of cvar `id` changes, converted to that cvar's type. `found` is false
     * where the engine panics on an unknown id, and then nothing changes.
     */
    method Set(id: nat, val: CvarValue) returns (found: bool)
      requires Valid()
      modifies this
      ensures Valid()
      ensures found <==> id in old(idToCvar)
      ensures idToCvar == StoreValue(old(idToCvar), id, val) && cvarStrToId == old(cvarStrToId)
    {
      found := id in idToCvar;
      if found {
        var cvar := idToCvar[id];
        idToCvar := idToCvar[id := cvar.(value := SetValue(cvar.value, val))];
      }
    }
  }
}

=== FILE: dungeon.dfy ===
/**
 * The dungeon crawler's block: a 16 by 16 grid of cells, each with a floor, a roof and up to four
 * walls. Setting a cell builds all four walls and then removes every wall it shares with an
 * occupied neighbour, on both sides, so that a wall stands exactly where a cell meets empty space.
 */
module Dungeon {
  import opened Wrappers
  import Scenes

  const BLOCK_WIDTH: int := 16
  const BLOCK_HEIGHT: int := 16
  const BLOCK_SIZE: int := BLOCK_WIDTH * BLOCK_HEIGHT

  datatype Vec3 = Vec3(x: real, y: real, z: real)
  datatype Color = Color(r: real, g: real, b: real, a: real)
  datatype Axis = XAxis | YAxis

  /** A piece of the cell: its mesh, and its transform as a translation after a rotation about one axis. */
  datatype Geometry = Geometry(mesh: Scenes.Mesh, translation: Vec3, axis: Axis, degrees: int, color: Color)

  datatype Cell = Cell(floor: Geometry, roof: Geometry,
                       northWall: Option<Geometry>, eastWall: Option<Geometry>,
                       westWall: Option<Geometry>, southWall: Option<Geometry>)

  /** The four sides of a cell; north is toward smaller y. */
  datatype Side = West | East | North | South
  {
    function Opposite(): Side
    {
      match this
      case West => East
      case East => West
      case North => South
      case South => North
    }

    /** The neighbour's column and row on this side. */
    function NeighbourX(x: int): int
    {
      match this
      case West => x - 1
      case East => x + 1
      case _ => x
    }

    function NeighbourY(y: int): int
    {
      match this
      case North => y - 1
      case South => y + 1
      case _ => y
    }
  }

  function Wall(cell: Cell, side: Side): Option<Geometry>
  {
    match side
    case West => cell.westWall
    case East => cell.eastWall
    case North => cell.northWall
    case South => cell.southWall
  }

  /** The cell without its wall on `side`; nothing else changes. */
  function ClearWall(cell: Cell, side: Side): (cleared: Cell)
    ensures Wall(cleared, side).None?
    ensures forall other: Side :: other != side ==> Wall(cleared, other) == Wall(cell, other)
    ensures cleared.floor == cell.floor && cleared.roof == cell.roof
  {
    match side
    case West => cell.(westWall := None)
    case East => cell.(eastWall := None)
    case North => cell.(northWall := None)
    case South => cell.(southWall := None)
  }

  /** Floors and roofs are drawn 0.3 darker than the walls, alpha untouched. */
  function Shade(color: Color): Color
  {
    Color(color.r - 0.3, color.g - 0.3, color.b - 0.3, color.a)
  }

  /**
   * The cell `set` builds before clearing: floor at height 0 and roof at height 1 over the cell's
   * centre, and the four walls half a unit off centre, each turned to face into the cell.
   */
  function BuildCell(x: int, y: int, color: Color, floorMesh: Scenes.Mesh, wallMesh: Scenes.Mesh): (cell: Cell)
    ensures forall side: Side :: Wall(cell, side).Some?
    ensures cell.floor.translation == Vec3(x as real, 0.0, y as real) && cell.roof.translation == Vec3(x as real, 1.0, y as real)
    ensures cell.floor.color == cell.roof.color == Shade(color)
    ensures cell.floor.mesh == cell.roof.mesh == floorMesh
    ensures forall side: Side :: && Wall(cell, side).value.mesh == wallMesh && Wall(cell, side).value.color == color
                           && Wall(cell, side).value.axis == YAxis
                           && Wall(cell, side).value.translation
                              == Vec3((x as real + side.NeighbourX(x) as real) / 2.0, 0.5, (y as real + side.NeighbourY(y) as real) / 2.0)
  {
    var fx, fy := x as real, y as real;
    Cell(Geometry(floorMesh, Vec3(fx, 0.0, fy), XAxis, -90, Shade(color)),
         Geometry(floorMesh, Vec3(fx, 1.0, fy), XAxis, 90, Shade(color)),
         Some(Geometry(wallMesh, Vec3(fx, 0.5, fy - 0.5), YAxis, 0, color)),
         Some(Geometry(wallMesh, Vec3(fx + 0.5, 0.5, fy), YAxis, -90, color)),
         Some(Geometry(wallMesh, Vec3(fx - 0.5, 0.5, fy), YAxis, 90, color)),
         Some(Geometry(wallMesh, Vec3(fx, 0.5, fy + 0.5), YAxis, 180, color)))
  }

  predicate InGrid(x: int, y: int)
  {
    0 <= x < BLOCK_WIDTH && 0 <= y < BLOCK_HEIGHT
  }

  /** Row-major: cell (x, y) lives at y * 16 + x, a different slot for every cell. */
  function Index(x: int, y: int): (i: int)
    requires InGrid(x, y)
    ensures 0 <= i < BLOCK_SIZE
  {
    y * BLOCK_WIDTH + x
  }

  lemma IndexInjective(x: int, y: int, a: int, b: int)
    requires InGrid(x, y) && InGrid(a, b) && Index(x, y) == Index(a, b)
    ensures x == a && y == b
  {
  }

  /** The cell at (x, y); everything off the grid counts as empty. */
  function At(grid: seq<Option<Cell>>, x: int, y: int): Option<Cell>
    requires |grid| == BLOCK_SIZE
  {
    if InGrid(x, y) then grid[Index(x, y)] else None
  }

  /** Every occupied cell has a wall on a side exactly when the neighbour on that side is empty or off the grid. */
  ghost predicate WallsFaceEmptiness(grid: seq<Option<Cell>>)
    requires |grid| == BLOCK_SIZE
  {
    forall x, y, side: Side :: WallFacesEmptiness(grid, x, y, side)
  }

  /** The wall of (x, y) on `side`, if the cell is occupied, stands exactly when that neighbour is empty. */
  ghost predicate WallFacesEmptiness(grid: seq<Option<Cell>>, x: int, y: int, side: Side)
    requires |grid| == BLOCK_SIZE
  {
    At(grid, x, y).Some? ==>
      (Wall(At(grid, x, y).value, side).Some? <==> At(grid, side.NeighbourX(x), side.NeighbourY(y)).None?)
  }

  /**
   * One of the four clearing steps: when the neighbour on `side` is occupied, the new cell loses its
   * wall on that side and the neighbour its wall on the opposite side.
   */
  function ClearShared(grid: seq<Option<Cell>>, x: int, y: int, side: Side, cell: Cell): (seq<Option<Cell>>, Cell)
    requires |grid| == BLOCK_SIZE
  {
    var nx, ny := side.NeighbourX(x), side.NeighbourY(y);
    if InGrid(nx, ny) && grid[Index(nx, ny)].Some? then
      (grid[Index(nx, ny) := Some(ClearWall(grid[Index(nx, ny)].value, side.Opposite()))], ClearWall(cell, side))
    else (grid, cell)
  }

  /** `Block::set` on the grid's contents: clear toward west, east, north and south, then store the cell. */
  function GridAfterSet(grid: seq<Option<Cell>>, x: int, y: int, cell: Cell): (after: seq<Option<Cell>>)
    requires |grid| == BLOCK_SIZE && InGrid(x, y)
    ensures |after| == BLOCK_SIZE
  {
    var (g1, c1) := ClearShared(grid, x, y, West, cell);
    var (g2, c2) := ClearShared(g1, x, y, East, c1);
    var (g3, c3) := ClearShared(g2, x, y, North, c2);
    var (g4, c4) := ClearShared(g3, x, y, South, c3);
    g4[Index(x, y) := Some(c4)]
  }

  /** (a, b) shares a side with (x, y). */
  predicate Adjacent(a: int, b: int, x: int, y: int)
  {
    (a == x && (b == y - 1 || b == y + 1)) || (b == y && (a == x - 1 || a == x + 1))
  }

  /**
   * What `set` leaves at (a, b): at (x, y) the new cell without the walls toward occupied
   * neighbours; at an occupied neighbour, that neighbour without the wall facing (x, y); anywhere
   * else, what was there.
   */
  lemma {:induction false} AtAfterSet(grid: seq<Option<Cell>>, x: int, y: int, cell: Cell, a: int, b: int)
    requires |grid| == BLOCK_SIZE && InGrid(x, y)
    ensures var after := GridAfterSet(grid, x, y, cell);
            && (a == x && b == y ==>
                  && At(after, a, b).Some? && At(after, a, b).value.floor == cell.floor && At(after, a, b).value.roof == cell.roof
                  && forall side: Side :: Wall(At(after, a, b).value, side)
                                    == if At(grid, side.NeighbourX(x), side.NeighbourY(y)).Some? then None else Wall(cell, side))
            && (forall side: Side :: a == side.NeighbourX(x) && b == side.NeighbourY(y) ==>
                  At(after, a, b) == if At(grid, a, b).Some? then Some(ClearWall(At(grid, a, b).value, side.Opposite())) else None)
            && ((a != x || b != y) && !Adjacent(a, b, x, y) ==> At(after, a, b) == At(grid, a, b))
  {
    var (g1, c1) := ClearShared(grid, x, y, West, cell);
    var (g2, c2) := ClearShared(g1, x, y, East, c1);
    var (g3, c3) := ClearShared(g2, x, y, North, c2);
    var (g4, c4) := ClearShared(g3, x, y, South, c3);
    var after := GridAfterSet(grid, x, y, cell);
    assert after == g4[Index(x, y) := Some(c4)];
    if InGrid(a, b) {
      forall a', b' | InGrid(a', b') && Index(a', b') == Index(a, b)
        ensures a' == a && b' == b
      {
        IndexInjective(a', b', a, b);
      }
    }
  }

  /**
   * Setting a fully walled cell keeps every wall facing emptiness: the new cell loses exactly the
   * walls toward occupied neighbours, and each of those neighbours loses the wall facing it.
   */
  lemma SetKeepsWallsFacingEmptiness(grid: seq<Option<Cell>>, x: int, y: int, cell: Cell)
    requires |grid| == BLOCK_SIZE && InGrid(x, y) && WallsFaceEmptiness(grid)
    requires forall side: Side :: Wall(cell, side).Some?
    ensures WallsFaceEmptiness(GridAfterSet(grid, x, y, cell))
  {
    forall a, b, side: Side
      ensures WallFacesEmptiness(GridAfterSet(grid, x, y, cell), a, b, side)
    {
      SetKeepsWallFacingEmptiness(grid, x, y, cell, a, b, side);
    }
  }

  /** One wall of one cell of `SetKeepsWallsFacingEmptiness`. */
  lemma SetKeepsWallFacingEmptiness(grid: seq<Option<Cell>>, x: int, y: int, cell: Cell, a: int, b: int, side: Side)
    requires |grid| == BLOCK_SIZE && InGrid(x, y) && WallsFaceEmptiness(grid)
    requires forall side: Side :: Wall(cell, side).Some?
    ensures WallFacesEmptiness(GridAfterSet(grid, x, y, cell), a, b, side)
  {
    assert WallFacesEmptiness(grid, a, b, side);
    AtAfterSet(grid, x, y, cell, a, b);
    AtAfterSet(grid, x, y, cell, side.NeighbourX(a), side.NeighbourY(b));
  }

  /** `DrawCommand::new_buffered`: a pipeline, and the mesh and push constant of one geometry. */
  datatype DrawCommand = DrawCommand(pipeline: nat, geometry: Geometry)

  function WallCommand(pipeline: nat, wall: Option<Geometry>): seq<DrawCommand>
  {
    if wall.Some? then [DrawCommand(pipeline, wall.value)] else []
  }

  /** One cell's commands: floor, roof, then whichever of the west, east, north and south walls stand. */
  function CellCommands(pipeline: nat, slot: Option<Cell>): seq<DrawCommand>
  {
    if slot.None? then []
    else
      var cell := slot.value;
      [DrawCommand(pipeline, cell.floor), DrawCommand(pipeline, cell.roof)]
      + WallCommand(pipeline, cell.westWall) + WallCommand(pipeline, cell.eastWall)
      + WallCommand(pipeline, cell.northWall) + WallCommand(pipeline, cell.southWall)
  }

  /** The commands for the first slots, in grid order. */
  function GridCommands(pipeline: nat, slots: seq<Option<Cell>>): seq<DrawCommand>
  {
    if |slots| == 0 then [] else GridCommands(pipeline, slots[..|slots| - 1]) + CellCommands(pipeline, slots[|slots| - 1])
  }

  /** How many of the four neighbours of (x, y) are empty or off the grid. */
  function EmptySides(grid: seq<Option<Cell>>, x: int, y: int): nat
    requires |grid| == BLOCK_SIZE
  {
    (if At(grid, x - 1, y).None? then 1 else 0) + (if At(grid, x + 1, y).None? then 1 else 0)
    + (if At(grid, x, y - 1).None? then 1 else 0) + (if At(grid, x, y + 1).None? then 1 else 0)
  }

  /**
   * In a block whose walls face emptiness, an occupied cell draws its floor and roof and then exactly
   * the walls toward empty or off-grid neighbours, between two and six commands.
   */
  lemma DrawnWallsFaceEmptiness(pipeline: nat, grid: seq<Option<Cell>>, x: int, y: int)
    requires |grid| == BLOCK_SIZE && WallsFaceEmptiness(grid) && At(grid, x, y).Some?
    ensures var cell := At(grid, x, y).value;
            var commands := CellCommands(pipeline, At(grid, x, y));
            && |commands| == 2 + EmptySides(grid, x, y) <= 6
            && commands[..2] == [DrawCommand(pipeline, cell.floor), DrawCommand(pipeline, cell.roof)]
            && forall k :: 2 <= k < |commands| ==>
                 exists side: Side :: Wall(cell, side) == Some(commands[k].geometry) && At(grid, side.NeighbourX(x), side.NeighbourY(y)).None?
  {
    var cell := At(grid, x, y).value;
    var commands := CellCommands(pipeline, At(grid, x, y));
    assert WallFacesEmptiness(grid, x, y, West);
    assert WallFacesEmptiness(grid, x, y, East);
    assert WallFacesEmptiness(grid, x, y, North);
    assert WallFacesEmptiness(grid, x, y, South);
    forall k | 2 <= k < |commands|
      ensures exists side: Side :: Wall(cell, side) == Some(commands[k].geometry) && At(grid, side.NeighbourX(x), side.NeighbourY(y)).None?
    {
      var walls := WallCommand(pipeline, cell.westWall) + WallCommand(pipeline, cell.eastWall)
                   + WallCommand(pipeline, cell.northWall) + WallCommand(pipeline, cell.southWall);
      assert commands == [DrawCommand(pipeline, cell.floor), DrawCommand(pipeline, cell.roof)] + walls;
      assert commands[k] in walls;
      if commands[k] in WallCommand(pipeline, cell.westWall) {
        assert Wall(cell, West) == Some(commands[k].geometry);
      } else if commands[k] in WallCommand(pipeline, cell.eastWall) {
        assert Wall(cell, East) == Some(commands[k].geometry);
      } else if commands[k] in WallCommand(pipeline, cell.northWall) {
        assert Wall(cell, North) == Some(commands[k].geometry);
      } else {
        assert Wall(cell, South) == Some(commands[k].geometry);
      }
    }
  }

  class Block {
    var grid: array<Option<Cell>>

    ghost predicate Valid()
      reads this, grid
    {
      grid.Length == BLOCK_SIZE && WallsFaceEmptiness(grid[..])
    }

    /** `Block::new`: all 256 cells empty. */
    constructor ()
      ensures Valid() && fresh(grid)
      ensures forall i :: 0 <= i < BLOCK_SIZE ==> grid[i].None?
    {
      grid := new Option<Cell>[BLOCK_SIZE](_ => None);
    }

    /**
     * `Block::set`: builds the fully walled cell, clears the walls shared with each occupied
     * neighbour on both sides, and stores the cell at (x, y), replacing whatever was there.
     */
    method Set(x: int, y: int, color: Color, floorMesh: Scenes.Mesh, wallMesh: Scenes.Mesh)
      requires Valid() && InGrid(x, y)
      modifies grid
      ensures Valid()
      ensures grid[..] == GridAfterSet(old(grid[..]), x, y, BuildCell(x, y, color, floorMesh, wallMesh))
    {
      ghost var before := grid[..];
      var cell := BuildCell(x, y, color, floorMesh, wallMesh);
      cell := ClearSharedWall(x, y, West, cell);
      cell := ClearSharedWall(x, y, East, cell);
      cell := ClearSharedWall(x, y, North, cell);
      cell := ClearSharedWall(x, y, South, cell);
      grid[Index(x, y)] := Some(cell);
      SetKeepsWallsFacingEmptiness(before, x, y, BuildCell(x, y, color, floorMesh, wallMesh));
    }

    /**
     * One `if` block of `set`'s clearing: if the neighbour on `side` is on the grid and occupied,
     * the new cell drops its wall on that side and the neighbour, in place, the opposite one.
     */
    method ClearSharedWall(x: int, y: int, side: Side, cell: Cell) returns (cleared: Cell)
      requires grid.Length == BLOCK_SIZE && InGrid(x, y)
      modifies grid
      ensures (grid[..], cleared) == ClearShared(old(grid[..]), x, y, side, cell)
    {
      cleared := cell;
      var nx, ny := side.NeighbourX(x), side.NeighbourY(y);
      if InGrid(nx, ny) {
        var neighbour := Index(nx, ny);
        if grid[neighbour].Some? {
          cleared := ClearWall(cell, side);
          grid[neighbour] := Some(ClearWall(grid[neighbour].value, side.Opposite()));
        }
      }
    }

    /** `Block::draw`: every occupied cell's commands, in grid order. */
    method Draw(pipeline: nat) returns (commands: seq<DrawCommand>)
      ensures commands == GridCommands(pipeline, grid[..])
    {
      commands := [];
      var i := 0;
      while i < grid.Length
        invariant i <= grid.Length
        invariant commands == GridCommands(pipeline, grid[..i])
      {
        var slot := grid[i];
        var cellCommands := [];
        if slot.Some? {
          var cell := slot.value;
          cellCommands := [DrawCommand(pipeline, cell.floor), DrawCommand(pipeline, cell.roof)];
          if cell.westWall.Some? {
            cellCommands := cellCommands + [DrawCommand(pipeline, cell.westWall.value)];
          }
          if cell.eastWall.Some? {
            cellCommands := cellCommands + [DrawCommand(pipeline, cell.eastWall.value)];
          }
          if cell.northWall.Some? {
            cellCommands := cellCommands + [DrawCommand(pipeline, cell.northWall.value)];
          }
          if cell.southWall.Some? {
            cellCommands := cellCommands + [DrawCommand(pipeline, cell.southWall.value)];
          }
        }
        assert cellCommands == CellCommands(pipeline, grid[i]);
        commands := commands + cellCommands;
        assert grid[..i + 1][..i] == grid[..i];
        i := i + 1;
      }
      assert grid[..i] == grid[..];
    }
  }
}

=== FILE: frametimer.dfy ===
/**
 * The frame timer: a ring of the last five frame times, in microseconds, and the time of the latest
 * frame. The clock is an input: `tick_frame` is handed the time elapsed since the previous tick.
 */
module FrameTimers {
  const SAMPLE_COUNT: nat := 5
  const MICROS_PER_SECOND: nat := 1_000_000

  /** `subsec_micros`: only the microseconds within the current second, so always below a million. */
  function SubsecMicros(elapsedMicros: nat): (micros: nat)
    ensures micros < MICROS_PER_SECOND
    ensures elapsedMicros < MICROS_PER_SECOND ==> micros == elapsedMicros
    ensures micros <= elapsedMicros && (elapsedMicros - micros) % MICROS_PER_SECOND == 0
  {
    elapsedMicros % MICROS_PER_SECOND
  }

  /** What slot `slot` holds after the ticks in `deltas`: the latest delta written there, or 0. */
  ghost function SlotValue(deltas: seq<nat>, slot: nat): nat
  {
    if |deltas| == 0 then 0
    else if (|deltas| - 1) % SAMPLE_COUNT == slot then deltas[|deltas| - 1]
    else SlotValue(deltas[..|deltas| - 1], slot)
  }

  /** The index of the latest of the first `n` ticks that wrote `slot` (negative when none did). */
  function LastWrite(n: nat, slot: nat): int
  {
    n - 1 - (n - 1 - slot) % SAMPLE_COUNT
  }

  /** A slot that has been written holds the delta of the latest tick that wrote it. */
  lemma {:induction false} LatestInSlot(deltas: seq<nat>, slot: nat)
    requires slot < SAMPLE_COUNT && 0 <= LastWrite(|deltas|, slot)
    ensures LastWrite(|deltas|, slot) < |deltas| && SlotValue(deltas, slot) == deltas[LastWrite(|deltas|, slot)]
  {
    var n := |deltas|;
    if (n - 1) % SAMPLE_COUNT != slot {
      assert (n - 1 - slot) % SAMPLE_COUNT != 0;
      assert LastWrite(n - 1, slot) == LastWrite(n, slot);
      LatestInSlot(deltas[..n - 1], slot);
    }
  }

  /**
   * Once five frames have been timed, the ring holds exactly the last five deltas: every slot holds
   * the delta of one of the last five ticks, a different one for each slot.
   */
  lemma RingHoldsLastFive(deltas: seq<nat>)
    requires |deltas| >= SAMPLE_COUNT
    ensures forall slot :: 0 <= slot < SAMPLE_COUNT ==>
              |deltas| - SAMPLE_COUNT <= LastWrite(|deltas|, slot) < |deltas|
              && SlotValue(deltas, slot) == deltas[LastWrite(|deltas|, slot)]
    ensures forall s, t :: 0 <= s < t < SAMPLE_COUNT ==> LastWrite(|deltas|, s) != LastWrite(|deltas|, t)
  {
    forall slot | 0 <= slot < SAMPLE_COUNT
      ensures |deltas| - SAMPLE_COUNT <= LastWrite(|deltas|, slot) < |deltas|
      ensures SlotValue(deltas, slot) == deltas[LastWrite(|deltas|, slot)]
    {
      LatestInSlot(deltas, slot);
    }
  }

  /** Before five frames, the slots not yet reached still hold the initial 0. */
  lemma {:induction false} UntouchedSlotsAreZero(deltas: seq<nat>, slot: nat)
    requires |deltas| <= slot < SAMPLE_COUNT
    ensures SlotValue(deltas, slot) == 0
  {
    if |deltas| > 0 {
      UntouchedSlotsAreZero(deltas[..|deltas| - 1], slot);
    }
  }

  class FrameTimer {
    var samples: array<nat>
    var currentFrame: nat
    var deltaFrame: nat
    /** Every delta recorded so far, oldest first. */
    ghost var deltas: seq<nat>

    /** The ring has five slots, the cursor is inside it, and each slot holds its latest delta. */
    ghost predicate Valid()
      reads this, samples
    {
      && samples.Length == SAMPLE_COUNT
      && currentFrame < SAMPLE_COUNT
      && currentFrame == |deltas| % SAMPLE_COUNT
      && deltaFrame < MICROS_PER_SECOND
      && (|deltas| > 0 ==> deltaFrame == deltas[|deltas| - 1])
      && (forall d :: d in deltas ==> d < MICROS_PER_SECOND)
      && forall slot :: 0 <= slot < SAMPLE_COUNT ==> samples[slot] == SlotValue(deltas, slot)
    }

    /** `FrameTimer::new`: five zero samples, the cursor at slot 0 and no frame time yet. */
    constructor ()
      ensures Valid() && fresh(samples)
      ensures samples[..] == [0, 0, 0, 0, 0]
      ensures currentFrame == 0 && deltaFrame == 0 && deltas == []
    {
      samples := new nat[SAMPLE_COUNT](_ => 0);
      currentFrame := 0;
      deltaFrame := 0;
      deltas := [];
    }

    /**
     * `tick_frame`: the frame time becomes the sub-second part of the elapsed time, is written at
     * the cursor, and the cursor moves on one slot, wrapping after the fifth.
     */
    method TickFrame(elapsedMicros: nat)
      requires Valid()
      modifies this, samples
      ensures Valid() && samples == old(samples)
      ensures deltaFrame == SubsecMicros(elapsedMicros)
      ensures deltas == old(deltas) + [deltaFrame]
      ensures samples[..] == old(samples[..])[old(currentFrame) := deltaFrame]
      ensures currentFrame == (old(currentFrame) + 1) % SAMPLE_COUNT
    {
      deltaFrame := SubsecMicros(elapsedMicros);
      samples[currentFrame] := deltaFrame;
      deltas := deltas + [deltaFrame];
      assert deltas[..|deltas| - 1] == old(deltas);
      currentFrame := (currentFrame + 1) % SAMPLE_COUNT;
    }

    /** `delta_time_sec`: the latest frame time in seconds, always under one second. */
    function DeltaTimeSec(): (seconds: real)
      reads this, samples
      requires Valid()
      ensures 0.0 <= seconds < 1.0
      ensures seconds * (MICROS_PER_SECOND as real) == deltaFrame as real
    {
      deltaFrame as real / MICROS_PER_SECOND as real
    }
  }
}

=== FILE: hud.dfy ===
/**
 * The heads-up display drawn into one dynamic vertex buffer: a banner, the version bar, the
 * render statistics and the console, all submitted to the text pipeline as a single draw command.
 * The texts are the `draw_text` calls of the widgets module, appended to the buffer's contents.
 */
module Hud {
  import opened Logger
  import opened Widgets
  import Console

  /**
   * The view-projection uniform: an identity view and the orthographic projection
   * `ortho(0, width, 0, height, -1, 1)`, kept by the window size it was built from.
   */
  datatype ViewProjectionUniform = ScreenOrtho(width: nat, height: nat)

  /** A draw of everything written to a dynamic vertex buffer, with the text pipeline. */
  datatype RawDrawCommand = RawDrawCommand(pipeline: nat, dynamicBuffer: nat)

  /** The calls of `_draw_console`: nothing while the console is hidden, else the prompt and the history. */
  function ConsoleOverlay(windowHeight: nat, visible: bool, yOffset: real, input: string, log: seq<LogMessage>, scroll: nat)
    : (requests: seq<DrawRequest>)
    requires ConsoleHeight(windowHeight) >= LINE_HEIGHT
    ensures visible <==> |requests| > 0
  {
    if !visible then []
    else
      var height := ConsoleHeight(windowHeight);
      var bottom := ConsoleBottom(windowHeight, height, SlideOffset(yOffset, height));
      [PromptRequest(bottom, input)] + HistoryRequests(bottom, ShownHistory(log, height, scroll))
  }

  /** The banner: "Foobar!!!!" at (32, 32), 128 px high, in the cvar colour. */
  const BANNER: DrawRequest := DrawText("Foobar!!!!", 32, 32, 128, TextCvar)

  class HudNg {
    const uniform: nat
    const textPipeline: nat
    const textDynamicVertexBuffer: nat
    var windowWidth: nat
    var windowHeight: nat
    /** The data last written to `uniform` (the uniform itself lives in the renderer context). */
    var viewProjection: ViewProjectionUniform

    /** The handles come from the renderer context; the uniform starts out matching the window. */
    constructor (uniform: nat, textPipeline: nat, textDynamicVertexBuffer: nat, windowWidth: nat, windowHeight: nat)
      ensures this.uniform == uniform && this.textPipeline == textPipeline
      ensures this.textDynamicVertexBuffer == textDynamicVertexBuffer
      ensures this.windowWidth == windowWidth && this.windowHeight == windowHeight
      ensures viewProjection == ScreenOrtho(windowWidth, windowHeight)
    {
      this.uniform := uniform;
      this.textPipeline := textPipeline;
      this.textDynamicVertexBuffer := textDynamicVertexBuffer;
      this.windowWidth := windowWidth;
      this.windowHeight := windowHeight;
      viewProjection := ScreenOrtho(windowWidth, windowHeight);
    }

    /** The new size is stored and the projection rebuilt for it. */
    method HandleWindowResize(width: nat, height: nat)
      modifies this
      ensures windowWidth == width && windowHeight == height
      ensures viewProjection == ScreenOrtho(width, height)
    {
      windowWidth := width;
      windowHeight := height;
      viewProjection := ScreenOrtho(width, height);
    }

    /**
     * Appends the banner, the version bar, the statistics and the console to the vertex data, and
     * exactly one draw command, of the text pipeline over the text buffer.
     */
    method Draw(vertexData: seq<DrawRequest>, commands: seq<RawDrawCommand>, console: Console.Console,
                log: seq<LogMessage>, statValues: seq<string>)
      returns (vertexData': seq<DrawRequest>, commands': seq<RawDrawCommand>)
      requires windowWidth >= 218 && windowHeight >= 24 + StatsRowOffset(5) + 2
      requires |statValues| == 6
      ensures ConsoleHeight(windowHeight) >= LINE_HEIGHT
      ensures vertexData' == vertexData + [BANNER]
              + Shadowed(VersionText(ENGINE_VERSION), windowWidth - 218, windowHeight - 24, 16, White, Black)
              + StatsRequests(8, windowHeight - 24, statValues, 6)
              + ConsoleOverlay(windowHeight, console.IsVisible(), console.currentDrawOffset, console.inputBuffer,
                               log, console.scroll)
      ensures commands' == commands + [RawDrawCommand(textPipeline, textDynamicVertexBuffer)]
    {
      vertexData' := vertexData + [BANNER];
      vertexData' := vertexData' + Shadowed(VersionText(ENGINE_VERSION), windowWidth - 218, windowHeight - 24, 16, White, Black);
      vertexData' := DrawRenderStats(vertexData', statValues);
      vertexData' := DrawConsole(vertexData', console, log);
      commands' := commands + [RawDrawCommand(textPipeline, textDynamicVertexBuffer)];
    }

    /** Six shadowed statistics lines anchored 8 px from the left and 24 px below the top. */
    method DrawRenderStats(vertexData: seq<DrawRequest>, statValues: seq<string>) returns (vertexData': seq<DrawRequest>)
      requires windowHeight >= 24 + StatsRowOffset(5) + 2
      requires |statValues| == 6
      ensures vertexData' == vertexData + StatsRequests(8, windowHeight - 24, statValues, 6)
    {
      var y := windowHeight - 24;
      vertexData' := vertexData + Shadowed(StatsLine(0, statValues[0]), 8, y, 16, White, Black);
      assert vertexData' == vertexData + StatsRequests(8, y, statValues, 1);
      vertexData' := vertexData' + Shadowed(StatsLine(1, statValues[1]), 8, y - 18, 16, White, Black);
      assert vertexData' == vertexData + StatsRequests(8, y, statValues, 2);
      vertexData' := vertexData' + Shadowed(StatsLine(2, statValues[2]), 8, y - 18 * 3, 16, White, Black);
      assert vertexData' == vertexData + StatsRequests(8, y, statValues, 3);
      vertexData' := vertexData' + Shadowed(StatsLine(3, statValues[3]), 8, y - 18 * 4, 16, White, Black);
      assert vertexData' == vertexData + StatsRequests(8, y, statValues, 4);
      vertexData' := vertexData' + Shadowed(StatsLine(4, statValues[4]), 8, y - 18 * 6, 16, White, Black);
      assert vertexData' == vertexData + StatsRequests(8, y, statValues, 5);
      vertexData' := vertexData' + Shadowed(StatsLine(5, statValues[5]), 8, y - 18 * 7, 16, White, Black);
      assert vertexData' == vertexData + StatsRequests(8, y, statValues, 6);
    }

    /** `_draw_console`: returns at once while the console is hidden; the background and caret are not drawn. */
    method DrawConsole(vertexData: seq<DrawRequest>, console: Console.Console, log: seq<LogMessage>)
      returns (vertexData': seq<DrawRequest>)
      requires ConsoleHeight(windowHeight) >= LINE_HEIGHT
      ensures vertexData' == vertexData + ConsoleOverlay(windowHeight, console.IsVisible(), console.currentDrawOffset,
                                                         console.inputBuffer, log, console.scroll)
    {
      if !console.IsVisible() {
        return vertexData;
      }
      var height := ConsoleHeight(windowHeight);
      var offset := SlideOffset(console.currentDrawOffset, height);
      var bottom := windowHeight - height + offset;
      vertexData' := vertexData + [PromptRequest(bottom, console.inputBuffer)];
      vertexData' := DrawConsoleHistory(vertexData', console.scroll, log, height, offset);
    }

    /** `_draw_console_history`: each shown line, newest first, prefix then message. */
    method DrawConsoleHistory(vertexData: seq<DrawRequest>, scroll: nat, log: seq<LogMessage>, height: nat, offset: nat)
      returns (vertexData': seq<DrawRequest>)
      requires LINE_HEIGHT <= height <= windowHeight
      ensures vertexData' == vertexData + HistoryRequests(ConsoleBottom(windowHeight, height, offset), ShownHistory(log, height, scroll))
    {
      var visible := VisibleHistoryCount(height);
      var history := GetHistory(log, visible, scroll);
      var bottom := ConsoleBottom(windowHeight, height, offset);
      ghost var shown := ShownHistory(log, height, scroll);
      assert shown == Reverse(history);
      vertexData' := vertexData;
      var i := 0;
      while i < |history|
        invariant 0 <= i <= |history| == |shown|
        invariant vertexData' == vertexData + HistoryRequests(bottom, shown[..i])
      {
        var line := history[|history| - 1 - i];
        assert line == shown[i];
        HistoryStep(bottom, shown, i);
        vertexData' := vertexData' + HistoryLine(bottom, line, i);
        i := i + 1;
      }
      assert shown[..i] == shown;
    }
  }

  /** The earlier HUD, whose draw has been emptied: it records no draw command at all. */
  class LegacyHud {
    const uniform: nat
    const mainPipeline: nat
    const textPipeline: nat
    var windowWidth: nat
    var windowHeight: nat
    var viewProjection: ViewProjectionUniform

    constructor (uniform: nat, mainPipeline: nat, textPipeline: nat, windowWidth: nat, windowHeight: nat)
      ensures this.uniform == uniform && this.mainPipeline == mainPipeline && this.textPipeline == textPipeline
      ensures this.windowWidth == windowWidth && this.windowHeight == windowHeight
      ensures viewProjection == ScreenOrtho(windowWidth, windowHeight)
    {
      this.uniform := uniform;
      this.mainPipeline := mainPipeline;
      this.textPipeline := textPipeline;
      this.windowWidth := windowWidth;
      this.windowHeight := windowHeight;
      viewProjection := ScreenOrtho(windowWidth, windowHeight);
    }

    method Draw(commands: seq<RawDrawCommand>) returns (commands': seq<RawDrawCommand>)
      ensures commands' == commands
    {
      commands' := commands;
    }

    method HandleWindowResize(width: nat, height: nat)
      modifies this
      ensures windowWidth == width && windowHeight == height
      ensures viewProjection == ScreenOrtho(width, height)
    {
      windowWidth := width;
      windowHeight := height;
      viewProjection := ScreenOrtho(width, height);
    }
  }
}

=== FILE: image.dfy ===
/**
 * Image formats and the depth attachment: the first-match choice of a format whose tiling
 * features contain the requested ones, the depth format chosen from a fixed candidate list, and
 * the parameters of the depth image the swapchain pass allocates.
 */
module Images {
  import opened Wrappers
  import Memory

  datatype Format =
    | Undefined
    | B8G8R8A8Srgb
    | B8G8R8A8Unorm
    | R32G32B32Sfloat
    | D32Sfloat
    | D32SfloatS8Uint
    | D24UnormS8Uint
    | OtherFormat(code: nat)

  datatype ImageTiling = Linear | Optimal

  datatype FormatFeature = SampledImage | ColorAttachment | DepthStencilAttachment | TransferSrc | TransferDst

  /** What the driver reports for one format. */
  datatype FormatProperties = FormatProperties(linearTilingFeatures: set<FormatFeature>,
                                               optimalTilingFeatures: set<FormatFeature>)

  /** The format offers every requested feature under the requested tiling. */
  predicate Supports(properties: FormatProperties, tiling: ImageTiling, features: set<FormatFeature>)
  {
    if tiling.Linear? then features <= properties.linearTilingFeatures
    else features <= properties.optimalTilingFeatures
  }

  /**
   * `find_supported_format` over the driver's answer for each format; None is the "Failed to
   * find supported format!" panic.
   */
  function FindSupportedFormat(candidates: seq<Format>, tiling: ImageTiling, features: set<FormatFeature>,
                               query: Format -> FormatProperties): Option<Format>
  {
    if |candidates| == 0 then None
    else if Supports(query(candidates[0]), tiling, features) then Some(candidates[0])
    else FindSupportedFormat(candidates[1..], tiling, features, query)
  }

  /**
   * The chosen format is the first candidate that supports the request; there is one exactly
   * when some candidate does.
   */
  lemma {:induction false} FindSupportedFormatIsFirst(candidates: seq<Format>, tiling: ImageTiling,
                                                      features: set<FormatFeature>, query: Format -> FormatProperties)
    ensures var r := FindSupportedFormat(candidates, tiling, features, query);
            && (r.Some? <==> exists i :: 0 <= i < |candidates| && Supports(query(candidates[i]), tiling, features))
            && (r.Some? ==> exists i :: 0 <= i < |candidates| && candidates[i] == r.value
                                        && Supports(query(candidates[i]), tiling, features)
                                        && forall j :: 0 <= j < i ==> !Supports(query(candidates[j]), tiling, features))
  {
    if |candidates| > 0 && !Supports(query(candidates[0]), tiling, features) {
      var tail := candidates[1..];
      FindSupportedFormatIsFirst(tail, tiling, features, query);
      var r := FindSupportedFormat(tail, tiling, features, query);
      if r.Some? {
        var i :| 0 <= i < |tail| && tail[i] == r.value && Supports(query(tail[i]), tiling, features)
                 && forall j :: 0 <= j < i ==> !Supports(query(tail[j]), tiling, features);
        assert candidates[i + 1] == tail[i];
        forall j | 0 <= j < i + 1 ensures !Supports(query(candidates[j]), tiling, features) {
          if j > 0 { assert candidates[j] == tail[j - 1]; }
        }
      }
      if exists i :: 0 <= i < |candidates| && Supports(query(candidates[i]), tiling, features) {
        var i :| 0 <= i < |candidates| && Supports(query(candidates[i]), tiling, features);
        assert i > 0 && tail[i - 1] == candidates[i];
      }
    }
  }

  /** The depth formats `find_depth_format` tries, most preferred first. */
  const DEPTH_CANDIDATES: seq<Format> := [D32Sfloat, D32SfloatS8Uint, D24UnormS8Uint]

  /** `find_depth_format`: the first candidate usable as a depth-stencil attachment with optimal tiling. */
  function FindDepthFormat(query: Format -> FormatProperties): (r: Option<Format>)
    ensures r.Some? ==> r.value in DEPTH_CANDIDATES && DepthStencilAttachment in query(r.value).optimalTilingFeatures
    ensures r.None? <==> forall f :: f in DEPTH_CANDIDATES ==> DepthStencilAttachment !in query(f).optimalTilingFeatures
    ensures DepthStencilAttachment in query(D32Sfloat).optimalTilingFeatures ==> r == Some(D32Sfloat)
  {
    FindSupportedFormatIsFirst(DEPTH_CANDIDATES, Optimal, {DepthStencilAttachment}, query);
    var r := FindSupportedFormat(DEPTH_CANDIDATES, Optimal, {DepthStencilAttachment}, query);
    if r.None? then
      assert forall f :: f in DEPTH_CANDIDATES ==> exists i :: 0 <= i < 3 && DEPTH_CANDIDATES[i] == f;
      r
    else
      r
  }

  datatype ImageAspect = Color | Depth

  /** An image allocation as `create_image` and `create_image_view` are asked for it. */
  datatype ImageRequest = ImageRequest(
    width: nat, height: nat, mipLevels: nat, samples: nat, format: Format, tiling: ImageTiling,
    usage: FormatFeature, memoryProperties: set<Memory.MemoryProperty>, viewAspect: ImageAspect, viewMipLevels: nat)

  /**
   * `create_depth_resources`: a single-sample, single-level depth image of the swapchain's size in
   * the chosen depth format, optimally tiled, in device-local memory, viewed through its depth
   * aspect. None when no depth format is supported.
   */
  function DepthResources(width: nat, height: nat, query: Format -> FormatProperties): (r: Option<ImageRequest>)
    ensures r.Some? <==> FindDepthFormat(query).Some?
    ensures r.Some? ==>
              && r.value.format in DEPTH_CANDIDATES
              && Supports(query(r.value.format), r.value.tiling, {DepthStencilAttachment})
              && r.value.width == width && r.value.height == height
              && r.value.mipLevels == 1 && r.value.samples == 1 && r.value.viewMipLevels == 1
              && r.value.memoryProperties == Memory.DEVICE_LOCAL && r.value.viewAspect == Depth
  {
    match FindDepthFormat(query)
    case None => None
    case Some(format) =>
      Some(ImageRequest(width, height, 1, 1, format, Optimal, DepthStencilAttachment, Memory.DEVICE_LOCAL, Depth, 1))
  }
}

=== FILE: layouts.dfy ===
/**
 * The memory layout of the structures handed to the GPU: C-compatible (`repr(C)`) field offsets
 * and sizes, the vertex input descriptions that must agree with them, and the identity defaults of
 * the model push constants.
 */
module Layouts {
  import Images

  /** The field types the engine's GPU structures are made of: `f32`, `Vector3<f32>`, `Matrix4<f32>`. */
  datatype FieldType = F32 | Vec3F32 | Mat4F32

  function SizeOf(t: FieldType): nat
  {
    match t
    case F32 => 4
    case Vec3F32 => 12
    case Mat4F32 => 64
  }

  /** Every field type is built from `f32`, so every field, and the struct, is 4-byte aligned. */
  const ALIGNMENT: nat := 4

  /** The least multiple of the alignment that is at least `n`. */
  function AlignUp(n: nat): (r: nat)
    ensures n <= r < n + ALIGNMENT && r % ALIGNMENT == 0
  {
    if n % 4 == 0 then n else n + (4 - n % 4)
  }

  /** Where the last field ends. */
  function End(fields: seq<FieldType>): nat
    decreases |fields|, 2
  {
    if |fields| == 0 then 0
    else Offsets(fields)[|fields| - 1] + SizeOf(fields[|fields| - 1])
  }

  /** `repr(C)`: each field at the first aligned offset past the previous one. */
  function Offsets(fields: seq<FieldType>): (offsets: seq<nat>)
    ensures |offsets| == |fields|
    decreases |fields|, 1
  {
    if |fields| == 0 then []
    else
      var init := fields[..|fields| - 1];
      Offsets(init) + [AlignUp(End(init))]
  }

  /** `size_of`: the end of the last field, padded to the alignment. */
  function StructSize(fields: seq<FieldType>): nat
  {
    AlignUp(End(fields))
  }

  /** The layout is sound: every field is aligned, fields follow one another without overlap, and all fit in the struct. */
  lemma {:induction false} LayoutSound(fields: seq<FieldType>)
    ensures forall k :: 0 <= k < |fields| ==> Offsets(fields)[k] % ALIGNMENT == 0
    ensures forall j, k :: 0 <= j < k < |fields| ==> Offsets(fields)[j] + SizeOf(fields[j]) <= Offsets(fields)[k]
    ensures forall k :: 0 <= k < |fields| ==> Offsets(fields)[k] + SizeOf(fields[k]) <= End(fields)
    ensures End(fields) <= StructSize(fields) && StructSize(fields) % ALIGNMENT == 0
  {
    if |fields| > 0 {
      var init := fields[..|fields| - 1];
      var n := |fields| - 1;
      LayoutSound(init);
      var offsets := Offsets(fields);
      forall k | 0 <= k < n
        ensures offsets[k] == Offsets(init)[k] && init[k] == fields[k]
      {
      }
      assert offsets[n] == AlignUp(End(init));
      forall j, k | 0 <= j < k < |fields|
        ensures offsets[j] + SizeOf(fields[j]) <= offsets[k]
      {
        if k == n {
          assert offsets[j] + SizeOf(fields[j]) <= End(init);
        }
      }
    }
  }

  /** Appending a field places it at the first aligned offset past the current end. */
  lemma AppendField(fields: seq<FieldType>, t: FieldType)
    ensures Offsets(fields + [t]) == Offsets(fields) + [AlignUp(End(fields))]
    ensures End(fields + [t]) == AlignUp(End(fields)) + SizeOf(t)
  {
    assert (fields + [t])[..|fields|] == fields;
  }

  /** The offsets and size of a struct of one or two fields. */
  lemma TwoFieldLayout(first: FieldType, second: FieldType)
    ensures Offsets([first]) == [0] && StructSize([first]) == SizeOf(first)
    ensures Offsets([first, second]) == [0, SizeOf(first)]
    ensures StructSize([first, second]) == SizeOf(first) + SizeOf(second)
  {
    AppendField([], first);
    AppendField([first], second);
  }

  /** Every structure below: its fields in declaration order. */
  const COLORED_VERTEX: seq<FieldType> := [Vec3F32, Vec3F32]
  const SIMPLE_VERTEX: seq<FieldType> := [Vec3F32]
  const MODEL_WOBLY_PUSH_CONSTANT: seq<FieldType> := [Mat4F32, F32]
  const MODEL_COLOR_PUSH_CONSTANT: seq<FieldType> := [Mat4F32, Vec3F32]
  const VIEW_PROJECTION_UNIFORM: seq<FieldType> := [Mat4F32, Mat4F32]
  const MVP_UNIFORM_BUFFER_OBJECT: seq<FieldType> := [Mat4F32, Mat4F32, Mat4F32, F32]
  const RENDERER_VERTEX: seq<FieldType> := [Vec3F32, Vec3F32]

  /** `MODEL_WOBLY_PUSH_CONSTANT_SIZE` and `MODEL_COLOR_PUSH_CONSTANT_SIZE`: the struct sizes cast to `u8`. */
  function PushConstantSizeU8(fields: seq<FieldType>): (size: nat)
    ensures size < 256
    ensures StructSize(fields) < 256 ==> size == StructSize(fields)
  {
    StructSize(fields) % 256
  }

  /** The wobbly push constant is the 64 matrix bytes followed by the 4 wobble bytes; the colour one is 76 bytes. */
  lemma PushConstantSizes()
    ensures Offsets(MODEL_WOBLY_PUSH_CONSTANT) == [0, 64]
    ensures PushConstantSizeU8(MODEL_WOBLY_PUSH_CONSTANT) == 68
    ensures PushConstantSizeU8(MODEL_COLOR_PUSH_CONSTANT) == 76
  {
    TwoFieldLayout(Mat4F32, F32);
    TwoFieldLayout(Mat4F32, Vec3F32);
  }

  /** The uniform's fields sit in order model, view, proj, wobble, one matrix after another. */
  lemma MvpUniformLayout()
    ensures Offsets(MVP_UNIFORM_BUFFER_OBJECT) == [0, 64, 128, 192]
    ensures StructSize(MVP_UNIFORM_BUFFER_OBJECT) == 196
  {
    TwoFieldLayout(Mat4F32, Mat4F32);
    AppendField([Mat4F32, Mat4F32], Mat4F32);
    assert [Mat4F32, Mat4F32] + [Mat4F32] == [Mat4F32, Mat4F32, Mat4F32];
    AppendField([Mat4F32, Mat4F32, Mat4F32], F32);
    assert [Mat4F32, Mat4F32, Mat4F32] + [F32] == MVP_UNIFORM_BUFFER_OBJECT;
  }

  datatype VertexInputRate = PerVertex | PerInstance

  datatype BindingDescription = BindingDescription(binding: nat, stride: nat, inputRate: VertexInputRate)

  datatype AttributeDescription = AttributeDescription(binding: nat, location: nat, format: Images.Format, offset: nat)

  /** The bytes one attribute of the format reads. */
  function FormatSize(format: Images.Format): nat
  {
    if format == Images.R32G32B32Sfloat then 12 else 0
  }

  /** A single per-vertex binding 0 whose stride is the struct's size. */
  predicate DescribesStride(bindings: seq<BindingDescription>, fields: seq<FieldType>)
  {
    bindings == [BindingDescription(0, StructSize(fields), PerVertex)]
  }

  /**
   * Attribute `k` is read from binding 0 at location `k`, at field `k`'s offset and with that
   * field's size; the first `count` fields are described.
   */
  predicate DescribesFields(attributes: seq<AttributeDescription>, fields: seq<FieldType>, count: nat)
  {
    && count <= |fields|
    && |attributes| == count
    && forall k :: 0 <= k < count ==>
         && attributes[k].binding == 0 && attributes[k].location == k
         && attributes[k].offset == Offsets(fields)[k]
         && FormatSize(attributes[k].format) == SizeOf(fields[k])
  }

  /** Attributes that describe a struct's fields read within one vertex and never overlap. */
  lemma {:induction false} DescribedAttributesFit(attributes: seq<AttributeDescription>, fields: seq<FieldType>, count: nat)
    requires DescribesFields(attributes, fields, count)
    ensures forall k :: 0 <= k < count ==> attributes[k].offset + FormatSize(attributes[k].format) <= StructSize(fields)
    ensures forall j, k :: 0 <= j < k < count ==> attributes[j].offset + FormatSize(attributes[j].format) <= attributes[k].offset
  {
    LayoutSound(fields);
  }

  /** `ColoredVertex::get_binding_descriptions`. */
  function ColoredVertexBindingDescriptions(): (r: seq<BindingDescription>)
    ensures DescribesStride(r, COLORED_VERTEX)
  {
    TwoFieldLayout(Vec3F32, Vec3F32);
    [BindingDescription(0, 24, PerVertex)]
  }

  /** `ColoredVertex::get_attribute_descriptions`: position at location 0, colour at location 1. */
  function ColoredVertexAttributeDescriptions(): (r: seq<AttributeDescription>)
    ensures DescribesFields(r, COLORED_VERTEX, 2)
  {
    TwoFieldLayout(Vec3F32, Vec3F32);
    [AttributeDescription(0, 0, Images.R32G32B32Sfloat, 0), AttributeDescription(0, 1, Images.R32G32B32Sfloat, 12)]
  }

  /** `SimpleVertex::get_binding_descriptions`. */
  function SimpleVertexBindingDescriptions(): (r: seq<BindingDescription>)
    ensures DescribesStride(r, SIMPLE_VERTEX)
  {
    TwoFieldLayout(Vec3F32, Vec3F32);
    [BindingDescription(0, 12, PerVertex)]
  }

  /** `SimpleVertex::get_attribute_descriptions`: the position alone, at location 0. */
  function SimpleVertexAttributeDescriptions(): (r: seq<AttributeDescription>)
    ensures DescribesFields(r, SIMPLE_VERTEX, 1)
  {
    TwoFieldLayout(Vec3F32, Vec3F32);
    [AttributeDescription(0, 0, Images.R32G32B32Sfloat, 0)]
  }

  /** The renderer's `Vertex::get_binding_descriptions`. */
  function VertexBindingDescriptions(): (r: seq<BindingDescription>)
    ensures DescribesStride(r, RENDERER_VERTEX)
  {
    TwoFieldLayout(Vec3F32, Vec3F32);
    [BindingDescription(0, 24, PerVertex)]
  }

  /** The renderer's `Vertex::get_attribute_descriptions`: position at location 0, colour at location 1. */
  function VertexAttributeDescriptions(): (r: seq<AttributeDescription>)
    ensures DescribesFields(r, RENDERER_VERTEX, 2)
  {
    TwoFieldLayout(Vec3F32, Vec3F32);
    [AttributeDescription(0, 0, Images.R32G32B32Sfloat, 0), AttributeDescription(0, 1, Images.R32G32B32Sfloat, 12)]
  }

  /** A 4×4 matrix, column-major as `Matrix4` stores it. */
  type Mat4 = m: seq<real> | |m| == 16 witness seq(16, _ => 0.0)

  const IDENTITY: Mat4 := [1.0, 0.0, 0.0, 0.0,  0.0, 1.0, 0.0, 0.0,  0.0, 0.0, 1.0, 0.0,  0.0, 0.0, 0.0, 1.0]

  /** Row `r` of `m` times the homogeneous point `v`. */
  function Row(m: Mat4, v: seq<real>, r: nat): real
    requires |v| == 4 && r < 4
  {
    m[r] * v[0] + m[4 + r] * v[1] + m[8 + r] * v[2] + m[12 + r] * v[3]
  }

  function Apply(m: Mat4, v: seq<real>): (w: seq<real>)
    requires |v| == 4
    ensures |w| == 4
  {
    [Row(m, v, 0), Row(m, v, 1), Row(m, v, 2), Row(m, v, 3)]
  }

  /** A model push constant with its transform and wobble, before it is packed into bytes. */
  datatype ModelWoblyPushConstant = ModelWoblyPushConstant(modelTransform: Mat4, wobble: real)

  datatype ModelColorPushConstant = ModelColorPushConstant(modelTransform: Mat4, color: seq<real>)

  /** `ModelWoblyPushConstant::default`: a transform that moves no point, and no wobble. */
  function DefaultModelWoblyPushConstant(): (pc: ModelWoblyPushConstant)
    ensures forall v: seq<real> :: |v| == 4 ==> Apply(pc.modelTransform, v) == v
    ensures pc.wobble == 0.0
  {
    ModelWoblyPushConstant(IDENTITY, 0.0)
  }

  /** `ModelColorPushConstant::default`: a transform that moves no point, and the zero colour. */
  function DefaultModelColorPushConstant(): (pc: ModelColorPushConstant)
    ensures forall v: seq<real> :: |v| == 4 ==> Apply(pc.modelTransform, v) == v
    ensures |pc.color| == 3 && forall k :: 0 <= k < 3 ==> pc.color[k] == 0.0
  {
    ModelColorPushConstant(IDENTITY, [0.0, 0.0, 0.0])
  }
}

=== FILE: logger.dfy ===
/**
 * The engine's message log: an append-only history of leveled messages, a scrollable window over
 * its newest entries, and the splitting of multi-line text into one message per line.
 */
module Logger {
  datatype MessageLevel = Input | Output | Cvar | Error | Warning | Info | Debug | Khronos

  datatype LogMessage = LogMessage(level: MessageLevel, message: string)

  function Min(a: nat, b: nat): nat { if a <= b then a else b }

  /** The last `n` elements of `s`, or all of `s` when it is shorter. */
  function Last<T>(s: seq<T>, n: nat): (r: seq<T>)
    ensures |r| == Min(n, |s|)
  {
    s[|s| - Min(n, |s|)..]
  }

  /**
   * The slice bounds `get_history` computes: `end` steps back `scroll` messages from the newest
   * (unless that would pass the oldest), and `start` steps back `line_count` more.
   */
  function HistoryWindow(len: nat, lineCount: nat, scroll: nat): (w: (nat, nat))
    ensures w.0 <= w.1 <= len
  {
    var end := if len >= scroll then len - scroll else len;
    var start := len - Min(lineCount, len);
    var startOffset := if start >= scroll then start - scroll else 0;
    (startOffset, end)
  }

  function GetHistory(history: seq<LogMessage>, lineCount: nat, scroll: nat): seq<LogMessage>
  {
    var w := HistoryWindow(|history|, lineCount, scroll);
    history[w.0..w.1]
  }

  /**
   * While the scroll does not pass the oldest message, the window is the newest `line_count`
   * messages of the history with its newest `scroll` messages removed.
   */
  lemma GetHistoryScrolled(history: seq<LogMessage>, lineCount: nat, scroll: nat)
    requires scroll <= |history|
    ensures GetHistory(history, lineCount, scroll) == Last(history[..|history| - scroll], lineCount)
    ensures |GetHistory(history, lineCount, scroll)| <= lineCount
  {
    var len := |history|;
    var w := HistoryWindow(len, lineCount, scroll);
    var shown := history[..len - scroll];
    assert w.1 == len - scroll;
    assert w.0 == len - scroll - Min(lineCount, len - scroll);
    assert history[w.0..w.1] == shown[|shown| - Min(lineCount, |shown|)..];
  }

  /** With no scroll the window is the newest `line_count` messages. */
  lemma GetHistoryNewest(history: seq<LogMessage>, lineCount: nat)
    ensures GetHistory(history, lineCount, 0) == Last(history, lineCount)
  {
    GetHistoryScrolled(history, lineCount, 0);
    assert history[..|history| - 0] == history;
  }

  /** A scroll past the oldest message falls back to the whole history, whatever `line_count` is. */
  lemma GetHistoryOverscrolled(history: seq<LogMessage>, lineCount: nat, scroll: nat)
    requires scroll > |history|
    ensures GetHistory(history, lineCount, scroll) == history
  {
    assert history[0..|history|] == history;
  }

  /** The pieces of `line` between '\n' characters, in order: `str::split('\n')`. */
  function SplitLines(line: string): (pieces: seq<string>)
    ensures |pieces| >= 1
    ensures forall k :: 0 <= k < |pieces| ==> '\n' !in pieces[k]
  {
    if |line| == 0 then [""]
    else
      var rest := SplitLines(line[1..]);
      if line[0] == '\n' then [""] + rest
      else [[line[0]] + rest[0]] + rest[1..]
  }

  /** The pieces joined back together with '\n' between them. */
  function JoinLines(pieces: seq<string>): string
    requires |pieces| >= 1
  {
    if |pieces| == 1 then pieces[0] else pieces[0] + "\n" + JoinLines(pieces[1..])
  }

  /** Splitting loses nothing: the pieces joined with '\n' give back the original text. */
  lemma {:induction false} SplitJoinRoundTrip(line: string)
    ensures JoinLines(SplitLines(line)) == line
  {
    if |line| > 0 {
      var rest := SplitLines(line[1..]);
      SplitJoinRoundTrip(line[1..]);
      if line[0] == '\n' {
        assert SplitLines(line) == [""] + rest;
        assert ([""] + rest)[1..] == rest;
        assert line == "" + "\n" + line[1..];
      } else {
        var pieces := [[line[0]] + rest[0]] + rest[1..];
        if |rest| == 1 {
          assert JoinLines(pieces) == [line[0]] + rest[0];
        } else {
          assert pieces[1..] == rest[1..];
          assert JoinLines(rest) == rest[0] + "\n" + JoinLines(rest[1..]);
        }
      }
    }
  }

  /** Splitting yields one more piece than the text has '\n' characters. */
  lemma {:induction false} SplitLinesCount(line: string)
    ensures |SplitLines(line)| == multiset(line)['\n'] + 1
  {
    if |line| > 0 {
      SplitLinesCount(line[1..]);
      assert line == [line[0]] + line[1..];
    }
  }

  /** `fmt_line`: one message per piece, all at the given level. */
  function FmtLine(line: string, level: MessageLevel): (messages: seq<LogMessage>)
    ensures |messages| == |SplitLines(line)|
    ensures forall k :: 0 <= k < |messages| ==> messages[k] == LogMessage(level, SplitLines(line)[k])
  {
    var pieces := SplitLines(line);
    seq(|pieces|, k requires 0 <= k < |pieces| => LogMessage(level, pieces[k]))
  }

  /** What `add_once` does to a history. */
  function AddOnceTo(history: seq<LogMessage>, message: LogMessage): seq<LogMessage>
  {
    if |history| > 0 && history[|history| - 1].message == message.message then history
    else history + [message]
  }

  /**
   * `add_once` leaves the history ending in a message with the given text, having appended at most
   * that one message, and repeating it changes nothing.
   */
  lemma AddOnceIdempotent(history: seq<LogMessage>, message: LogMessage)
    ensures var h := AddOnceTo(history, message);
            && |h| > 0 && h[|h| - 1].message == message.message
            && (h == history || h == history + [message])
            && AddOnceTo(h, message) == h
  {
  }

  /** `add_once` applied to each message of a sequence in turn. */
  function AddAllOnce(history: seq<LogMessage>, messages: seq<LogMessage>): seq<LogMessage>
    decreases |messages|
  {
    if |messages| == 0 then history else AddAllOnce(AddOnceTo(history, messages[0]), messages[1..])
  }

  /** No two neighbouring messages carry the same text. */
  predicate NoRepeats(history: seq<LogMessage>)
  {
    forall k :: 0 < k < |history| ==> history[k - 1].message != history[k].message
  }

  /** `add_line_once` never puts two messages with the same text next to each other. */
  lemma {:induction false} AddAllOnceNoRepeats(history: seq<LogMessage>, messages: seq<LogMessage>)
    requires NoRepeats(history)
    ensures NoRepeats(AddAllOnce(history, messages))
    decreases |messages|
  {
    if |messages| > 0 {
      var next := AddOnceTo(history, messages[0]);
      forall k | 0 < k < |next|
        ensures next[k - 1].message != next[k].message
      {
        if next != history {
          assert next == history + [messages[0]];
          if k == |history| {
            assert next[k] == messages[0] && next[k - 1] == history[|history| - 1];
          } else {
            assert next[k] == history[k] && next[k - 1] == history[k - 1];
          }
        }
      }
      AddAllOnceNoRepeats(next, messages[1..]);
    }
  }

  class Logger {
    var history: seq<LogMessage>

    constructor ()
      ensures history == []
    {
      history := [];
    }

    function Len(): (n: nat)
      reads this
      ensures n == |history|
    {
      |history|
    }

    method AddOnce(message: LogMessage)
      modifies this
      ensures history == AddOnceTo(old(history), message)
    {
      if |history| > 0 && history[|history| - 1].message == message.message {
        return;
      }
      history := history + [message];
    }

    /** `add_line`: every piece of `line` is appended, in order, at `level`. */
    method AddLine(line: string, level: MessageLevel)
      modifies this
      ensures history == old(history) + FmtLine(line, level)
    {
      var messages := FmtLine(line, level);
      var i := 0;
      while i < |messages|
        invariant 0 <= i <= |messages|
        invariant history == old(history) + messages[..i]
      {
        history := history + [messages[i]];
        assert messages[..i + 1] == messages[..i] + [messages[i]];
        i := i + 1;
      }
      assert messages[..i] == messages;
    }

    /** `add_line_once`: every piece of `line` goes through `add_once`, in order. */
    method AddLineOnce(line: string, level: MessageLevel)
      modifies this
      ensures history == AddAllOnce(old(history), FmtLine(line, level))
    {
      var messages := FmtLine(line, level);
      var i := 0;
      while i < |messages|
        invariant 0 <= i <= |messages|
        invariant AddAllOnce(history, messages[i..]) == AddAllOnce(old(history), messages)
      {
        assert messages[i..][1..] == messages[i + 1..];
        AddOnce(messages[i]);
        i := i + 1;
      }
    }
  }
}

=== FILE: memory.dfy ===
/**
 * Device memory for buffers: the choice of a memory type under the `memoryTypeBits` convention of
 * the Vulkan specification (Memory Allocation chapter, "Resource Memory Association": bit i of the
 * filter set means memory type i may back the resource), and the memory manager's map from each
 * buffer it created to the memory bound to it.
 */
module Memory {
  import opened Wrappers

  /** `VK_MAX_MEMORY_TYPES`: the length of the memory-type array the search walks. */
  const VK_MAX_MEMORY_TYPES: nat := 32

  datatype MemoryProperty = DeviceLocal | HostVisible | HostCoherent | HostCached | LazilyAllocated | Protected

  datatype MemoryType = MemoryType(propertyFlags: set<MemoryProperty>, heapIndex: nat)

  /** The property sets the manager asks for. */
  const HOST_VISIBLE_COHERENT: set<MemoryProperty> := {HostVisible, HostCoherent}
  const DEVICE_LOCAL: set<MemoryProperty> := {DeviceLocal}

  /** Bit `i` of the filter is set: memory type `i` is allowed for the resource. */
  predicate Allowed(typeFilter: bv32, i: nat)
    requires i < VK_MAX_MEMORY_TYPES
  {
    typeFilter & ((1 as bv32) << i) != 0
  }

  /** Memory type `i` is allowed and has every required property. */
  predicate Suitable(typeFilter: bv32, required: set<MemoryProperty>, memoryTypes: seq<MemoryType>, i: nat)
    requires i < |memoryTypes| <= VK_MAX_MEMORY_TYPES
  {
    Allowed(typeFilter, i) && required <= memoryTypes[i].propertyFlags
  }

  /** The first suitable memory type at or after `from`. */
  function FirstSuitableFrom(typeFilter: bv32, required: set<MemoryProperty>, memoryTypes: seq<MemoryType>, from: nat)
    : Option<nat>
    requires from <= |memoryTypes| <= VK_MAX_MEMORY_TYPES
    decreases |memoryTypes| - from
  {
    if from == |memoryTypes| then None
    else if Suitable(typeFilter, required, memoryTypes, from) then Some(from)
    else FirstSuitableFrom(typeFilter, required, memoryTypes, from + 1)
  }

  /** `find_memory_type`; None is the "Failed to find suitable memory type!" panic. */
  function FirstMemoryType(typeFilter: bv32, required: set<MemoryProperty>, memoryTypes: seq<MemoryType>): Option<nat>
    requires |memoryTypes| <= VK_MAX_MEMORY_TYPES
  {
    FirstSuitableFrom(typeFilter, required, memoryTypes, 0)
  }

  lemma {:induction false} FirstSuitableFromIsFirst(typeFilter: bv32, required: set<MemoryProperty>,
                                                    memoryTypes: seq<MemoryType>, from: nat)
    requires from <= |memoryTypes| <= VK_MAX_MEMORY_TYPES
    ensures var r := FirstSuitableFrom(typeFilter, required, memoryTypes, from);
            && (r.Some? ==> from <= r.value < |memoryTypes| && Suitable(typeFilter, required, memoryTypes, r.value)
                            && forall j :: from <= j < r.value ==> !Suitable(typeFilter, required, memoryTypes, j))
            && (r.None? ==> forall j :: from <= j < |memoryTypes| ==> !Suitable(typeFilter, required, memoryTypes, j))
    decreases |memoryTypes| - from
  {
    if from < |memoryTypes| && !Suitable(typeFilter, required, memoryTypes, from) {
      FirstSuitableFromIsFirst(typeFilter, required, memoryTypes, from + 1);
    }
  }

  /**
   * The chosen type is the smallest index whose filter bit is set and whose flags contain the
   * required ones; there is a choice exactly when some type qualifies.
   */
  lemma FirstMemoryTypeIsFirst(typeFilter: bv32, required: set<MemoryProperty>, memoryTypes: seq<MemoryType>)
    requires |memoryTypes| <= VK_MAX_MEMORY_TYPES
    ensures var r := FirstMemoryType(typeFilter, required, memoryTypes);
            && (r.Some? <==> exists i :: 0 <= i < |memoryTypes| && Suitable(typeFilter, required, memoryTypes, i))
            && (r.Some? ==> r.value < |memoryTypes| && Allowed(typeFilter, r.value)
                            && required <= memoryTypes[r.value].propertyFlags
                            && forall j :: 0 <= j < r.value ==> !Suitable(typeFilter, required, memoryTypes, j))
  {
    FirstSuitableFromIsFirst(typeFilter, required, memoryTypes, 0);
  }

  /** The search loop of `find_memory_type`, returning at the first suitable type. */
  method FindMemoryType(typeFilter: bv32, required: set<MemoryProperty>, memoryTypes: seq<MemoryType>)
    returns (index: Option<nat>)
    requires |memoryTypes| <= VK_MAX_MEMORY_TYPES
    ensures index == FirstMemoryType(typeFilter, required, memoryTypes)
  {
    var i := 0;
    while i < |memoryTypes|
      invariant i <= |memoryTypes|
      invariant FirstSuitableFrom(typeFilter, required, memoryTypes, i) == FirstMemoryType(typeFilter, required, memoryTypes)
    {
      if typeFilter & ((1 as bv32) << i) != 0 && required <= memoryTypes[i].propertyFlags {
        return Some(i);
      }
      i := i + 1;
    }
    return None;
  }

  /** A memory allocation: its handle and the memory type it was allocated from. */
  datatype DeviceMemory = DeviceMemory(handle: nat, typeIndex: nat)

  class MemoryManager {
    const memoryTypes: seq<MemoryType>
    /** `buffer_to_chunk_map`: each recorded buffer to the memory bound to it. */
    var bufferToChunk: map<nat, DeviceMemory>
    /** The buffers alive on the device: created and not yet destroyed. */
    var liveBuffers: set<nat>
    /** The next handle the driver hands out; handles are never reused. */
    var nextHandle: nat

    /** Every recorded buffer is alive, and every handle was handed out before. */
    ghost predicate Valid()
      reads this
    {
      && |memoryTypes| <= VK_MAX_MEMORY_TYPES
      && bufferToChunk.Keys <= liveBuffers
      && (forall b :: b in liveBuffers ==> b < nextHandle)
      && (forall b :: b in bufferToChunk ==>
            bufferToChunk[b].handle < nextHandle && bufferToChunk[b].typeIndex < |memoryTypes|)
    }

    /** The memory recorded for `buffer` was allocated from the first suitable type for `required`. */
    ghost predicate BackedBy(buffer: nat, typeFilter: bv32, required: set<MemoryProperty>)
      reads this
      requires |memoryTypes| <= VK_MAX_MEMORY_TYPES
    {
      && buffer in bufferToChunk
      && var r := FirstMemoryType(typeFilter, required, memoryTypes);
         r.Some? && bufferToChunk[buffer].typeIndex == r.value
    }

    constructor (memoryTypes: seq<MemoryType>)
      requires |memoryTypes| <= VK_MAX_MEMORY_TYPES
      ensures Valid()
      ensures this.memoryTypes == memoryTypes && bufferToChunk == map[] && liveBuffers == {}
    {
      this.memoryTypes := memoryTypes;
      bufferToChunk := map[];
      liveBuffers := {};
      nextHandle := 0;
    }

    /** `get_device_memory`; None is the "Unknown buffer memory!" panic. */
    function GetDeviceMemory(buffer: nat): (memory: Option<DeviceMemory>)
      reads this
      ensures memory.Some? <==> buffer in bufferToChunk
      ensures memory.Some? ==> memory.value == bufferToChunk[buffer]
    {
      if buffer in bufferToChunk then Some(bufferToChunk[buffer]) else None
    }

    /**
     * `_create_buffer`: a new buffer and a new allocation from the first suitable memory type, bound
     * together. Nothing is recorded yet. The filter is the buffer's memory requirements.
     */
    method CreateBuffer(typeFilter: bv32, required: set<MemoryProperty>) returns (buffer: nat, memory: DeviceMemory)
      requires Valid()
      requires FirstMemoryType(typeFilter, required, memoryTypes).Some?
      modifies this
      ensures Valid()
      ensures buffer !in old(liveBuffers) && buffer !in old(bufferToChunk)
      ensures memory.typeIndex == FirstMemoryType(typeFilter, required, memoryTypes).value < |memoryTypes|
      ensures memory.handle < nextHandle
      ensures forall b :: b in old(bufferToChunk) ==> old(bufferToChunk)[b].handle != memory.handle
      ensures liveBuffers == old(liveBuffers) + {buffer} && bufferToChunk == old(bufferToChunk)
      ensures old(nextHandle) <= buffer < nextHandle
    {
      FirstMemoryTypeIsFirst(typeFilter, required, memoryTypes);
      var typeIndex := FindMemoryType(typeFilter, required, memoryTypes);
      buffer := nextHandle;
      memory := DeviceMemory(nextHandle + 1, typeIndex.value);
      nextHandle := nextHandle + 2;
      liveBuffers := liveBuffers + {buffer};
    }

    /** `create_staging_buffer`: host-visible, host-coherent memory, recorded. */
    method CreateStagingBuffer(typeFilter: bv32) returns (buffer: nat)
      requires Valid()
      requires FirstMemoryType(typeFilter, HOST_VISIBLE_COHERENT, memoryTypes).Some?
      modifies this
      ensures Valid()
      ensures buffer !in old(liveBuffers) && liveBuffers == old(liveBuffers) + {buffer}
      ensures old(nextHandle) <= buffer < nextHandle
      ensures bufferToChunk.Keys == old(bufferToChunk.Keys) + {buffer}
      ensures forall b :: b in old(bufferToChunk) ==> bufferToChunk[b] == old(bufferToChunk)[b]
      ensures BackedBy(buffer, typeFilter, HOST_VISIBLE_COHERENT)
    {
      var memory;
      buffer, memory := CreateBuffer(typeFilter, HOST_VISIBLE_COHERENT);
      bufferToChunk := bufferToChunk[buffer := memory];
    }

    /** `create_device_buffer`: device-local memory, recorded. */
    method CreateDeviceBuffer(typeFilter: bv32) returns (buffer: nat)
      requires Valid()
      requires FirstMemoryType(typeFilter, DEVICE_LOCAL, memoryTypes).Some?
      modifies this
      ensures Valid()
      ensures buffer !in old(liveBuffers) && liveBuffers == old(liveBuffers) + {buffer}
      ensures old(nextHandle) <= buffer < nextHandle
      ensures bufferToChunk.Keys == old(bufferToChunk.Keys) + {buffer}
      ensures forall b :: b in old(bufferToChunk) ==> bufferToChunk[b] == old(bufferToChunk)[b]
      ensures BackedBy(buffer, typeFilter, DEVICE_LOCAL)
    {
      var memory;
      buffer, memory := CreateBuffer(typeFilter, DEVICE_LOCAL);
      bufferToChunk := bufferToChunk[buffer := memory];
    }

    /** `create_uniform_buffers`: one recorded host-visible buffer per swapchain image. */
    method CreateUniformBuffers(swapchainImageCount: nat, typeFilter: bv32) returns (buffers: seq<nat>)
      requires Valid()
      requires FirstMemoryType(typeFilter, HOST_VISIBLE_COHERENT, memoryTypes).Some?
      modifies this
      ensures Valid()
      ensures |buffers| == swapchainImageCount
      ensures forall i, j :: 0 <= i < j < |buffers| ==> buffers[i] != buffers[j]
      ensures forall i :: 0 <= i < |buffers| ==>
                buffers[i] !in old(liveBuffers) && BackedBy(buffers[i], typeFilter, HOST_VISIBLE_COHERENT)
      ensures bufferToChunk.Keys == old(bufferToChunk.Keys) + set b | b in buffers
      ensures liveBuffers == old(liveBuffers) + set b | b in buffers
      ensures forall b :: b in old(bufferToChunk) ==> bufferToChunk[b] == old(bufferToChunk)[b]
    {
      buffers := [];
      var k := 0;
      while k < swapchainImageCount
        invariant Valid() && old(nextHandle) <= nextHandle
        invariant k == |buffers| <= swapchainImageCount
        invariant forall i, j :: 0 <= i < j < |buffers| ==> buffers[i] != buffers[j]
        invariant forall i :: 0 <= i < |buffers| ==>
                    buffers[i] !in old(liveBuffers) && BackedBy(buffers[i], typeFilter, HOST_VISIBLE_COHERENT)
        invariant bufferToChunk.Keys == old(bufferToChunk.Keys) + set b | b in buffers
        invariant liveBuffers == old(liveBuffers) + set b | b in buffers
        invariant forall b :: b in old(bufferToChunk) ==> bufferToChunk[b] == old(bufferToChunk)[b]
      {
        var buffer, memory := CreateBuffer(typeFilter, HOST_VISIBLE_COHERENT);
        bufferToChunk := bufferToChunk[buffer := memory];
        assert (set b | b in buffers + [buffer]) == (set b | b in buffers) + {buffer};
        buffers := buffers + [buffer];
        k := k + 1;
      }
    }

    /**
     * `create_device_local_buffer_sync`: the data goes through a host-visible staging buffer into a
     * device-local one; the staging buffer is destroyed before returning and never recorded, so
     * only the device-local buffer is added.
     */
    method CreateDeviceLocalBufferSync(stagingFilter: bv32, deviceFilter: bv32) returns (buffer: nat)
      requires Valid()
      requires FirstMemoryType(stagingFilter, HOST_VISIBLE_COHERENT, memoryTypes).Some?
      requires FirstMemoryType(deviceFilter, DEVICE_LOCAL, memoryTypes).Some?
      modifies this
      ensures Valid()
      ensures buffer !in old(liveBuffers) && liveBuffers == old(liveBuffers) + {buffer}
      ensures old(nextHandle) <= buffer < nextHandle
      ensures bufferToChunk.Keys == old(bufferToChunk.Keys) + {buffer}
      ensures forall b :: b in old(bufferToChunk) ==> bufferToChunk[b] == old(bufferToChunk)[b]
      ensures BackedBy(buffer, deviceFilter, DEVICE_LOCAL)
    {
      var staging, stagingMemory := CreateBuffer(stagingFilter, HOST_VISIBLE_COHERENT);
      var memory;
      buffer, memory := CreateBuffer(deviceFilter, DEVICE_LOCAL);
      liveBuffers := liveBuffers - {staging};
      bufferToChunk := bufferToChunk[buffer := memory];
    }

    /** `create_static_vertex_buffer_sync`: a device-local vertex buffer, recorded. */
    method CreateStaticVertexBufferSync(stagingFilter: bv32, deviceFilter: bv32) returns (buffer: nat)
      requires Valid()
      requires FirstMemoryType(stagingFilter, HOST_VISIBLE_COHERENT, memoryTypes).Some?
      requires FirstMemoryType(deviceFilter, DEVICE_LOCAL, memoryTypes).Some?
      modifies this
      ensures Valid()
      ensures buffer !in old(liveBuffers) && liveBuffers == old(liveBuffers) + {buffer}
      ensures old(nextHandle) <= buffer < nextHandle
      ensures bufferToChunk.Keys == old(bufferToChunk.Keys) + {buffer}
      ensures forall b :: b in old(bufferToChunk) ==> bufferToChunk[b] == old(bufferToChunk)[b]
      ensures BackedBy(buffer, deviceFilter, DEVICE_LOCAL)
    {
      buffer := CreateDeviceLocalBufferSync(stagingFilter, deviceFilter);
    }

    /** `create_index_buffer`: a device-local index buffer, recorded. */
    method CreateIndexBuffer(stagingFilter: bv32, deviceFilter: bv32) returns (buffer: nat)
      requires Valid()
      requires FirstMemoryType(stagingFilter, HOST_VISIBLE_COHERENT, memoryTypes).Some?
      requires FirstMemoryType(deviceFilter, DEVICE_LOCAL, memoryTypes).Some?
      modifies this
      ensures Valid()
      ensures buffer !in old(liveBuffers) && liveBuffers == old(liveBuffers) + {buffer}
      ensures old(nextHandle) <= buffer < nextHandle
      ensures bufferToChunk.Keys == old(bufferToChunk.Keys) + {buffer}
      ensures forall b :: b in old(bufferToChunk) ==> bufferToChunk[b] == old(bufferToChunk)[b]
      ensures BackedBy(buffer, deviceFilter, DEVICE_LOCAL)
    {
      buffer := CreateDeviceLocalBufferSync(stagingFilter, deviceFilter);
    }

    /**
     * `destroy_buffer`: a recorded buffer is destroyed, its memory freed and its entry removed; an
     * unknown buffer is left alone, so destroying twice is the same as destroying once.
     */
    method DestroyBuffer(buffer: nat)
      requires Valid()
      modifies this
      ensures Valid()
      ensures bufferToChunk == old(bufferToChunk) - {buffer}
      ensures liveBuffers == if buffer in old(bufferToChunk) then old(liveBuffers) - {buffer} else old(liveBuffers)
      ensures nextHandle == old(nextHandle)
    {
      if buffer in bufferToChunk {
        bufferToChunk := bufferToChunk - {buffer};
        liveBuffers := liveBuffers - {buffer};
      }
    }

    /** `destroy`: every recorded buffer is destroyed and freed; the map itself is not cleared. */
    method Destroy()
      modifies this
      ensures liveBuffers == old(liveBuffers) - old(bufferToChunk.Keys)
      ensures bufferToChunk == old(bufferToChunk) && nextHandle == old(nextHandle)
    {
      liveBuffers := liveBuffers - bufferToChunk.Keys;
    }
  }
}

=== FILE: movement.dfy ===
/**
 * Grid movement for the dungeon crawler: key presses are buffered, and one at a time they become a
 * move, either a step to a neighbouring cell (relative to where the player faces) or a quarter turn,
 * animated by a progress value that runs from 0 to 1.
 */
module Movements {
  import opened Wrappers

  const MAX_BUFFERED_MOVES: nat := 3
  const MOVE_SPEED: real := 4.0
  /** The `f32` values of pi / 2 and pi, taken as exact reals. */
  const FRAC_PI_2: real := 1.57079637050628662109375
  const PI: real := 3.1415927410125732421875
  /** The extra turn added to every left rotation. */
  const LEFT_TURN_NUDGE: real := 0.02

  datatype TranslationInput = Forward | Right | Backward | Left
  {
    /** `RotateEnum::next`: the following variant, wrapping from the last to the first. */
    function Next(): TranslationInput
    {
      match this
      case Forward => Right
      case Right => Backward
      case Backward => Left
      case Left => Forward
    }

    /** `RotateEnum::prev`: the preceding variant, wrapping from the first to the last. */
    function Prev(): TranslationInput
    {
      match this
      case Forward => Left
      case Right => Forward
      case Backward => Right
      case Left => Backward
    }
  }

  datatype RotationalInput = TurnLeft | TurnRight

  datatype MovementInput = Translate(translation: TranslationInput) | Rotate(rotation: RotationalInput)
  {
    predicate IsTranslation() { Translate? }
    predicate IsRotation() { Rotate? }
  }

  datatype Orientation = North | East | South | West
  {
    function Next(): Orientation
    {
      match this
      case North => East
      case East => South
      case South => West
      case West => North
    }

    function Prev(): Orientation
    {
      match this
      case North => West
      case East => North
      case South => East
      case West => South
    }

    /** `to_yaw`: the camera yaw facing this way. */
    function ToYaw(): real
    {
      match this
      case North => 0.0
      case East => -FRAC_PI_2
      case South => PI
      case West => FRAC_PI_2
    }
  }

  /** Turning right four times, or right then left, faces the same way again; the four directions are distinct. */
  lemma OrientationCycle(o: Orientation)
    ensures o.Next().Next().Next().Next() == o
    ensures o.Next().Prev() == o && o.Prev().Next() == o
    ensures o.Prev() == o.Next().Next().Next()
    ensures o.Next() != o && o.Next().Next() != o
  {
  }

  /** The same for the translation inputs. */
  lemma TranslationCycle(t: TranslationInput)
    ensures t.Next().Next().Next().Next() == t
    ensures t.Next().Prev() == t && t.Prev().Next() == t
  {
  }

  datatype Cell2 = Cell2(x: int, y: int)
  datatype Point2 = Point2(x: real, y: real)

  function ToReal(c: Cell2): Point2
  {
    Point2(c.x as real, c.y as real)
  }

  /** The translation as seen from the grid: North leaves it alone, East turns it once, South twice, West back once. */
  function Adjust(translation: TranslationInput, orientation: Orientation): TranslationInput
  {
    match orientation
    case North => translation
    case East => translation.Next()
    case South => translation.Next().Next()
    case West => translation.Prev()
  }

  /** One grid step: forward is toward smaller y, right toward larger x. */
  function MovementVector(translation: TranslationInput): (step: Cell2)
    ensures step.x * step.x + step.y * step.y == 1
  {
    match translation
    case Forward => Cell2(0, -1)
    case Right => Cell2(1, 0)
    case Backward => Cell2(0, 1)
    case Left => Cell2(-1, 0)
  }

  /** The grid direction the player faces. */
  function Heading(orientation: Orientation): Cell2
  {
    match orientation
    case North => Cell2(0, -1)
    case East => Cell2(1, 0)
    case South => Cell2(0, 1)
    case West => Cell2(-1, 0)
  }

  /**
   * Moves are relative to the player: forward goes where they face, right where they would face
   * after a right turn, backward where they would face after two, left after a left turn; and
   * turning the player turns every move with them.
   */
  lemma {:induction false} MovesFollowOrientation(orientation: Orientation, t: TranslationInput)
    ensures MovementVector(Adjust(Forward, orientation)) == Heading(orientation)
    ensures MovementVector(Adjust(Right, orientation)) == Heading(orientation.Next())
    ensures MovementVector(Adjust(Backward, orientation)) == Heading(orientation.Next().Next())
    ensures MovementVector(Adjust(Left, orientation)) == Heading(orientation.Prev())
    ensures Adjust(t, orientation.Next()) == Adjust(t, orientation).Next()
  {
    match orientation
    case North =>
    case East =>
    case South =>
    case West => TranslationCycle(t);
  }

  function Add(c: Cell2, step: Cell2): Cell2
  {
    Cell2(c.x + step.x, c.y + step.y)
  }

  /** `VectorSpace::lerp` on positions and `math::lerp` on yaws. */
  function LerpPoint(from: Point2, to: Point2, amount: real): Point2
  {
    Point2(from.x + (to.x - from.x) * amount, from.y + (to.y - from.y) * amount)
  }

  function Lerp(a: real, b: real, f: real): real
  {
    a * (1.0 - f) + b * f
  }

  /** A snapshot of the movement fields. */
  datatype MovementState = MovementState(
    currentMove: Option<MovementInput>, progress: real, queue: seq<MovementInput>,
    fromPosition: Cell2, position: Cell2, realPosition: Point2,
    toYaw: real, fromYaw: real, currentYaw: real, orientation: Orientation)

  /** `Movement::new`: idle at `position`, facing `orientation`, with nothing buffered. */
  function NewMovement(position: Cell2, orientation: Orientation): (s: MovementState)
    ensures s.currentMove.None? && s.queue == [] && s.position == s.fromPosition == position
    ensures s.realPosition == ToReal(position) && s.currentYaw == orientation.ToYaw() && s.orientation == orientation
  {
    MovementState(None, 0.0, [], position, position, ToReal(position), 0.0, 0.0, orientation.ToYaw(), orientation)
  }

  /** `add_input` as written: the test `len <= MAX_BUFFERED_MOVES` still admits a fourth move. */
  function AddInputAsWritten(queue: seq<MovementInput>, input: MovementInput): (q: seq<MovementInput>)
    ensures |queue| <= |q| <= |queue| + 1 && q[..|queue|] == queue
    ensures |q| == |queue| + 1 <==> |queue| <= MAX_BUFFERED_MOVES
    ensures |q| == |queue| + 1 ==> q[|queue|] == input
  {
    if |queue| <= MAX_BUFFERED_MOVES then queue + [input] else queue
  }

  /**
   * Four presses with nothing dequeued leave four moves buffered, one more than the maximum; the
   * test as written does stop at four.
   */
  lemma AddInputAsWrittenBuffersFour(input: MovementInput)
    ensures var q := AddInputAsWritten(AddInputAsWritten(AddInputAsWritten(AddInputAsWritten([], input), input), input), input);
            |q| == MAX_BUFFERED_MOVES + 1
    ensures forall queue: seq<MovementInput> :: |queue| <= MAX_BUFFERED_MOVES + 1 ==>
              |AddInputAsWritten(queue, input)| <= MAX_BUFFERED_MOVES + 1
  {
  }

  /** `add_input` with the bound the constant names: appends only while fewer than three moves wait. */
  function AddInput(queue: seq<MovementInput>, input: MovementInput): (q: seq<MovementInput>)
    ensures |queue| <= |q| <= |queue| + 1 && q[..|queue|] == queue
    ensures |q| == |queue| + 1 <==> |queue| < MAX_BUFFERED_MOVES
    ensures |q| == |queue| + 1 ==> q[|queue|] == input
  {
    if |queue| < MAX_BUFFERED_MOVES then queue + [input] else queue
  }

  /** Starting from at most three buffered moves, no sequence of presses buffers more than three. */
  lemma {:induction false} AddInputKeepsBound(queue: seq<MovementInput>, inputs: seq<MovementInput>)
    requires |queue| <= MAX_BUFFERED_MOVES
    ensures |AddAll(queue, inputs)| <= MAX_BUFFERED_MOVES
    ensures AddAll(queue, inputs)[..|queue|] == queue
  {
    if |inputs| > 0 {
      AddInputKeepsBound(queue, inputs[..|inputs| - 1]);
    }
  }

  function AddAll(queue: seq<MovementInput>, inputs: seq<MovementInput>): (q: seq<MovementInput>)
    ensures |queue| <= |q|
  {
    if |inputs| == 0 then queue else AddInput(AddAll(queue, inputs[..|inputs| - 1]), inputs[|inputs| - 1])
  }

  /** The dequeue branch of `update`: take the oldest buffered move, if any, and start it. */
  function StartMove(s: MovementState): MovementState
  {
    if |s.queue| == 0 then s
    else
      var movement := s.queue[0];
      var s' := s.(progress := 0.0, queue := s.queue[1..], currentMove := Some(movement));
      match movement
      case Translate(translation) =>
        var step := MovementVector(Adjust(translation, s.orientation));
        s'.(fromPosition := s.position, position := Add(s.position, step))
      case Rotate(TurnLeft) =>
        s'.(fromYaw := s.currentYaw, toYaw := s.currentYaw + FRAC_PI_2 + LEFT_TURN_NUDGE, orientation := s.orientation.Prev())
      case Rotate(TurnRight) =>
        s'.(fromYaw := s.currentYaw, toYaw := s.currentYaw - FRAC_PI_2, orientation := s.orientation.Next())
  }

  /** The animation branch of `update` while the move has not reached the end. */
  function Animate(s: MovementState, progress: real): MovementState
    requires s.currentMove.Some?
  {
    if s.currentMove.value.IsTranslation() then
      s.(progress := progress, realPosition := LerpPoint(ToReal(s.fromPosition), ToReal(s.position), progress))
    else
      s.(progress := progress, currentYaw := Lerp(s.fromYaw, s.toYaw, progress))
  }

  /** The end of a move as written: progress clamped, the move dropped, the yaw snapped; the position is left where the last frame put it. */
  function FinishAsWritten(s: MovementState): (r: MovementState)
    ensures r.currentMove.None? && r.progress == 1.0 && r.currentYaw == s.orientation.ToYaw()
    ensures r.realPosition == s.realPosition
    ensures r.position == s.position && r.orientation == s.orientation && r.queue == s.queue
  {
    s.(progress := 1.0, currentMove := None, currentYaw := s.orientation.ToYaw())
  }

  /** The end of a move: as written, and the position snapped to the cell the move reached. */
  function Finish(s: MovementState): MovementState
  {
    s.(progress := 1.0, currentMove := None, currentYaw := s.orientation.ToYaw(), realPosition := ToReal(s.position))
  }

  /**
   * `update` as written. It agrees with the corrected `Update` in every field but the camera position,
   * and in that one too except on the frame that finishes a move, where the camera stays put.
   */
  function UpdateAsWritten(s: MovementState, deltaTimeS: real): (r: MovementState)
    ensures r == Update(s, deltaTimeS).(realPosition := r.realPosition)
    ensures s.currentMove.None? || s.progress + MOVE_SPEED * deltaTimeS < 1.0 ==> r == Update(s, deltaTimeS)
    ensures s.currentMove.Some? && s.progress + MOVE_SPEED * deltaTimeS >= 1.0 ==> r.realPosition == s.realPosition
  {
    if s.currentMove.None? then StartMove(s)
    else
      var progress := s.progress + MOVE_SPEED * deltaTimeS;
      if progress >= 1.0 then FinishAsWritten(s) else Animate(s, progress)
  }

  /** `update`: advance a running move, finishing it once progress reaches 1; otherwise start the next buffered one. */
  function Update(s: MovementState, deltaTimeS: real): (r: MovementState)
    ensures s.currentMove.None? && s.queue == [] ==> r == s
    ensures s.currentMove.None? && s.queue != [] ==>
              r.currentMove == Some(s.queue[0]) && r.queue == s.queue[1..] && r.progress == 0.0
    ensures s.currentMove.Some? && s.progress + MOVE_SPEED * deltaTimeS >= 1.0 ==>
              && r.currentMove.None? && r.progress == 1.0 && r.queue == s.queue && r.position == s.position
              && r.realPosition == ToReal(s.position) && r.currentYaw == s.orientation.ToYaw()
    ensures s.currentMove.Some? && s.progress + MOVE_SPEED * deltaTimeS < 1.0 ==>
              && r.currentMove == s.currentMove && r.progress == s.progress + MOVE_SPEED * deltaTimeS
              && r.queue == s.queue && r.position == s.position && r.orientation == s.orientation
  {
    if s.currentMove.None? then StartMove(s)
    else
      var progress := s.progress + MOVE_SPEED * deltaTimeS;
      if progress >= 1.0 then Finish(s) else Animate(s, progress)
  }

  /**
   * As written, a step that ends between frames leaves the camera short of the cell: one press of
   * forward, then frames of 0.1 s, 0.2 s and 0.1 s, ends idle at (0, -1) with the camera at (0, -0.8).
   */
  lemma FinishAsWrittenLeavesCameraShort()
    ensures var s0 := NewMovement(Cell2(0, 0), North).(queue := [Translate(Forward)]);
            var s3 := UpdateAsWritten(UpdateAsWritten(UpdateAsWritten(s0, 0.1), 0.2), 0.1);
            && s3.currentMove.None? && s3.position == Cell2(0, -1)
            && s3.realPosition == Point2(0.0, -0.8) != ToReal(s3.position)
  {
  }

  /**
   * The movement invariant: at most three moves wait; a running move has not reached the end, and
   * a running step goes to a neighbouring cell; when idle, the camera sits on the cell facing the
   * orientation.
   */
  ghost predicate Consistent(s: MovementState)
  {
    && |s.queue| <= MAX_BUFFERED_MOVES
    && (s.currentMove.Some? ==> s.progress < 1.0)
    && (s.currentMove.Some? && s.currentMove.value.IsTranslation() ==>
          s.position == Add(s.fromPosition, MovementVector(Adjust(s.currentMove.value.translation, s.orientation))))
    && (s.currentMove.None? ==> s.realPosition == ToReal(s.position) && s.currentYaw == s.orientation.ToYaw())
  }

  /**
   * `update` keeps the invariant. A started move is the oldest buffered one: a step moves the cell
   * by exactly one grid step and keeps the orientation, a turn keeps the cell; a move is only
   * dequeued when none is running, and one that reaches the end leaves the player idle.
   */
  lemma {:induction false} UpdateKeepsConsistent(s: MovementState, deltaTimeS: real)
    requires Consistent(s)
    ensures var s' := Update(s, deltaTimeS);
            && Consistent(s')
            && (s.currentMove.Some? ==> s'.queue == s.queue && s'.position == s.position && s'.orientation == s.orientation)
            && (s.currentMove.Some? && s.progress + MOVE_SPEED * deltaTimeS >= 1.0 ==> s'.currentMove.None?)
            && (s.currentMove.None? && |s.queue| > 0 ==>
                  && s'.currentMove == Some(s.queue[0]) && s'.queue == s.queue[1..] && s'.progress == 0.0
                  && (s.queue[0].IsTranslation() ==>
                        && s'.fromPosition == s.position && s'.orientation == s.orientation
                        && s'.position == Add(s.position, MovementVector(Adjust(s.queue[0].translation, s.orientation))))
                  && (s.queue[0].IsRotation() ==>
                        && s'.position == s.position
                        && s'.orientation == (if s.queue[0].rotation == TurnRight then s.orientation.Next() else s.orientation.Prev())))
            && (s.currentMove.None? && |s.queue| == 0 ==> s' == s)
  {
  }

  /** `Movement`: the fields `update` and `add_input` change in place. */
  class Movement {
    var currentMove: Option<MovementInput>
    var currentMoveProgress: real
    var movementInput: seq<MovementInput>
    var fromDiscretePosition: Cell2
    var discretePosition: Cell2
    var realPosition: Point2
    var toYaw: real
    var fromYaw: real
    var currentYaw: real
    var orientation: Orientation

    function State(): MovementState
      reads this
    {
      MovementState(currentMove, currentMoveProgress, movementInput, fromDiscretePosition, discretePosition,
                    realPosition, toYaw, fromYaw, currentYaw, orientation)
    }

    ghost predicate Valid()
      reads this
    {
      Consistent(State())
    }

    /** `Movement::new`. */
    constructor (position: Cell2, initialOrientation: Orientation)
      ensures Valid() && State() == NewMovement(position, initialOrientation)
    {
      currentMove := None;
      currentMoveProgress := 0.0;
      movementInput := [];
      fromDiscretePosition := position;
      discretePosition := position;
      realPosition := ToReal(position);
      toYaw := 0.0;
      fromYaw := 0.0;
      currentYaw := initialOrientation.ToYaw();
      orientation := initialOrientation;
    }

    /** `add_input`, bounded at three buffered moves. */
    method AddInputToQueue(input: MovementInput)
      requires Valid()
      modifies this
      ensures Valid()
      ensures State() == old(State()).(queue := AddInput(old(movementInput), input))
    {
      if |movementInput| < MAX_BUFFERED_MOVES {
        movementInput := movementInput + [input];
      }
    }

    /** `update`, with the position snapped when a move ends. */
    method UpdateMovement(deltaTimeS: real)
      requires Valid()
      modifies this
      ensures Valid()
      ensures State() == Update(old(State()), deltaTimeS)
    {
      UpdateKeepsConsistent(State(), deltaTimeS);
      if currentMove.Some? {
        var currentMovement := currentMove.value;
        currentMoveProgress := currentMoveProgress + MOVE_SPEED * deltaTimeS;
        if currentMoveProgress >= 1.0 {
          currentMoveProgress := 1.0;
          currentMove := None;
          currentYaw := orientation.ToYaw();
          realPosition := ToReal(discretePosition);
        } else if currentMovement.IsTranslation() {
          realPosition := LerpPoint(ToReal(fromDiscretePosition), ToReal(discretePosition), currentMoveProgress);
        } else {
          currentYaw := Lerp(fromYaw, toYaw, currentMoveProgress);
        }
      } else if |movementInput| > 0 {
        var movement := movementInput[0];
        movementInput := movementInput[1..];
        currentMoveProgress := 0.0;
        match movement {
          case Translate(translation) =>
            var movementVector := MovementVector(Adjust(translation, orientation));
            fromDiscretePosition := discretePosition;
            discretePosition := Add(discretePosition, movementVector);
          case Rotate(rotation) =>
            fromYaw := currentYaw;
            if rotation == TurnLeft {
              toYaw := currentYaw + FRAC_PI_2 + LEFT_TURN_NUDGE;
              orientation := orientation.Prev();
            } else {
              toYaw := currentYaw - FRAC_PI_2;
              orientation := orientation.Next();
            }
        }
        currentMove := Some(movement);
      }
    }
  }
}

=== FILE: obj.dfy ===
/**
 * The Wavefront OBJ loader: lines are classified by their prefix, face lines are read through the
 * face pattern's captures (stored in reverse corner order), and every face corner's 1-based
 * (vertex, normal) pair becomes a 0-based key that is given the next vertex slot the first time
 * it is seen and reuses that slot afterwards.
 */
module ObjModels {
  import opened Wrappers
  import Queues

  datatype Vector3 = Vector3(x: real, y: real, z: real)

  datatype Triple = Triple(first: nat, second: nat, third: nat)
  {
    function At(i: nat): nat
      requires i < 3
    {
      if i == 0 then first else if i == 1 then second else third
    }
  }

  /** A face: the three vertex indices and, when the line gave them, the three normal indices, as written (1-based). */
  datatype Face = Face(vertices: Triple, normals: Option<Triple>)

  /**
   * The face pattern's named groups for one line: `v1`..`v3` always take part in a match (possibly
   * empty); `n1`..`n3` only when that corner has a normal component. The texture groups are unused.
   */
  datatype FaceCaptures = FaceCaptures(v1: string, v2: string, v3: string, n1: Option<string>, n2: Option<string>, n3: Option<string>)

  const EMPTY_NUMBER := "cannot parse integer from empty string"
  const INVALID_DIGIT := "invalid digit found in string"
  const NUMBER_TOO_LARGE := "number too large to fit in target type"
  const UNWRAP_NONE := "called `Option::unwrap()` on a `None` value"
  const INVALID_FLOAT := "invalid float literal"

  predicate AllDigits(s: string)
  {
    forall i :: 0 <= i < |s| ==> '0' <= s[i] <= '9'
  }

  /** `u32::from_str(..).unwrap()` on a string of the pattern's digits: the errors are the panics. */
  function ParseU32(s: string): (r: Result<nat>)
    ensures r.Ok? <==> |s| > 0 && AllDigits(s) && Queues.ParseDecimal(s) <= U32_MAX
    ensures r.Ok? ==> r.value == Queues.ParseDecimal(s) && IsU32(r.value)
  {
    if |s| == 0 then Err(EMPTY_NUMBER)
    else if !AllDigits(s) then Err(INVALID_DIGIT)
    else if Queues.ParseDecimal(s) > U32_MAX then Err(NUMBER_TOO_LARGE)
    else Ok(Queues.ParseDecimal(s))
  }

  /** Every `u32` written in decimal reads back as itself. */
  lemma ParseU32RoundTrip(n: nat)
    requires IsU32(n)
    ensures ParseU32(Queues.Decimal(n)) == Ok(n)
  {
    Queues.DecimalRoundTrip(n);
  }

  /** A captured group, parsed; a group that did not take part is the `unwrap` panic on `None`. */
  function ParseGroup(group: Option<string>): Result<nat>
  {
    if group.None? then Err(UNWRAP_NONE) else ParseU32(group.value)
  }

  /**
   * `_parse_face_line`: None when the pattern does not match; otherwise the face with its corners
   * in the order v3, v2, v1, and normals n3, n2, n1 exactly when the first corner has a normal.
   */
  function ParseFaceLine(captures: Option<FaceCaptures>): (r: Result<Option<Face>>)
    ensures captures.None? ==> r == Ok(None)
    ensures captures.Some? ==>
              var c := captures.value;
              && (r.Ok? <==> && ParseU32(c.v1).Ok? && ParseU32(c.v2).Ok? && ParseU32(c.v3).Ok?
                             && (c.n1.Some? ==> ParseGroup(c.n1).Ok? && ParseGroup(c.n2).Ok? && ParseGroup(c.n3).Ok?))
              && (r.Ok? ==> && r.value.Some?
                            && r.value.value.vertices == Triple(ParseU32(c.v3).value, ParseU32(c.v2).value, ParseU32(c.v1).value)
                            && (r.value.value.normals.Some? <==> c.n1.Some?)
                            && (c.n1.Some? ==> r.value.value.normals.value
                                               == Triple(ParseGroup(c.n3).value, ParseGroup(c.n2).value, ParseGroup(c.n1).value)))
  {
    match captures
    case None => Ok(None)
    case Some(c) =>
      var v1 := ParseU32(c.v1);
      if v1.Err? then Err(v1.error) else
      var v2 := ParseU32(c.v2);
      if v2.Err? then Err(v2.error) else
      var v3 := ParseU32(c.v3);
      if v3.Err? then Err(v3.error) else
      var vertices := Triple(v3.value, v2.value, v1.value);
      if c.n1.Some? then
        var n1 := ParseGroup(c.n1);
        if n1.Err? then Err(n1.error) else
        var n2 := ParseGroup(c.n2);
        if n2.Err? then Err(n2.error) else
        var n3 := ParseGroup(c.n3);
        if n3.Err? then Err(n3.error) else
        Ok(Some(Face(vertices, Some(Triple(n3.value, n2.value, n1.value)))))
      else
        Ok(Some(Face(vertices, None)))
  }

  predicate StartsWith(line: string, prefix: string)
  {
    |prefix| <= |line| && line[..|prefix|] == prefix
  }

  datatype LineKind = ObjectLine | VertexLine | NormalLine | FaceLine | OtherLine

  /** The prefixes tried in order: "o", "v ", "vn ", "f "; anything else is ignored. */
  function Classify(line: string): (kind: LineKind)
    ensures kind == ObjectLine <==> |line| > 0 && line[0] == 'o'
    ensures kind == VertexLine <==> |line| >= 2 && line[0] == 'v' && line[1] == ' '
    ensures kind == NormalLine <==> |line| >= 3 && line[0] == 'v' && line[1] == 'n' && line[2] == ' '
    ensures kind == FaceLine <==> |line| >= 2 && line[0] == 'f' && line[1] == ' '
  {
    if StartsWith(line, "o") then ObjectLine
    else if StartsWith(line, "v ") then VertexLine
    else if StartsWith(line, "vn ") then NormalLine
    else if StartsWith(line, "f ") then FaceLine
    else OtherLine
  }

  const MULTIPLE_OBJECTS := "Multiple object not supported"

  predicate IsAsciiWhitespace(c: char)
  {
    c == ' ' || c == '\t' || c == '\n' || c as int == 12 || c == '\r'
  }

  /** How many words `split_ascii_whitespace` yields: the non-blank characters that start a run. */
  function WordCount(s: string): (n: nat)
    ensures n <= |s|
    ensures n == 0 <==> forall i :: 0 <= i < |s| ==> IsAsciiWhitespace(s[i])
  {
    if |s| == 0 then 0
    else
      var last := s[|s| - 1];
      var starts := !IsAsciiWhitespace(last) && (|s| == 1 || IsAsciiWhitespace(s[|s| - 2]));
      var n := WordCount(s[..|s| - 1]);
      if !starts && !IsAsciiWhitespace(last) then
        assert !IsAsciiWhitespace(s[..|s| - 1][|s| - 2]);
        n
      else if starts then n + 1 else n
  }

  /** What the line loop has gathered. */
  datatype ObjContents = ObjContents(foundObject: bool, rawVertices: seq<Vector3>, rawNormals: seq<Vector3>, faces: seq<Face>)

  /**
   * One line of the loop. `parseVec3` is `f32::from_str` applied to the second, third and fourth
   * words of a "v"/"vn" line (None when one of them is not a float) and `captures` the face pattern
   * applied to a line; a line that could not be read (None) is skipped. `_parse_vec3` panics on a
   * line with fewer than three numbers and on a number that does not parse.
   */
  function ScanLine(contents: ObjContents, line: Option<string>, parseVec3: string -> Option<Vector3>,
                    captures: string -> Option<FaceCaptures>): Result<ObjContents>
  {
    if line.None? then Ok(contents)
    else
      var text := line.value;
      match Classify(text)
      case ObjectLine =>
        if contents.foundObject then Err(MULTIPLE_OBJECTS)
        else if WordCount(text) < 2 then Err(UNWRAP_NONE)
        else Ok(contents.(foundObject := true))
      case VertexLine =>
        if WordCount(text) < 4 then Err(UNWRAP_NONE)
        else if parseVec3(text).None? then Err(INVALID_FLOAT)
        else Ok(contents.(rawVertices := contents.rawVertices + [parseVec3(text).value]))
      case NormalLine =>
        if WordCount(text) < 4 then Err(UNWRAP_NONE)
        else if parseVec3(text).None? then Err(INVALID_FLOAT)
        else Ok(contents.(rawNormals := contents.rawNormals + [parseVec3(text).value]))
      case FaceLine =>
        var face := ParseFaceLine(captures(text));
        if face.Err? then Err(face.error)
        else if face.value.None? then Err(UNWRAP_NONE)
        else Ok(contents.(faces := contents.faces + [face.value.value]))
      case OtherLine => Ok(contents)
  }

  /** The line loop over the first lines; the first error ends it. */
  function Scan(lines: seq<Option<string>>, parseVec3: string -> Option<Vector3>, captures: string -> Option<FaceCaptures>): Result<ObjContents>
  {
    if |lines| == 0 then Ok(ObjContents(false, [], [], []))
    else
      var before := Scan(lines[..|lines| - 1], parseVec3, captures);
      if before.Err? then before else ScanLine(before.value, lines[|lines| - 1], parseVec3, captures)
  }

  /** How many readable lines are of the kind. */
  function CountKind(lines: seq<Option<string>>, kind: LineKind): nat
  {
    if |lines| == 0 then 0
    else
      var last := lines[|lines| - 1];
      CountKind(lines[..|lines| - 1], kind) + (if last.Some? && Classify(last.value) == kind then 1 else 0)
  }

  /**
   * A successful scan saw at most one object line, one raw vertex per "v " line, one raw normal per
   * "vn " line and one face per "f " line; and a second object line always ends the load in error.
   */
  lemma {:induction false} ScanCounts(lines: seq<Option<string>>, parseVec3: string -> Option<Vector3>, captures: string -> Option<FaceCaptures>)
    ensures var r := Scan(lines, parseVec3, captures);
            r.Ok? ==> && CountKind(lines, ObjectLine) <= 1
                      && (r.value.foundObject <==> CountKind(lines, ObjectLine) == 1)
                      && |r.value.rawVertices| == CountKind(lines, VertexLine)
                      && |r.value.rawNormals| == CountKind(lines, NormalLine)
                      && |r.value.faces| == CountKind(lines, FaceLine)
    ensures CountKind(lines, ObjectLine) >= 2 ==> Scan(lines, parseVec3, captures).Err?
  {
    if |lines| > 0 {
      ScanCounts(lines[..|lines| - 1], parseVec3, captures);
    }
  }

  /** A face corner's key: the 0-based vertex index and, if the face has normals, the 0-based normal index. */
  datatype VertexKey = VertexKey(vertexIndex: nat, normalIndex: Option<nat>)

  datatype NormalVertex = NormalVertex(position: Vector3, normal: Vector3)

  const SUBTRACT_OVERFLOW := "attempt to subtract with overflow"

  /** The key of corner `i` of a face: 1-based to 0-based; an index 0 underflows the `u32` subtraction. */
  function CornerKey(face: Face, i: nat): (r: Result<VertexKey>)
    requires i < 3
    ensures r.Ok? <==> face.vertices.At(i) > 0 && (face.normals.Some? ==> face.normals.value.At(i) > 0)
    ensures r.Ok? ==> && face.vertices.At(i) == r.value.vertexIndex + 1
                      && (r.value.normalIndex.Some? <==> face.normals.Some?)
                      && (face.normals.Some? ==> face.normals.value.At(i) == r.value.normalIndex.value + 1)
  {
    if face.vertices.At(i) == 0 then Err(SUBTRACT_OVERFLOW)
    else if face.normals.Some? && face.normals.value.At(i) == 0 then Err(SUBTRACT_OVERFLOW)
    else Ok(VertexKey(face.vertices.At(i) - 1, if face.normals.Some? then Some(face.normals.value.At(i) - 1) else None))
  }

  /** The keys seen so far, each once, in the order of first sight. */
  function Distinct(keys: seq<VertexKey>): seq<VertexKey>
  {
    if |keys| == 0 then []
    else
      var d := Distinct(keys[..|keys| - 1]);
      if keys[|keys| - 1] in d then d else d + [keys[|keys| - 1]]
  }

  lemma {:induction false} DistinctProperties(keys: seq<VertexKey>)
    ensures forall i, j :: 0 <= i < j < |Distinct(keys)| ==> Distinct(keys)[i] != Distinct(keys)[j]
    ensures forall key :: key in Distinct(keys) <==> key in keys
  {
    if |keys| > 0 {
      DistinctProperties(keys[..|keys| - 1]);
      assert keys == keys[..|keys| - 1] + [keys[|keys| - 1]];
    }
  }

  /** The vertex a key stands for, when its indices are in range and it has a normal. */
  function KeyVertex(key: VertexKey, rawVertices: seq<Vector3>, rawNormals: seq<Vector3>): Result<NormalVertex>
  {
    if key.vertexIndex >= |rawVertices| then Err(UNWRAP_NONE)
    else if key.normalIndex.None? then Err(UNWRAP_NONE)
    else if key.normalIndex.value >= |rawNormals| then Err(UNWRAP_NONE)
    else Ok(NormalVertex(rawVertices[key.vertexIndex], rawNormals[key.normalIndex.value]))
  }

  /** The index loop's state: the key-to-slot table, the vertices emitted, the indices, and the keys met. */
  datatype IndexState = IndexState(table: map<VertexKey, nat>, vertices: seq<NormalVertex>, indices: seq<nat>, keys: seq<VertexKey>)

  /**
   * One corner: a known key repeats its slot; a new key takes the next slot, `normal_vertices.len()`,
   * once its vertex and normal are looked up.
   */
  function IndexCorner(state: IndexState, face: Face, i: nat, rawVertices: seq<Vector3>, rawNormals: seq<Vector3>): Result<IndexState>
    requires i < 3
  {
    var key := CornerKey(face, i);
    if key.Err? then Err(key.error)
    else if key.value in state.table then
      Ok(state.(indices := state.indices + [state.table[key.value]], keys := state.keys + [key.value]))
    else
      var vertex := KeyVertex(key.value, rawVertices, rawNormals);
      if vertex.Err? then Err(vertex.error)
      else
        var index := |state.vertices|;
        Ok(IndexState(state.table[key.value := index], state.vertices + [vertex.value],
                      state.indices + [index], state.keys + [key.value]))
  }

  /** The first `count` corners of a face, from `state`. */
  function IndexCorners(state: IndexState, face: Face, count: nat, rawVertices: seq<Vector3>, rawNormals: seq<Vector3>): Result<IndexState>
    requires count <= 3
  {
    if count == 0 then Ok(state)
    else
      var before := IndexCorners(state, face, count - 1, rawVertices, rawNormals);
      if before.Err? then before else IndexCorner(before.value, face, count - 1, rawVertices, rawNormals)
  }

  /** Corners 0, 1 and 2 of one face. */
  function IndexFace(state: IndexState, face: Face, rawVertices: seq<Vector3>, rawNormals: seq<Vector3>): Result<IndexState>
  {
    IndexCorners(state, face, 3, rawVertices, rawNormals)
  }

  /** The face loop over the first faces, from an empty table. */
  function IndexFaces(faces: seq<Face>, rawVertices: seq<Vector3>, rawNormals: seq<Vector3>): Result<IndexState>
  {
    if |faces| == 0 then Ok(IndexState(map[], [], [], []))
    else
      var before := IndexFaces(faces[..|faces| - 1], rawVertices, rawNormals);
      if before.Err? then before else IndexFace(before.value, faces[|faces| - 1], rawVertices, rawNormals)
  }

  /** The table holds exactly the keys met so far, the `t`-th distinct key at slot `t`. */
  ghost predicate TableIsDistinct(table: map<VertexKey, nat>, keys: seq<VertexKey>)
  {
    var d := Distinct(keys);
    && (forall key :: key in table <==> key in d)
    && (forall t :: 0 <= t < |d| ==> table[d[t]] == t)
  }

  /** Slot `t` holds the vertex of the `t`-th distinct key. */
  ghost predicate SlotsHoldVertices(vertices: seq<NormalVertex>, keys: seq<VertexKey>, rawVertices: seq<Vector3>, rawNormals: seq<Vector3>)
  {
    var d := Distinct(keys);
    && |vertices| == |d|
    && (forall t :: 0 <= t < |d| ==> KeyVertex(d[t], rawVertices, rawNormals) == Ok(vertices[t]))
  }

  /** Each index is the slot of its corner's key. */
  ghost predicate IndicesAreSlots(table: map<VertexKey, nat>, indices: seq<nat>, keys: seq<VertexKey>)
  {
    && |indices| == |keys|
    && (forall k :: 0 <= k < |keys| ==> keys[k] in table && indices[k] == table[keys[k]])
  }

  /** The de-duplication invariant of the face loop. */
  ghost predicate Deduplicated(state: IndexState, rawVertices: seq<Vector3>, rawNormals: seq<Vector3>)
  {
    && TableIsDistinct(state.table, state.keys)
    && SlotsHoldVertices(state.vertices, state.keys, rawVertices, rawNormals)
    && IndicesAreSlots(state.table, state.indices, state.keys)
  }

  /** A key already in the table repeats its slot and adds no vertex. */
  lemma KnownKeyKeepsDeduplicated(state: IndexState, key: VertexKey, rawVertices: seq<Vector3>, rawNormals: seq<Vector3>)
    requires Deduplicated(state, rawVertices, rawNormals) && key in state.table
    ensures Deduplicated(state.(indices := state.indices + [state.table[key]], keys := state.keys + [key]), rawVertices, rawNormals)
  {
    var keys' := state.keys + [key];
    assert keys'[..|keys'| - 1] == state.keys;
    assert Distinct(keys') == Distinct(state.keys);
  }

  /** A new key takes the next slot, which now holds its vertex. */
  lemma NewKeyKeepsDeduplicated(state: IndexState, key: VertexKey, vertex: NormalVertex, rawVertices: seq<Vector3>, rawNormals: seq<Vector3>)
    requires Deduplicated(state, rawVertices, rawNormals) && key !in state.table
    requires KeyVertex(key, rawVertices, rawNormals) == Ok(vertex)
    ensures var n := |state.vertices|;
            Deduplicated(IndexState(state.table[key := n], state.vertices + [vertex], state.indices + [n], state.keys + [key]),
                         rawVertices, rawNormals)
  {
    var n := |state.vertices|;
    var keys' := state.keys + [key];
    var table' := state.table[key := n];
    assert keys'[..|keys'| - 1] == state.keys;
    var d := Distinct(state.keys);
    assert Distinct(keys') == d + [key];
    forall t | 0 <= t < |d| + 1
      ensures table'[(d + [key])[t]] == t
    {
      if t < |d| {
        assert d[t] in state.table;
      }
    }
    forall k | 0 <= k < |keys'|
      ensures keys'[k] in table' && (state.indices + [n])[k] == table'[keys'[k]]
    {
      if k < |state.keys| {
        assert keys'[k] == state.keys[k] && state.keys[k] in state.table;
      }
    }
  }

  lemma IndexCornerKeepsDeduplicated(state: IndexState, face: Face, i: nat, rawVertices: seq<Vector3>, rawNormals: seq<Vector3>)
    requires i < 3 && Deduplicated(state, rawVertices, rawNormals)
    ensures var r := IndexCorner(state, face, i, rawVertices, rawNormals);
            r.Ok? ==> CornerKey(face, i).Ok? && Deduplicated(r.value, rawVertices, rawNormals)
                      && r.value.keys == state.keys + [CornerKey(face, i).value]
  {
    var key := CornerKey(face, i);
    if key.Ok? {
      if key.value in state.table {
        KnownKeyKeepsDeduplicated(state, key.value, rawVertices, rawNormals);
      } else {
        var vertex := KeyVertex(key.value, rawVertices, rawNormals);
        if vertex.Ok? {
          NewKeyKeepsDeduplicated(state, key.value, vertex.value, rawVertices, rawNormals);
        }
      }
    }
  }

  lemma AppendThree<T>(s: seq<T>, a: T, b: T, c: T)
    ensures s + [a] + [b] + [c] == s + [a, b, c]
  {
  }

  lemma IndexFaceKeepsDeduplicated(state: IndexState, face: Face, rawVertices: seq<Vector3>, rawNormals: seq<Vector3>)
    requires Deduplicated(state, rawVertices, rawNormals)
    ensures var r := IndexFace(state, face, rawVertices, rawNormals);
            r.Ok? ==> && CornerKey(face, 0).Ok? && CornerKey(face, 1).Ok? && CornerKey(face, 2).Ok?
                      && Deduplicated(r.value, rawVertices, rawNormals)
                      && r.value.keys == state.keys + [CornerKey(face, 0).value, CornerKey(face, 1).value, CornerKey(face, 2).value]
  {
    assert IndexCorners(state, face, 0, rawVertices, rawNormals) == Ok(state);
    var s0 := IndexCorners(state, face, 1, rawVertices, rawNormals);
    IndexCornerKeepsDeduplicated(state, face, 0, rawVertices, rawNormals);
    if s0.Err? {
      FaceStopsAtError(state, face, 1, rawVertices, rawNormals);
      return;
    }
    var s1 := IndexCorners(state, face, 2, rawVertices, rawNormals);
    IndexCornerKeepsDeduplicated(s0.value, face, 1, rawVertices, rawNormals);
    if s1.Err? {
      FaceStopsAtError(state, face, 2, rawVertices, rawNormals);
      return;
    }
    IndexCornerKeepsDeduplicated(s1.value, face, 2, rawVertices, rawNormals);
    var r := IndexFace(state, face, rawVertices, rawNormals);
    if r.Ok? {
      var k0, k1, k2 := CornerKey(face, 0).value, CornerKey(face, 1).value, CornerKey(face, 2).value;
      assert r.value.keys == state.keys + [k0] + [k1] + [k2];
      AppendThree(state.keys, k0, k1, k2);
    }
  }

  /** The corner keys of the faces, three per face in corner order, when none underflows. */
  function FaceKeys(faces: seq<Face>): Option<seq<VertexKey>>
  {
    if |faces| == 0 then Some([])
    else
      var before := FaceKeys(faces[..|faces| - 1]);
      var face := faces[|faces| - 1];
      if before.None? || CornerKey(face, 0).Err? || CornerKey(face, 1).Err? || CornerKey(face, 2).Err? then None
      else Some(before.value + [CornerKey(face, 0).value, CornerKey(face, 1).value, CornerKey(face, 2).value])
  }

  /**
   * A successful index pass: every corner's key is valid, there are three indices per face, each
   * index names the emitted vertex of its corner's key, two corners share an index exactly when
   * they share a key, and the vertices are the distinct keys' vertices in order of first sight.
   */
  lemma {:induction false} IndexFacesDeduplicates(faces: seq<Face>, rawVertices: seq<Vector3>, rawNormals: seq<Vector3>)
    ensures var r := IndexFaces(faces, rawVertices, rawNormals);
            r.Ok? ==>
              && FaceKeys(faces) == Some(r.value.keys)
              && |r.value.keys| == |r.value.indices|
              && |r.value.indices| == 3 * |faces|
              && |r.value.vertices| == |Distinct(r.value.keys)|
              && (forall k :: 0 <= k < |r.value.indices| ==>
                    r.value.indices[k] < |r.value.vertices|
                    && KeyVertex(r.value.keys[k], rawVertices, rawNormals) == Ok(r.value.vertices[r.value.indices[k]]))
              && (forall j, k :: 0 <= j < |r.value.indices| && 0 <= k < |r.value.indices| ==>
                    (r.value.indices[j] == r.value.indices[k] <==> r.value.keys[j] == r.value.keys[k]))
              && (forall t :: 0 <= t < |r.value.vertices| ==>
                    KeyVertex(Distinct(r.value.keys)[t], rawVertices, rawNormals) == Ok(r.value.vertices[t]))
  {
    var r := IndexFaces(faces, rawVertices, rawNormals);
    if r.Ok? {
      IndexFacesInvariant(faces, rawVertices, rawNormals);
      var s := r.value;
      var d := Distinct(s.keys);
      DistinctProperties(s.keys);
      forall k | 0 <= k < |s.indices|
        ensures s.indices[k] < |s.vertices| && KeyVertex(s.keys[k], rawVertices, rawNormals) == Ok(s.vertices[s.indices[k]])
      {
        assert s.keys[k] in d;
        var t :| 0 <= t < |d| && d[t] == s.keys[k];
        assert s.table[d[t]] == t;
      }
      forall j, k | 0 <= j < |s.indices| && 0 <= k < |s.indices|
        ensures s.indices[j] == s.indices[k] <==> s.keys[j] == s.keys[k]
      {
        assert s.keys[j] in d && s.keys[k] in d;
        var tj :| 0 <= tj < |d| && d[tj] == s.keys[j];
        var tk :| 0 <= tk < |d| && d[tk] == s.keys[k];
        assert s.table[d[tj]] == tj && s.table[d[tk]] == tk;
      }
    }
  }

  lemma {:induction false} IndexFacesInvariant(faces: seq<Face>, rawVertices: seq<Vector3>, rawNormals: seq<Vector3>)
    ensures var r := IndexFaces(faces, rawVertices, rawNormals);
            r.Ok? ==> Deduplicated(r.value, rawVertices, rawNormals) && FaceKeys(faces) == Some(r.value.keys)
                      && |r.value.keys| == 3 * |faces|
  {
    if |faces| > 0 {
      var init := faces[..|faces| - 1];
      IndexFacesInvariant(init, rawVertices, rawNormals);
      var before := IndexFaces(init, rawVertices, rawNormals);
      if before.Ok? {
        IndexFaceKeepsDeduplicated(before.value, faces[|faces| - 1], rawVertices, rawNormals);
      }
    }
  }

  /** What the loader hands to the renderer: the emitted vertices, the indices and the index count. */
  datatype MeshData = MeshData(vertices: seq<NormalVertex>, indices: seq<nat>, indexCount: nat)

  /** One line of the loop in `load_obj_mesh`: an object, vertex, normal or face line updates the contents. */
  method ScanOneLine(contents: ObjContents, line: Option<string>, parseVec3: string -> Option<Vector3>,
                     captures: string -> Option<FaceCaptures>)
    returns (result: Result<ObjContents>)
    ensures result == ScanLine(contents, line, parseVec3, captures)
  {
    result := Ok(contents);
    if line.Some? {
      var text := line.value;
      if StartsWith(text, "o") {
        if contents.foundObject {
          return Err(MULTIPLE_OBJECTS);
        }
        if WordCount(text) < 2 {
          return Err(UNWRAP_NONE);
        }
        result := Ok(contents.(foundObject := true));
      } else if StartsWith(text, "v ") || StartsWith(text, "vn ") {
        if WordCount(text) < 4 {
          return Err(UNWRAP_NONE);
        }
        var vector := parseVec3(text);
        if vector.None? {
          return Err(INVALID_FLOAT);
        }
        if StartsWith(text, "v ") {
          result := Ok(contents.(rawVertices := contents.rawVertices + [vector.value]));
        } else {
          result := Ok(contents.(rawNormals := contents.rawNormals + [vector.value]));
        }
      } else if StartsWith(text, "f ") {
        var face := ParseFaceLine(captures(text));
        if face.Err? {
          return Err(face.error);
        }
        if face.value.None? {
          return Err(UNWRAP_NONE);
        }
        result := Ok(contents.(faces := contents.faces + [face.value.value]));
      }
    }
  }

  /** The line loop of `load_obj_mesh`: every line in order, stopping at the first error. */
  method ScanLines(lines: seq<Option<string>>, parseVec3: string -> Option<Vector3>, captures: string -> Option<FaceCaptures>)
    returns (result: Result<ObjContents>)
    ensures result == Scan(lines, parseVec3, captures)
  {
    var contents := ObjContents(false, [], [], []);
    var l := 0;
    while l < |lines|
      invariant l <= |lines|
      invariant Scan(lines[..l], parseVec3, captures) == Ok(contents)
    {
      assert lines[..l + 1][..l] == lines[..l];
      var next := ScanOneLine(contents, lines[l], parseVec3, captures);
      if next.Err? {
        ScanStopsAtError(lines, l + 1, parseVec3, captures);
        return next;
      }
      contents := next.value;
      l := l + 1;
    }
    assert lines[..l] == lines;
    return Ok(contents);
  }

  /**
   * `load_obj_mesh` without the file and the GPU upload: the line loop, then the face loop with the
   * de-duplicating table. `lines` are the file's lines (a file that cannot be opened gives none).
   */
  method LoadObjMesh(lines: seq<Option<string>>, parseVec3: string -> Option<Vector3>, captures: string -> Option<FaceCaptures>)
    returns (result: Result<MeshData>)
    ensures var scan := Scan(lines, parseVec3, captures);
            && (scan.Err? ==> result == Err(scan.error))
            && (scan.Ok? ==>
                  var indexed := IndexFaces(scan.value.faces, scan.value.rawVertices, scan.value.rawNormals);
                  && (indexed.Err? ==> result == Err(indexed.error))
                  && (indexed.Ok? ==> result == Ok(MeshData(indexed.value.vertices, indexed.value.indices,
                                                            |indexed.value.indices| % 0x1_0000_0000))))
  {
    var scanned := ScanLines(lines, parseVec3, captures);
    if scanned.Err? {
      return Err(scanned.error);
    }
    var rawVertices, rawNormals, faces := scanned.value.rawVertices, scanned.value.rawNormals, scanned.value.faces;

    var normalVertices: seq<NormalVertex> := [];
    var table: map<VertexKey, nat> := map[];
    var indices: seq<nat> := [];
    ghost var keys: seq<VertexKey> := [];
    var f := 0;
    while f < |faces|
      invariant f <= |faces|
      invariant IndexFaces(faces[..f], rawVertices, rawNormals) == Ok(IndexState(table, normalVertices, indices, keys))
    {
      assert faces[..f + 1][..f] == faces[..f];
      ghost var before := IndexState(table, normalVertices, indices, keys);
      var i := 0;
      while i < 3
        invariant i <= 3
        invariant IndexCorners(before, faces[f], i, rawVertices, rawNormals) == Ok(IndexState(table, normalVertices, indices, keys))
      {
        var key := CornerKey(faces[f], i);
        if key.Err? {
          FaceStopsAtError(before, faces[f], i + 1, rawVertices, rawNormals);
          IndexFacesStopsAtError(faces, f + 1, rawVertices, rawNormals);
          return Err(key.error);
        }
        if key.value in table {
          indices := indices + [table[key.value]];
        } else {
          var vertex := KeyVertex(key.value, rawVertices, rawNormals);
          if vertex.Err? {
            FaceStopsAtError(before, faces[f], i + 1, rawVertices, rawNormals);
            IndexFacesStopsAtError(faces, f + 1, rawVertices, rawNormals);
            return Err(vertex.error);
          }
          var index := |normalVertices|;
          normalVertices := normalVertices + [vertex.value];
          table := table[key.value := index];
          indices := indices + [index];
        }
        keys := keys + [key.value];
        i := i + 1;
      }
      f := f + 1;
    }
    assert faces[..f] == faces;
    result := Ok(MeshData(normalVertices, indices, |indices| % 0x1_0000_0000));
  }

  /** A corner that fails makes its whole face fail with the same error. */
  lemma {:induction false} FaceStopsAtError(state: IndexState, face: Face, count: nat, rawVertices: seq<Vector3>, rawNormals: seq<Vector3>)
    requires count <= 3 && IndexCorners(state, face, count, rawVertices, rawNormals).Err?
    ensures IndexFace(state, face, rawVertices, rawNormals) == IndexCorners(state, face, count, rawVertices, rawNormals)
    decreases 3 - count
  {
    if count < 3 {
      FaceStopsAtError(state, face, count + 1, rawVertices, rawNormals);
    }
  }

  /** A face that fails makes the whole face loop fail with the same error. */
  lemma {:induction false} IndexFacesStopsAtError(faces: seq<Face>, count: nat, rawVertices: seq<Vector3>, rawNormals: seq<Vector3>)
    requires count <= |faces| && IndexFaces(faces[..count], rawVertices, rawNormals).Err?
    ensures IndexFaces(faces, rawVertices, rawNormals) == IndexFaces(faces[..count], rawVertices, rawNormals)
    decreases |faces| - count
  {
    if count < |faces| {
      assert faces[..count + 1][..count] == faces[..count];
      IndexFacesStopsAtError(faces, count + 1, rawVertices, rawNormals);
    } else {
      assert faces[..count] == faces;
    }
  }

  /** A line that fails makes the whole scan fail with the same error. */
  lemma {:induction false} ScanStopsAtError(lines: seq<Option<string>>, count: nat, parseVec3: string -> Option<Vector3>,
                                            captures: string -> Option<FaceCaptures>)
    requires count <= |lines| && Scan(lines[..count], parseVec3, captures).Err?
    ensures Scan(lines, parseVec3, captures) == Scan(lines[..count], parseVec3, captures)
    decreases |lines| - count
  {
    if count < |lines| {
      assert lines[..count + 1][..count] == lines[..count];
      ScanStopsAtError(lines, count + 1, parseVec3, captures);
    } else {
      assert lines[..count] == lines;
    }
  }
}

=== FILE: pass.dfy ===
/**
 * Render passes: the swapchain pass with its pipelines, and the handler that keeps the ordered
 * offscreen passes and records a frame's draw commands, binding a pipeline only when it changes.
 */
module Passes {
  import opened Wrappers
  import RenderTypes
  import opened RenderStatistics

  /** `PipelineHandle::MAX`: the "nothing bound yet" value of the bake loop (a usize). */
  const PIPELINE_HANDLE_MAX: nat := 0xFFFF_FFFF_FFFF_FFFF

  /** A pipeline container, known by its identity, and whether its Vulkan pipeline currently exists. */
  datatype Pipeline = Pipeline(id: nat, built: bool)

  /** An offscreen pass: the framebuffer it renders into. */
  datatype RenderPass = RenderPass(framebuffer: nat)

  function Ids(pipelines: seq<Pipeline>): (ids: seq<nat>)
    ensures |ids| == |pipelines|
    ensures forall k :: 0 <= k < |pipelines| ==> ids[k] == pipelines[k].id
  {
    if |pipelines| == 0 then [] else Ids(pipelines[..|pipelines| - 1]) + [pipelines[|pipelines| - 1].id]
  }

  class SwapchainPass {
    const colorImageViews: seq<nat>
    var framebuffers: seq<nat>
    var pipelines: seq<Pipeline>
    var active: bool

    ghost predicate Valid()
      reads this
    {
      |pipelines| < PIPELINE_HANDLE_MAX
    }

    /** `SwapchainPass::new`: the pass starts active, with one framebuffer per colour image view. */
    constructor (colorImageViews: seq<nat>, framebuffers: seq<nat>, pipelines: seq<Pipeline>)
      requires |pipelines| < PIPELINE_HANDLE_MAX
      ensures Valid() && active
      ensures this.colorImageViews == colorImageViews && this.framebuffers == framebuffers
      ensures this.pipelines == pipelines
    {
      this.colorImageViews := colorImageViews;
      this.framebuffers := framebuffers;
      this.pipelines := pipelines;
      active := true;
    }

    /** `image_count`: the image views and framebuffers must agree in number. */
    function ImageCount(): (n: nat)
      requires |colorImageViews| == |framebuffers|
      reads this
      ensures n == |colorImageViews| == |framebuffers|
    {
      |colorImageViews|
    }

    /** `add_pipeline`: the handle is the position the pipeline is appended at. */
    method AddPipeline(pipeline: Pipeline) returns (handle: nat)
      requires Valid() && |pipelines| + 1 < PIPELINE_HANDLE_MAX
      modifies this
      ensures Valid()
      ensures handle == old(|pipelines|) && pipelines == old(pipelines) + [pipeline]
      ensures pipelines[handle] == pipeline
      ensures framebuffers == old(framebuffers) && active == old(active)
    {
      handle := |pipelines|;
      pipelines := pipelines + [pipeline];
    }

    /** `build_pipeline`: the pipeline at `handle` is built; nothing else changes. */
    method BuildPipeline(handle: nat)
      requires handle < |pipelines|
      modifies this
      ensures pipelines == old(pipelines)[handle := Pipeline(old(pipelines)[handle].id, true)]
      ensures framebuffers == old(framebuffers) && active == old(active)
    {
      pipelines := pipelines[handle := Pipeline(pipelines[handle].id, true)];
    }

    /** `destroy_pipeline`: the pipeline at `handle` loses its Vulkan pipeline but stays registered. */
    method DestroyPipeline(handle: nat)
      requires handle < |pipelines|
      modifies this
      ensures pipelines == old(pipelines)[handle := Pipeline(old(pipelines)[handle].id, false)]
      ensures framebuffers == old(framebuffers) && active == old(active)
    {
      pipelines := pipelines[handle := Pipeline(pipelines[handle].id, false)];
    }

    /** `rebuild_all_pipelines`: every registered pipeline is built, in order, and keeps its identity. */
    method RebuildAllPipelines()
      modifies this
      ensures Ids(pipelines) == Ids(old(pipelines))
      ensures forall k :: 0 <= k < |pipelines| ==> pipelines[k].built
      ensures framebuffers == old(framebuffers) && active == old(active)
    {
      var i := 0;
      while i < |pipelines|
        invariant i <= |pipelines| == old(|pipelines|)
        invariant forall k :: 0 <= k < |pipelines| ==> pipelines[k].id == old(pipelines)[k].id
        invariant forall k :: 0 <= k < i ==> pipelines[k].built
        invariant framebuffers == old(framebuffers) && active == old(active)
      {
        BuildPipeline(i);
        i := i + 1;
      }
    }

    /**
     * `destroy`: only an active pass may be destroyed; every pipeline loses its Vulkan pipeline,
     * the framebuffers are cleared and the pass is inactive. The pipelines stay registered.
     */
    method Destroy()
      requires active
      modifies this
      ensures !active && framebuffers == []
      ensures Ids(pipelines) == Ids(old(pipelines))
      ensures forall k :: 0 <= k < |pipelines| ==> !pipelines[k].built
    {
      framebuffers := [];
      var i := 0;
      while i < |pipelines|
        invariant i <= |pipelines| == old(|pipelines|)
        invariant forall k :: 0 <= k < |pipelines| ==> pipelines[k].id == old(pipelines)[k].id
        invariant forall k :: 0 <= k < i ==> !pipelines[k].built
        invariant framebuffers == [] && active
      {
        DestroyPipeline(i);
        i := i + 1;
      }
      active := false;
    }
  }

  /** Strictly increasing: sorted with no repeated order. */
  predicate StrictlySorted(s: seq<nat>)
  {
    forall i, j :: 0 <= i < j < |s| ==> s[i] < s[j]
  }

  /**
   * The result of `push` followed by `sort` on an already sorted list: the new order slotted in
   * before the first larger one.
   */
  function InsertSorted(s: seq<nat>, x: nat): seq<nat>
  {
    if |s| == 0 then [x]
    else if x <= s[0] then [x] + s
    else [s[0]] + InsertSorted(s[1..], x)
  }

  /** Inserting a new order keeps the list strictly sorted and adds exactly that order. */
  lemma {:induction false} InsertSortedKeepsOrder(s: seq<nat>, x: nat)
    requires StrictlySorted(s) && x !in s
    ensures StrictlySorted(InsertSorted(s, x))
    ensures |InsertSorted(s, x)| == |s| + 1
    ensures forall y :: y in InsertSorted(s, x) <==> y in s || y == x
  {
    if |s| == 0 {
    } else if x <= s[0] {
      var r := [x] + s;
      forall i, j | 0 <= i < j < |r| ensures r[i] < r[j] {
        if i > 0 {
          assert r[i] == s[i - 1] && r[j] == s[j - 1];
        } else {
          assert x != s[0] && r[j] == s[j - 1];
          assert s[0] <= s[j - 1] by {
            if j - 1 > 0 { assert s[0] < s[j - 1]; }
          }
        }
      }
    } else {
      var tail := s[1..];
      assert StrictlySorted(tail) by {
        forall i, j | 0 <= i < j < |tail| ensures tail[i] < tail[j] {
          assert tail[i] == s[i + 1] && tail[j] == s[j + 1];
        }
      }
      assert x !in tail;
      InsertSortedKeepsOrder(tail, x);
      var rest := InsertSorted(tail, x);
      var r := [s[0]] + rest;
      assert forall y :: y in s <==> y == s[0] || y in tail by {
        assert s == [s[0]] + tail;
      }
      forall i, j | 0 <= i < j < |r| ensures r[i] < r[j] {
        if i > 0 {
          assert r[i] == rest[i - 1] && r[j] == rest[j - 1];
        } else {
          assert r[j] == rest[j - 1] && rest[j - 1] in rest;
          if rest[j - 1] != x {
            var m :| 0 <= m < |tail| && tail[m] == rest[j - 1];
            assert s[m + 1] == tail[m];
          }
        }
      }
    }
  }

  class RenderPassHandler {
    var renderPasses: map<nat, RenderPass>
    var passOrder: seq<nat>
    var swapchainPass: SwapchainPass?

    /** The order list is sorted and names exactly the registered passes. */
    ghost predicate Valid()
      reads this, swapchainPass
    {
      && StrictlySorted(passOrder)
      && (forall o :: o in passOrder <==> o in renderPasses)
      && (swapchainPass != null ==> swapchainPass.Valid())
    }

    /** `new`: no passes and no swapchain pass. */
    constructor ()
      ensures Valid()
      ensures renderPasses == map[] && passOrder == [] && swapchainPass == null
    {
      renderPasses := map[];
      passOrder := [];
      swapchainPass := null;
    }

    /**
     * `add`: an order that is already taken is refused with an error and nothing changes;
     * otherwise the pass is registered under its order, which is also its handle.
     */
    method Add(order: nat, renderPass: RenderPass) returns (result: Result<nat>)
      requires Valid()
      modifies this
      ensures Valid() && swapchainPass == old(swapchainPass)
      ensures order in old(renderPasses) ==>
                && result == Err("a render pass with same order already exists!")
                && renderPasses == old(renderPasses) && passOrder == old(passOrder)
      ensures order !in old(renderPasses) ==>
                && result == Ok(order)
                && renderPasses == old(renderPasses)[order := renderPass]
                && |passOrder| == old(|passOrder|) + 1
    {
      if order in renderPasses {
        return Err("a render pass with same order already exists!");
      }
      InsertSortedKeepsOrder(passOrder, order);
      renderPasses := renderPasses[order := renderPass];
      passOrder := InsertSorted(passOrder, order);
      result := Ok(order);
    }

    /**
     * `create_swapchain_pass`: only when there is no swapchain pass or it has been destroyed; the
     * new pass takes over the previous pass's pipelines and builds all of them.
     */
    method CreateSwapchainPass(colorImageViews: seq<nat>, framebuffers: seq<nat>)
      requires Valid()
      requires swapchainPass != null ==> !swapchainPass.active
      modifies this
      ensures Valid()
      ensures swapchainPass != null && fresh(swapchainPass) && swapchainPass.active
      ensures swapchainPass.colorImageViews == colorImageViews && swapchainPass.framebuffers == framebuffers
      ensures Ids(swapchainPass.pipelines) == if old(swapchainPass) == null then [] else Ids(old(swapchainPass.pipelines))
      ensures forall k :: 0 <= k < |swapchainPass.pipelines| ==> swapchainPass.pipelines[k].built
      ensures renderPasses == old(renderPasses) && passOrder == old(passOrder)
    {
      var pipelines := if swapchainPass != null then swapchainPass.pipelines else [];
      var pass := new SwapchainPass(colorImageViews, framebuffers, pipelines);
      pass.RebuildAllPipelines();
      swapchainPass := pass;
    }

    /** `destroy_swapchain`: the active swapchain pass is destroyed. */
    method DestroySwapchain()
      requires Valid() && swapchainPass != null && swapchainPass.active
      modifies swapchainPass
      ensures Valid() && !swapchainPass.active && swapchainPass.framebuffers == []
      ensures Ids(swapchainPass.pipelines) == Ids(old(swapchainPass.pipelines))
    {
      swapchainPass.Destroy();
    }

    /**
     * `rebuild_pipeline`: only the swapchain pass is supported. For it the pipeline is destroyed and
     * built again, leaving every other one as it was; any other pass handle is `unimplemented!`,
     * which `supported` reports as false with nothing changed.
     */
    method RebuildPipeline(pipelineHandle: nat, renderPassHandle: nat) returns (supported: bool)
      requires Valid()
      requires renderPassHandle == RenderTypes.SWAPCHAIN_PASS ==>
                 swapchainPass != null && pipelineHandle < |swapchainPass.pipelines|
      modifies swapchainPass
      ensures Valid()
      ensures supported <==> renderPassHandle == RenderTypes.SWAPCHAIN_PASS
      ensures supported ==>
                swapchainPass.pipelines
                == old(swapchainPass.pipelines)[pipelineHandle := Pipeline(old(swapchainPass.pipelines)[pipelineHandle].id, true)]
      ensures !supported ==> swapchainPass == null || swapchainPass.pipelines == old(swapchainPass.pipelines)
    {
      if renderPassHandle != RenderTypes.SWAPCHAIN_PASS {
        return false;
      }
      swapchainPass.DestroyPipeline(pipelineHandle);
      swapchainPass.BuildPipeline(pipelineHandle);
      supported := true;
    }

    /**
     * The bind decisions of `bake_command_buffer` for a job given as the pipeline of each command,
     * with `bound` the pipeline bound before the first one.
     */
    static function RebindFlags(job: seq<nat>, bound: nat): (flags: seq<bool>)
      ensures |flags| == |job|
    {
      if |job| == 0 then [] else [job[0] != bound] + RebindFlags(job[1..], job[0])
    }

    /** A command rebinds exactly when its pipeline differs from the previous command's; the first always does. */
    static lemma {:induction false} RebindFlagsOnChange(job: seq<nat>)
      requires forall i :: 0 <= i < |job| ==> job[i] < PIPELINE_HANDLE_MAX
      ensures |job| > 0 ==> RebindFlags(job, PIPELINE_HANDLE_MAX)[0]
      ensures forall i :: 1 <= i < |job| ==> (RebindFlags(job, PIPELINE_HANDLE_MAX)[i] <==> job[i] != job[i - 1])
    {
      RebindFlagsFrom(job, PIPELINE_HANDLE_MAX);
      if |job| > 0 {
        assert job[0] < PIPELINE_HANDLE_MAX;
      }
    }

    static lemma {:induction false} RebindFlagsFrom(job: seq<nat>, bound: nat)
      ensures forall i :: 0 <= i < |job| ==>
                (RebindFlags(job, bound)[i] <==> job[i] != if i == 0 then bound else job[i - 1])
      decreases |job|
    {
      if |job| > 0 {
        RebindFlagsFrom(job[1..], job[0]);
        var flags := RebindFlags(job, bound);
        assert flags == [job[0] != bound] + RebindFlags(job[1..], job[0]);
        assert flags[0] == (job[0] != bound);
        forall i | 1 <= i < |job|
          ensures flags[i] <==> job[i] != job[i - 1]
        {
          assert flags[i] == RebindFlags(job[1..], job[0])[i - 1];
          assert job[1..][i - 1] == job[i];
          if i > 1 {
            assert job[1..][i - 2] == job[i - 1];
          }
        }
      }
    }

    /**
     * The bind-on-change loop of `bake_command_buffer` over the pipeline of each command of the
     * job: it returns whether each command rebinds its pipeline, and records each command's
     * statistics, which its pipeline computes, once in `stats`.
     */
    method BakeCommandBuffer(job: seq<nat>, draws: seq<DrawCommandStats>, stats: RenderStats)
      returns (rebinds: seq<bool>)
      requires Valid() && swapchainPass != null
      requires |draws| == |job|
      requires forall i :: 0 <= i < |job| ==> job[i] < |swapchainPass.pipelines|
      modifies stats
      ensures rebinds == RebindFlags(job, PIPELINE_HANDLE_MAX)
      ensures stats.drawCommandCount == old(stats.drawCommandCount) + |job|
      ensures stats.triangleCount == old(stats.triangleCount) + TotalTriangles(draws)
    {
      var boundPipeline := PIPELINE_HANDLE_MAX;
      rebinds := [];
      var i := 0;
      while i < |job|
        invariant i <= |job|
        invariant boundPipeline == if i == 0 then PIPELINE_HANDLE_MAX else job[i - 1]
        invariant rebinds + RebindFlags(job[i..], boundPipeline) == RebindFlags(job, PIPELINE_HANDLE_MAX)
        invariant stats.drawCommandCount == old(stats.drawCommandCount) + i
        invariant stats.triangleCount == old(stats.triangleCount) + TotalTriangles(draws[..i])
      {
        assert job[i..] == [job[i]] + job[i + 1..];
        rebinds := rebinds + [boundPipeline != job[i]];
        boundPipeline := job[i];
        stats.AddDrawCommand(draws[i]);
        TotalTrianglesAppend(draws[..i], draws[i]);
        assert draws[..i + 1] == draws[..i] + [draws[i]];
        i := i + 1;
      }
      assert draws[..i] == draws;
    }
  }
}

=== FILE: pushconstants.dfy ===
/**
 * The per-pipeline push-constant buffer: the same bump allocation as the raw array, addressed by
 * `len` slots, and the layout its `Drop` hands back to the allocator.
 */
module PushConstants {
  import opened Wrappers
  import opened RawArrays

  predicate IsPowerOfTwo(n: nat)
    decreases n
  {
    n == 1 || (n > 1 && n % 2 == 0 && IsPowerOfTwo(n / 2))
  }

  /** What `Layout::from_size_align_unchecked` assumes of its arguments: a power-of-two alignment. */
  predicate WellFormed(layout: Layout)
  {
    IsPowerOfTwo(layout.align)
  }

  /** The layout `new` allocates with: `len * data_size` bytes, byte-aligned. */
  function AllocationLayout(len: nat, dataSize: nat): (layout: Layout)
    ensures WellFormed(layout)
  {
    Layout(len * dataSize, 1)
  }

  /** The layout `Drop` frees with, as written: the slot count as the size and the slot size as the alignment. */
  function DropLayoutAsWritten(len: nat, dataSize: nat): Layout
  {
    Layout(len, dataSize)
  }

  /** The layout `Drop` should free with: the one the buffer was allocated with. */
  function DropLayout(len: nat, dataSize: nat): (layout: Layout)
    ensures layout == AllocationLayout(len, dataSize) && WellFormed(layout)
  {
    Layout(len * dataSize, 1)
  }

  /**
   * A buffer of 5000 slots (the capacity the HUD asks for) holding 68-byte constants (the size of
   * the wobbly model push constant) is allocated as 340000 bytes aligned to 1 but freed as 5000
   * bytes aligned to 68, which is not even a valid alignment.
   */
  lemma DropLayoutMismatch()
    ensures DropLayoutAsWritten(5000, 68) != AllocationLayout(5000, 68)
    ensures !WellFormed(DropLayoutAsWritten(5000, 68))
  {
    assert !IsPowerOfTwo(17);
    assert !IsPowerOfTwo(34);
  }

  /** The written drop layout is right only for one-byte constants. */
  lemma DropLayoutAsWrittenAgrees(len: nat, dataSize: nat)
    requires len > 0
    ensures DropLayoutAsWritten(len, dataSize) == AllocationLayout(len, dataSize) <==> dataSize == 1
  {
    if dataSize != 1 && len * dataSize == len {
      assert len * dataSize == len * 1;
    }
  }

  class PushConstantBuffer {
    const len: nat
    const dataSize: nat
    const buf: array<byte>
    const hasBuffer: bool
    var writeIndex: nat

    ghost predicate Valid()
      reads this
    {
      && buf.Length == len * dataSize
      && hasBuffer == (len > 0)
      && writeIndex <= len
    }

    /** The push constants written since the last reset, one slot each. */
    function Contents(): seq<seq<byte>>
      requires Valid()
      reads this, buf
    {
      MulMonotone(writeIndex, len, dataSize);
      Slots(buf[..], dataSize, writeIndex)
    }

    /** `new::<T>(capacity)` with `dataSize` the size of `T`: `len` is the capacity in slots. */
    constructor (capacity: nat, dataSize: nat)
      ensures Valid()
      ensures len == capacity && this.dataSize == dataSize && writeIndex == 0
      ensures hasBuffer <==> capacity > 0
      ensures fresh(buf)
      ensures Contents() == []
    {
      len := capacity;
      this.dataSize := dataSize;
      buf := new byte[capacity * dataSize];
      hasBuffer := capacity > 0;
      writeIndex := 0;
    }

    /** Copies `data` into the next slot and returns that slot's byte offset. */
    method Push(data: seq<byte>) returns (offset: nat)
      requires Valid()
      requires |data| == dataSize
      requires writeIndex < len
      modifies this, buf
      ensures Valid()
      ensures offset == old(writeIndex) * dataSize
      ensures writeIndex == old(writeIndex) + 1
      ensures buf[..] == old(buf[..])[..offset] + data + old(buf[..])[offset + dataSize..]
      ensures Contents() == old(Contents()) + [data]
    {
      SlotWithin(writeIndex, len, dataSize);
      offset := writeIndex * dataSize;
      ghost var before := buf[..];
      ghost var count := writeIndex;
      forall i | 0 <= i < dataSize {
        buf[offset + i] := data[i];
      }
      writeIndex := writeIndex + 1;
      assert buf[..] == before[..offset] + data + before[offset + dataSize..];
      assert buf[..][..offset] == before[..offset];
      MulMonotone(count, len, dataSize);
      SlotsUnchanged(before, buf[..], dataSize, count);
      assert buf[..][offset .. offset + dataSize] == data;
      assert (count + 1) * dataSize == offset + dataSize;
    }

    function DataSize(): (n: nat)
      reads this
      ensures n == dataSize
    {
      dataSize
    }

    /** `reset`: the next push writes the first slot again; `len` and `data_size` stay. */
    method Reset()
      requires Valid()
      modifies this
      ensures Valid() && writeIndex == 0 && Contents() == []
    {
      writeIndex := 0;
    }
  }
}

=== FILE: queue.dfy ===
/**
 * Queue families and device selection: the first family that can draw, the first family that can
 * present to the window's surface, their printed form, and the first-device choice of the older
 * context together with its frame counter.
 */
module Queues {
  import opened Wrappers

  datatype QueueFlag = Graphics | Compute | Transfer | SparseBinding

  datatype QueueFamilyProperties = QueueFamilyProperties(queueFlags: set<QueueFlag>, queueCount: nat)

  /** The first position at or after `from` whose flag is set. */
  function FirstSetFrom(flags: seq<bool>, from: nat): Option<nat>
    requires from <= |flags|
    decreases |flags| - from
  {
    if from == |flags| then None
    else if flags[from] then Some(from)
    else FirstSetFrom(flags, from + 1)
  }

  lemma {:induction false} FirstSetFromIsFirst(flags: seq<bool>, from: nat)
    requires from <= |flags|
    ensures var r := FirstSetFrom(flags, from);
            && (r.Some? ==> from <= r.value < |flags| && flags[r.value] && forall j :: from <= j < r.value ==> !flags[j])
            && (r.None? ==> forall j :: from <= j < |flags| ==> !flags[j])
    decreases |flags| - from
  {
    if from < |flags| && !flags[from] {
      FirstSetFromIsFirst(flags, from + 1);
    }
  }

  /** The first set position, if any: some position is set exactly when there is one, and it is the least. */
  function FirstSet(flags: seq<bool>): (r: Option<nat>)
    ensures r.Some? <==> exists i :: 0 <= i < |flags| && flags[i]
    ensures r.Some? ==> r.value < |flags| && flags[r.value] && forall j :: 0 <= j < r.value ==> !flags[j]
  {
    FirstSetFromIsFirst(flags, 0);
    FirstSetFrom(flags, 0)
  }

  /** For each family, whether it supports graphics. */
  function GraphicsFlags(families: seq<QueueFamilyProperties>): (flags: seq<bool>)
    ensures |flags| == |families|
    ensures forall i :: 0 <= i < |families| ==> (flags[i] <==> Graphics in families[i].queueFlags)
  {
    seq(|families|, i requires 0 <= i < |families| => Graphics in families[i].queueFlags)
  }

  /** For each family, the surface-support answer, a failed query counting as unsupported. */
  function PresentFlags(support: seq<Result<bool>>): (flags: seq<bool>)
    ensures |flags| == |support|
    ensures forall i :: 0 <= i < |support| ==> (flags[i] <==> support[i] == Ok(true))
  {
    seq(|support|, i requires 0 <= i < |support| => support[i].Ok? && support[i].value)
  }

  /**
   * `_pick_queue_families`: the index of the first family whose flags contain GRAPHICS, or None;
   * the loop keeps its own index counter as the source does.
   */
  method PickQueueFamilies(families: seq<QueueFamilyProperties>) returns (graphics: Option<nat>)
    ensures graphics == FirstSet(GraphicsFlags(families))
  {
    var index := 0;
    while index < |families|
      invariant index <= |families|
      invariant FirstSetFrom(GraphicsFlags(families), index) == FirstSet(GraphicsFlags(families))
    {
      if Graphics in families[index].queueFlags {
        return Some(index);
      }
      index := index + 1;
    }
    return None;
  }

  /**
   * `_pick_present_queue_family`: `support[i]` is the driver's answer for family `i` and this
   * surface; the first family answering true is chosen, and an error counts as false.
   */
  method PickPresentQueueFamily(support: seq<Result<bool>>) returns (present: Option<nat>)
    ensures present == FirstSet(PresentFlags(support))
  {
    var index := 0;
    while index < |support|
      invariant index <= |support|
      invariant FirstSetFrom(PresentFlags(support), index) == FirstSet(PresentFlags(support))
    {
      var presentSupport := if support[index].Ok? then support[index].value else false;
      if presentSupport {
        return Some(index);
      }
      index := index + 1;
    }
    return None;
  }

  /** `i32` view of a `u32`, as `g as i32` reinterprets it. */
  function AsI32(n: nat): (r: int)
    requires IsU32(n)
    ensures -0x8000_0000 <= r < 0x8000_0000
    ensures r % 0x1_0000_0000 == n
  {
    if n < 0x8000_0000 then n else n - 0x1_0000_0000
  }

  function DigitChar(d: nat): char
    requires d < 10
  {
    "0123456789"[d]
  }

  function DigitValue(c: char): nat
  {
    if '0' <= c <= '9' then (c as int - '0' as int) as nat else 0
  }

  /** The decimal digits of `n`, most significant first. */
  function Decimal(n: nat): (s: string)
    ensures |s| > 0 && forall i :: 0 <= i < |s| ==> '0' <= s[i] <= '9'
  {
    if n < 10 then [DigitChar(n)] else Decimal(n / 10) + [DigitChar(n % 10)]
  }

  function ParseDecimal(s: string): nat
  {
    if |s| == 0 then 0 else ParseDecimal(s[..|s| - 1]) * 10 + DigitValue(s[|s| - 1])
  }

  /** Reading the printed digits back gives the number. */
  lemma {:induction false} DecimalRoundTrip(n: nat)
    ensures ParseDecimal(Decimal(n)) == n
  {
    if n >= 10 {
      DecimalRoundTrip(n / 10);
      var s := Decimal(n);
      assert s[..|s| - 1] == Decimal(n / 10);
      assert DigitValue(DigitChar(n % 10)) == n % 10;
    } else {
      assert DigitValue(DigitChar(n)) == n;
    }
  }

  /** The signed decimal form of an `i32` as `Display` writes it. */
  function ShowInt(i: int): string
  {
    if i < 0 then "-" + Decimal(-i) else Decimal(i)
  }

  function ParseInt(s: string): int
  {
    if |s| > 0 && s[0] == '-' then -(ParseDecimal(s[1..]) as int) else ParseDecimal(s)
  }

  /** A minus sign followed by a number's digits reads back as the negated number. */
  lemma ParseIntNegative(shown: string, digits: string, n: nat)
    requires shown == "-" + digits && ParseDecimal(digits) == n
    ensures ParseInt(shown) == -(n as int)
  {
    assert shown[0] == '-' && shown[1..] == digits;
  }

  /** A number's digits, which start with a digit, read back as the number. */
  lemma ParseIntNonNegative(digits: string, n: nat)
    requires |digits| > 0 && '0' <= digits[0] <= '9' && ParseDecimal(digits) == n
    ensures ParseInt(digits) == n
  {
  }

  lemma ShowIntRoundTrip(i: int)
    ensures ParseInt(ShowInt(i)) == i
  {
    var shown := ShowInt(i);
    if i < 0 {
      var digits := Decimal(-i);
      DecimalRoundTrip(-i);
      ParseIntNegative(shown, digits, -i);
    } else {
      var digits := Decimal(i);
      DecimalRoundTrip(i);
      ParseIntNonNegative(digits, i);
      assert shown == digits;
    }
  }

  datatype QueueFamilyIndices = QueueFamilyIndices(graphics: Option<nat>, present: Option<nat>)
  {
    /** `is_complete`: both families were found. */
    predicate IsComplete()
    {
      graphics.Some? && present.Some?
    }

    /** `Display`: "(gfx=G, present=P)", each index as an `i32`, or -1 when missing. */
    function Display(): string
      requires graphics.Some? ==> IsU32(graphics.value)
      requires present.Some? ==> IsU32(present.value)
    {
      "(gfx=" + ShowInt(ShowIndex(graphics)) + ", present=" + ShowInt(ShowIndex(present)) + ")"
    }
  }

  /** The number printed for a family: its index as an `i32`, or -1 when there is none. */
  function ShowIndex(family: Option<nat>): int
    requires family.Some? ==> IsU32(family.value)
  {
    if family.Some? then AsI32(family.value) else -1
  }

  /**
   * Printed indices can be read back: a missing family prints -1, and any index below 2^31 prints
   * as itself, so the two are told apart; the index 2^32 - 1 prints as -1 too.
   */
  lemma ShowIndexReadsBack(family: Option<nat>)
    requires family.Some? ==> family.value < 0x8000_0000
    ensures family.None? <==> ParseInt(ShowInt(ShowIndex(family))) == -1
    ensures family.Some? ==> ParseInt(ShowInt(ShowIndex(family))) == family.value
    ensures ShowIndex(Some(U32_MAX)) == ShowIndex(None)
  {
    ShowIntRoundTrip(ShowIndex(family));
  }

  /** The two searches together: complete exactly when some family draws and some family presents. */
  lemma NewIsComplete(families: seq<QueueFamilyProperties>, support: seq<Result<bool>>)
    ensures QueueFamilyIndices(FirstSet(GraphicsFlags(families)), FirstSet(PresentFlags(support))).IsComplete()
            <==> (exists i :: 0 <= i < |families| && Graphics in families[i].queueFlags)
                 && (exists i :: 0 <= i < |support| && support[i] == Ok(true))
  {
    var g := GraphicsFlags(families);
    var p := PresentFlags(support);
    if exists i :: 0 <= i < |families| && Graphics in families[i].queueFlags {
      var i :| 0 <= i < |families| && Graphics in families[i].queueFlags;
      assert g[i];
    }
    if exists i :: 0 <= i < |support| && support[i] == Ok(true) {
      var i :| 0 <= i < |support| && support[i] == Ok(true);
      assert p[i];
    }
  }

  /** `_is_physical_device_suitable`: every device is accepted. */
  predicate IsPhysicalDeviceSuitable(device: nat): (suitable: bool)
    ensures suitable
  {
    true
  }

  /** For each device, whether `suitable` accepts it. */
  function SuitableFlags(devices: seq<nat>, suitable: nat -> bool): (flags: seq<bool>)
    ensures |flags| == |devices|
    ensures forall i :: 0 <= i < |devices| ==> flags[i] == suitable(devices[i])
  {
    seq(|devices|, i requires 0 <= i < |devices| => suitable(devices[i]))
  }

  /**
   * The loop of `_pick_physical_device` under a suitability test: the first suitable device.
   * None stands for the panics on an empty list and on no suitable device.
   */
  method PickPhysicalDeviceBy(devices: seq<nat>, suitable: nat -> bool) returns (device: Option<nat>)
    ensures device.Some? <==> FirstSet(SuitableFlags(devices, suitable)).Some?
    ensures device.Some? ==> device.value == devices[FirstSet(SuitableFlags(devices, suitable)).value]
  {
    if |devices| == 0 {
      return None;
    }
    ghost var flags := SuitableFlags(devices, suitable);
    var i := 0;
    while i < |devices|
      invariant i <= |devices|
      invariant FirstSetFrom(flags, i) == FirstSet(flags)
    {
      if suitable(devices[i]) {
        return Some(devices[i]);
      }
      i := i + 1;
    }
    return None;
  }

  /** `_pick_physical_device`: as every device is suitable, the first one is chosen; an empty list panics. */
  method PickPhysicalDevice(devices: seq<nat>) returns (device: Option<nat>)
    ensures device == if |devices| == 0 then None else Some(devices[0])
  {
    device := PickPhysicalDeviceBy(devices, IsPhysicalDeviceSuitable);
    if |devices| > 0 {
      assert SuitableFlags(devices, IsPhysicalDeviceSuitable)[0];
    }
  }

  /** The older Vulkan context: only its frame counter is state of its own. */
  class Context {
    var nFrames: nat

    constructor ()
      ensures nFrames == 0
    {
      nFrames := 0;
    }

    /** `draw_frame`: one more frame; every thousandth frame is announced. */
    method DrawFrame() returns (announced: bool)
      modifies this
      ensures nFrames == old(nFrames) + 1
      ensures announced <==> nFrames % 1000 == 0
    {
      nFrames := nFrames + 1;
      announced := nFrames % 1000 == 0;
    }
  }
}

=== FILE: rawarray.dfy ===
/**
 * A bump-allocated byte buffer of fixed capacity: values of one fixed size are copied in one
 * after another, and `reset` starts overwriting from the front.
 */
module RawArrays {
  import opened Wrappers

  /** The first `count` slots of `dataSize` bytes each, in order. */
  function Slots(bytes: seq<byte>, dataSize: nat, count: nat): (slots: seq<seq<byte>>)
    requires count * dataSize <= |bytes|
    ensures |slots| == count
    ensures forall k :: 0 <= k < count ==> |slots[k]| == dataSize
  {
    if count == 0 then []
    else
      SlotWithin(count - 1, count, dataSize);
      Slots(bytes, dataSize, count - 1) + [bytes[(count - 1) * dataSize .. count * dataSize]]
  }

  /** Slot `k` of `count` ends within the first `count` slots. */
  lemma SlotWithin(k: nat, count: nat, dataSize: nat)
    requires k < count
    ensures (k + 1) * dataSize <= count * dataSize
  {
    if dataSize > 0 {
      assert (k + 1) * dataSize == k * dataSize + dataSize;
      assert count * dataSize == (count - (k + 1)) * dataSize + (k + 1) * dataSize;
    }
  }

  /** Writing past the first `count` slots leaves those slots as they were. */
  lemma {:induction false} SlotsUnchanged(bytes: seq<byte>, bytes': seq<byte>, dataSize: nat, count: nat)
    requires count * dataSize <= |bytes| && count * dataSize <= |bytes'|
    requires bytes[..count * dataSize] == bytes'[..count * dataSize]
    ensures Slots(bytes, dataSize, count) == Slots(bytes', dataSize, count)
  {
    if count > 0 {
      SlotWithin(count - 1, count, dataSize);
      assert bytes[..(count - 1) * dataSize] == bytes'[..(count - 1) * dataSize] by {
        assert bytes[..(count - 1) * dataSize] == bytes[..count * dataSize][..(count - 1) * dataSize];
        assert bytes'[..(count - 1) * dataSize] == bytes'[..count * dataSize][..(count - 1) * dataSize];
      }
      SlotsUnchanged(bytes, bytes', dataSize, count - 1);
      assert bytes[(count - 1) * dataSize .. count * dataSize] == bytes[..count * dataSize][(count - 1) * dataSize ..];
      assert bytes'[(count - 1) * dataSize .. count * dataSize] == bytes'[..count * dataSize][(count - 1) * dataSize ..];
    }
  }

  /** `Layout`: the size and alignment an allocation is made, and must be freed, with. */
  datatype Layout = Layout(size: nat, align: nat)

  class RawArray {
    const capacity: nat
    const dataSize: nat
    /** The allocation; it has length 0 when `capacity` is 0. */
    const buf: array<byte>
    /** `buf_ptr.is_some()`: memory is allocated only for a positive capacity. */
    const hasBuffer: bool
    var writeIndex: nat

    ghost predicate Valid()
      reads this
    {
      && buf.Length == capacity * dataSize
      && hasBuffer == (capacity > 0)
      && writeIndex <= capacity
    }

    /** The values pushed since the last reset, one slot each. */
    function Contents(): seq<seq<byte>>
      requires Valid()
      reads this, buf
    {
      SlotWithin(0, 1, dataSize);
      MulMonotone(writeIndex, capacity, dataSize);
      Slots(buf[..], dataSize, writeIndex)
    }

    /** `new::<T>(capacity)` with `dataSize` the size of `T`. */
    constructor (capacity: nat, dataSize: nat)
      ensures Valid()
      ensures this.capacity == capacity && this.dataSize == dataSize && writeIndex == 0
      ensures hasBuffer <==> capacity > 0
      ensures fresh(buf)
      ensures Contents() == []
    {
      this.capacity := capacity;
      this.dataSize := dataSize;
      buf := new byte[capacity * dataSize];
      hasBuffer := capacity > 0;
      writeIndex := 0;
    }

    /**
     * Copies `data` into the next slot and returns that slot's byte offset; the values pushed
     * before keep their slots.
     */
    method Push(data: seq<byte>) returns (offset: nat)
      requires Valid()
      requires |data| == dataSize
      requires writeIndex < capacity
      modifies this, buf
      ensures Valid()
      ensures offset == old(writeIndex) * dataSize
      ensures writeIndex == old(writeIndex) + 1
      ensures buf[..] == old(buf[..])[..offset] + data + old(buf[..])[offset + dataSize..]
      ensures Contents() == old(Contents()) + [data]
    {
      SlotWithin(writeIndex, capacity, dataSize);
      offset := writeIndex * dataSize;
      ghost var before := buf[..];
      ghost var count := writeIndex;
      forall i | 0 <= i < dataSize {
        buf[offset + i] := data[i];
      }
      writeIndex := writeIndex + 1;
      assert buf[..] == before[..offset] + data + before[offset + dataSize..];
      assert buf[..][..offset] == before[..offset];
      MulMonotone(count, capacity, dataSize);
      SlotsUnchanged(before, buf[..], dataSize, count);
      assert buf[..][offset .. offset + dataSize] == data;
      assert (count + 1) * dataSize == offset + dataSize;
    }

    /** `start`: the allocation itself; there is none for a zero capacity. */
    function Start(): (start: array<byte>)
      requires Valid()
      requires hasBuffer
      reads this
      ensures start == buf && start.Length == capacity * dataSize && capacity > 0
    {
      buf
    }

    function Len(): (n: nat)
      requires Valid()
      reads this
      ensures n == |Contents()| && n <= capacity
    {
      writeIndex
    }

    /** `reset`: later pushes overwrite from the first slot; capacity and bytes stay. */
    method Reset()
      requires Valid()
      modifies this
      ensures Valid() && writeIndex == 0 && Contents() == []
    {
      writeIndex := 0;
    }

    /** The layout `Drop` frees the allocation with: the one it was allocated with. */
    function DropLayout(): (layout: Layout)
      requires Valid()
      reads this
      ensures layout.size == buf.Length && layout.align == 1
    {
      Layout(capacity * dataSize, 1)
    }
  }

  lemma MulMonotone(a: nat, b: nat, c: nat)
    requires a <= b
    ensures a * c <= b * c
  {
    assert b * c == a * c + (b - a) * c;
  }
}

=== FILE: scene.dfy ===
/**
 * The engine's scene: the wobbly entities it holds and the render job it rebuilds for the
 * static-objects pipeline every frame, one draw command per entity, each carrying a 68-byte push
 * constant of the entity's transform followed by its wobble.
 */
module Scenes {
  import opened Wrappers
  import Layouts

  /** The 64 bytes of a column-major `Matrix4<f32>`. */
  type MatrixBytes = s: seq<byte> | |s| == 64 witness seq(64, _ => 0 as byte)

  /** The 4 bytes of an `f32`. */
  type F32Bytes = s: seq<byte> | |s| == 4 witness seq(4, _ => 0 as byte)

  /** The raw 68 bytes handed to the pipeline as push-constant data. */
  datatype ModelWoblyPushConstant = ModelWoblyPushConstant(data: seq<byte>)
  {
    /** `get_bytes`: the whole array. */
    function GetBytes(): (bytes: seq<byte>)
      ensures |bytes| == |data| && forall k :: 0 <= k < |data| ==> bytes[k] == data[k]
    {
      data
    }
  }

  /** `ModelWoblyPushConstant::new`: the matrix bytes at offset 0, the wobble bytes at offset 64. */
  function NewPushConstant(modelTransform: MatrixBytes, wobble: F32Bytes): (pc: ModelWoblyPushConstant)
    ensures |pc.data| == Layouts.PushConstantSizeU8(Layouts.MODEL_WOBLY_PUSH_CONSTANT)
    ensures forall k :: 0 <= k < 64 ==> pc.data[Layouts.Offsets(Layouts.MODEL_WOBLY_PUSH_CONSTANT)[0] + k] == modelTransform[k]
    ensures forall k :: 0 <= k < 4 ==> pc.data[Layouts.Offsets(Layouts.MODEL_WOBLY_PUSH_CONSTANT)[1] + k] == wobble[k]
  {
    Layouts.PushConstantSizes();
    ModelWoblyPushConstant(modelTransform + wobble)
  }

  /** Reads the transform and the wobble back out of a 68-byte push constant. */
  function Unpack(bytes: seq<byte>): (MatrixBytes, F32Bytes)
    requires |bytes| == 68
  {
    (bytes[..64], bytes[64..])
  }

  /** Packing and unpacking are inverse: nothing is lost or reordered, and every 68-byte block is some packing. */
  lemma PackRoundTrip(modelTransform: MatrixBytes, wobble: F32Bytes, bytes: seq<byte>)
    requires |bytes| == 68
    ensures |NewPushConstant(modelTransform, wobble).GetBytes()| == 68
    ensures Unpack(NewPushConstant(modelTransform, wobble).GetBytes()) == (modelTransform, wobble)
    ensures NewPushConstant(Unpack(bytes).0, Unpack(bytes).1).GetBytes() == bytes
  {
    var packed := NewPushConstant(modelTransform, wobble).GetBytes();
    assert packed == modelTransform + wobble;
    assert packed[..64] == modelTransform;
    assert packed[64..] == wobble;
    assert bytes[..64] + bytes[64..] == bytes;
  }

  datatype Mesh = Mesh(vertexBuffer: nat, indexBuffer: nat, indexCount: nat)

  /** A wobbly entity; position and orientation feed the transform, which is an input here. */
  datatype WobblyEntity = WobblyEntity(position: seq<real>, orientation: seq<real>, wobble: real, mesh: Mesh)

  /** `PipelineDrawCommand`: the buffers to draw and the push constant to draw them with. */
  datatype DrawCommand = DrawCommand(vertexBuffer: nat, indexBuffer: nat, indexCount: nat, pushConstant: ModelWoblyPushConstant)

  /** `PipelineJob`: a pipeline and the commands recorded for it this frame. */
  datatype PipelineJob = PipelineJob(pipeline: nat, drawCommands: seq<DrawCommand>)

  const STATIC_OBJECTS_INDEX: nat := 0

  /**
   * The command one entity contributes: its mesh's buffers and count, and its transform and wobble
   * packed. `transformBytes` stands for translation times rotation written out as `f32` bytes and
   * `f32Bytes` for the wobble's encoding.
   */
  function EntityDrawCommand(entity: WobblyEntity, transformBytes: WobblyEntity -> MatrixBytes,
                             f32Bytes: real -> F32Bytes): DrawCommand
  {
    DrawCommand(entity.mesh.vertexBuffer, entity.mesh.indexBuffer, entity.mesh.indexCount,
                NewPushConstant(transformBytes(entity), f32Bytes(entity.wobble)))
  }

  /** The commands of the static-objects job: one per entity, in entity order. */
  function DrawCommands(entities: seq<WobblyEntity>, transformBytes: WobblyEntity -> MatrixBytes,
                        f32Bytes: real -> F32Bytes): (commands: seq<DrawCommand>)
    ensures |commands| == |entities|
    ensures forall i :: 0 <= i < |entities| ==>
              && commands[i].vertexBuffer == entities[i].mesh.vertexBuffer
              && commands[i].indexBuffer == entities[i].mesh.indexBuffer
              && commands[i].indexCount == entities[i].mesh.indexCount
              && |commands[i].pushConstant.data| == 68
              && Unpack(commands[i].pushConstant.data) == (transformBytes(entities[i]), f32Bytes(entities[i].wobble))
  {
    var commands := seq(|entities|, i requires 0 <= i < |entities| => EntityDrawCommand(entities[i], transformBytes, f32Bytes));
    forall i | 0 <= i < |entities|
      ensures |commands[i].pushConstant.data| == 68
      ensures Unpack(commands[i].pushConstant.data) == (transformBytes(entities[i]), f32Bytes(entities[i].wobble))
    {
      PackRoundTrip(transformBytes(entities[i]), f32Bytes(entities[i].wobble), commands[i].pushConstant.data);
    }
    commands
  }

  /** Adding an entity adds exactly its own command, at the end, and leaves the others as they were. */
  lemma DrawCommandsAppend(entities: seq<WobblyEntity>, entity: WobblyEntity,
                           transformBytes: WobblyEntity -> MatrixBytes, f32Bytes: real -> F32Bytes)
    ensures DrawCommands(entities + [entity], transformBytes, f32Bytes)
            == DrawCommands(entities, transformBytes, f32Bytes) + [EntityDrawCommand(entity, transformBytes, f32Bytes)]
  {
  }

  class Scene {
    var wobblyObjects: seq<WobblyEntity>
    var renderJobBuffer: seq<PipelineJob>

    /** The static-objects job is always there. */
    ghost predicate Valid()
      reads this
    {
      STATIC_OBJECTS_INDEX < |renderJobBuffer|
    }

    /** `Scene::new`: no entities and exactly one job, empty, for the static-objects pipeline. */
    constructor (staticObjectsPipeline: nat)
      ensures Valid()
      ensures wobblyObjects == []
      ensures renderJobBuffer == [PipelineJob(staticObjectsPipeline, [])]
    {
      wobblyObjects := [];
      renderJobBuffer := [PipelineJob(staticObjectsPipeline, [])];
    }

    /** `add_wobbly_entity`: appends one entity and changes nothing else. */
    method AddWobblyEntity(entity: WobblyEntity)
      requires Valid()
      modifies this
      ensures Valid()
      ensures wobblyObjects == old(wobblyObjects) + [entity]
      ensures renderJobBuffer == old(renderJobBuffer)
    {
      wobblyObjects := wobblyObjects + [entity];
    }

    /**
     * `get_render_job`: clears the static-objects job and records one command per entity, in
     * entity order; the pipeline of that job and every other job stay as they were.
     */
    method GetRenderJob(transformBytes: WobblyEntity -> MatrixBytes, f32Bytes: real -> F32Bytes)
      returns (jobs: seq<PipelineJob>)
      requires Valid()
      modifies this
      ensures Valid()
      ensures wobblyObjects == old(wobblyObjects)
      ensures jobs == renderJobBuffer
      ensures renderJobBuffer == old(renderJobBuffer)[STATIC_OBJECTS_INDEX :=
                PipelineJob(old(renderJobBuffer)[STATIC_OBJECTS_INDEX].pipeline, DrawCommands(wobblyObjects, transformBytes, f32Bytes))]
    {
      var job := renderJobBuffer[STATIC_OBJECTS_INDEX];
      renderJobBuffer := renderJobBuffer[STATIC_OBJECTS_INDEX := PipelineJob(job.pipeline, [])];
      var i := 0;
      while i < |wobblyObjects|
        invariant i <= |wobblyObjects|
        invariant wobblyObjects == old(wobblyObjects)
        invariant renderJobBuffer == old(renderJobBuffer)[STATIC_OBJECTS_INDEX :=
                    PipelineJob(job.pipeline, DrawCommands(wobblyObjects[..i], transformBytes, f32Bytes))]
      {
        var entity := wobblyObjects[i];
        var commands := renderJobBuffer[STATIC_OBJECTS_INDEX].drawCommands;
        renderJobBuffer := renderJobBuffer[STATIC_OBJECTS_INDEX :=
          PipelineJob(job.pipeline, commands + [EntityDrawCommand(entity, transformBytes, f32Bytes)])];
        DrawCommandsAppend(wobblyObjects[..i], entity, transformBytes, f32Bytes);
        assert wobblyObjects[..i + 1] == wobblyObjects[..i] + [entity];
        i := i + 1;
      }
      assert wobblyObjects[..i] == wobblyObjects;
      jobs := renderJobBuffer;
    }
  }
}

=== FILE: stats.dfy ===
/**
 * Per-frame render statistics: how many draw commands were recorded and how many triangles they
 * draw in total.
 */
module RenderStatistics {
  /** What one draw command contributes: its triangle count. */
  datatype DrawCommandStats = DrawCommandStats(triangleCount: nat)

  /** The total triangle count of a sequence of draw commands. */
  function TotalTriangles(draws: seq<DrawCommandStats>): nat
  {
    if |draws| == 0 then 0 else TotalTriangles(draws[..|draws| - 1]) + draws[|draws| - 1].triangleCount
  }

  /** Recording one more draw adds exactly its triangles to the total. */
  lemma TotalTrianglesAppend(draws: seq<DrawCommandStats>, draw: DrawCommandStats)
    ensures TotalTriangles(draws + [draw]) == TotalTriangles(draws) + draw.triangleCount
  {
    assert (draws + [draw])[..|draws|] == draws;
  }

  /** Totals add up over concatenation, so the count does not depend on how the draws are batched. */
  lemma {:induction false} TotalTrianglesConcat(first: seq<DrawCommandStats>, second: seq<DrawCommandStats>)
    ensures TotalTriangles(first + second) == TotalTriangles(first) + TotalTriangles(second)
    decreases |second|
  {
    if |second| == 0 {
      assert first + second == first;
    } else {
      var last := second[|second| - 1];
      var init := second[..|second| - 1];
      assert first + second == (first + init) + [last];
      assert second == init + [last];
      TotalTrianglesAppend(first + init, last);
      TotalTrianglesAppend(init, last);
      TotalTrianglesConcat(first, init);
    }
  }

  class RenderStats {
    /** A u32 in the engine. */
    var drawCommandCount: nat
    /** A u64 in the engine. */
    var triangleCount: nat

    constructor ()
      ensures drawCommandCount == 0 && triangleCount == 0
    {
      drawCommandCount := 0;
      triangleCount := 0;
    }

    /** `add_draw_command`: one more draw, and its triangles, widened to u64, added to the total. */
    method AddDrawCommand(draw: DrawCommandStats)
      modifies this
      ensures drawCommandCount == old(drawCommandCount) + 1
      ensures triangleCount == old(triangleCount) + draw.triangleCount
    {
      drawCommandCount := drawCommandCount + 1;
      triangleCount := triangleCount + draw.triangleCount;
    }
  }
}

=== FILE: swapchain.dfy ===
/**
 * Swapchain creation: the surface format, present mode and extent chosen from what the surface
 * offers, the image-count check against the surface capabilities, the queue-family sharing of the
 * swapchain images, and the image views and framebuffers built over those images.
 */
module Swapchains {
  import opened Wrappers
  import opened Images
  import Queues

  /** The window size the engine opens with. */
  const WINDOW_WIDTH: nat := 1920
  const WINDOW_HEIGHT: nat := 1080

  /** `USE_VSYNC` of the renderer's constants. */
  const USE_VSYNC: bool := true

  /** The number of swapchain images the engine asks for. */
  const IMAGE_COUNT: nat := 2

  datatype ColorSpace = SrgbNonlinear | OtherColorSpace(code: nat)

  datatype SurfaceFormat = SurfaceFormat(format: Format, colorSpace: ColorSpace)

  datatype PresentMode = Immediate | Mailbox | Fifo | FifoRelaxed

  datatype Extent2D = Extent2D(width: nat, height: nat)

  /** The fields of `VkSurfaceCapabilitiesKHR` the choice reads. */
  datatype SurfaceCapabilities = SurfaceCapabilities(
    minImageCount: nat, maxImageCount: nat, currentExtent: Extent2D, minImageExtent: Extent2D, maxImageExtent: Extent2D)

  /** The sRGB format the engine prefers. */
  predicate Preferred(f: SurfaceFormat)
  {
    f.format == B8G8R8A8Srgb && f.colorSpace == SrgbNonlinear
  }

  function FirstPreferred(formats: seq<SurfaceFormat>): Option<SurfaceFormat>
  {
    if |formats| == 0 then None
    else if Preferred(formats[0]) then Some(formats[0])
    else FirstPreferred(formats[1..])
  }

  lemma {:induction false} FirstPreferredIsFirst(formats: seq<SurfaceFormat>)
    ensures var r := FirstPreferred(formats);
            && (r.Some? <==> exists i :: 0 <= i < |formats| && Preferred(formats[i]))
            && (r.Some? ==> Preferred(r.value) && r.value in formats)
  {
    if |formats| > 0 && !Preferred(formats[0]) {
      FirstPreferredIsFirst(formats[1..]);
      if exists i :: 0 <= i < |formats| && Preferred(formats[i]) {
        var i :| 0 <= i < |formats| && Preferred(formats[i]);
        assert formats[1..][i - 1] == formats[i];
      }
    }
  }

  /**
   * `_choose_swapchain_format`: the first B8G8R8A8_SRGB / SRGB_NONLINEAR entry, else the first
   * entry; None is the panic on an empty list.
   */
  function ChooseSwapchainFormat(formats: seq<SurfaceFormat>): (r: Option<SurfaceFormat>)
    ensures r.Some? <==> |formats| > 0
    ensures r.Some? ==> r.value in formats
    ensures (exists i :: 0 <= i < |formats| && Preferred(formats[i])) ==> r.Some? && Preferred(r.value)
    ensures (forall i :: 0 <= i < |formats| ==> !Preferred(formats[i])) && |formats| > 0 ==> r == Some(formats[0])
  {
    FirstPreferredIsFirst(formats);
    match FirstPreferred(formats)
    case Some(f) => Some(f)
    case None => if |formats| == 0 then None else Some(formats[0])
  }

  /** `_choose_swapchain_present_mode`: FIFO under vsync; otherwise IMMEDIATE when offered, else FIFO. */
  function ChooseSwapchainPresentMode(presentModes: seq<PresentMode>, vsync: bool): (r: PresentMode)
    ensures r == Immediate <==> !vsync && Immediate in presentModes
    ensures r != Immediate ==> r == Fifo
  {
    if !vsync && Immediate in presentModes then Immediate else Fifo
  }

  /** `num::clamp`, which insists on `min <= max`. */
  function Clamp(x: nat, min: nat, max: nat): (r: nat)
    requires min <= max
    ensures min <= r <= max
    ensures min <= x <= max ==> r == x
    ensures x < min ==> r == min
    ensures max < x ==> r == max
  {
    if x < min then min else if max < x then max else x
  }

  /**
   * `_choose_swapchain_extent`: the surface's current extent, unless its width is the special
   * value 0xFFFFFFFF ("Surface Capabilities" in the Vulkan specification: the surface size will be
   * set by the swapchain), in which case the window size is clamped into the allowed range.
   */
  function ChooseSwapchainExtent(capabilities: SurfaceCapabilities): (r: Extent2D)
    requires capabilities.currentExtent.width == U32_MAX ==>
               && capabilities.minImageExtent.width <= capabilities.maxImageExtent.width
               && capabilities.minImageExtent.height <= capabilities.maxImageExtent.height
    ensures capabilities.currentExtent.width != U32_MAX ==> r == capabilities.currentExtent
    ensures capabilities.currentExtent.width == U32_MAX ==>
              && capabilities.minImageExtent.width <= r.width <= capabilities.maxImageExtent.width
              && capabilities.minImageExtent.height <= r.height <= capabilities.maxImageExtent.height
              && (capabilities.minImageExtent.width <= WINDOW_WIDTH <= capabilities.maxImageExtent.width
                  ==> r.width == WINDOW_WIDTH)
              && (capabilities.minImageExtent.height <= WINDOW_HEIGHT <= capabilities.maxImageExtent.height
                  ==> r.height == WINDOW_HEIGHT)
  {
    if capabilities.currentExtent.width != U32_MAX then capabilities.currentExtent
    else
      Extent2D(Clamp(WINDOW_WIDTH, capabilities.minImageExtent.width, capabilities.maxImageExtent.width),
               Clamp(WINDOW_HEIGHT, capabilities.minImageExtent.height, capabilities.maxImageExtent.height))
  }

  /**
   * What the Vulkan specification allows ("Surface Capabilities"): at least `minImageCount`
   * images, and at most `maxImageCount` unless that is 0, meaning there is no maximum.
   */
  predicate ImageCountAllowed(capabilities: SurfaceCapabilities, count: nat)
  {
    capabilities.minImageCount <= count && (capabilities.maxImageCount == 0 || count <= capabilities.maxImageCount)
  }

  /** The image-count check as the three swapchain constructors write it: true where they do not panic. */
  predicate ImageCountAcceptedAsWritten(capabilities: SurfaceCapabilities): (accepted: bool)
    ensures accepted ==> ImageCountAllowed(capabilities, IMAGE_COUNT)
    ensures capabilities.maxImageCount != 0 ==> (accepted <==> ImageCountAllowed(capabilities, IMAGE_COUNT))
    ensures capabilities.maxImageCount == 0 ==> !accepted
  {
    !(capabilities.minImageCount > IMAGE_COUNT || capabilities.maxImageCount < IMAGE_COUNT)
  }

  /** The check as intended: two images are accepted exactly when the surface allows two. */
  predicate ImageCountAccepted(capabilities: SurfaceCapabilities)
  {
    !(capabilities.minImageCount > IMAGE_COUNT || (capabilities.maxImageCount != 0 && capabilities.maxImageCount < IMAGE_COUNT))
  }

  /** The written check refuses a surface with no image maximum, which does allow two images. */
  lemma ImageCountCheckRejectsUnbounded()
    ensures var unbounded := SurfaceCapabilities(2, 0, Extent2D(1920, 1080), Extent2D(1, 1), Extent2D(4096, 4096));
            ImageCountAllowed(unbounded, IMAGE_COUNT) && !ImageCountAcceptedAsWritten(unbounded)
  {
  }

  /** The intended check agrees with the Vulkan rule on every surface. */
  lemma ImageCountAcceptedIsAllowed(capabilities: SurfaceCapabilities)
    ensures ImageCountAccepted(capabilities) <==> ImageCountAllowed(capabilities, IMAGE_COUNT)
    ensures ImageCountAcceptedAsWritten(capabilities) ==> ImageCountAccepted(capabilities)
  {
  }

  datatype SharingMode = Exclusive | Concurrent

  /** The sharing fields of the swapchain create info. */
  datatype Sharing = Sharing(mode: SharingMode, queueFamilyIndices: seq<nat>)

  /**
   * The valid-usage rules of `VkSwapchainCreateInfoKHR` for sharing, with `families` the queue
   * families that use the images: concurrent sharing names more than one distinct family, and
   * exclusive sharing is only right when a single family uses the images.
   */
  predicate SharingValid(s: Sharing, families: set<nat>)
  {
    if s.mode.Concurrent? then
      |s.queueFamilyIndices| > 1
      && (forall i, j :: 0 <= i < j < |s.queueFamilyIndices| ==> s.queueFamilyIndices[i] != s.queueFamilyIndices[j])
      && (forall f :: f in families ==> f in s.queueFamilyIndices)
      && (forall k :: 0 <= k < |s.queueFamilyIndices| ==> s.queueFamilyIndices[k] in families)
    else
      |families| <= 1
  }

  /** The sharing choice as renderer/swapchain.rs and renderer/swap_chain.rs write it. */
  function SharingAsWritten(graphicsFamily: nat, presentFamily: nat): (sharing: Sharing)
    ensures sharing.mode != ChooseSharing(graphicsFamily, presentFamily).mode
    ensures sharing.mode.Exclusive? ==> sharing.queueFamilyIndices == [graphicsFamily, presentFamily]
    ensures sharing.mode.Concurrent? ==> sharing.queueFamilyIndices == []
  {
    if graphicsFamily != presentFamily then Sharing(Exclusive, [graphicsFamily, presentFamily])
    else Sharing(Concurrent, [])
  }

  /** With one family for both uses the written choice is concurrent sharing with no families; with two it is exclusive. */
  lemma SharingAsWrittenInvalid(graphicsFamily: nat, presentFamily: nat)
    ensures !SharingValid(SharingAsWritten(graphicsFamily, presentFamily), {graphicsFamily, presentFamily})
  {
    if graphicsFamily != presentFamily {
      assert {graphicsFamily, presentFamily} == {graphicsFamily} + {presentFamily};
    }
  }

  /** The evidently intended choice: concurrent over both families when they differ, exclusive otherwise. */
  function ChooseSharing(graphicsFamily: nat, presentFamily: nat): (s: Sharing)
    ensures SharingValid(s, {graphicsFamily, presentFamily})
    ensures s.mode.Concurrent? <==> graphicsFamily != presentFamily
  {
    if graphicsFamily != presentFamily then
      var s := Sharing(Concurrent, [graphicsFamily, presentFamily]);
      s
    else
      assert {graphicsFamily, presentFamily} == {graphicsFamily};
      Sharing(Exclusive, [])
  }

  /** vulkan/swap_chain.rs: always exclusive, no families named; valid when one family does both. */
  const FIXED_SHARING: Sharing := Sharing(Exclusive, [])

  lemma FixedSharingValidForOneFamily(family: nat)
    ensures SharingValid(FIXED_SHARING, {family, family})
  {
    assert {family, family} == {family};
  }

  /** The swapchain as requested from the driver. */
  datatype SwapchainCreateInfo = SwapchainCreateInfo(
    minImageCount: nat, surfaceFormat: SurfaceFormat, extent: Extent2D, sharing: Sharing, presentMode: PresentMode)

  /**
   * The choices of `create_swapchain` / `SwapChainContainer::new`, with the intended image-count
   * check and sharing. None is one of their panics: no surface format, an unsupported image
   * count, or a missing queue family.
   */
  function SwapchainCreateInfoFor(formats: seq<SurfaceFormat>, presentModes: seq<PresentMode>,
                                  capabilities: SurfaceCapabilities, families: Queues.QueueFamilyIndices)
    : (r: Option<SwapchainCreateInfo>)
    requires capabilities.currentExtent.width == U32_MAX ==>
               && capabilities.minImageExtent.width <= capabilities.maxImageExtent.width
               && capabilities.minImageExtent.height <= capabilities.maxImageExtent.height
    ensures r.Some? <==> |formats| > 0 && ImageCountAllowed(capabilities, IMAGE_COUNT) && families.IsComplete()
    ensures r.Some? ==>
              && r.value.minImageCount == IMAGE_COUNT
              && r.value.surfaceFormat in formats
              && SharingValid(r.value.sharing, {families.graphics.value, families.present.value})
              && r.value.presentMode == Fifo
  {
    ImageCountAcceptedIsAllowed(capabilities);
    var format := ChooseSwapchainFormat(formats);
    if format.None? || !ImageCountAccepted(capabilities) || !families.IsComplete() then None
    else
      Some(SwapchainCreateInfo(IMAGE_COUNT, format.value, ChooseSwapchainExtent(capabilities),
                               ChooseSharing(families.graphics.value, families.present.value),
                               ChooseSwapchainPresentMode(presentModes, USE_VSYNC)))
  }

  /** A colour view of one swapchain image. */
  datatype ImageView = ImageView(image: nat, format: Format, aspect: ImageAspect, mipLevels: nat)

  /** A framebuffer over one attachment. */
  datatype Framebuffer = Framebuffer(renderPass: nat, attachment: ImageView, width: nat, height: nat, layers: nat)

  /** `_create_image_views`: one single-level colour view per image, in image order. */
  method CreateImageViews(format: Format, images: seq<nat>) returns (views: seq<ImageView>)
    ensures |views| == |images|
    ensures forall i :: 0 <= i < |images| ==> views[i] == ImageView(images[i], format, Color, 1)
  {
    views := [];
    var i := 0;
    while i < |images|
      invariant i <= |images| && |views| == i
      invariant forall k :: 0 <= k < i ==> views[k] == ImageView(images[k], format, Color, 1)
    {
      views := views + [ImageView(images[i], format, Color, 1)];
      i := i + 1;
    }
  }

  /** `create_framebuffers`: one single-layer framebuffer of the extent per image view, in order. */
  method CreateFramebuffers(views: seq<ImageView>, extent: Extent2D, renderPass: nat)
    returns (framebuffers: seq<Framebuffer>)
    ensures |framebuffers| == |views|
    ensures forall i :: 0 <= i < |views| ==>
              framebuffers[i] == Framebuffer(renderPass, views[i], extent.width, extent.height, 1)
  {
    framebuffers := [];
    var i := 0;
    while i < |views|
      invariant i <= |views| && |framebuffers| == i
      invariant forall k :: 0 <= k < i ==>
                  framebuffers[k] == Framebuffer(renderPass, views[k], extent.width, extent.height, 1)
    {
      framebuffers := framebuffers + [Framebuffer(renderPass, views[i], extent.width, extent.height, 1)];
      i := i + 1;
    }
  }

  /** The container of renderer/swap_chain.rs: the swapchain's images and the views made over them. */
  class SwapChainContainer {
    const format: Format
    const extent: Extent2D
    const images: seq<nat>
    const imageViews: seq<ImageView>
    /** The views handed back to the device so far, and whether the swapchain itself is gone. */
    var destroyedViews: seq<ImageView>
    var swapchainDestroyed: bool

    constructor (format: Format, extent: Extent2D, images: seq<nat>)
      ensures this.format == format && this.extent == extent && this.images == images
      ensures |imageViews| == |images|
      ensures forall i :: 0 <= i < |images| ==> imageViews[i] == ImageView(images[i], format, Color, 1)
      ensures destroyedViews == [] && !swapchainDestroyed
    {
      this.format := format;
      this.extent := extent;
      this.images := images;
      var views := CreateImageViews(format, images);
      imageViews := views;
      destroyedViews := [];
      swapchainDestroyed := false;
    }

    /** `destroy`: every image view it created is destroyed, in order, then the swapchain. */
    method Destroy()
      modifies this
      ensures destroyedViews == old(destroyedViews) + imageViews
      ensures swapchainDestroyed
    {
      var i := 0;
      while i < |imageViews|
        invariant i <= |imageViews|
        invariant destroyedViews == old(destroyedViews) + imageViews[..i]
      {
        destroyedViews := destroyedViews + [imageViews[i]];
        assert imageViews[..i + 1] == imageViews[..i] + [imageViews[i]];
        i := i + 1;
      }
      assert imageViews[..i] == imageViews;
      swapchainDestroyed := true;
    }
  }
}

=== FILE: synchronization.dfy ===
/**
 * Frames in flight: two sets of semaphores and fences used in turn, selected by a counter that
 * steps modulo the number of frames in flight.
 */
module Synchronization {
  const MAX_FRAMES_IN_FLIGHT: nat := 2

  /** The frame slot after `counter`. */
  function NextFrame(counter: nat): (next: nat)
    ensures next < MAX_FRAMES_IN_FLIGHT
  {
    (counter + 1) % MAX_FRAMES_IN_FLIGHT
  }

  /** Stepping twice returns to the same frame slot. */
  lemma NextFrameTwice(counter: nat)
    requires counter < MAX_FRAMES_IN_FLIGHT
    ensures NextFrame(NextFrame(counter)) == counter
    ensures NextFrame(counter) != counter
  {
  }

  class SynchronizationHandler {
    var imageAvailableSemaphores: seq<nat>
    var transferFinishedSemaphores: seq<nat>
    var renderFinishedSemaphores: seq<nat>
    var inflightFences: seq<nat>
    var inflightCounter: nat

    /** One object of each kind per frame in flight, and the counter on a valid slot. */
    ghost predicate Valid()
      reads this
    {
      && |imageAvailableSemaphores| == MAX_FRAMES_IN_FLIGHT
      && |transferFinishedSemaphores| == MAX_FRAMES_IN_FLIGHT
      && |renderFinishedSemaphores| == MAX_FRAMES_IN_FLIGHT
      && |inflightFences| == MAX_FRAMES_IN_FLIGHT
      && inflightCounter < MAX_FRAMES_IN_FLIGHT
    }

    /** Every semaphore and fence the handler owns. */
    function Objects(): seq<nat>
      reads this
    {
      imageAvailableSemaphores + transferFinishedSemaphores + renderFinishedSemaphores + inflightFences
    }

    /**
     * `new`: per frame in flight, three semaphores and a fence are created in turn; the driver's
     * handles are modelled as consecutive numbers from `firstHandle`.
     */
    constructor (firstHandle: nat)
      ensures Valid() && inflightCounter == 0
      ensures forall i, j :: 0 <= i < j < |Objects()| ==> Objects()[i] != Objects()[j]
    {
      var imageAvailable: seq<nat> := [];
      var transferFinished: seq<nat> := [];
      var renderFinished: seq<nat> := [];
      var fences: seq<nat> := [];
      var i := 0;
      while i < MAX_FRAMES_IN_FLIGHT
        invariant i <= MAX_FRAMES_IN_FLIGHT
        invariant |imageAvailable| == |transferFinished| == |renderFinished| == |fences| == i
        invariant forall k :: 0 <= k < i ==> imageAvailable[k] == firstHandle + 4 * k
        invariant forall k :: 0 <= k < i ==> transferFinished[k] == firstHandle + 4 * k + 1
        invariant forall k :: 0 <= k < i ==> renderFinished[k] == firstHandle + 4 * k + 2
        invariant forall k :: 0 <= k < i ==> fences[k] == firstHandle + 4 * k + 3
      {
        var next := firstHandle + 4 * i;
        imageAvailable := imageAvailable + [next];
        transferFinished := transferFinished + [next + 1];
        renderFinished := renderFinished + [next + 2];
        fences := fences + [next + 3];
        i := i + 1;
      }
      imageAvailableSemaphores := imageAvailable;
      transferFinishedSemaphores := transferFinished;
      renderFinishedSemaphores := renderFinished;
      inflightFences := fences;
      inflightCounter := 0;
    }

    function ImageAvailableSemaphore(): (semaphore: nat)
      requires Valid()
      reads this
      ensures semaphore in imageAvailableSemaphores
    {
      imageAvailableSemaphores[inflightCounter]
    }

    function TransferFinishedSemaphore(): (semaphore: nat)
      requires Valid()
      reads this
      ensures semaphore in transferFinishedSemaphores
    {
      transferFinishedSemaphores[inflightCounter]
    }

    function RenderFinishedSemaphore(): (semaphore: nat)
      requires Valid()
      reads this
      ensures semaphore in renderFinishedSemaphores
    {
      renderFinishedSemaphores[inflightCounter]
    }

    function InflightFence(): (fence: nat)
      requires Valid()
      reads this
      ensures fence in inflightFences
    {
      inflightFences[inflightCounter]
    }

    /** `step`: on to the next frame slot; the objects themselves stay. */
    method Step()
      requires Valid()
      modifies this
      ensures Valid()
      ensures inflightCounter == NextFrame(old(inflightCounter))
      ensures Objects() == old(Objects())
    {
      inflightCounter := (inflightCounter + 1) % MAX_FRAMES_IN_FLIGHT;
    }
  }
}

=== FILE: target.dfy ===
/**
 * Render targets: either a single offscreen image or the swapchain's images, each with the
 * framebuffer a pass renders into.
 */
module Targets {
  import opened Wrappers

  datatype ImageTarget = ImageTarget(colorImage: nat, colorImageView: nat, colorImageMemory: nat,
                                     depthImage: nat, depthImageView: nat, depthImageMemory: nat,
                                     framebuffer: nat)

  datatype SwapchainTarget = SwapchainTarget(swapchain: nat, colorImageViews: seq<nat>,
                                             depthImage: nat, depthImageView: nat, depthImageMemory: nat,
                                             framebuffers: seq<nat>)
  {
    /** `image_count`: one image view per framebuffer is asserted, and the views are counted. */
    function ImageCount(): (n: nat)
      requires |colorImageViews| == |framebuffers|
      ensures n == |framebuffers|
    {
      |colorImageViews|
    }
  }

  datatype RenderTarget = Image(image: ImageTarget) | Swapchain(target: SwapchainTarget)
  {
    /** The swapchain target checks its image-view and framebuffer counts agree. */
    predicate Consistent()
    {
      Swapchain? ==> |target.colorImageViews| == |target.framebuffers|
    }

    /** `swapchain_target`: present exactly for a swapchain target. */
    function SwapchainTargetOf(): (r: Option<SwapchainTarget>)
      ensures r.Some? <==> Swapchain?
      ensures r.Some? ==> r.value == target
    {
      match this
      case Swapchain(t) => Some(t)
      case Image(_) => None
    }

    /** `image_count`: 1 for an offscreen image, the number of swapchain images otherwise. */
    function ImageCount(): (n: nat)
      requires Consistent()
      ensures Image? ==> n == 1
      ensures Swapchain? ==> n == |target.colorImageViews|
    {
      match this
      case Image(_) => 1
      case Swapchain(t) => t.ImageCount()
    }

    /** `framebuffer`: an offscreen image has one framebuffer whatever the index. */
    function Framebuffer(imageIndex: nat): (framebuffer: nat)
      requires Swapchain? ==> imageIndex < |target.framebuffers|
      ensures Image? ==> framebuffer == image.framebuffer
      ensures Swapchain? ==> framebuffer == target.framebuffers[imageIndex]
    {
      match this
      case Image(i) => i.framebuffer
      case Swapchain(t) => t.framebuffers[imageIndex]
    }
  }

  /**
   * Every image index below the image count selects a framebuffer, and distinct indices of a
   * swapchain target select its framebuffers in order.
   */
  lemma FramebufferForEveryImage(t: RenderTarget)
    requires t.Consistent()
    ensures t.Swapchain? ==> t.ImageCount() == |t.target.framebuffers|
    ensures forall i :: 0 <= i < t.ImageCount() ==> t.Framebuffer(i) in AllFramebuffers(t)
    ensures forall f :: f in AllFramebuffers(t) ==> exists i :: 0 <= i < t.ImageCount() && t.Framebuffer(i) == f
  {
    if t.Image? {
      assert t.Framebuffer(0) == t.image.framebuffer;
    } else {
      forall i | 0 <= i < t.ImageCount()
        ensures t.Framebuffer(i) in AllFramebuffers(t)
      {
        assert t.Framebuffer(i) == t.target.framebuffers[i];
        assert t.target.framebuffers[i] in t.target.framebuffers;
        assert t.target.framebuffers[i] in AllFramebuffers(t);
      }
      forall f | f in AllFramebuffers(t) ensures exists i :: 0 <= i < t.ImageCount() && t.Framebuffer(i) == f {
        var i :| 0 <= i < |t.target.framebuffers| && t.target.framebuffers[i] == f;
        assert t.Framebuffer(i) == f;
      }
    }
  }

  /** The framebuffers a target owns. */
  function AllFramebuffers(t: RenderTarget): set<nat>
  {
    match t
    case Image(i) => {i.framebuffer}
    case Swapchain(s) => set f | f in s.framebuffers
  }
}

=== FILE: terrain.dfy ===
/**
 * The terrain chunk: a grid of raw vertices sampled row by row, and the triangle strips drawn over
 * it, one strip per row of quads, each closed by the primitive-restart index 0xFFFFFFFF that section
 * "Primitive Topologies" of the Vulkan specification defines for 32-bit indices.
 */
module Terrain {
  import opened Wrappers

  const QUAD_SIZE: real := 1.0

  /** The primitive-restart value for `VK_INDEX_TYPE_UINT32`. */
  const PRIMITIVE_RESTART: nat := 0xFFFF_FFFF

  datatype Point = Point(x: real, y: real, z: real)

  /** `i·n`, as a sum of `i` strides of `n`. */
  function Stride(i: nat, n: nat): nat
  {
    if i == 0 then 0 else Stride(i - 1, n) + n
  }

  lemma {:induction false} StrideIsProduct(i: nat, n: nat)
    ensures Stride(i, n) == i * n
  {
    if i > 0 {
      StrideIsProduct(i - 1, n);
    }
  }

  lemma StrideSucc(i: nat, n: nat)
    ensures Stride(i + 1, n) == Stride(i, n) + n
  {
  }

  lemma {:induction false} StrideMono(i: nat, k: nat, n: nat)
    requires i <= k
    ensures Stride(i, n) <= Stride(k, n)
    ensures i < k ==> Stride(i, n) + n <= Stride(k, n)
    decreases k
  {
    if i < k {
      StrideMono(i, k - 1, n);
    }
  }

  lemma MulLe(a: nat, b: nat, d: nat)
    requires a <= b
    ensures a * d <= b * d
  {
    assert b * d - a * d == (b - a) * d;
  }

  /** Division and remainder are determined by `x == q * d + r` with `r < d`. */
  lemma DivModUnique(x: nat, d: nat, q: nat, r: nat)
    requires r < d && x == q * d + r
    ensures x % d == r && x / d == q
  {
    var q', r' := x / d, x % d;
    assert x == q' * d + r';
    if q > q' {
      MulLe(1, q - q', d);
    } else if q < q' {
      MulLe(1, q' - q, d);
    }
  }

  /** Where row `i` of the grid starts: `i·(width + 1)`. */
  function RowStart(width: nat, i: nat): nat
  {
    Stride(i, width + 1)
  }

  /** Where strip `i` of the chunk starts: `i·verticesPerStrip`. */
  function StripStart(width: nat, i: nat): nat
  {
    Stride(i, VerticesPerStrip(width))
  }

  /** Grid vertex (row `i`, column `j`): `x = j·QUAD_SIZE`, `z = −i·QUAD_SIZE`, height from the noise. */
  function RawVertex(i: nat, j: nat, noise: (nat, nat) -> real): Point
  {
    Point(j as real * QUAD_SIZE, noise(i, j), -(i as real * QUAD_SIZE))
  }

  function RawRow(width: nat, i: nat, noise: (nat, nat) -> real): (row: seq<Point>)
    ensures |row| == width + 1
  {
    seq(width + 1, j requires 0 <= j <= width => RawVertex(i, j, noise))
  }

  /** The first `rows` rows of the grid, each of `width + 1` vertices, row after row. */
  function RawGrid(width: nat, rows: nat, noise: (nat, nat) -> real): (grid: seq<Point>)
    ensures |grid| == RowStart(width, rows)
  {
    if rows == 0 then [] else RawGrid(width, rows - 1, noise) + RawRow(width, rows - 1, noise)
  }

  /** The grid is row-major: vertex (i, j) sits at `i·(width + 1) + j`. */
  lemma {:induction false} RawGridIsRowMajor(width: nat, rows: nat, noise: (nat, nat) -> real)
    ensures forall i :: 0 <= i < rows ==> RowStart(width, i) + width < |RawGrid(width, rows, noise)|
    ensures forall i, j :: 0 <= i < rows && 0 <= j <= width ==>
              RawGrid(width, rows, noise)[RowStart(width, i) + j] == RawVertex(i, j, noise)
  {
    if rows > 0 {
      RawGridIsRowMajor(width, rows - 1, noise);
      var grid := RawGrid(width, rows, noise);
      var prefix := RawGrid(width, rows - 1, noise);
      forall i | 0 <= i < rows
        ensures RowStart(width, i) + width < |grid|
      {
        StrideMono(i, rows - 1, width + 1);
      }
      forall i, j | 0 <= i < rows && 0 <= j <= width
        ensures grid[RowStart(width, i) + j] == RawVertex(i, j, noise)
      {
        if i < rows - 1 {
          StrideMono(i, rows - 1, width + 1);
          assert grid[RowStart(width, i) + j] == prefix[RowStart(width, i) + j];
        } else {
          assert grid[RowStart(width, i) + j] == RawRow(width, i, noise)[j];
        }
      }
    }
  }

  /** `create_raw_vertices`: `(width + 1)·(height + 1)` vertices, row-major. */
  method CreateRawVertices(width: nat, height: nat, noise: (nat, nat) -> real) returns (vertices: seq<Point>)
    ensures vertices == RawGrid(width, height + 1, noise)
    ensures |vertices| == (width + 1) * (height + 1)
    ensures forall i :: 0 <= i <= height ==> RowStart(width, i) + width < |vertices|
    ensures forall i, j :: 0 <= i <= height && 0 <= j <= width ==> vertices[RowStart(width, i) + j] == RawVertex(i, j, noise)
  {
    vertices := [];
    var i := 0;
    while i < height + 1
      invariant i <= height + 1
      invariant vertices == RawGrid(width, i, noise)
    {
      var j := 0;
      while j < width + 1
        invariant j <= width + 1
        invariant vertices == RawGrid(width, i, noise) + RawRow(width, i, noise)[..j]
      {
        var xOffset := j as real * QUAD_SIZE;
        var zOffset := -(i as real * QUAD_SIZE);
        assert RawRow(width, i, noise)[..j + 1] == RawRow(width, i, noise)[..j] + [Point(xOffset, noise(i, j), zOffset)];
        vertices := vertices + [Point(xOffset, noise(i, j), zOffset)];
        j := j + 1;
      }
      assert RawRow(width, i, noise)[..j] == RawRow(width, i, noise);
      i := i + 1;
    }
    RawGridIsRowMajor(width, height + 1, noise);
    StrideIsProduct(height + 1, width + 1);
  }

  function VerticesPerStrip(width: nat): nat
  {
    (width + 1) * 2
  }

  /** Vertex `k` of strip `i`: column `k / 2`, of row `i` when `k` is even and of row `i + 1` when odd. */
  function StripVertex(raw: seq<Point>, width: nat, i: nat, k: nat): Point
    requires k < VerticesPerStrip(width) && RowStart(width, i + 2) <= |raw|
  {
    StrideSucc(i, width + 1);
    StrideSucc(i + 1, width + 1);
    if k % 2 == 0 then raw[RowStart(width, i) + k / 2] else raw[RowStart(width, i + 1) + k / 2]
  }

  function Strip(raw: seq<Point>, width: nat, i: nat): (strip: seq<Point>)
    requires RowStart(width, i + 2) <= |raw|
    ensures |strip| == VerticesPerStrip(width)
  {
    seq(VerticesPerStrip(width), k requires 0 <= k < VerticesPerStrip(width) => StripVertex(raw, width, i, k))
  }

  /** The chunk's vertices: the first `strips` strips, one after another. */
  function StripVertices(raw: seq<Point>, width: nat, strips: nat): (vertices: seq<Point>)
    requires RowStart(width, strips + 1) <= |raw|
    ensures |vertices| == StripStart(width, strips)
  {
    if strips == 0 then [] else StripVertices(raw, width, strips - 1) + Strip(raw, width, strips - 1)
  }

  /** Strip `i`'s vertex `k` is at `i·verticesPerStrip + k`. */
  lemma {:induction false} StripVerticesIndex(raw: seq<Point>, width: nat, strips: nat)
    requires RowStart(width, strips + 1) <= |raw|
    ensures forall i :: 0 <= i < strips ==> RowStart(width, i) + 2 * (width + 1) <= |raw|
    ensures forall i :: 0 <= i < strips ==> StripStart(width, i) + VerticesPerStrip(width) <= StripStart(width, strips)
    ensures forall i, k :: 0 <= i < strips && 0 <= k < VerticesPerStrip(width) ==>
              StripVertices(raw, width, strips)[StripStart(width, i) + k] == StripVertex(raw, width, i, k)
  {
    if strips > 0 {
      StripVerticesIndex(raw, width, strips - 1);
      var vps := VerticesPerStrip(width);
      var all := StripVertices(raw, width, strips);
      var prefix := StripVertices(raw, width, strips - 1);
      forall i | 0 <= i < strips
        ensures RowStart(width, i) + 2 * (width + 1) <= |raw|
        ensures StripStart(width, i) + vps <= StripStart(width, strips)
      {
        StrideMono(i + 2, strips + 1, width + 1);
        StrideMono(i, strips, vps);
      }
      forall i, k | 0 <= i < strips && 0 <= k < vps
        ensures all[StripStart(width, i) + k] == StripVertex(raw, width, i, k)
      {
        StrideMono(i + 2, strips + 1, width + 1);
        if i < strips - 1 {
          StrideMono(i, strips - 1, vps);
          assert all[StripStart(width, i) + k] == prefix[StripStart(width, i) + k];
        } else {
          assert all[StripStart(width, i) + k] == Strip(raw, width, i)[k];
        }
      }
    }
  }

  /** Over the sampled grid, strip `i` zig-zags between grid rows `i` and `i + 1`, column by column. */
  lemma StripsJoinAdjacentRows(width: nat, height: nat, noise: (nat, nat) -> real)
    ensures var raw := RawGrid(width, height + 1, noise);
            (forall i :: 0 <= i < height ==> StripStart(width, i) + VerticesPerStrip(width) <= |StripVertices(raw, width, height)|)
            && forall i, j :: 0 <= i < height && 0 <= j <= width ==>
              && StripVertices(raw, width, height)[StripStart(width, i) + 2 * j] == RawVertex(i, j, noise)
              && StripVertices(raw, width, height)[StripStart(width, i) + 2 * j + 1] == RawVertex(i + 1, j, noise)
  {
    var raw := RawGrid(width, height + 1, noise);
    var vertices := StripVertices(raw, width, height);
    var vps := VerticesPerStrip(width);
    RawGridIsRowMajor(width, height + 1, noise);
    StripVerticesIndex(raw, width, height);
    forall i, j | 0 <= i < height && 0 <= j <= width
      ensures vertices[StripStart(width, i) + 2 * j] == RawVertex(i, j, noise)
      ensures vertices[StripStart(width, i) + 2 * j + 1] == RawVertex(i + 1, j, noise)
    {
      assert vertices[StripStart(width, i) + 2 * j] == StripVertex(raw, width, i, 2 * j);
      assert vertices[StripStart(width, i) + (2 * j + 1)] == StripVertex(raw, width, i, 2 * j + 1);
    }
  }

  /** Strip `i`'s indices: the position of each vertex as it was pushed, cast to `u32`, then the restart value. */
  function StripIndices(width: nat, i: nat): (indices: seq<nat>)
    ensures |indices| == VerticesPerStrip(width) + 1
  {
    var vps := VerticesPerStrip(width);
    seq(vps, k requires 0 <= k < vps => (StripStart(width, i) + k) % 0x1_0000_0000) + [PRIMITIVE_RESTART]
  }

  function ChunkIndices(width: nat, strips: nat): (indices: seq<nat>)
    ensures |indices| == Stride(strips, VerticesPerStrip(width) + 1)
  {
    if strips == 0 then [] else ChunkIndices(width, strips - 1) + StripIndices(width, strips - 1)
  }

  /** The indices with every restart value removed. */
  function NonRestart(indices: seq<nat>): seq<nat>
  {
    if |indices| == 0 then []
    else NonRestart(indices[..|indices| - 1]) + (if indices[|indices| - 1] == PRIMITIVE_RESTART then [] else [indices[|indices| - 1]])
  }

  lemma {:induction false} NonRestartAppend(a: seq<nat>, b: seq<nat>)
    ensures NonRestart(a + b) == NonRestart(a) + NonRestart(b)
    decreases |b|
  {
    if |b| > 0 {
      var b' := b[..|b| - 1];
      assert (a + b)[..|a + b| - 1] == a + b';
      NonRestartAppend(a, b');
    } else {
      assert a + b == a;
    }
  }

  lemma {:induction false} NonRestartKeepsOthers(indices: seq<nat>)
    requires forall k :: 0 <= k < |indices| ==> indices[k] != PRIMITIVE_RESTART
    ensures NonRestart(indices) == indices
  {
    if |indices| > 0 {
      NonRestartKeepsOthers(indices[..|indices| - 1]);
      assert indices[..|indices| - 1] + [indices[|indices| - 1]] == indices;
    }
  }

  /** The numbers `0, 1, …, n − 1`. */
  function Range(n: nat): (r: seq<nat>)
    ensures |r| == n && forall k :: 0 <= k < n ==> r[k] == k
  {
    seq(n, k requires 0 <= k < n => k)
  }

  /** Below the restart value, strip `i`'s indices are its vertices' positions and then one restart. */
  lemma StripIndicesEnumerate(width: nat, i: nat)
    requires StripStart(width, i + 1) <= U32_MAX
    ensures NonRestart(StripIndices(width, i)) == seq(VerticesPerStrip(width), k requires 0 <= k => StripStart(width, i) + k)
    ensures forall k :: 0 <= k < VerticesPerStrip(width) ==> StripIndices(width, i)[k] == StripStart(width, i) + k
    ensures StripIndices(width, i)[VerticesPerStrip(width)] == PRIMITIVE_RESTART
  {
    var vps := VerticesPerStrip(width);
    var body := seq(vps, k requires 0 <= k < vps => (StripStart(width, i) + k) % 0x1_0000_0000);
    assert StripIndices(width, i) == body + [PRIMITIVE_RESTART];
    assert StripStart(width, i + 1) == StripStart(width, i) + vps;
    forall k | 0 <= k < vps
      ensures body[k] == StripStart(width, i) + k
    {
    }
    NonRestartKeepsOthers(body);
    NonRestartAppend(body, [PRIMITIVE_RESTART]);
    assert NonRestart([PRIMITIVE_RESTART]) == [];
  }

  /**
   * While the vertex count fits below the restart value, the chunk's indices are the restart value
   * closing each strip and otherwise 0, 1, 2, … in order; so every other index names a vertex, and
   * the last index of a non-empty chunk is a restart.
   */
  lemma {:induction false} ChunkIndicesEnumerateVertices(width: nat, strips: nat)
    requires StripStart(width, strips) <= U32_MAX
    ensures NonRestart(ChunkIndices(width, strips)) == Range(StripStart(width, strips))
    ensures forall k :: 0 <= k < |ChunkIndices(width, strips)| && ChunkIndices(width, strips)[k] != PRIMITIVE_RESTART
              ==> ChunkIndices(width, strips)[k] < StripStart(width, strips)
    ensures strips > 0 ==> ChunkIndices(width, strips)[|ChunkIndices(width, strips)| - 1] == PRIMITIVE_RESTART
  {
    if strips > 0 {
      var vps := VerticesPerStrip(width);
      var n := strips - 1;
      assert StripStart(width, strips) == StripStart(width, n) + vps;
      ChunkIndicesEnumerateVertices(width, n);
      StripIndicesEnumerate(width, n);
      var prefix := ChunkIndices(width, n);
      var last := StripIndices(width, n);
      var all := ChunkIndices(width, strips);
      assert all == prefix + last;
      NonRestartAppend(prefix, last);
      assert Range(StripStart(width, n)) + NonRestart(last) == Range(StripStart(width, strips));
      forall k | 0 <= k < |all| && all[k] != PRIMITIVE_RESTART
        ensures all[k] < StripStart(width, strips)
      {
        if k < |prefix| {
          assert all[k] == prefix[k];
        } else {
          assert all[k] == last[k - |prefix|];
        }
      }
    }
  }

  /**
   * A vertex's normal: none for the last two vertices of a strip, otherwise the normalised normal of
   * the triangle it starts, `(b − a) × (c − a)` for `FaceNormal(a, b, c)`.
   */
  datatype Normal = ZeroNormal | FaceNormal(a: Point, b: Point, c: Point)

  /** Within a chunk of whole strips, a vertex not among its strip's last two has two more after it. */
  lemma StripHasTwoMore(count: nat, vps: nat, k: nat)
    requires vps >= 2 && count % vps == 0 && k < count && k % vps < vps - 2
    ensures k + 2 < count
  {
    var q := k / vps;
    var strips := count / vps;
    assert count == strips * vps;
    if q + 1 > strips {
      MulLe(strips, q, vps);
    } else {
      MulLe(q + 1, strips, vps);
    }
  }

  /**
   * The normal at vertex `k`: even vertices take `(v[k+2] − v[k]) × (v[k+1] − v[k])` and odd ones
   * `(v[k+1] − v[k]) × (v[k+2] − v[k])`, so the winding stays consistent along the strip.
   */
  function NormalAt(vertices: seq<Point>, vps: nat, k: nat): Normal
    requires vps >= 2 && |vertices| % vps == 0 && k < |vertices|
  {
    if k % vps >= vps - 2 then ZeroNormal
    else
      StripHasTwoMore(|vertices|, vps, k);
      var v0, v1, v2 := vertices[k], vertices[k + 1], vertices[k + 2];
      if k % 2 == 0 then FaceNormal(v0, v2, v1) else FaceNormal(v0, v1, v2)
  }

  /**
   * In strip `s`, the last two vertices get no normal, and every other vertex's normal is taken
   * from vertices of the same strip.
   */
  lemma NormalsStayInStrip(vertices: seq<Point>, vps: nat, s: nat, k: nat)
    requires vps >= 2 && |vertices| % vps == 0 && Stride(s + 1, vps) <= |vertices| && k < vps
    ensures k >= vps - 2 ==> NormalAt(vertices, vps, Stride(s, vps) + k) == ZeroNormal
    ensures k < vps - 2 ==> && NormalAt(vertices, vps, Stride(s, vps) + k).FaceNormal?
                            && NormalAt(vertices, vps, Stride(s, vps) + k).a == vertices[Stride(s, vps) + k]
                            && {NormalAt(vertices, vps, Stride(s, vps) + k).b, NormalAt(vertices, vps, Stride(s, vps) + k).c}
                               == {vertices[Stride(s, vps) + k + 1], vertices[Stride(s, vps) + k + 2]}
  {
    StrideIsProduct(s, vps);
    DivModUnique(Stride(s, vps) + k, vps, s, k);
  }

  datatype VertexNormal = VertexNormal(position: Point, normal: Normal)

  datatype ChunkData = ChunkData(vertices: seq<VertexNormal>, indices: seq<nat>)

  /** One column of strip `i`: two more vertices, from rows `i` and `i + 1`, and their two indices. */
  lemma StripColumn(raw: seq<Point>, width: nat, i: nat, j: nat)
    requires RowStart(width, i + 2) <= |raw| && j <= width
    ensures RowStart(width, i + 1) + width < |raw|
    ensures Strip(raw, width, i)[..2 * j + 2]
            == Strip(raw, width, i)[..2 * j] + [raw[RowStart(width, i) + j], raw[RowStart(width, i + 1) + j]]
    ensures StripIndices(width, i)[..2 * j + 2]
            == StripIndices(width, i)[..2 * j]
               + [(StripStart(width, i) + 2 * j) % 0x1_0000_0000, (StripStart(width, i) + 2 * j + 1) % 0x1_0000_0000]
  {
    var strip := Strip(raw, width, i);
    assert strip[2 * j] == StripVertex(raw, width, i, 2 * j);
    assert strip[2 * j + 1] == StripVertex(raw, width, i, 2 * j + 1);
    assert strip[..2 * j + 2] == strip[..2 * j] + [strip[2 * j], strip[2 * j + 1]];
    var indices := StripIndices(width, i);
    assert indices[..2 * j + 2] == indices[..2 * j] + [indices[2 * j], indices[2 * j + 1]];
  }

  /**
   * One pass of the strip loop of `create_flat_normaled_chunk`: for each column, the index and then
   * the vertex from row `i`, the index and then the vertex from row `i + 1`; then the restart value.
   */
  method AppendStrip(raw: seq<Point>, width: nat, i: nat, vertices: seq<Point>, indices: seq<nat>)
    returns (vertices': seq<Point>, indices': seq<nat>)
    requires RowStart(width, i + 2) <= |raw| && |vertices| == StripStart(width, i)
    ensures vertices' == vertices + Strip(raw, width, i)
    ensures indices' == indices + StripIndices(width, i)
  {
    ghost var strip := Strip(raw, width, i);
    ghost var stripIndices := StripIndices(width, i);
    var rowStart, nextRowStart := i * (width + 1), (i + 1) * (width + 1);
    StrideIsProduct(i, width + 1);
    StrideIsProduct(i + 1, width + 1);
    vertices', indices' := vertices, indices;
    var j := 0;
    while j < width + 1
      invariant j <= width + 1
      invariant vertices' == vertices + strip[..2 * j]
      invariant indices' == indices + stripIndices[..2 * j]
    {
      StripColumn(raw, width, i, j);
      indices' := indices' + [|vertices'| % 0x1_0000_0000];
      vertices' := vertices' + [raw[j + rowStart]];
      indices' := indices' + [|vertices'| % 0x1_0000_0000];
      vertices' := vertices' + [raw[j + nextRowStart]];
      j := j + 1;
    }
    assert strip[..2 * j] == strip;
    assert stripIndices[..2 * j] + [PRIMITIVE_RESTART] == stripIndices;
    indices' := indices' + [PRIMITIVE_RESTART];
  }

  /** The strip loop of `create_flat_normaled_chunk`: one strip per row of quads. */
  method BuildStrips(width: nat, height: nat, raw: seq<Point>) returns (vertices: seq<Point>, indices: seq<nat>)
    requires RowStart(width, height + 1) <= |raw|
    ensures vertices == StripVertices(raw, width, height)
    ensures indices == ChunkIndices(width, height)
  {
    vertices := [];
    indices := [];
    var i := 0;
    StrideMono(1, height + 1, width + 1);
    while i < height
      invariant i <= height
      invariant RowStart(width, i + 1) <= |raw|
      invariant vertices == StripVertices(raw, width, i)
      invariant indices == ChunkIndices(width, i)
    {
      StrideMono(i + 2, height + 1, width + 1);
      vertices, indices := AppendStrip(raw, width, i, vertices, indices);
      i := i + 1;
    }
  }

  /** The normal loop of `create_flat_normaled_chunk`, over whole strips of `vps` vertices. */
  method ComputeNormals(vertices: seq<Point>, vps: nat) returns (normals: seq<Normal>)
    requires vps >= 2 && |vertices| % vps == 0
    ensures |normals| == |vertices|
    ensures forall t :: 0 <= t < |vertices| ==> normals[t] == NormalAt(vertices, vps, t)
  {
    normals := [];
    var k := 0;
    while k < |vertices|
      invariant k <= |vertices|
      invariant |normals| == k
      invariant forall t :: 0 <= t < k ==> normals[t] == NormalAt(vertices, vps, t)
    {
      if k % vps >= vps - 2 {
        normals := normals + [ZeroNormal];
      } else {
        StripHasTwoMore(|vertices|, vps, k);
        var v1 := vertices[k + 1];
        var v2 := vertices[k + 2];
        if k % 2 == 0 {
          normals := normals + [FaceNormal(vertices[k], v2, v1)];
        } else {
          normals := normals + [FaceNormal(vertices[k], v1, v2)];
        }
      }
      k := k + 1;
    }
  }

  /** The sizes `create_flat_normaled_chunk` asserts, for `strips` strips. */
  lemma ChunkSizes(width: nat, strips: nat)
    ensures StripStart(width, strips) == strips * VerticesPerStrip(width)
    ensures Stride(strips, VerticesPerStrip(width) + 1) == strips * (VerticesPerStrip(width) + 1)
    ensures StripStart(width, strips) % VerticesPerStrip(width) == 0
  {
    StrideIsProduct(strips, VerticesPerStrip(width));
    StrideIsProduct(strips, VerticesPerStrip(width) + 1);
    DivModUnique(StripStart(width, strips), VerticesPerStrip(width), strips, 0);
  }

  /**
   * `create_flat_normaled_chunk`: one triangle strip per row of quads, `(width + 1)·2` vertices each,
   * every vertex with its index and each strip closed by the restart value; then the normals, and
   * each vertex paired with its normal.
   */
  method CreateFlatNormaledChunk(width: nat, height: nat, raw: seq<Point>) returns (chunk: ChunkData)
    requires (height + 1) * (width + 1) <= |raw|
    ensures RowStart(width, height + 1) <= |raw|
    ensures chunk.indices == ChunkIndices(width, height)
    ensures |chunk.indices| == height * (VerticesPerStrip(width) + 1)
    ensures |chunk.vertices| == |StripVertices(raw, width, height)| == height * VerticesPerStrip(width)
    ensures |StripVertices(raw, width, height)| % VerticesPerStrip(width) == 0
    ensures forall k :: 0 <= k < |StripVertices(raw, width, height)| ==>
              chunk.vertices[k] == VertexNormal(StripVertices(raw, width, height)[k],
                                                NormalAt(StripVertices(raw, width, height), VerticesPerStrip(width), k))
  {
    StrideIsProduct(height + 1, width + 1);
    var vps := (width + 1) * 2;
    var vertices, indices := BuildStrips(width, height, raw);
    ChunkSizes(width, height);
    var normals := ComputeNormals(vertices, vps);
    var completeVertices: seq<VertexNormal> := [];
    var k := 0;
    while k < |vertices|
      invariant k <= |vertices|
      invariant |completeVertices| == k
      invariant forall t :: 0 <= t < k ==> completeVertices[t] == VertexNormal(vertices[t], normals[t])
    {
      completeVertices := completeVertices + [VertexNormal(vertices[k], normals[k])];
      k := k + 1;
    }
    chunk := ChunkData(completeVertices, indices);
  }
}

=== FILE: texture.dfy ===
/**
 * The texture manager: textures and samplers are registered in order and addressed by their
 * position, which is the handle returned when they were added.
 */
module Textures {
  /** The image, its memory and its view, as the driver's handles. */
  datatype Texture = Texture(image: nat, imageMemory: nat, imageView: nat)

  class TextureManager {
    var textures: seq<Texture>
    /** The samplers, as the driver's handles. */
    var samplers: seq<nat>

    constructor ()
      ensures textures == [] && samplers == []
    {
      textures := [];
      samplers := [];
    }

    /** `add_texture`: the handle is the number of textures before; the samplers are untouched. */
    method AddTexture(image: nat, imageMemory: nat, imageView: nat) returns (handle: nat)
      modifies this
      ensures handle == |old(textures)|
      ensures textures == old(textures) + [Texture(image, imageMemory, imageView)]
      ensures samplers == old(samplers)
      ensures textures[handle] == Texture(image, imageMemory, imageView)
    {
      handle := |textures|;
      textures := textures + [Texture(image, imageMemory, imageView)];
    }

    /**
     * `add_sampler`: the handle is the number of samplers before; the textures are untouched. The
     * sampler the driver creates is given as `sampler`.
     */
    method AddSampler(sampler: nat) returns (handle: nat)
      modifies this
      ensures handle == |old(samplers)|
      ensures samplers == old(samplers) + [sampler]
      ensures textures == old(textures)
      ensures samplers[handle] == sampler
    {
      handle := |samplers|;
      samplers := samplers + [sampler];
    }
  }
}

=== FILE: types.dfy ===
/**
 * The renderer's shared vocabulary: pipeline handles, the pipeline-configuration builder, draw
 * commands and the triangle count of a draw under its primitive topology.
 */
module RenderTypes {
  import opened Wrappers

  /** The render-pass handle reserved for the pass that draws to the swapchain. */
  const SWAPCHAIN_PASS: nat := 100_000

  datatype PipelineHandle = PipelineHandle(renderPass: nat, pipelineIndex: nat)
  {
    /** `index`: the position of the pipeline within its render pass. */
    function Index(): nat { pipelineIndex }
  }

  /** `PipelineHandle::new`: both parts come back out unchanged. */
  function NewPipelineHandle(renderPass: nat, pipelineIndex: nat): (h: PipelineHandle)
    ensures h.Index() == pipelineIndex && h.renderPass == renderPass
  {
    PipelineHandle(renderPass, pipelineIndex)
  }

  datatype VertexTopology = Triangle | TriangleStrip

  datatype UniformStage = VertexStage | FragmentStage

  datatype BufferObjectConfiguration = BufferObjectConfiguration(binding: nat, bufferObjectHandle: nat)

  datatype TextureConfiguration = TextureConfiguration(binding: nat, texture: nat, sampler: nat)

  datatype PipelineConfiguration = PipelineConfiguration(
    vertexShaderCode: seq<byte>,
    fragmentShaderCode: seq<byte>,
    pushConstantBufferSize: Option<nat>,
    vertexTopology: VertexTopology,
    vertexUniformCfg: Option<BufferObjectConfiguration>,
    fragmentUniformCfg: Option<BufferObjectConfiguration>,
    storageBufferCfg: Option<BufferObjectConfiguration>,
    textureCfgs: seq<TextureConfiguration>,
    alphaBlending: bool)

  /** Every field of the builder at once, so that a setter can say which single field it changes. */
  datatype BuilderState = BuilderState(
    vertexShaderCode: Option<seq<byte>>,
    fragmentShaderCode: Option<seq<byte>>,
    pushConstantBufferSize: Option<nat>,
    vertexTopology: Option<VertexTopology>,
    vertexUniformCfg: Option<BufferObjectConfiguration>,
    fragmentUniformCfg: Option<BufferObjectConfiguration>,
    storageBufferCfg: Option<BufferObjectConfiguration>,
    textureCfgs: seq<TextureConfiguration>,
    alphaBlending: bool)

  const EMPTY_BUILDER: BuilderState := BuilderState(None, None, None, None, None, None, None, [], false)

  class PipelineConfigurationBuilder {
    var vertexShaderCode: Option<seq<byte>>
    var fragmentShaderCode: Option<seq<byte>>
    var pushConstantBufferSize: Option<nat>
    var vertexTopology: Option<VertexTopology>
    var vertexUniformCfg: Option<BufferObjectConfiguration>
    var fragmentUniformCfg: Option<BufferObjectConfiguration>
    var storageBufferCfg: Option<BufferObjectConfiguration>
    var textureCfgs: seq<TextureConfiguration>
    var alphaBlending: bool

    function State(): BuilderState
      reads this
    {
      BuilderState(vertexShaderCode, fragmentShaderCode, pushConstantBufferSize, vertexTopology, vertexUniformCfg,
                   fragmentUniformCfg, storageBufferCfg, textureCfgs, alphaBlending)
    }

    /** `PipelineConfiguration::builder`: nothing set, no textures, no blending. */
    constructor ()
      ensures State() == EMPTY_BUILDER
    {
      vertexShaderCode := None;
      fragmentShaderCode := None;
      pushConstantBufferSize := None;
      vertexTopology := None;
      vertexUniformCfg := None;
      fragmentUniformCfg := None;
      storageBufferCfg := None;
      textureCfgs := [];
      alphaBlending := false;
    }

    method WithFragmentShader(code: seq<byte>)
      modifies this
      ensures State() == old(State()).(fragmentShaderCode := Some(code))
    {
      fragmentShaderCode := Some(code);
    }

    method WithVertexShader(code: seq<byte>)
      modifies this
      ensures State() == old(State()).(vertexShaderCode := Some(code))
    {
      vertexShaderCode := Some(code);
    }

    /** `with_push_constant::<T>` with `size` the size of `T`. */
    method WithPushConstant(size: nat)
      modifies this
      ensures State() == old(State()).(pushConstantBufferSize := Some(size))
    {
      pushConstantBufferSize := Some(size);
    }

    method WithVertexTopology(topology: VertexTopology)
      modifies this
      ensures State() == old(State()).(vertexTopology := Some(topology))
    {
      vertexTopology := Some(topology);
    }

    method WithVertexUniform(binding: nat, bufferObjectHandle: nat)
      modifies this
      ensures State() == old(State()).(vertexUniformCfg := Some(BufferObjectConfiguration(binding, bufferObjectHandle)))
    {
      vertexUniformCfg := Some(BufferObjectConfiguration(binding, bufferObjectHandle));
    }

    method WithFragmentUniform(binding: nat, bufferObjectHandle: nat)
      modifies this
      ensures State() == old(State()).(fragmentUniformCfg := Some(BufferObjectConfiguration(binding, bufferObjectHandle)))
    {
      fragmentUniformCfg := Some(BufferObjectConfiguration(binding, bufferObjectHandle));
    }

    method WithStorageBufferObject(binding: nat, bufferObjectHandle: nat)
      modifies this
      ensures State() == old(State()).(storageBufferCfg := Some(BufferObjectConfiguration(binding, bufferObjectHandle)))
    {
      storageBufferCfg := Some(BufferObjectConfiguration(binding, bufferObjectHandle));
    }

    method WithAlphaBlending()
      modifies this
      ensures State() == old(State()).(alphaBlending := true)
    {
      alphaBlending := true;
    }

    /** `add_texture`: textures are kept in the order they were added. */
    method AddTexture(binding: nat, texture: nat, sampler: nat)
      modifies this
      ensures State() == old(State()).(textureCfgs := old(textureCfgs) + [TextureConfiguration(binding, texture, sampler)])
    {
      textureCfgs := textureCfgs + [TextureConfiguration(binding, texture, sampler)];
    }

    /**
     * `build`: both shaders must be set (it panics otherwise); the topology defaults to a triangle
     * list. The push-constant size is taken out of the builder, so it goes to this configuration
     * only and the builder is otherwise left as it was.
     */
    method Build() returns (config: PipelineConfiguration)
      requires vertexShaderCode.Some? && fragmentShaderCode.Some?
      modifies this
      ensures config.vertexShaderCode == old(vertexShaderCode).value
      ensures config.fragmentShaderCode == old(fragmentShaderCode).value
      ensures config.vertexTopology == if old(vertexTopology).Some? then old(vertexTopology).value else Triangle
      ensures config.pushConstantBufferSize == old(pushConstantBufferSize)
      ensures config.vertexUniformCfg == old(vertexUniformCfg) && config.fragmentUniformCfg == old(fragmentUniformCfg)
      ensures config.storageBufferCfg == old(storageBufferCfg)
      ensures config.textureCfgs == old(textureCfgs) && config.alphaBlending == old(alphaBlending)
      ensures State() == old(State()).(pushConstantBufferSize := None)
    {
      var topology := if vertexTopology.Some? then vertexTopology.value else Triangle;
      config := PipelineConfiguration(vertexShaderCode.value, fragmentShaderCode.value, pushConstantBufferSize,
                                      topology, vertexUniformCfg, fragmentUniformCfg, storageBufferCfg,
                                      textureCfgs, alphaBlending);
      pushConstantBufferSize := None;
    }
  }

  /** The primitive topologies of the Vulkan specification that a pipeline may declare. */
  datatype PrimitiveTopology = PointList | LineList | LineStrip | TriangleList | TriangleStrip | TriangleFan

  datatype BufferData = BufferData(vertexBuffer: nat, indexBuffer: nat, indexCount: nat, instanceCount: nat,
                                   instanceStart: nat)

  datatype VertexData = Buffered(bufferData: BufferData)

  /** A draw: the pipeline, the byte offset of its push constants, and the buffers it reads. */
  datatype DrawCommand = DrawCommand(pipeline: PipelineHandle, pushConstantOffset: nat, vertexData: VertexData)

  /** A triangle as the three vertex positions (within the index stream) it is assembled from. */
  datatype Tri = Tri(a: nat, b: nat, c: nat)

  /**
   * Triangle-list assembly ("Primitive Topologies" in the Vulkan specification, Drawing Commands
   * chapter): every consecutive group of three vertices forms a triangle; leftovers are dropped.
   */
  function ListTriangles(n: nat): seq<Tri>
  {
    if n < 3 then [] else ListTriangles(n - 3) + [Tri(n - 3, n - 2, n - 1)]
  }

  /** Triangle-strip assembly: every vertex from the third on closes a triangle with the two before it. */
  function StripTriangles(n: nat): seq<Tri>
  {
    if n < 3 then [] else StripTriangles(n - 1) + [Tri(n - 3, n - 2, n - 1)]
  }

  /** A triangle all of whose vertices are among the first `n`. */
  predicate Within(t: Tri, n: nat)
  {
    t.a < n && t.b < n && t.c < n
  }

  lemma {:induction false} ListTrianglesCount(n: nat)
    ensures |ListTriangles(n)| == n / 3
    ensures forall k :: 0 <= k < |ListTriangles(n)| ==> Within(ListTriangles(n)[k], n)
  {
    if n >= 3 {
      ListTrianglesCount(n - 3);
      assert (n - 3) / 3 + 1 == n / 3;
      forall k | 0 <= k < |ListTriangles(n)| ensures Within(ListTriangles(n)[k], n) {
        if k < |ListTriangles(n - 3)| {
          assert ListTriangles(n)[k] == ListTriangles(n - 3)[k];
        }
      }
    }
  }

  lemma {:induction false} StripTrianglesCount(n: nat)
    requires n >= 2
    ensures |StripTriangles(n)| == n - 2
    ensures forall k :: 0 <= k < |StripTriangles(n)| ==> Within(StripTriangles(n)[k], n)
  {
    if n >= 3 {
      StripTrianglesCount(n - 1);
      forall k | 0 <= k < |StripTriangles(n)| ensures Within(StripTriangles(n)[k], n) {
        if k < |StripTriangles(n - 1)| {
          assert StripTriangles(n)[k] == StripTriangles(n - 1)[k];
        }
      }
    }
  }

  /**
   * `DrawCommand::triangle_count`: list and strip topologies only. None stands for the panics: any
   * other topology is `unreachable!`, and a strip of fewer than two indices underflows the u32
   * subtraction.
   */
  function TriangleCount(cmd: DrawCommand, topology: PrimitiveTopology): (count: Option<nat>)
    ensures count.Some? <==> topology.TriangleList?
                             || (topology.TriangleStrip? && cmd.vertexData.bufferData.indexCount >= 2)
  {
    var data := cmd.vertexData.bufferData;
    if topology.TriangleList? then Some(data.indexCount / 3 * data.instanceCount)
    else if topology.TriangleStrip? && data.indexCount >= 2 then Some((data.indexCount - 2) * data.instanceCount)
    else None
  }

  /** The count is the number of triangles the topology assembles from the indices, once per instance. */
  lemma TriangleCountAssembled(cmd: DrawCommand, topology: PrimitiveTopology)
    requires topology.TriangleList? || topology.TriangleStrip?
    requires topology.TriangleStrip? ==> cmd.vertexData.bufferData.indexCount >= 2
    ensures var data := cmd.vertexData.bufferData;
            TriangleCount(cmd, topology)
            == Some((if topology.TriangleList? then |ListTriangles(data.indexCount)| else |StripTriangles(data.indexCount)|)
                    * data.instanceCount)
  {
    var n := cmd.vertexData.bufferData.indexCount;
    if topology.TriangleList? {
      ListTrianglesCount(n);
    } else {
      StripTrianglesCount(n);
    }
  }
}

=== FILE: ui_draw.dfy ===
/**
 * Vertex emission for the 2D overlay: quads, and glyphs cut out of a 16 x 6 font atlas whose
 * first cell is ASCII 32 (space). Every draw call appends vertices to one of the renderer's
 * dynamic buffers, chosen by its buffer-object handle.
 */
module UiDraw {
  /** A 2D vector: a screen position or an atlas coordinate (f32 in the engine). */
  datatype Vec2 = Vec2(x: real, y: real)

  /** An RGBA colour. */
  datatype Color = Color(r: real, g: real, b: real, a: real)

  datatype TexturedColoredVertex2D = TexturedColoredVertex2D(position: Vec2, color: Color, uv: Vec2)

  /** The first character code present in the atlas. */
  const FIRST_GLYPH: nat := 32
  /** Atlas cells per row (`WIDTH`). */
  const ATLAS_COLUMNS: nat := 16
  const ATLAS_ROWS: nat := 6
  const TEXTURE_CHAR_WIDTH: real := 1.0 / 16.0
  const TEXTURE_CHAR_HEIGHT: real := 1.0 / 6.0

  function Add(a: Vec2, b: Vec2): Vec2 { Vec2(a.x + b.x, a.y + b.y) }

  /** The characters the atlas can address without the `c - 32` subtraction underflowing. */
  predicate Drawable(text: string) { forall k :: 0 <= k < |text| ==> text[k] as int >= FIRST_GLYPH }

  /** Row and column of a character's atlas cell. */
  function AtlasCell(c: char): (cell: (nat, nat))
    requires c as int >= FIRST_GLYPH
    ensures cell.1 < ATLAS_COLUMNS
    ensures cell.0 * ATLAS_COLUMNS + cell.1 == c as int - FIRST_GLYPH
  {
    var index := c as int - FIRST_GLYPH;
    (index / ATLAS_COLUMNS, index % ATLAS_COLUMNS)
  }

  /** The atlas coordinate of the top-left corner of a character's cell. */
  function AtlasOrigin(c: char): Vec2
    requires c as int >= FIRST_GLYPH
  {
    var cell := AtlasCell(c);
    Vec2(cell.1 as real * TEXTURE_CHAR_WIDTH, cell.0 as real * TEXTURE_CHAR_HEIGHT)
  }

  /** The six vertices (two triangles) of one glyph whose lower-left corner is at `position`. */
  function GlyphVertices(position: Vec2, color: Color, size: real, c: char): (vs: seq<TexturedColoredVertex2D>)
    requires c as int >= FIRST_GLYPH
    ensures |vs| == 6
    ensures forall v :: v in vs ==> v.color == color
  {
    var origin := AtlasOrigin(c);
    [ TexturedColoredVertex2D(Add(position, Vec2(0.0, size)), color, origin),
      TexturedColoredVertex2D(Add(position, Vec2(size, size)), color, Add(origin, Vec2(TEXTURE_CHAR_WIDTH, 0.0))),
      TexturedColoredVertex2D(Add(position, Vec2(0.0, 0.0)), color, Add(origin, Vec2(0.0, TEXTURE_CHAR_HEIGHT))),
      TexturedColoredVertex2D(Add(position, Vec2(0.0, 0.0)), color, Add(origin, Vec2(0.0, TEXTURE_CHAR_HEIGHT))),
      TexturedColoredVertex2D(Add(position, Vec2(size, size)), color, Add(origin, Vec2(TEXTURE_CHAR_WIDTH, 0.0))),
      TexturedColoredVertex2D(Add(position, Vec2(size, 0.0)), color, Add(origin, Vec2(TEXTURE_CHAR_WIDTH, TEXTURE_CHAR_HEIGHT))) ]
  }

  /** The six vertices of an axis-aligned quad with zero texture coordinates. */
  function QuadVertices(px: nat, py: nat, ex: nat, ey: nat, color: Color): (vs: seq<TexturedColoredVertex2D>)
    ensures |vs| == 6
  {
    var zero := Vec2(0.0, 0.0);
    [ TexturedColoredVertex2D(Vec2(px as real, (py + ey) as real), color, zero),
      TexturedColoredVertex2D(Vec2((px + ex) as real, (py + ey) as real), color, zero),
      TexturedColoredVertex2D(Vec2(px as real, py as real), color, zero),
      TexturedColoredVertex2D(Vec2(px as real, py as real), color, zero),
      TexturedColoredVertex2D(Vec2((px + ex) as real, (py + ey) as real), color, zero),
      TexturedColoredVertex2D(Vec2((px + ex) as real, py as real), color, zero) ]
  }

  /** Where character `i` of a text starting at (px, py) is drawn. */
  function CharPosition(px: nat, py: nat, size: nat, i: nat): Vec2
  {
    Vec2((px + i * size) as real, py as real)
  }

  /** The vertices `draw_text` appends: one glyph per character, in text order. */
  function TextVertices(text: string, px: nat, py: nat, size: nat, color: Color): seq<TexturedColoredVertex2D>
    requires Drawable(text)
  {
    if |text| == 0 then []
    else TextVertices(text[..|text| - 1], px, py, size, color)
         + GlyphVertices(CharPosition(px, py, size, |text| - 1), color, size as real, text[|text| - 1])
  }

  /** A character's cell is the unique (row, column) pair with column < 16 and row * 16 + column = code - 32. */
  lemma AtlasCellCharacterised(c: char, row: nat, col: nat)
    requires c as int >= FIRST_GLYPH
    requires col < ATLAS_COLUMNS && row * ATLAS_COLUMNS + col == c as int - FIRST_GLYPH
    ensures AtlasCell(c) == (row, col)
  {
  }

  /** For the printable ASCII range 32..127 the whole glyph cell lies inside the unit texture square. */
  lemma AtlasCellInsideTexture(c: char)
    requires FIRST_GLYPH <= c as int < 128
    ensures AtlasCell(c).0 < ATLAS_ROWS
    ensures 0.0 <= AtlasOrigin(c).x && AtlasOrigin(c).x + TEXTURE_CHAR_WIDTH <= 1.0
    ensures 0.0 <= AtlasOrigin(c).y && AtlasOrigin(c).y + TEXTURE_CHAR_HEIGHT <= 1.0
  {
    var cell := AtlasCell(c);
    assert cell.1 as real + 1.0 <= 16.0;
    assert cell.0 as real + 1.0 <= 6.0;
  }

  /**
   * Every glyph vertex lies in the square [position, position + size]^2, its texture coordinate lies in
   * the character's cell, and the texture coordinate is an affine function of the position in which the
   * atlas v axis runs opposite to screen y.
   */
  lemma GlyphGeometry(position: Vec2, color: Color, size: real, c: char, k: nat)
    requires c as int >= FIRST_GLYPH && size > 0.0 && k < 6
    ensures var v := GlyphVertices(position, color, size, c)[k];
            var o := AtlasOrigin(c);
            && position.x <= v.position.x <= position.x + size
            && position.y <= v.position.y <= position.y + size
            && v.uv.x == o.x + (v.position.x - position.x) / size * TEXTURE_CHAR_WIDTH
            && v.uv.y == o.y + (1.0 - (v.position.y - position.y) / size) * TEXTURE_CHAR_HEIGHT
  {
    assert size / size == 1.0;
    assert 0.0 / size == 0.0;
    var vs := GlyphVertices(position, color, size, c);
    var p := vs[k].position;
    assert p.x - position.x == 0.0 || p.x - position.x == size;
    assert p.y - position.y == 0.0 || p.y - position.y == size;
  }

  /** The two triangles of a glyph share their diagonal: vertex 3 repeats vertex 2 and vertex 4 repeats vertex 1. */
  lemma GlyphSharedDiagonal(position: Vec2, color: Color, size: real, c: char)
    requires c as int >= FIRST_GLYPH
    ensures var vs := GlyphVertices(position, color, size, c);
            vs[3] == vs[2] && vs[4] == vs[1] && vs[0] != vs[5]
  {
  }

  /** A quad's corners are drawn from {position, position + extent}, all with the quad colour and zero UV. */
  lemma QuadCorners(px: nat, py: nat, ex: nat, ey: nat, color: Color, k: nat)
    requires k < 6
    ensures var v := QuadVertices(px, py, ex, ey, color)[k];
            && v.color == color && v.uv == Vec2(0.0, 0.0)
            && (v.position.x == px as real || v.position.x == (px + ex) as real)
            && (v.position.y == py as real || v.position.y == (py + ey) as real)
  {
  }

  lemma {:induction false} TextVerticesLength(text: string, px: nat, py: nat, size: nat, color: Color)
    requires Drawable(text)
    ensures |TextVertices(text, px, py, size, color)| == 6 * |text|
  {
    if |text| > 0 {
      TextVerticesLength(text[..|text| - 1], px, py, size, color);
    }
  }

  /** Character i of the text occupies vertices 6i .. 6i+6, as a glyph at (px + i * size, py). */
  lemma {:induction false} TextVerticesAt(text: string, px: nat, py: nat, size: nat, color: Color, i: nat)
    requires Drawable(text) && i < |text|
    ensures |TextVertices(text, px, py, size, color)| == 6 * |text|
    ensures TextVertices(text, px, py, size, color)[6 * i .. 6 * i + 6]
            == GlyphVertices(CharPosition(px, py, size, i), color, size as real, text[i])
  {
    TextVerticesLength(text, px, py, size, color);
    var prefix := text[..|text| - 1];
    assert Drawable(prefix);
    TextVerticesLength(prefix, px, py, size, color);
    if i < |text| - 1 {
      TextVerticesAt(prefix, px, py, size, color, i);
      assert prefix[i] == text[i];
    }
  }

  /** The renderer's dynamic buffers, each a growing vertex list addressed by its handle. */
  class DrawContext {
    var dynamicBuffers: seq<seq<TexturedColoredVertex2D>>

    constructor (bufferCount: nat)
      ensures dynamicBuffers == seq(bufferCount, _ => [])
    {
      dynamicBuffers := seq(bufferCount, _ => []);
    }

    /** Appends vertices to the buffer `handle`; every other buffer is unchanged. */
    method PushToDynamicBuf(handle: nat, vs: seq<TexturedColoredVertex2D>)
      requires handle < |dynamicBuffers|
      modifies this
      ensures dynamicBuffers == old(dynamicBuffers[handle := dynamicBuffers[handle] + vs])
    {
      dynamicBuffers := dynamicBuffers[handle := dynamicBuffers[handle] + vs];
    }
  }

  method DrawQuad(context: DrawContext, handle: nat, px: nat, py: nat, ex: nat, ey: nat, color: Color)
    requires handle < |context.dynamicBuffers|
    modifies context
    ensures context.dynamicBuffers
            == old(context.dynamicBuffers[handle := context.dynamicBuffers[handle] + QuadVertices(px, py, ex, ey, color)])
  {
    context.PushToDynamicBuf(handle, QuadVertices(px, py, ex, ey, color));
  }

  method DrawCharacter(context: DrawContext, handle: nat, position: Vec2, color: Color, size: real, c: char)
    requires handle < |context.dynamicBuffers|
    requires c as int >= FIRST_GLYPH
    modifies context
    ensures context.dynamicBuffers
            == old(context.dynamicBuffers[handle := context.dynamicBuffers[handle] + GlyphVertices(position, color, size, c)])
  {
    context.PushToDynamicBuf(handle, GlyphVertices(position, color, size, c));
  }

  method DrawText(context: DrawContext, handle: nat, text: string, px: nat, py: nat, size: nat, color: Color)
    requires handle < |context.dynamicBuffers|
    requires Drawable(text)
    modifies context
    ensures context.dynamicBuffers
            == old(context.dynamicBuffers[handle := context.dynamicBuffers[handle] + TextVertices(text, px, py, size, color)])
  {
    ghost var before := context.dynamicBuffers;
    assert before[handle] + [] == before[handle];
    assert before[handle := before[handle] + []] == before;
    var i := 0;
    while i < |text|
      invariant 0 <= i <= |text|
      invariant Drawable(text[..i])
      invariant context.dynamicBuffers == before[handle := before[handle] + TextVertices(text[..i], px, py, size, color)]
    {
      ghost var done := TextVertices(text[..i], px, py, size, color);
      ghost var glyph := GlyphVertices(CharPosition(px, py, size, i), color, size as real, text[i]);
      DrawCharacter(context, handle, CharPosition(px, py, size, i), color, size as real, text[i]);
      assert text[..i + 1][..i] == text[..i] && text[..i + 1][i] == text[i];
      assert TextVertices(text[..i + 1], px, py, size, color) == done + glyph;
      assert before[handle] + done + glyph == before[handle] + (done + glyph);
      i := i + 1;
    }
    assert text[..i] == text;
  }

  /** The shadow copy goes first, 2 px right and 2 px down; then the text itself. `y - 2` is unsigned. */
  method DrawTextShadowed(context: DrawContext, handle: nat, text: string, px: nat, py: nat, size: nat,
                          color: Color, shadowColor: Color)
    requires handle < |context.dynamicBuffers|
    requires Drawable(text)
    requires py >= 2
    modifies context
    ensures context.dynamicBuffers
            == old(context.dynamicBuffers[handle := context.dynamicBuffers[handle]
                   + TextVertices(text, px + 2, py - 2, size, shadowColor)
                   + TextVertices(text, px, py, size, color)])
  {
    DrawText(context, handle, text, px + 2, py - 2, size, shadowColor);
    DrawText(context, handle, text, px, py, size, color);
  }
}

=== FILE: ui_text.dfy ===
/**
 * Instanced text: every character becomes one push constant (its model transform, colour and
 * character code) plus one draw command of the glyph mesh that refers to that push constant.
 */
module UiText {
  /** An RGB colour. */
  datatype Rgb = Rgb(r: real, g: real, b: real)

  /**
   * The model transform `translate(tx, ty, 0) * scale(s)`: the only shape of matrix the text
   * code builds, kept by its three parameters.
   */
  datatype Transform = TranslateScale(tx: real, ty: real, scale: real)

  datatype TextPushConstant = TextPushConstant(transform: Transform, color: Rgb, character: char)

  /** A mesh's GPU buffers, as opaque handles, and its index count. */
  datatype Mesh = Mesh(vertexBuffer: nat, indexBuffer: nat, indexCount: nat)

  /**
   * A draw of one mesh with one push constant. The engine stores the raw address of the push
   * constant; here it is the push constant's index in the push-constant list.
   */
  datatype PipelineDrawCommand = PipelineDrawCommand(
    pipeline: nat, vertexBuffer: nat, indexBuffer: nat, indexCount: nat, pushConstant: nat)

  /** The transform of character `i` of a text at (px, py) drawn `size` pixels high. */
  function CharTransform(px: nat, py: nat, size: nat, i: nat): Transform
  {
    TranslateScale(px as real + (i * size) as real, py as real, size as real)
  }

  method DrawCharacter(pushConstants: seq<TextPushConstant>, pipeline: nat, mesh: Mesh,
                       transform: Transform, color: Rgb, c: char)
    returns (pushConstants': seq<TextPushConstant>, command: PipelineDrawCommand)
    ensures pushConstants' == pushConstants + [TextPushConstant(transform, color, c)]
    ensures command.pushConstant == |pushConstants'| - 1
    ensures command == PipelineDrawCommand(pipeline, mesh.vertexBuffer, mesh.indexBuffer, mesh.indexCount, |pushConstants|)
  {
    pushConstants' := pushConstants + [TextPushConstant(transform, color, c)];
    command := PipelineDrawCommand(pipeline, mesh.vertexBuffer, mesh.indexBuffer, mesh.indexCount, |pushConstants'| - 1);
  }

  /**
   * Appends one push constant and one draw command per character, in character order; both
   * lists keep their earlier entries, and command i refers to push constant i of this call.
   */
  method DrawText(targets: seq<PipelineDrawCommand>, pushConstants: seq<TextPushConstant>, pipeline: nat,
                  mesh: Mesh, text: string, px: nat, py: nat, size: nat, color: Rgb)
    returns (targets': seq<PipelineDrawCommand>, pushConstants': seq<TextPushConstant>)
    ensures |targets'| == |targets| + |text| && targets'[..|targets|] == targets
    ensures |pushConstants'| == |pushConstants| + |text| && pushConstants'[..|pushConstants|] == pushConstants
    ensures forall i :: 0 <= i < |text| ==>
              pushConstants'[|pushConstants| + i] == TextPushConstant(CharTransform(px, py, size, i), color, text[i])
    ensures forall j :: |targets| <= j < |targets'| ==>
              targets'[j] == PipelineDrawCommand(pipeline, mesh.vertexBuffer, mesh.indexBuffer, mesh.indexCount,
                                                 |pushConstants| + (j - |targets|))
    ensures forall j :: |targets| <= j < |targets'| ==>
              targets'[j].pushConstant < |pushConstants'|
              && pushConstants'[targets'[j].pushConstant].character == text[j - |targets|]
  {
    targets', pushConstants' := targets, pushConstants;
    var i := 0;
    while i < |text|
      invariant 0 <= i <= |text|
      invariant |targets'| == |targets| + i && targets'[..|targets|] == targets
      invariant |pushConstants'| == |pushConstants| + i && pushConstants'[..|pushConstants|] == pushConstants
      invariant forall k :: 0 <= k < i ==>
                  pushConstants'[|pushConstants| + k] == TextPushConstant(CharTransform(px, py, size, k), color, text[k])
      invariant forall j :: |targets| <= j < |targets'| ==>
                  targets'[j] == PipelineDrawCommand(pipeline, mesh.vertexBuffer, mesh.indexBuffer, mesh.indexCount,
                                                     |pushConstants| + (j - |targets|))
    {
      var command;
      ghost var previous := pushConstants';
      pushConstants', command := DrawCharacter(pushConstants', pipeline, mesh, CharTransform(px, py, size, i), color, text[i]);
      assert forall k :: 0 <= k < |previous| ==> pushConstants'[k] == previous[k];
      ghost var previousTargets := targets';
      targets' := targets' + [command];
      assert forall k :: 0 <= k < |previousTargets| ==> targets'[k] == previousTargets[k];
      i := i + 1;
    }
    forall j | |targets| <= j < |targets'|
      ensures targets'[j].pushConstant < |pushConstants'|
      ensures pushConstants'[targets'[j].pushConstant].character == text[j - |targets|]
    {
      assert pushConstants'[|pushConstants| + (j - |targets|)].character == text[j - |targets|];
    }
  }
}

=== FILE: uniform.dfy ===
/**
 * A uniform: one host-side copy of the data, one buffer per swapchain image, and a dirty flag per
 * image saying that image's memory has not yet received the latest data.
 */
module Uniforms {
  import opened Wrappers
  import opened Memory
  import RenderTypes

  /** `Vec::resize(n, value)`: truncated to `n`, or padded at the end with `value`. */
  function Resize(flags: seq<bool>, n: nat, value: bool): (r: seq<bool>)
    ensures |r| == n
    ensures forall i :: 0 <= i < n ==> r[i] == if i < |flags| then flags[i] else value
  {
    if n <= |flags| then flags[..n] else flags + seq(n - |flags|, _ => value)
  }

  class Uniform {
    const stage: RenderTypes.UniformStage
    /** The host-side bytes; their number is the capacity fixed at construction. */
    var data: seq<byte>
    var assignedPipelines: seq<RenderTypes.PipelineHandle>
    var dirtyUniform: seq<bool>
    var buffers: seq<nat>
    var memory: seq<DeviceMemory>
    /** The bytes last copied into each image's memory. */
    var uploaded: seq<seq<byte>>
    /** Checked by `build` but never set by anything. */
    var isBuilt: bool

    ghost predicate Valid()
      reads this
    {
      && |dirtyUniform| == |buffers| == |memory| == |uploaded|
      && !isBuilt
    }

    /** An image whose flag is clear holds the current data. */
    ghost predicate InSync()
      reads this
    {
      && |uploaded| == |dirtyUniform|
      && forall i :: 0 <= i < |dirtyUniform| && !dirtyUniform[i] ==> uploaded[i] == data
    }

    function Size(): nat
      reads this
    {
      |data|
    }

    /** `new`: `size` bytes of capacity, no pipelines, nothing built. */
    constructor (size: nat, stage: RenderTypes.UniformStage)
      ensures Valid() && InSync()
      ensures Size() == size && this.stage == stage
      ensures assignedPipelines == [] && dirtyUniform == [] && buffers == [] && memory == []
    {
      this.stage := stage;
      data := seq(size, _ => 0);
      assignedPipelines := [];
      dirtyUniform := [];
      buffers := [];
      memory := [];
      uploaded := [];
      isBuilt := false;
    }

    /** `assign_pipeline`: pipelines are kept in assignment order. */
    method AssignPipeline(pipeline: RenderTypes.PipelineHandle)
      modifies this
      ensures assignedPipelines == old(assignedPipelines) + [pipeline]
      ensures data == old(data) && dirtyUniform == old(dirtyUniform) && buffers == old(buffers)
      ensures memory == old(memory) && uploaded == old(uploaded) && isBuilt == old(isBuilt)
    {
      assignedPipelines := assignedPipelines + [pipeline];
    }

    /**
     * `set_data`: the value's bytes are copied to the front of the data, and every image is marked
     * dirty. The value must fit the capacity.
     */
    method SetData(value: seq<byte>)
      requires Valid()
      requires |value| <= Size()
      modifies this
      ensures Valid() && InSync()
      ensures data == value + old(data)[|value|..] && Size() == old(Size())
      ensures |dirtyUniform| == old(|dirtyUniform|) && forall i :: 0 <= i < |dirtyUniform| ==> dirtyUniform[i]
      ensures buffers == old(buffers) && memory == old(memory) && uploaded == old(uploaded)
      ensures assignedPipelines == old(assignedPipelines)
    {
      data := value + data[|value|..];
      var i := 0;
      while i < |dirtyUniform|
        invariant i <= |dirtyUniform| == old(|dirtyUniform|)
        invariant forall k :: 0 <= k < i ==> dirtyUniform[k]
        invariant buffers == old(buffers) && memory == old(memory) && uploaded == old(uploaded)
        invariant assignedPipelines == old(assignedPipelines) && isBuilt == old(isBuilt)
        invariant data == value + old(data)[|value|..]
      {
        dirtyUniform := dirtyUniform[i := true];
        i := i + 1;
      }
    }

    /**
     * `update_device_memory`: a dirty image gets the whole data copied into its memory and is then
     * clean; a clean image is left alone. No other image changes.
     */
    method UpdateDeviceMemory(imageIndex: nat)
      requires Valid()
      requires imageIndex < |dirtyUniform|
      modifies this
      ensures Valid()
      ensures old(InSync()) ==> InSync()
      ensures |dirtyUniform| == old(|dirtyUniform|) && !dirtyUniform[imageIndex]
      ensures old(dirtyUniform[imageIndex]) ==>
                dirtyUniform == old(dirtyUniform)[imageIndex := false] && uploaded == old(uploaded)[imageIndex := data]
      ensures !old(dirtyUniform[imageIndex]) ==> dirtyUniform == old(dirtyUniform) && uploaded == old(uploaded)
      ensures data == old(data) && buffers == old(buffers) && memory == old(memory)
    {
      if dirtyUniform[imageIndex] {
        uploaded := uploaded[imageIndex := data];
        dirtyUniform := dirtyUniform[imageIndex := false];
      }
    }

    /**
     * `build`: one new host-visible buffer per image and the memory bound to each; the flags are
     * resized with new entries dirty. Built on a destroyed (or new) uniform, every image is dirty.
     */
    method Build(memoryManager: MemoryManager, imageCount: nat, typeFilter: bv32)
      requires Valid() && memoryManager.Valid()
      requires FirstMemoryType(typeFilter, HOST_VISIBLE_COHERENT, memoryManager.memoryTypes).Some?
      modifies this, memoryManager
      ensures Valid() && memoryManager.Valid()
      ensures |buffers| == imageCount
      ensures forall i :: 0 <= i < imageCount ==>
                && buffers[i] !in old(memoryManager.liveBuffers)
                && memoryManager.BackedBy(buffers[i], typeFilter, HOST_VISIBLE_COHERENT)
                && memory[i] == memoryManager.bufferToChunk[buffers[i]]
      ensures memoryManager.bufferToChunk.Keys == old(memoryManager.bufferToChunk.Keys) + set b | b in buffers
      ensures dirtyUniform == Resize(old(dirtyUniform), imageCount, true)
      ensures old(dirtyUniform) == [] ==> InSync() && forall i :: 0 <= i < imageCount ==> dirtyUniform[i]
      ensures data == old(data) && assignedPipelines == old(assignedPipelines)
    {
      if isBuilt {
        assert false;
      }
      buffers := memoryManager.CreateUniformBuffers(imageCount, typeFilter);
      var chunks: seq<DeviceMemory> := [];
      var i := 0;
      while i < |buffers|
        invariant i <= |buffers| == imageCount
        invariant |chunks| == i
        invariant forall k :: 0 <= k < i ==> chunks[k] == memoryManager.bufferToChunk[buffers[k]]
      {
        chunks := chunks + [memoryManager.GetDeviceMemory(buffers[i]).value];
        i := i + 1;
      }
      memory := chunks;
      uploaded := seq(imageCount, _ => []);
      dirtyUniform := Resize(dirtyUniform, imageCount, true);
    }

    /**
     * `destroy`: every buffer is handed back to the memory manager, and the buffer, memory and flag
     * lists are emptied.
     */
    method Destroy(memoryManager: MemoryManager)
      requires Valid() && memoryManager.Valid()
      modifies this, memoryManager
      ensures Valid() && InSync() && memoryManager.Valid()
      ensures buffers == [] && memory == [] && dirtyUniform == [] && !isBuilt
      ensures memoryManager.bufferToChunk == old(memoryManager.bufferToChunk) - set b | b in old(buffers)
      ensures data == old(data) && assignedPipelines == old(assignedPipelines)
    {
      var i := 0;
      while i < |buffers|
        invariant i <= |buffers|
        invariant memoryManager.Valid()
        invariant buffers == old(buffers) && data == old(data) && assignedPipelines == old(assignedPipelines)
        invariant memoryManager.bufferToChunk == old(memoryManager.bufferToChunk) - set b | b in buffers[..i]
      {
        memoryManager.DestroyBuffer(buffers[i]);
        assert buffers[..i + 1] == buffers[..i] + [buffers[i]];
        i := i + 1;
      }
      assert buffers[..i] == buffers;
      buffers := [];
      memory := [];
      dirtyUniform := [];
      uploaded := [];
      isBuilt := false;
    }
  }
}

=== FILE: widgets.dfy ===
/**
 * The console overlay, the render-statistics block, the top bar and the plain text widget. Each
 * widget's draw is modelled as the list of `draw_text` / `draw_quad` calls it makes, with their
 * arguments; `TextBufferVertices` and `QuadBufferVertices` turn such a list into the vertices the
 * drawing helpers append.
 */
module Widgets {
  import opened Logger
  import UiDraw
  import Cvars
  import Console

  const BORDER_OFFSET: nat := 4
  const TEXT_SIZE_PX: nat := 16
  const LINE_SPACING: nat := 2
  const INPUT_BOX_OFFSET: nat := 2
  /** Vertical distance between two history lines. */
  const LINE_HEIGHT: nat := TEXT_SIZE_PX + LINE_SPACING

  /** The widget colours, by role. */
  datatype Palette = White | Black | InputText | Text | TextError | TextCvar | TextInfo | TextDebug | ConsoleBackground

  function PaletteColor(p: Palette): UiDraw.Color
  {
    match p
    case White => UiDraw.Color(1.0, 1.0, 1.0, 1.0)
    case Black => UiDraw.Color(0.0, 0.0, 0.0, 1.0)
    case InputText => UiDraw.Color(1.0, 1.0, 1.0, 1.0)
    case Text => UiDraw.Color(0.7, 0.7, 0.8, 1.0)
    case TextError => UiDraw.Color(0.9, 0.3, 0.3, 1.0)
    case TextCvar => UiDraw.Color(0.3, 0.3, 0.9, 1.0)
    case TextInfo => UiDraw.Color(0.3, 0.9, 0.3, 1.0)
    case TextDebug => UiDraw.Color(0.3, 0.9, 0.9, 1.0)
    case ConsoleBackground => UiDraw.Color(0.02, 0.02, 0.02, 0.95)
  }

  /** One call of `draw_text` or `draw_quad`, with the arguments it was given. */
  datatype DrawRequest =
    | DrawText(text: string, x: nat, y: nat, size: nat, color: Palette)
    | DrawQuad(x: nat, y: nat, width: nat, height: nat, color: Palette)

  /** The instance count of the text calls in a list: one glyph per character. */
  function TextInstances(requests: seq<DrawRequest>): nat
  {
    if |requests| == 0 then 0
    else
      var last := requests[|requests| - 1];
      TextInstances(requests[..|requests| - 1]) + (if last.DrawText? then |last.text| else 0)
  }

  /** The instance count of the quad calls in a list: one per quad. */
  function QuadInstances(requests: seq<DrawRequest>): nat
  {
    if |requests| == 0 then 0
    else QuadInstances(requests[..|requests| - 1]) + (if requests[|requests| - 1].DrawQuad? then 1 else 0)
  }

  /** Instance counts add up over concatenated call lists. */
  lemma {:induction false} InstancesAppend(a: seq<DrawRequest>, b: seq<DrawRequest>)
    ensures TextInstances(a + b) == TextInstances(a) + TextInstances(b)
    ensures QuadInstances(a + b) == QuadInstances(a) + QuadInstances(b)
    decreases |b|
  {
    if |b| == 0 {
      assert a + b == a;
    } else {
      var b' := b[..|b| - 1];
      InstancesAppend(a, b');
      assert (a + b)[..|a + b| - 1] == a + b';
    }
  }

  /** Every text in the list can be looked up in the glyph atlas. */
  predicate Renderable(requests: seq<DrawRequest>)
  {
    forall k :: 0 <= k < |requests| && requests[k].DrawText? ==> UiDraw.Drawable(requests[k].text)
  }

  /** The vertices the text calls of a list append to the text buffer, in call order. */
  function TextBufferVertices(requests: seq<DrawRequest>): seq<UiDraw.TexturedColoredVertex2D>
    requires Renderable(requests)
  {
    if |requests| == 0 then []
    else
      var last := requests[|requests| - 1];
      TextBufferVertices(requests[..|requests| - 1])
      + (if last.DrawText? then UiDraw.TextVertices(last.text, last.x, last.y, last.size, PaletteColor(last.color)) else [])
  }

  /** The vertices the quad calls of a list append to the quad buffer, in call order. */
  function QuadBufferVertices(requests: seq<DrawRequest>): seq<UiDraw.TexturedColoredVertex2D>
  {
    if |requests| == 0 then []
    else
      var last := requests[|requests| - 1];
      QuadBufferVertices(requests[..|requests| - 1])
      + (if last.DrawQuad? then UiDraw.QuadVertices(last.x, last.y, last.width, last.height, PaletteColor(last.color)) else [])
  }

  /** An instance is one six-vertex quad: the counts the widgets return are the buffers' quad counts. */
  lemma {:induction false} InstancesCountQuads(requests: seq<DrawRequest>)
    requires Renderable(requests)
    ensures |TextBufferVertices(requests)| == 6 * TextInstances(requests)
    ensures |QuadBufferVertices(requests)| == 6 * QuadInstances(requests)
  {
    if |requests| > 0 {
      var rest := requests[..|requests| - 1];
      assert Renderable(rest) by {
        forall k | 0 <= k < |rest| && rest[k].DrawText? ensures UiDraw.Drawable(rest[k].text) {
          assert rest[k] == requests[k];
        }
      }
      InstancesCountQuads(rest);
      var last := requests[|requests| - 1];
      if last.DrawText? {
        UiDraw.TextVerticesLength(last.text, last.x, last.y, last.size, PaletteColor(last.color));
      }
    }
  }

  /** `draw_text_shadowed`: the shadow 2 px right and 2 px down, then the text; `y - 2` is unsigned. */
  function Shadowed(text: string, x: nat, y: nat, size: nat, color: Palette, shadow: Palette): (requests: seq<DrawRequest>)
    requires y >= 2
    ensures TextInstances(requests) == 2 * |text| && QuadInstances(requests) == 0
  {
    PairInstances(DrawText(text, x + 2, y - 2, size, shadow), DrawText(text, x, y, size, color));
    [DrawText(text, x + 2, y - 2, size, shadow), DrawText(text, x, y, size, color)]
  }

  lemma PairInstances(a: DrawRequest, b: DrawRequest)
    ensures TextInstances([a, b]) == (if a.DrawText? then |a.text| else 0) + (if b.DrawText? then |b.text| else 0)
    ensures QuadInstances([a, b]) == (if a.DrawQuad? then 1 else 0) + (if b.DrawQuad? then 1 else 0)
  {
    assert [a, b][..1] == [a];
    assert [a][..0] == [];
    assert TextInstances([a]) == (if a.DrawText? then |a.text| else 0);
    assert QuadInstances([a]) == (if a.DrawQuad? then 1 else 0);
  }

  /** The history prefix and its colour for each message level. */
  function LevelPrefix(level: MessageLevel): (string, Palette)
  {
    match level
    case Input => (">", Text)
    case Error => ("[error]", TextError)
    case Info => ("[info]", TextInfo)
    case Debug => ("[dbg]", TextDebug)
    case Cvar => ("[cvar]", TextCvar)
    case _ => ("---", Text)
  }

  /**
   * Output, Warning and Khronos messages share the "---" prefix; each other level has a prefix of
   * its own, so the prefix tells those levels apart. Every prefix is printable.
   */
  lemma PrefixTable(a: MessageLevel, b: MessageLevel)
    ensures LevelPrefix(a).0 == "---" <==> a in {Output, Warning, Khronos}
    ensures LevelPrefix(a).0 == LevelPrefix(b).0 && LevelPrefix(a).0 != "---" ==> a == b
    ensures LevelPrefix(a).0 == "---" ==> LevelPrefix(a).1 == Text
    ensures UiDraw.Drawable(LevelPrefix(a).0)
  {
    var p, q := LevelPrefix(a).0, LevelPrefix(b).0;
    if p == q && p != "---" {
      assert |p| == |q|;
      if |p| == 6 {
        assert p[1] == q[1];
      }
    }
  }

  /** The console is three quarters of the window high (the `f32` product, truncated). */
  function ConsoleHeight(windowHeight: nat): (height: nat)
    ensures height <= windowHeight
  {
    windowHeight * 3 / 4
  }

  /** `(y_offset * height as f32) as u32`: how far the console has slid up out of view. */
  function SlideOffset(yOffset: real, height: nat): nat
  {
    Cvars.SaturatingU32(yOffset * height as real)
  }

  /** The y coordinate of the console's lower edge: `extent.height - height + offset`. */
  function ConsoleBottom(windowHeight: nat, height: nat, offset: nat): nat
    requires height <= windowHeight
  {
    windowHeight - height + offset
  }

  /** `height / (16 + 2) - 1`, which underflows below one line's height. */
  function VisibleHistoryCount(height: nat): nat
    requires height >= LINE_HEIGHT
  {
    height / LINE_HEIGHT - 1
  }

  /** The y coordinate of history line `i`, counted upwards from the prompt. */
  function LineY(bottom: nat, i: nat): nat
  {
    bottom + BORDER_OFFSET + INPUT_BOX_OFFSET + (i + 1) * LINE_HEIGHT
  }

  /** The x coordinate of a message: one blank glyph after its prefix. */
  function MessageX(prefix: string): nat
  {
    BORDER_OFFSET + (1 + |prefix|) * TEXT_SIZE_PX
  }

  /** The two calls that draw history line `i`: its prefix, then its message. */
  function HistoryLine(bottom: nat, line: LogMessage, i: nat): seq<DrawRequest>
  {
    var (prefix, color) := LevelPrefix(line.level);
    [DrawText(prefix, BORDER_OFFSET, LineY(bottom, i), TEXT_SIZE_PX, color),
     DrawText(line.message, MessageX(prefix), LineY(bottom, i), TEXT_SIZE_PX, Text)]
  }

  /** The calls drawing `lines`, the first of them lowest. */
  function HistoryRequests(bottom: nat, lines: seq<LogMessage>): seq<DrawRequest>
  {
    if |lines| == 0 then []
    else HistoryRequests(bottom, lines[..|lines| - 1]) + HistoryLine(bottom, lines[|lines| - 1], |lines| - 1)
  }

  /** Line i of the history occupies calls 2i and 2i + 1. */
  lemma {:induction false} HistoryRequestsAt(bottom: nat, lines: seq<LogMessage>, i: nat)
    requires i < |lines|
    ensures |HistoryRequests(bottom, lines)| == 2 * |lines|
    ensures HistoryRequests(bottom, lines)[2 * i .. 2 * i + 2] == HistoryLine(bottom, lines[i], i)
  {
    var rest := lines[..|lines| - 1];
    if i < |lines| - 1 {
      HistoryRequestsAt(bottom, rest, i);
      assert rest[i] == lines[i];
    } else if |rest| > 0 {
      HistoryRequestsAt(bottom, rest, 0);
    }
  }

  /** The glyph count of a history: each line's prefix and message. */
  function LineInstances(lines: seq<LogMessage>): nat
  {
    if |lines| == 0 then 0
    else LineInstances(lines[..|lines| - 1]) + |LevelPrefix(lines[|lines| - 1].level).0| + |lines[|lines| - 1].message|
  }

  lemma {:induction false} HistoryInstances(bottom: nat, lines: seq<LogMessage>)
    ensures TextInstances(HistoryRequests(bottom, lines)) == LineInstances(lines)
    ensures QuadInstances(HistoryRequests(bottom, lines)) == 0
  {
    if |lines| > 0 {
      var rest := lines[..|lines| - 1];
      HistoryInstances(bottom, rest);
      var line := HistoryLine(bottom, lines[|lines| - 1], |lines| - 1);
      assert HistoryRequests(bottom, lines) == HistoryRequests(bottom, rest) + line;
      InstancesAppend(HistoryRequests(bottom, rest), line);
      PairInstances(line[0], line[1]);
      assert line == [line[0], line[1]];
    }
  }

  /** `s` back to front. */
  function Reverse<T>(s: seq<T>): (r: seq<T>)
    ensures |r| == |s|
    ensures forall k :: 0 <= k < |s| ==> r[k] == s[|s| - 1 - k]
  {
    if |s| == 0 then [] else [s[|s| - 1]] + Reverse(s[..|s| - 1])
  }

  /** The history lines the console shows, newest first: `get_history(..).iter().rev()`. */
  function ShownHistory(log: seq<LogMessage>, height: nat, scroll: nat): seq<LogMessage>
    requires height >= LINE_HEIGHT
  {
    Reverse(GetHistory(log, VisibleHistoryCount(height), scroll))
  }

  /**
   * While the scroll stays within the log (the console clamps it so), no more lines are drawn than
   * fit, and every line starts at least 12 px below the console's upper edge.
   */
  lemma HistoryFits(log: seq<LogMessage>, windowHeight: nat, height: nat, offset: nat, scroll: nat)
    requires LINE_HEIGHT <= height <= windowHeight
    requires scroll <= |log|
    ensures |ShownHistory(log, height, scroll)| <= VisibleHistoryCount(height)
    ensures forall i :: 0 <= i < |ShownHistory(log, height, scroll)| ==>
              LineY(ConsoleBottom(windowHeight, height, offset), i) + 12 <= ConsoleBottom(windowHeight, height, offset) + height
  {
    GetHistoryScrolled(log, VisibleHistoryCount(height), scroll);
    var n := VisibleHistoryCount(height);
    assert (n + 1) * LINE_HEIGHT <= height;
  }

  /** With no scroll the lowest line is the newest message of the log. */
  lemma NewestLineLowest(log: seq<LogMessage>, height: nat)
    requires height >= 2 * LINE_HEIGHT && |log| > 0
    ensures |ShownHistory(log, height, 0)| > 0 && ShownHistory(log, height, 0)[0] == log[|log| - 1]
  {
    GetHistoryNewest(log, VisibleHistoryCount(height));
  }

  /** The console background: the full window width, `height` high, from the lower edge up. */
  function BackgroundRequest(windowWidth: nat, bottom: nat, height: nat): DrawRequest
  {
    DrawQuad(0, bottom, windowWidth, height, ConsoleBackground)
  }

  /** The prompt: "> " and the input line, in the lower left corner of the console. */
  function PromptRequest(bottom: nat, input: string): DrawRequest
  {
    DrawText("> " + input, BORDER_OFFSET, bottom + BORDER_OFFSET, TEXT_SIZE_PX, InputText)
  }

  /** The caret: a 4 px wide bar after the `inputIndex` characters typed so far. */
  function CaretRequest(bottom: nat, inputIndex: nat): DrawRequest
  {
    DrawQuad(BORDER_OFFSET + inputIndex * TEXT_SIZE_PX + 2 * TEXT_SIZE_PX, bottom + BORDER_OFFSET, 4, TEXT_SIZE_PX, InputText)
  }

  /** With the caret at the end of the input, the caret sits exactly where the next prompt glyph would go. */
  lemma CaretFollowsInput(bottom: nat, input: string)
    ensures var caret := CaretRequest(bottom, |input|);
            var prompt := PromptRequest(bottom, input);
            && UiDraw.CharPosition(prompt.x, prompt.y, prompt.size, |prompt.text|) == UiDraw.Vec2(caret.x as real, caret.y as real)
            && caret.height == prompt.size
  {
  }

  /** What `ConsoleRenderer::draw` draws, in call order. */
  function ConsoleRequests(windowWidth: nat, bottom: nat, height: nat, input: string, inputIndex: nat, caretShown: bool,
                           lines: seq<LogMessage>): seq<DrawRequest>
  {
    [BackgroundRequest(windowWidth, bottom, height), PromptRequest(bottom, input)]
    + (if caretShown then [CaretRequest(bottom, inputIndex)] else [])
    + HistoryRequests(bottom, lines)
  }

  /**
   * The console returns one quad for the background plus one for a shown caret, and one text
   * instance per prompt character, per prefix character and per message character.
   */
  lemma ConsoleInstances(windowWidth: nat, bottom: nat, height: nat, input: string, inputIndex: nat, caretShown: bool,
                         lines: seq<LogMessage>)
    ensures var requests := ConsoleRequests(windowWidth, bottom, height, input, inputIndex, caretShown, lines);
            && QuadInstances(requests) == (if caretShown then 2 else 1)
            && TextInstances(requests) == 2 + |input| + LineInstances(lines)
  {
    var head := [BackgroundRequest(windowWidth, bottom, height), PromptRequest(bottom, input)];
    var caret := if caretShown then [CaretRequest(bottom, inputIndex)] else [];
    assert head[..1][..0] == [];
    InstancesAppend(head, caret);
    if caretShown {
      assert caret[..0] == [];
    }
    HistoryInstances(bottom, lines);
    InstancesAppend(head + caret, HistoryRequests(bottom, lines));
  }

  class TextRenderer {
    var text: string

    constructor (text: string)
      ensures this.text == text
    {
      this.text := text;
    }

    /** The text at the origin, 128 px high, in the cvar colour. */
    method Draw() returns (requests: seq<DrawRequest>, count: nat)
      ensures requests == [DrawText(text, 0, 0, 128, TextCvar)]
      ensures count == TextInstances(requests) == |text|
    {
      requests := [DrawText(text, 0, 0, 128, TextCvar)];
      count := |text|;
      assert requests[..0] == [];
    }
  }

  class ConsoleRenderer {
    var windowWidth: nat
    var windowHeight: nat

    constructor (windowWidth: nat, windowHeight: nat)
      ensures this.windowWidth == windowWidth && this.windowHeight == windowHeight
    {
      this.windowWidth := windowWidth;
      this.windowHeight := windowHeight;
    }

    method HandleWindowResize(width: nat, height: nat)
      modifies this
      ensures windowWidth == width && windowHeight == height
    {
      windowWidth := width;
      windowHeight := height;
    }

    /**
     * The console overlay: background, prompt, caret when it is visible and the console active,
     * then the history newest line lowest; and the text and quad instance counts of those calls.
     */
    method Draw(console: Console.Console, log: seq<LogMessage>) returns (requests: seq<DrawRequest>, textCount: nat, quadCount: nat)
      requires ConsoleHeight(windowHeight) >= LINE_HEIGHT
      ensures var height := ConsoleHeight(windowHeight);
              var bottom := ConsoleBottom(windowHeight, height, SlideOffset(console.currentDrawOffset, height));
              requests == ConsoleRequests(windowWidth, bottom, height, console.inputBuffer, console.inputIndex,
                                          console.caretVisible && console.active, ShownHistory(log, height, console.scroll))
      ensures textCount == TextInstances(requests) && quadCount == QuadInstances(requests)
    {
      var height := ConsoleHeight(windowHeight);
      var offset := SlideOffset(console.currentDrawOffset, height);
      var bottom := windowHeight - height + offset;
      var caretShown := console.caretVisible && console.active;

      requests := [BackgroundRequest(windowWidth, bottom, height), PromptRequest(bottom, console.inputBuffer)];
      quadCount := 1;
      textCount := 2 + |console.inputBuffer|;
      if caretShown {
        requests := requests + [CaretRequest(bottom, console.inputIndex)];
        quadCount := quadCount + 1;
      }
      var history, historyCount := DrawConsoleHistory(console.scroll, log, height, offset);
      requests := requests + history;
      textCount := textCount + historyCount;
      ConsoleInstances(windowWidth, bottom, height, console.inputBuffer, console.inputIndex, caretShown,
                       ShownHistory(log, height, console.scroll));
    }

    /** `_draw_console_history`: each shown line, newest first, and the glyph count of the lot. */
    method DrawConsoleHistory(scroll: nat, log: seq<LogMessage>, height: nat, offset: nat)
      returns (requests: seq<DrawRequest>, count: nat)
      requires LINE_HEIGHT <= height <= windowHeight
      ensures requests == HistoryRequests(ConsoleBottom(windowHeight, height, offset), ShownHistory(log, height, scroll))
      ensures count == LineInstances(ShownHistory(log, height, scroll))
    {
      var visible := height / LINE_HEIGHT - 1;
      var history := GetHistory(log, visible, scroll);
      var bottom := windowHeight - height + offset;
      ghost var shown := ShownHistory(log, height, scroll);
      requests := [];
      count := 0;
      var i := 0;
      while i < |history|
        invariant 0 <= i <= |history| == |shown|
        invariant requests == HistoryRequests(bottom, shown[..i])
        invariant count == LineInstances(shown[..i])
      {
        var line := history[|history| - 1 - i];
        assert line == shown[i];
        HistoryStep(bottom, shown, i);
        requests := requests + HistoryLine(bottom, line, i);
        count := count + |LevelPrefix(line.level).0| + |line.message|;
        i := i + 1;
      }
      assert shown[..i] == shown;
    }
  }

  /** Drawing line `i` extends the calls and the glyph count of the lines before it. */
  lemma HistoryStep(bottom: nat, lines: seq<LogMessage>, i: nat)
    requires i < |lines|
    ensures HistoryRequests(bottom, lines[..i + 1]) == HistoryRequests(bottom, lines[..i]) + HistoryLine(bottom, lines[i], i)
    ensures LineInstances(lines[..i + 1]) == LineInstances(lines[..i]) + |LevelPrefix(lines[i].level).0| + |lines[i].message|
  {
    assert lines[..i + 1][..i] == lines[..i];
  }

  /** The label and unit around each of the six statistics lines. */
  function StatsLine(row: nat, value: string): string
    requires row < 6
  {
    if row == 0 then "FPS: " + value
    else if row == 1 then "Frame time: " + value + " ms"
    else if row == 2 then "Draw count: " + value
    else if row == 3 then "Triangle count: " + value
    else if row == 4 then "TransferCmdBuf: " + value + " ms"
    else "    DrawCmdBuf: " + value + " ms"
  }

  /** How far below the anchor each statistics line sits; row 2 and row 5 leave a blank line above them. */
  function StatsRowOffset(row: nat): nat
    requires row < 6
  {
    [0, 18, 54, 72, 108, 126][row]
  }

  /** Statistics rows never overlap: each is at least one line (18 px) below the one before. */
  lemma StatsRowsApart(a: nat, b: nat)
    requires a < b < 6
    ensures StatsRowOffset(b) - StatsRowOffset(a) >= LINE_HEIGHT * (b - a)
  {
  }

  /** The sum of the lengths of some texts. */
  function TotalLength(texts: seq<string>): nat
  {
    if |texts| == 0 then 0 else TotalLength(texts[..|texts| - 1]) + |texts[|texts| - 1]|
  }

  class RenderStatsRenderer {
    var x: nat
    var y: nat
    var active: bool

    /** Anchored 8 px from the left and 24 px below the top of the window. */
    constructor (windowHeight: nat)
      requires windowHeight >= 24
      ensures x == 8 && y == windowHeight - 24 && active
    {
      x, y := 8, windowHeight - 24;
      active := true;
    }

    method HandleWindowResize(windowHeight: nat)
      requires windowHeight >= 24
      modifies this
      ensures x == 8 && y == windowHeight - 24 && active == old(active)
    {
      x, y := 8, windowHeight - 24;
    }

    /**
     * Six shadowed lines, one per statistic, each `StatsRowOffset(row)` below the anchor; two
     * instances per character (shadow and text). The formatted numbers are parameters.
     */
    method Draw(values: seq<string>) returns (requests: seq<DrawRequest>, count: nat)
      requires |values| == 6
      requires y >= StatsRowOffset(5) + 2
      ensures requests == StatsRequests(x, y, values, 6)
      ensures count == TextInstances(requests)
    {
      requests := Shadowed(StatsLine(0, values[0]), x, y, 16, White, Black);
      count := 2 * |StatsLine(0, values[0])|;
      assert requests == StatsRequests(x, y, values, 1);
      requests, count := AppendStatsLine(requests, count, values, 1);
      requests, count := AppendStatsLine(requests, count, values, 2);
      requests, count := AppendStatsLine(requests, count, values, 3);
      requests, count := AppendStatsLine(requests, count, values, 4);
      requests, count := AppendStatsLine(requests, count, values, 5);
    }

    /** One `draw_text_shadowed` call of `draw`: statistics line `row`, after the lines above it. */
    method AppendStatsLine(requests: seq<DrawRequest>, count: nat, values: seq<string>, row: nat)
      returns (requests': seq<DrawRequest>, count': nat)
      requires row < 6 == |values|
      requires y >= StatsRowOffset(5) + 2
      requires requests == StatsRequests(x, y, values, row) && count == TextInstances(requests)
      ensures requests' == StatsRequests(x, y, values, row + 1) && count' == TextInstances(requests')
    {
      var line := Shadowed(StatsLine(row, values[row]), x, y - StatsRowOffset(row), 16, White, Black);
      InstancesAppend(requests, line);
      requests' := requests + line;
      count' := count + 2 * |StatsLine(row, values[row])|;
    }
  }

  /** The calls drawing the first `rows` statistics lines. */
  function StatsRequests(x: nat, y: nat, values: seq<string>, rows: nat): seq<DrawRequest>
    requires rows <= 6 <= |values|
    requires y >= StatsRowOffset(5) + 2
  {
    if rows == 0 then []
    else StatsRequests(x, y, values, rows - 1)
         + Shadowed(StatsLine(rows - 1, values[rows - 1]), x, y - StatsRowOffset(rows - 1), 16, White, Black)
  }

  /** Each statistics line adds two calls. */
  lemma {:induction false} StatsRequestsLength(x: nat, y: nat, values: seq<string>, rows: nat)
    requires rows <= 6 <= |values|
    requires y >= StatsRowOffset(5) + 2
    ensures |StatsRequests(x, y, values, rows)| == 2 * rows
  {
    if rows > 0 {
      StatsRequestsLength(x, y, values, rows - 1);
    }
  }

  /** Statistics line `row` is drawn by calls 2 row and 2 row + 1, shadow first. */
  lemma {:induction false} StatsRequestsAt(x: nat, y: nat, values: seq<string>, rows: nat, row: nat)
    requires row < rows <= 6 <= |values|
    requires y >= StatsRowOffset(5) + 2
    ensures |StatsRequests(x, y, values, rows)| == 2 * rows
    ensures StatsRequests(x, y, values, rows)[2 * row .. 2 * row + 2]
            == Shadowed(StatsLine(row, values[row]), x, y - StatsRowOffset(row), 16, White, Black)
  {
    StatsRequestsLength(x, y, values, rows);
    var prev := StatsRequests(x, y, values, rows - 1);
    var line := Shadowed(StatsLine(rows - 1, values[rows - 1]), x, y - StatsRowOffset(rows - 1), 16, White, Black);
    assert StatsRequests(x, y, values, rows) == prev + line;
    StatsRequestsLength(x, y, values, rows - 1);
    if row < rows - 1 {
      StatsRequestsAt(x, y, values, rows - 1, row);
      SliceOfAppendLeft(prev, line, 2 * row, 2 * row + 2);
    } else {
      SliceOfAppendRight(prev, line);
    }
  }

  lemma SliceOfAppendLeft<T>(a: seq<T>, b: seq<T>, lo: nat, hi: nat)
    requires lo <= hi <= |a|
    ensures (a + b)[lo..hi] == a[lo..hi]
  {
  }

  lemma SliceOfAppendRight<T>(a: seq<T>, b: seq<T>)
    ensures (a + b)[|a|..|a| + |b|] == b
  {
  }

  /** The statistics block draws every character of every line twice. */
  lemma {:induction false} StatsInstances(x: nat, y: nat, values: seq<string>, rows: nat)
    requires rows <= 6 <= |values|
    requires y >= StatsRowOffset(5) + 2
    ensures TextInstances(StatsRequests(x, y, values, rows))
            == 2 * TotalLength(seq(rows, row requires 0 <= row < rows => StatsLine(row, values[row])))
  {
    if rows > 0 {
      StatsInstances(x, y, values, rows - 1);
      var line := Shadowed(StatsLine(rows - 1, values[rows - 1]), x, y - StatsRowOffset(rows - 1), 16, White, Black);
      InstancesAppend(StatsRequests(x, y, values, rows - 1), line);
      var lines := seq(rows, row requires 0 <= row < rows => StatsLine(row, values[row]));
      assert lines[..rows - 1] == seq(rows - 1, row requires 0 <= row < rows - 1 => StatsLine(row, values[row]));
    }
  }

  /** The decimal digits of `n`. */
  function Decimal(n: nat): (s: string)
    ensures |s| >= 1
  {
    if n < 10 then [['0', '1', '2', '3', '4', '5', '6', '7', '8', '9'][n]]
    else Decimal(n / 10) + [['0', '1', '2', '3', '4', '5', '6', '7', '8', '9'][n % 10]]
  }

  /** The engine version, major, minor and patch. */
  const ENGINE_VERSION: (nat, nat, nat) := (0, 0, 1)

  /** "VULKRAP major.minor.patch". */
  function VersionText(version: (nat, nat, nat)): string
  {
    "VULKRAP " + Decimal(version.0) + "." + Decimal(version.1) + "." + Decimal(version.2)
  }

  /** The top bar reads "VULKRAP 0.0.1": 13 characters, so 26 instances with the shadow. */
  lemma EngineVersionText()
    ensures VersionText(ENGINE_VERSION) == "VULKRAP 0.0.1"
    ensures TextInstances(Shadowed(VersionText(ENGINE_VERSION), 0, 2, 16, White, Black)) == 26
  {
  }

  class TopBar {
    var windowWidth: nat
    var windowHeight: nat
    var active: bool

    constructor (windowWidth: nat, windowHeight: nat)
      ensures this.windowWidth == windowWidth && this.windowHeight == windowHeight && active
    {
      this.windowWidth := windowWidth;
      this.windowHeight := windowHeight;
      active := true;
    }

    method HandleWindowResize(width: nat, height: nat)
      modifies this
      ensures windowWidth == width && windowHeight == height && active == old(active)
    {
      windowWidth := width;
      windowHeight := height;
    }

    /** The version string, shadowed, 218 px from the right edge and 24 px below the top. */
    method Draw() returns (requests: seq<DrawRequest>, count: nat)
      requires windowWidth >= 218 && windowHeight >= 24 + 2
      ensures requests == Shadowed(VersionText(ENGINE_VERSION), windowWidth - 218, windowHeight - 24, 16, White, Black)
      ensures count == TextInstances(requests) == 2 * |VersionText(ENGINE_VERSION)|
    {
      requests := Shadowed(VersionText(ENGINE_VERSION), windowWidth - 218, windowHeight - 24, 16, White, Black);
      count := 2 * |VersionText(ENGINE_VERSION)|;
    }
  }
}

=== FILE: wrappers.dfy ===
/** Option and Result wrappers, and the unsigned integer bounds the engine works with. */
module Wrappers {
  datatype Option<T> = None | Some(value: T)

  /** The engine's `Result<_, &str>` / panic-free error path. */
  datatype Result<T> = Ok(value: T) | Err(error: string)

  /** `u32::MAX`: the "undefined extent" marker and the 32-bit primitive-restart index. */
  const U32_MAX: nat := 0xFFFF_FFFF

  predicate IsU32(n: int) { 0 <= n <= U32_MAX }

  /** A `u8`. */
  newtype byte = b: int | 0 <= b < 256
}
